=== FILE: README.md ===
# Crop Guard backend in Dafny

Crop Guard is a Spring Boot service for farmers and agricultural experts. It has six parts:

- **Scans and reports.** Farmers record plant-disease scans. They read dashboards, reports and analytics computed from those scans.
- **Expert queries.** Farmers post questions. Verified experts answer them, and farmers are notified.
- **Expert verification.** Experts sign up with a verification document. An administrator approves, rejects or suspends them. Sign-in is refused to an expert who is not approved.
- **OTP sign-in.** Mobile users can sign in with a six-digit one-time password.
- **Supply stores.** Administrators maintain a directory of supply stores, which all users can search.
- **Documentation converter.** A small Python script, `convert_to_word.py`, turns the project's Markdown documentation into a Word document.

This project models the business rules of that service as pure functions over immutable data, then proves properties of them.

## How the model is built

- **One module per component**, one file each:

  | module | covers |
  |---|---|
  | `Wrappers` | `Option` and `Result` |
  | `Text` | the `java.lang.String` operations used |
  | `Lists` | repository orderings, filters and pages |
  | `Users` | the user entity |
  | `Requests` | request bodies and their validation |
  | `Email` | expert mail |
  | `Accounts` | lookup, sign-up, sign-in, seeding and the profile endpoints |
  | `Admin` | expert verification |
  | `Notifications` | notifications |
  | `Queries` | query and response entities and repositories |
  | `Otp` | one-time passwords |
  | `Workflow` | the query/response endpoints |
  | `Scans` | the scan repository, controller and view |
  | `Reports` | the report service |
  | `Dashboard` | the dashboard |
  | `Uploads` | upload checks and file-type sniffing |
  | `Stores` | supply stores |
  | `Markdown` | the converter |

- **Tables are sequences.**
  - Users, queries, responses, scans and stores are never deleted, so a row's id is its position in its table.
  - Notifications, OTPs and reports can be deleted. They carry generated ids, and each table keeps the next id to hand out.
- **Repository results are specifications.**
  - An `ORDER BY` is a stable sort on a lexicographic key.
  - A `WHERE` clause is a filter that keeps the stored order.
  - A single-result query, one that returns an `Optional`, has three outcomes: no row, the one matching row, or a failure because several rows match. `findByUsername` is the exception: it is modelled as the first matching row, and `Accounts.FindByUsernameIsSingle` shows that the two agree on every table with unique usernames.
- **A save writes only what changed.** Saving a managed user flushes the row only when a column differs. Only then does `@PreUpdate` stamp `updatedAt` and do the entity's constraints get checked (`Users.Flushed`).
- **Errors are values.** Every controller error branch is an `Err` value of a `Result`. So is every modelled exception that a caller turns into an error answer, such as a shared mobile or a failing database behind the dashboard. A `null` or an empty `Optional` is `None`.
- **Sizes are UTF-16 lengths.** `@Size` and `String.length()` count UTF-16 code units, on request bodies and on the entities checked at save alike, so a character outside the Basic Multilingual Plane counts twice (`Text.Utf16Length`).
- **The environment is passed in as parameters:**
  - the caller: the role the token carries (standing for `@PreAuthorize`) and the username it names;
  - the current time, as a count of seconds;
  - the password encoder's output, and its `matches` function;
  - random OTP codes and UUIDs;
  - the outcome of storing a document;
  - loaded e-mail templates;
  - whether the database answered.
- **A mail or notification is a value.** The model computes the value that would be handed to the transport or the table. A request body is a datatype whose `None` fields are JSON nulls.
- **`convert_to_word.py` produces blocks.** It is modelled as a function from the file's lines to the sequence of blocks it appends to the document: code, table, heading, bullet, numbered item and paragraph.

## Model

| member | source | states |
|---|---|---|
| Lists.Insert | backend/src/main/java/com/cropapp/repository/ExpertQueryRepository.java:25-33 | inserting into an ordered result keeps it ordered and adds exactly the new row |
| Lists.Sort | backend/src/main/java/com/cropapp/repository/ExpertQueryRepository.java:25-33 | an `ORDER BY` result is ordered by its key and holds exactly the rows it was given, as a multiset |
| Lists.SortSameElements | backend/src/main/java/com/cropapp/repository/ExpertQueryRepository.java:25-33 | every sorted row is an input row and every input row is in the sorted result |
| Lists.Filter | backend/src/main/java/com/cropapp/repository/ExpertQueryRepository.java:36-44 | a `WHERE` result holds only matching stored rows, and every matching row |
| Lists.CountIsFilterLength | backend/src/main/java/com/cropapp/repository/ExpertQueryRepository.java:52-55 | a `countBy` query equals the length of the matching `findBy` list |
| Lists.CountIsCardinality | backend/src/main/java/com/cropapp/repository/ScanRepository.java:35 | a `countBy` query is the number of positions whose row matches |
| Lists.FilterSelects | backend/src/main/java/com/cropapp/repository/ScanRepository.java:20 | a `WHERE` result holds every matching row as often as it is stored and no other row |
| Lists.FilterIsSubsequence | backend/src/main/java/com/cropapp/repository/ExpertQueryRepository.java:22 | a `WHERE` result keeps the stored relative order |
| Lists.FilterInsertKept | backend/src/main/java/com/cropapp/repository/ExpertQueryRepository.java:36-44 | a row that matches the filter is inserted into the filtered ordered list at its sorted place |
| Lists.FilterInsertDropped | backend/src/main/java/com/cropapp/repository/ExpertQueryRepository.java:36-44 | a row that does not match the filter leaves the filtered ordered list unchanged |
| Lists.FilterSorted | backend/src/main/java/com/cropapp/repository/ExpertQueryRepository.java:36-44 | filtering an ordered list keeps it ordered |
| Lists.SubsequenceSorted | backend/src/main/java/com/cropapp/repository/ExpertQueryRepository.java:36-44 | a subsequence of an ordered list is ordered and holds only rows of that list |
| Lists.FilterSortCommute | backend/src/main/java/com/cropapp/repository/ExpertQueryRepository.java:36-44 | filtering then ordering equals ordering then filtering, so `WHERE ... ORDER BY` is well defined |
| Lists.Take | backend/src/main/java/com/cropapp/repository/ExpertQueryRepository.java:104 | `findTop5`-style limits return the first n rows, or all rows when there are fewer |
| Lists.TakeSorted | backend/src/main/java/com/cropapp/repository/ExpertQueryRepository.java:104 | a limited prefix of an ordered result is ordered |
| Lists.First | backend/src/main/java/com/cropapp/repository/UserRepository.java:21 | the first-match lookup used for `findByUsername` finds the first matching row, and finds none if and only if no row matches |
| Lists.Single | backend/src/main/java/com/cropapp/repository/OtpRepository.java:19-20 | a single-result query finds no row exactly when none matches, the one matching row when only it matches, and fails exactly when two rows match |
| Lists.SingleCounts | backend/src/main/java/com/cropapp/repository/OtpRepository.java:19-20 | the single-result query finds nothing, one row, or fails exactly when zero, one, or at least two rows match |
| Lists.SingleDependsOnMatches | backend/src/main/java/com/cropapp/repository/UserRepository.java:23 | two tables whose rows match alike, position by position, give the same single-result answer |
| Lists.FilterFilter | backend/src/main/java/com/cropapp/repository/ExpertQueryRepository.java:22 | two successive filters select exactly what their conjunction selects |
| Lists.Paginate | backend/src/main/java/com/cropapp/controller/ExpertQueryController.java:67-77 | `PageRequest.of(page, size)` is refused for a negative page or a size below one; otherwise the page reports the total, its number and size, and holds at most `size` consecutive rows starting at `page * size` |
| Lists.PageCount | backend/src/main/java/com/cropapp/controller/ExpertQueryController.java:77 | the reported page count is the fewest pages of `size` that hold every row |
| Lists.PageContentIn | backend/src/main/java/com/cropapp/controller/ExpertQueryController.java:67-68 | a page holds only rows of the list it was cut from |
| Lists.PageHolds | backend/src/main/java/com/cropapp/controller/ExpertQueryController.java:67-68 | every row appears on page `i / size` at position `i % size` |
| Lists.CountPositive | backend/src/main/java/com/cropapp/repository/ExpertQueryRepository.java:105-106 | a count query is positive as soon as one row matches |
| Lists.CountPartition | backend/src/main/java/com/cropapp/repository/ExpertQueryRepository.java:105-106 | counts over two disjoint conditions add up to the count over their union |
| Lists.CountAppend | backend/src/main/java/com/cropapp/repository/ExpertQueryRepository.java:105-106 | saving one row adds one to a count exactly when the row matches |
| Lists.CountSubset | backend/src/main/java/com/cropapp/repository/ExpertQueryRepository.java:105-106 | a stronger condition counts no more rows |
| Lists.CountPointwise | backend/src/main/java/com/cropapp/repository/ExpertQueryRepository.java:105-106 | replacing rows by ones that match exactly when the originals did keeps every count |
| Text.Trim | backend/src/main/java/com/cropapp/controller/AuthController.java:126-127 | trimming gives the empty string exactly for a blank text, otherwise a text that neither starts nor ends with white space, and always a part of the input |
| Text.TrimIdempotent | backend/src/main/java/com/cropapp/controller/AuthController.java:126-127 | trimming an already trimmed e-mail changes nothing |
| Text.TrimPadded | backend/src/main/java/com/cropapp/controller/ExpertQueryController.java:451-456 | trimming removes exactly the white-space padding around a text that starts and ends with a visible character |
| Text.ToUpper | backend/src/main/java/com/cropapp/controller/AdminController.java:66 | upper-casing keeps the length, leaves no lower-case ASCII letter, and equals the input ignoring case |
| Text.ReplaceAll | backend/src/main/java/com/cropapp/service/EmailService.java:65 | a text shorter than the target is left as it is, and replacing the target by itself changes nothing |
| Text.ReplaceAllAbsent | backend/src/main/java/com/cropapp/service/EmailService.java:119-123 | `String.replace` leaves a string without the target unchanged |
| Text.Utf16Length | backend/src/main/java/com/cropapp/dto/SignupRequest.java:14 | the length Java measures is between the number of characters and twice it, and equals it exactly when every character is in the Basic Multilingual Plane |
| Text.Utf16LengthAppend | backend/src/main/java/com/cropapp/dto/SignupRequest.java:14 | the UTF-16 length of a concatenation is the sum of the parts' |
| Text.ReplaceAllSplits | backend/src/main/java/com/cropapp/service/EmailService.java:65 | `String.replace` splits the text into pattern-free parts joined by the pattern, and its result is the same parts joined by the replacement |
| Text.ReplaceAllSplitsExist | backend/src/main/java/com/cropapp/service/EmailService.java:65 | such a split exists for every text |
| Text.SplitAtMatch | backend/src/main/java/com/cropapp/service/EmailService.java:65 | an occurrence at the start becomes an empty first part |
| Text.SplitPastChar | backend/src/main/java/com/cropapp/service/EmailService.java:65 | a character that does not start an occurrence joins the first part, which stays pattern-free |
| Text.ReplaceCharAppend | backend/src/main/java/com/cropapp/service/EmailService.java:119-123 | replacing one character distributes over concatenation |
| Text.ReplaceCharRemoves | backend/src/main/java/com/cropapp/service/EmailService.java:119-123 | after replacing a character by a text that does not contain it, the character no longer occurs |
| Text.NatToString | backend/src/main/java/com/cropapp/controller/DashboardController.java:262-275 | a count renders as a non-empty string of decimal digits, with a single digit exactly below ten and no leading zero |
| Text.NatToStringRoundTrip | backend/src/main/java/com/cropapp/controller/DashboardController.java:262-275 | reading back the decimal rendering of a count gives the count |
| Text.NatToStringInjective | backend/src/main/java/com/cropapp/controller/DashboardController.java:262-275 | different counts render as different decimal strings |
| Text.ParseLong | backend/src/main/java/com/cropapp/controller/ScanController.java:117 | `Long.parseLong` yields only values inside the signed 64-bit range, and never from the empty string |
| Text.ParseLongOfNatToString | backend/src/main/java/com/cropapp/controller/ScanController.java:117 | every non-negative `long` written in decimal parses back to itself |
| Users.RoleFromName | backend/src/main/java/com/cropapp/entity/User.java:74-76 | `Role.valueOf` accepts exactly the three constant names, case-sensitively; any other name has no role |
| Users.StatusFromName | backend/src/main/java/com/cropapp/entity/User.java:78-83 | `VerificationStatus.valueOf` accepts exactly the four constant names; any other name has no status |
| Users.EnumNamesRoundTrip | backend/src/main/java/com/cropapp/entity/User.java:74-83 | `valueOf(name())` returns the constant for every role and every verification status |
| Users.NewUser | backend/src/main/java/com/cropapp/entity/User.java:47-89 | a new entity is enabled, has role USER, is unverified and PENDING, has both timestamps set to now and every optional column null |
| Users.ConstructUser | backend/src/main/java/com/cropapp/entity/User.java:91-98 | the five-argument constructor keeps the entity defaults and stores exactly the given username, mobile, password, full name and specialization |
| Users.Flushed | backend/src/main/java/com/cropapp/entity/User.java:258-262 | a saved row gets the new `updatedAt` exactly when some column changed; an unchanged row is written back as it was; no other column is touched |
| Users.Authorities | backend/src/main/java/com/cropapp/entity/User.java:110-112 | an account has exactly one authority, `ROLE_` followed by a name that parses back to its role |
| Users.AuthoritiesDetermineRole | backend/src/main/java/com/cropapp/entity/User.java:110-112 | two accounts have equal authorities if and only if they have the same role |
| Users.AccountUsableIffEnabled | backend/src/main/java/com/cropapp/entity/User.java:114-132 | the expiry and lock checks always pass, so an account passes Spring Security's checks if and only if it is enabled |
| Users.NameOrUsername | backend/src/main/java/com/cropapp/service/NotificationService.java:28 | the name shown for a user is the full name when it is set and the username otherwise |
| Users.SettersIndependent | backend/src/main/java/com/cropapp/entity/User.java:211-225 | `setVerified` and `setVerificationStatus` store independent values, so an entity can be verified yet SUSPENDED |
| Users.EntityConstraints | backend/src/main/java/com/cropapp/entity/User.java:22-52 | the save measures every `@Size` in UTF-16 code units: a non-blank username of at most 50, a non-blank mobile of 10 to 15, a non-blank password of at most 255, and full name, e-mail and specialization within 100, 100 and 200; so a row that passes has a mobile of 5 to 15 characters, a username of at most 50 and a password of 1 to 255 |
| Requests.CreateQueryWithDefaults | backend/src/main/java/com/cropapp/dto/CreateQueryRequestDTO.java:26-30 | a query body without `hasImage` and `imagePath` has no image (false) and a null path, and keeps the given fields |
| Requests.RespondWithDefaultStatus | backend/src/main/java/com/cropapp/dto/RespondToQueryRequestDTO.java:16 | a respond body without `status` carries the status "answered" |
| Requests.LoginMobileShape | backend/src/main/java/com/cropapp/dto/LoginRequest.java:9-15 | a valid sign-in mobile is 10 to 15 digits or '+'; no `user_`-prefixed generated username ever validates as a sign-in mobile |
| Requests.LoginPasswordUnbounded | backend/src/main/java/com/cropapp/dto/LoginRequest.java:14-15 | with a valid mobile, a sign-in body validates if and only if the password is non-blank, whatever its length |
| Requests.OtpMobileShape | backend/src/main/java/com/cropapp/dto/OtpRequest.java:7-9 | an OTP mobile validates if and only if it is ten digits starting 6 to 9; a leading '+' or another length is refused; every such mobile is also a valid sign-up mobile |
| Requests.OtpCodeShape | backend/src/main/java/com/cropapp/dto/OtpVerifyRequest.java:8-15 | with a valid mobile, an OTP form validates if and only if the code is exactly six digits |
| Requests.PaddedResponseAccepted | backend/src/main/java/com/cropapp/dto/AddResponseRequestDTO.java:8-10 | the length bound counts untrimmed text: one character plus nine spaces is accepted, ten spaces are not |
| Requests.ResponseBodiesAgree | backend/src/main/java/com/cropapp/dto/RespondToQueryRequestDTO.java:9-14 | a response validates if and only if it is non-blank and 10 to 2000 UTF-16 code units, identically in both response bodies; a respond body without a query id never validates |
| Requests.SupplementaryCountsTwice | backend/src/main/java/com/cropapp/dto/AddResponseRequestDTO.java:9 | sizes count UTF-16 code units, so five characters outside the Basic Multilingual Plane make ten units and pass the response minimum |
| Requests.CharsetLength | backend/src/main/java/com/cropapp/dto/LoginRequest.java:10-11 | a text of digits and '+' has one code unit per character |
| Requests.AnyUrgencyValidates | backend/src/main/java/com/cropapp/dto/CreateQueryRequestDTO.java:23-24 | urgency has no allow-list: replacing it with any non-blank text keeps a query body valid |
| Requests.EmailShapeExamples | backend/src/main/java/com/cropapp/dto/SignupRequest.java:29-31 | the e-mail pattern accepts "" and "a@b.c" and refuses "a@b", "@b.c" and an address containing a space |
| Requests.SignupEmailOptional | backend/src/main/java/com/cropapp/dto/SignupRequest.java:25-33 | e-mail, role and verification document are optional: a valid sign-up body stays valid with a null or empty e-mail, a null role or a null document |
| Requests.ValidSignup | backend/src/main/java/com/cropapp/dto/SignupRequest.java:10-31 | a valid sign-up carries a mobile of 10 to 15 digits and '+', a non-blank password of 6 to 40 UTF-16 code units, a username of at most 50 code units and an e-mail of at most 100; so the password has 3 to 40 characters |
| Requests.ValidLogin | backend/src/main/java/com/cropapp/dto/LoginRequest.java:9-15 | a sign-in body is valid exactly when its mobile is 10 to 15 digits and '+' and its password is non-blank |
| Requests.ValidOtpRequest | backend/src/main/java/com/cropapp/dto/OtpRequest.java:7-9 | an OTP request is valid exactly when its mobile is ten digits starting 6 to 9 |
| Requests.ValidOtpVerify | backend/src/main/java/com/cropapp/dto/OtpVerifyRequest.java:8-15 | an OTP form is valid exactly when its mobile is ten digits starting 6 to 9 and its code six digits |
| Requests.ValidCreateQuery | backend/src/main/java/com/cropapp/dto/CreateQueryRequestDTO.java:9-24 | a query body is valid exactly when its title is non-blank and 5 to 100 UTF-16 code units, its description non-blank and 20 to 1000, and crop type, category and urgency non-blank; so the title has at least 3 characters and the description at least 10 |
| Requests.ValidAddResponse | backend/src/main/java/com/cropapp/dto/AddResponseRequestDTO.java:8-10 | a response is valid exactly when it is non-blank and 10 to 2000 UTF-16 code units long; so it has 5 to 2000 characters |
| Requests.ValidRespondToQuery | backend/src/main/java/com/cropapp/dto/RespondToQueryRequestDTO.java:9-16 | a respond body is valid exactly when it names a query and its response is a valid added response, whatever the status |
| Accounts.FindByUsername | backend/src/main/java/com/cropapp/repository/UserRepository.java:21 | `findByUsername` returns the first user with that username, and finds none if and only if no user has it |
| Accounts.FindByUsernameIsSingle | backend/src/main/java/com/cropapp/repository/UserRepository.java:21 | on a table with unique usernames, the first-match lookup agrees with the single-result query and the query never meets several rows |
| Accounts.UsernameTaken | backend/src/main/java/com/cropapp/repository/UserRepository.java:25 | `existsByUsername` holds exactly when the rows counted by that username are not zero |
| Accounts.MobileTaken | backend/src/main/java/com/cropapp/repository/UserRepository.java:27 | `existsByMobile` holds exactly when the rows counted by that mobile are not zero |
| Accounts.FindByMobile | backend/src/main/java/com/cropapp/repository/UserRepository.java:23 | `findByMobile` finds the one holder of the mobile, finds none if and only if no user has it, and fails if and only if two users share it |
| Accounts.LoadUserByUsername | backend/src/main/java/com/cropapp/service/UserDetailsServiceImpl.java:20-30 | the identifier is resolved as a mobile first and as a username only when no user has that mobile; it fails on a shared mobile exactly when two users hold it, and for a missing user exactly when neither lookup matches |
| Accounts.LoadUserByMobile | backend/src/main/java/com/cropapp/service/UserDetailsServiceImpl.java:32-36 | `loadUserByMobile` resolves mobiles only, fails as missing exactly when no user has the mobile and as shared exactly when two users hold it |
| Accounts.MobileResolvesToOwner | backend/src/main/java/com/cropapp/service/UserDetailsServiceImpl.java:20-30 | with unique mobiles, a user's mobile always resolves to that user, even when it is another user's username |
| Accounts.LoadByMobileIgnoresUsernames | backend/src/main/java/com/cropapp/service/UserDetailsServiceImpl.java:32-36 | two tables whose users have the same mobiles resolve every mobile alike, whatever the usernames |
| Accounts.SignupUsername | backend/src/main/java/com/cropapp/controller/AuthController.java:98-103 | the stored username is the given one when it has text, and "user_" followed by the mobile otherwise |
| Accounts.RequestedRole | backend/src/main/java/com/cropapp/controller/AuthController.java:131-133 | a role is requested only by a present, non-empty name that upper-cases to a role name; otherwise the default applies |
| Accounts.SignupEntity | backend/src/main/java/com/cropapp/controller/AuthController.java:118-166 | the built entity carries the request's fields and the encoded password; an expert without specialization is refused; the e-mail is stored trimmed only when it has text; the two verification fields agree |
| Accounts.Register | backend/src/main/java/com/cropapp/controller/AuthController.java:96-203 | an invalid body is refused; a taken username or mobile is refused; a success appends exactly one user under the next id, leaves the others unchanged, and mails only for an expert |
| Accounts.SignupExpertNeedsSpecialization | backend/src/main/java/com/cropapp/controller/AuthController.java:136-141 | an expert sign-up, in any letter case, without a specialization is refused |
| Accounts.SignupExpertPending | backend/src/main/java/com/cropapp/controller/AuthController.java:143-146 | an expert with a specialization is stored unverified and PENDING and keeps the specialization |
| Accounts.SignupOthersApproved | backend/src/main/java/com/cropapp/controller/AuthController.java:147-166 | every other role, and a missing or unknown role, is stored verified and APPROVED, without specialization and without a mail |
| Accounts.SignupSavesValidEntity | backend/src/main/java/com/cropapp/dto/SignupRequest.java:10-31 | a body that passed validation, with a non-blank hash of at most 255 UTF-16 code units, always meets the entity's column constraints, so the save never rejects a sign-up |
| Accounts.SignupUsernameFits | backend/src/main/java/com/cropapp/controller/AuthController.java:98-103 | the stored username is never blank and fits its column of 50 UTF-16 code units |
| Accounts.SignupStoresTrimmedEmail | backend/src/main/java/com/cropapp/controller/AuthController.java:125-128 | the e-mail is stored trimmed when it has text and is null otherwise |
| Accounts.DocumentFailureHarmless | backend/src/main/java/com/cropapp/controller/AuthController.java:173-185 | a failure to store the verification document does not fail the sign-up; the outcome differs only in the stored document path |
| Accounts.ExpertSignupMail | backend/src/main/java/com/cropapp/controller/AuthController.java:187-199 | an expert sign-up sends the pending mail if and only if an e-mail with text was given, and sends it to the trimmed address |
| Accounts.RegisteredEntity | backend/src/main/java/com/cropapp/controller/AuthController.java:168-200 | a successful sign-up stores the entity built from the request, with the pending mail for an expert and none otherwise |
| Accounts.RegisterPreservesInvariants | backend/src/main/java/com/cropapp/controller/AuthController.java:105-116 | a sign-up keeps ids equal to positions, usernames unique, mobiles unique and verification flags consistent |
| Accounts.AppendPreservesInvariants | backend/src/main/java/com/cropapp/controller/AuthController.java:168-169 | adding a user under the next id with a fresh username and mobile and consistent flags keeps every table invariant |
| Accounts.SignIn | backend/src/main/java/com/cropapp/controller/AuthController.java:46-94 | an invalid body is refused; a success means the identifier resolved to one enabled user whose password matches, and an expert among them is APPROVED; an unknown or shared identifier gives the generic credentials error |
| Accounts.SignInExpertGate | backend/src/main/java/com/cropapp/controller/AuthController.java:63-78 | with correct credentials, an expert signs in if and only if APPROVED, and PENDING, REJECTED and SUSPENDED each give their own error; other roles always sign in |
| Accounts.SharedMobileSignsNobodyIn | backend/src/main/java/com/cropapp/controller/AuthController.java:88-92 | a mobile held by two users signs nobody in with it, whatever the password: the answer is the generic credentials error |
| Accounts.SeedOne | backend/src/main/java/com/cropapp/config/DataInitializer.java:24-37 | a seeded user is inserted under the next id exactly when its username is absent |
| Accounts.Seed | backend/src/main/java/com/cropapp/config/DataInitializer.java:21-102 | seeding only appends, at most three users, and afterwards admin, expert_test and farmer_test all exist |
| Accounts.SeedOneAdds | backend/src/main/java/com/cropapp/config/DataInitializer.java:24-37 | after one seeding step the username exists and earlier users are unchanged |
| Accounts.SeedIdempotent | backend/src/main/java/com/cropapp/config/DataInitializer.java:21-102 | running the seeding a second time creates nothing |
| Accounts.SeedOnEmptyTable | backend/src/main/java/com/cropapp/config/DataInitializer.java:24-92 | on an empty table, seeding creates a verified APPROVED admin, an unverified PENDING licensed expert, and a farmer that keeps the entity defaults |
| Accounts.SeedIgnoresMobile | backend/src/main/java/com/cropapp/config/DataInitializer.java:24-27 | seeding checks usernames only, so it can create a second user with an existing mobile |
| Accounts.SeedPreservesInvariants | backend/src/main/java/com/cropapp/config/DataInitializer.java:21-102 | seeding keeps ids equal to positions, usernames unique and verification flags consistent |
| Accounts.Applied | backend/src/main/java/com/cropapp/controller/UserController.java:74-84 | a present `fullName` key sets the full name, a present `mobile` key sets the mobile, an absent key keeps the old value, and no other column changes |
| Accounts.UpdateProfile | backend/src/main/java/com/cropapp/controller/UserController.java:65-96 | an unauthenticated update is refused; a mobile held by another user is refused; otherwise the update succeeds exactly when it changes no column or the changed row meets the entity's constraints; only the caller's row changes, and only in the given full name and mobile, with `updatedAt` stamped exactly when a column changed |
| Accounts.UnchangedProfileSavesNothing | backend/src/main/java/com/cropapp/entity/User.java:258-262 | a profile update that changes no column, the empty update among them, returns the table unchanged, `updatedAt` included |
| Accounts.ProfileKeepsMobilesUnique | backend/src/main/java/com/cropapp/controller/UserController.java:78-87 | re-submitting one's own mobile is never refused as in use, and is accepted whenever the stored row met its constraints and a new full name fits 100 UTF-16 code units; no profile update can give two users the same mobile |
| Accounts.ChangePassword | backend/src/main/java/com/cropapp/controller/UserController.java:99-126 | an unauthenticated call is refused exactly when there is no caller; missing fields and a wrong current password are refused; with both fields and the right current password the change succeeds exactly when the hash is unchanged or the new row meets the entity's constraints; a success replaces only the caller's password hash, stamping `updatedAt` when the hash changed |
| Accounts.ChangePasswordKeepsAccounts | backend/src/main/java/com/cropapp/controller/UserController.java:116-119 | a password change keeps every username, mobile, role and enabled flag, and so keeps usernames unique, mobiles unique and verification consistent |
| Accounts.SignInAfterPasswordChange | backend/src/main/java/com/cropapp/controller/UserController.java:116-119 | after a change, the caller signs in with a password the encoder matches against the new hash when enabled and, for an expert, APPROVED, and any other password gets the credentials error |
| Accounts.LookupIgnoresOtherFields | backend/src/main/java/com/cropapp/service/UserDetailsServiceImpl.java:20-30 | the sign-in lookup depends only on usernames and mobiles: two tables that agree on them resolve every identifier alike |
| Admin.PendingExperts | backend/src/main/java/com/cropapp/controller/AdminController.java:31-55 | only an ADMIN may list; the list keeps table order and holds a user if and only if it is an EXPERT with status PENDING |
| Admin.ExpertsByStatus | backend/src/main/java/com/cropapp/controller/AdminController.java:57-87 | only an ADMIN may list; with no status it lists exactly the experts; otherwise it lists exactly the experts with the upper-cased status, and fails if and only if that names no status |
| Admin.StatusFilterIgnoresCase | backend/src/main/java/com/cropapp/controller/AdminController.java:65-67 | filtering by "pending" lists exactly the pending applications |
| Admin.Approve | backend/src/main/java/com/cropapp/controller/AdminController.java:89-149 | the call succeeds exactly when the caller is ADMIN and exists as a user and the target id exists, with the refusals in that order; only the target changes: verified, APPROVED, stamped with the time and the approving user's id, `updatedAt` moving unless the row was already so; the approval mail is sent if and only if the target's e-mail has text |
| Admin.Reject | backend/src/main/java/com/cropapp/controller/AdminController.java:151-197 | as for approval, success exactly when the caller is ADMIN and exists and the target exists; the target becomes unverified and REJECTED, `verifiedBy` records the admin, `verifiedAt` keeps its old value, `updatedAt` moves only when a column changed, and no mail is sent |
| Admin.Suspend | backend/src/main/java/com/cropapp/controller/AdminController.java:199-234 | an ADMIN suspends if and only if the target exists; only the target changes, becoming unverified and SUSPENDED with its verification stamps kept and `updatedAt` moving only when a column changed |
| Admin.ExpertDetails | backend/src/main/java/com/cropapp/controller/AdminController.java:236-258 | an ADMIN sees any existing user, whatever its role, and fails if and only if the id does not exist |
| Admin.DecisionsPreserveInvariants | backend/src/main/java/com/cropapp/controller/AdminController.java:113-216 | approving, rejecting and suspending keep ids equal to positions, usernames and mobiles unique and verification flags consistent |
| Admin.PutKeepsIdentity | backend/src/main/java/com/cropapp/controller/AdminController.java:113-116 | replacing a user by one with the same id, username and mobile and consistent flags keeps every table invariant |
| Admin.ApprovedExpertSignsIn | backend/src/main/java/com/cropapp/controller/AdminController.java:113-114 | after approval, the expert's correct credentials on an enabled account yield a session |
| Admin.SuspendedExpertLocked | backend/src/main/java/com/cropapp/controller/AdminController.java:214-215 | after suspension, the expert's correct credentials give the suspended-account error |
| Admin.ApproveIdempotent | backend/src/main/java/com/cropapp/controller/AdminController.java:89-149 | approving a second time at the same instant changes nothing |
| Admin.SuspendIdempotent | backend/src/main/java/com/cropapp/entity/User.java:258-262 | suspending an expert already suspended and unverified leaves the table unchanged, `updatedAt` included, so suspending twice is suspending once |
| Admin.RejectIgnoresReason | backend/src/main/java/com/cropapp/controller/AdminController.java:151-197 | the reason given for a rejection has no effect on the outcome |
| Admin.SuspendNeedsNoAdminRecord | backend/src/main/java/com/cropapp/controller/AdminController.java:199-213 | suspension does not look up the caller, so a caller without a user record can suspend but cannot approve |
| Email.EscapeHtml | backend/src/main/java/com/cropapp/service/EmailService.java:117-124 | null escapes to ""; otherwise the result is every character replaced by its entity, and contains no raw '<', '>', '"' or "'" |
| Email.ChainIsEach | backend/src/main/java/com/cropapp/service/EmailService.java:119-123 | the five replaces applied in order equal escaping each character at once, because '&' is replaced first and no entity is escaped again |
| Email.EntityStable | backend/src/main/java/com/cropapp/service/EmailService.java:120-123 | the later replaces leave an entity written by an earlier one unchanged |
| Email.EscapeIdentity | backend/src/main/java/com/cropapp/service/EmailService.java:117-124 | text without any of the five special characters is returned unchanged |
| Email.EscapeNotIdempotent | backend/src/main/java/com/cropapp/service/EmailService.java:119 | escaping twice escapes the ampersand again: "&" becomes "&amp;amp;" |
| Email.UnescapeEscape | backend/src/main/java/com/cropapp/service/EmailService.java:117-124 | decoding the five entities after escaping gives back the input, so escaping loses nothing and different names render differently |
| Email.UnescapePlain | backend/src/main/java/com/cropapp/service/EmailService.java:117-124 | a character outside the five is copied by decoding |
| Email.DisplayName | backend/src/main/java/com/cropapp/service/EmailService.java:61 | the display name is the given name when it has text and the kind's fallback ("Applicant" or "Expert") otherwise |
| Email.Body | backend/src/main/java/com/cropapp/service/EmailService.java:63-70 | without a template the body is the fallback greeting with the escaped name; with one, the body is the template's placeholder-free pieces rejoined by the escaped name, so every "{{name}}" that `replace` finds is replaced; a template without "{{name}}" is sent as is |
| Email.ReplacementPresent | backend/src/main/java/com/cropapp/service/EmailService.java:65 | where the placeholder occurs, the replacement appears in the result |
| Email.Send | backend/src/main/java/com/cropapp/service/EmailService.java:52-81 | nothing is sent if and only if the recipient is null or blank; otherwise the mail goes to the recipient with the kind's subject and the body for the display name |
| Email.BlankNameFallsBack | backend/src/main/java/com/cropapp/service/EmailService.java:92 | a blank or missing name is greeted with the fallback name, which escaping leaves unchanged |
| Notifications.Push | backend/src/main/java/com/cropapp/service/NotificationService.java:31-39 | saving a notification appends exactly one unread row under the next generated id, leaves earlier rows unchanged and keeps ids distinct |
| Notifications.NotifyResponse | backend/src/main/java/com/cropapp/service/NotificationService.java:25-40 | a response notification goes to the query's farmer, is about the query, is unread, and names the expert by full name or else username |
| Notifications.NotifyStatus | backend/src/main/java/com/cropapp/service/NotificationService.java:45-60 | a status notification goes to the query's farmer, is about the query, is unread, and shows the new status |
| Notifications.NotifySystem | backend/src/main/java/com/cropapp/service/NotificationService.java:65-74 | a system notification goes to the given user with the given title and message and no related entity |
| Notifications.StatusTextShape | backend/src/main/java/com/cropapp/service/NotificationService.java:49 | the shown status contains no underscore and no lower-case ASCII letter |
| Notifications.MarkAsRead | backend/src/main/java/com/cropapp/repository/NotificationRepository.java:30-33 | marking as read changes only the read flag, and only of the row with that id when it belongs to the caller |
| Notifications.MarkAllAsRead | backend/src/main/java/com/cropapp/repository/NotificationRepository.java:25-28 | marking all as read changes only read flags, and sets exactly those of the caller's rows |
| Notifications.MarkAsReadScoped | backend/src/main/java/com/cropapp/service/NotificationService.java:100-102 | marking another user's notification, or an unknown id, changes nothing; marking twice equals marking once |
| Notifications.MarkAllClearsUnread | backend/src/main/java/com/cropapp/service/NotificationService.java:107-109 | after marking all as read the caller's unread count is zero and other users' rows are untouched |
| Notifications.DeleteOlderThan | backend/src/main/java/com/cropapp/repository/NotificationRepository.java:35-38 | deletion removes exactly the rows created before the cutoff, read or not, and keeps the order of the rest |
| Notifications.Cleanup | backend/src/main/java/com/cropapp/service/NotificationService.java:114-117 | cleanup keeps exactly the rows at most 30 days old |
| Notifications.DeletePreservesValid | backend/src/main/java/com/cropapp/repository/NotificationRepository.java:35-38 | deleting rows keeps the generated ids distinct and below the next id |
| Notifications.UserNotifications | backend/src/main/java/com/cropapp/repository/NotificationRepository.java:16-17 | a user's list is newest first and holds each of that user's rows as often as it is stored, and no other row |
| Notifications.UnreadNotifications | backend/src/main/java/com/cropapp/repository/NotificationRepository.java:19-20 | the unread list is newest first and holds each of the user's unread rows as often as it is stored, and no other row |
| Notifications.UnreadListConsistent | backend/src/main/java/com/cropapp/repository/NotificationRepository.java:16-23 | the unread list is the full list without read rows, in the same order, and its length is the unread count |
| Notifications.UnreadCount | backend/src/main/java/com/cropapp/repository/NotificationRepository.java:23 | the unread count is the number of the user's unread rows, and zero exactly when the user has none |
| Otp.ValidLookup | backend/src/main/java/com/cropapp/repository/OtpRepository.java:19-20 | the valid-OTP query finds the one unverified, unexpired row for the mobile, finds none exactly when there is no such row, and fails exactly when there are two or more |
| Otp.ValidLookupDependsOnValidity | backend/src/main/java/com/cropapp/repository/OtpRepository.java:19-20 | the lookup depends only on which rows are valid |
| Otp.DeleteExpired | backend/src/main/java/com/cropapp/repository/OtpRepository.java:22-25 | the purge removes exactly the rows whose expiry is strictly before now and keeps the order of the rest |
| Otp.ExpiryBoundary | backend/src/main/java/com/cropapp/repository/OtpRepository.java:19-25 | a code expiring exactly now is neither valid nor deleted |
| Otp.CodeFromDigits | backend/src/main/java/com/cropapp/service/OtpService.java:104-110 | a generated code is six decimal characters, the i-th one showing the i-th random digit |
| Otp.GeneratedCodeAccepted | backend/src/main/java/com/cropapp/service/OtpService.java:104-110 | every generated code passes the verification form's constraints |
| Otp.GenerateAndSend | backend/src/main/java/com/cropapp/service/OtpService.java:31-61 | generation always reports success, purges expired rows, and appends one unverified row with zero attempts that expires five minutes from now, whether or not the SMS was sent |
| Otp.Verify | backend/src/main/java/com/cropapp/service/OtpService.java:63-102 | when the valid-OTP query finds no row or fails on several, it answers false and changes nothing; with one valid row at three attempts or more it answers false; otherwise only that row changes, its attempts grow by one, and it is marked verified and accepted if and only if the code matches |
| Otp.AcceptedWasOnlyValid | backend/src/main/java/com/cropapp/service/OtpService.java:63-96 | an accepted code was checked against the only valid row for the mobile |
| Otp.MarkVerified | backend/src/main/java/com/cropapp/repository/OtpRepository.java:27-30 | marking verified changes only verified flags, and sets exactly those of rows with that mobile and code, expired or not |
| Otp.NoReplay | backend/src/main/java/com/cropapp/service/OtpService.java:87-92 | once a code has been accepted, that row is never returned as valid again, at any time |
| Otp.FreshCodeIsChecked | backend/src/main/java/com/cropapp/service/OtpService.java:31-45 | when the mobile has no other valid code, within five minutes the code just generated is the one verification checks |
| Otp.LockoutAfterThreeWrongCodes | backend/src/main/java/com/cropapp/service/OtpService.java:76-84 | when the mobile has no other valid code, three wrong codes against a fresh OTP exhaust it, and then even the right code is refused |
| Otp.FreshCodeAccepted | backend/src/main/java/com/cropapp/service/OtpService.java:63-96 | when the mobile has no other valid code, the right code within five minutes, on the first try, is accepted |
| Otp.ResendBlocksVerification | backend/src/main/java/com/cropapp/service/OtpService.java:31-102 | a second code requested within five minutes of the first makes two valid rows, so verification refuses every code until the first expires |
| Otp.ResendRecoversAfterExpiry | backend/src/main/java/com/cropapp/service/OtpService.java:31-102 | once the first code has expired, the second one is accepted within its own five minutes |
| Queries.NewQuery | backend/src/main/java/com/cropapp/entity/ExpertQuery.java:195-199 | a persisted query is "pending", has no response, no response date and no expert, and both timestamps are the persist time |
| Queries.SetStatus | backend/src/main/java/com/cropapp/entity/ExpertQuery.java:124-127 | setting the status also refreshes `updatedAt` and changes nothing else |
| Queries.SetResponse | backend/src/main/java/com/cropapp/entity/ExpertQuery.java:173-177 | setting the response stamps both the response date and `updatedAt` and changes nothing else |
| Queries.NewResponse | backend/src/main/java/com/cropapp/entity/ExpertResponse.java:37-43 | a new response refers to its query and expert, holds the text, and both timestamps are the construction time |
| Queries.EditResponse | backend/src/main/java/com/cropapp/entity/ExpertResponse.java:73-76 | editing a response changes only its text and `updatedAt` |
| Queries.UrgencyRank | backend/src/main/java/com/cropapp/repository/ExpertQueryRepository.java:25-32 | the urgency rank is 1 to 4 for exactly "critical", "high", "medium" and "low", and 5 for anything else |
| Queries.UrgencyRankCaseSensitive | backend/src/main/java/com/cropapp/repository/ExpertQueryRepository.java:26-31 | under a case-sensitive collation, "Critical", "HIGH" and "urgent" rank last |
| Queries.HighPriorityIsTopRanks | backend/src/main/java/com/cropapp/repository/ExpertQueryRepository.java:82 | an urgency is high priority if and only if its rank is 1 or 2 |
| Queries.ExpertQueue | backend/src/main/java/com/cropapp/repository/ExpertQueryRepository.java:25-33 | the expert queue is a permutation of the queries, most urgent first, then oldest first |
| Queries.StatusQueue | backend/src/main/java/com/cropapp/repository/ExpertQueryRepository.java:36-44 | the status queue is ordered like the expert queue and holds exactly the queries with that status |
| Queries.StatusQueueIsFilteredQueue | backend/src/main/java/com/cropapp/repository/ExpertQueryRepository.java:36-44 | the status queue is the full queue with the other statuses removed, in the same order |
| Queries.FarmerQueries | backend/src/main/java/com/cropapp/repository/ExpertQueryRepository.java:19 | a farmer's list is newest first and holds exactly that farmer's queries |
| Queries.FarmerCountIsListLength | backend/src/main/java/com/cropapp/repository/ExpertQueryRepository.java:52 | `countByFarmer` equals the length of the farmer's list |
| Queries.PendingInRange | backend/src/main/java/com/cropapp/repository/ExpertQueryRepository.java:85-86 | the pending count counts exactly the "pending" queries created within the inclusive range |
| Queries.ResponsesFor | backend/src/main/java/com/cropapp/repository/ExpertResponseRepository.java:13 | a query's responses are newest first and are exactly the responses to that query |
| Queries.ResponsesBy | backend/src/main/java/com/cropapp/repository/ExpertResponseRepository.java:16 | an expert's responses are newest first and hold each of that expert's stored responses as often as it is stored, and no other |
| Queries.ResponseQueriesAgree | backend/src/main/java/com/cropapp/repository/ExpertResponseRepository.java:18-22 | `countByQueryId` is the length of the query's response list, and an expert has responded if and only if one listed response is theirs |
| Queries.ResponseCount | backend/src/main/java/com/cropapp/repository/ExpertResponseRepository.java:19 | `countByQueryId` is the number of stored responses whose query is the given one |
| Queries.HasResponded | backend/src/main/java/com/cropapp/repository/ExpertResponseRepository.java:22 | `existsByQueryIdAndExpertId` holds exactly when the count of the expert's responses to the query is not zero, and then the query's response count is positive |
| Workflow.MyQueries | backend/src/main/java/com/cropapp/controller/ExpertQueryController.java:51-85 | only USER or ADMIN may list; an unknown caller is refused; for a known caller the listing succeeds exactly when the page number is non-negative and the size positive, and a success is the requested page of the caller's own queries, newest first |
| Workflow.MyQueriesAreOwn | backend/src/main/java/com/cropapp/controller/ExpertQueryController.java:67-68 | a farmer's page holds only that farmer's stored queries |
| Workflow.Annotate | backend/src/main/java/com/cropapp/controller/ExpertQueryController.java:153-166 | a listed query says whether the caller has responded, and how many responses it has |
| Workflow.ExpertQueries | backend/src/main/java/com/cropapp/controller/ExpertQueryController.java:87-120 | only EXPERT or ADMIN may list; an unknown caller is refused; for a known caller the listing succeeds exactly when the page number is non-negative and the size positive; a success reports the number of queries and its content is exactly the requested page of the urgency queue, each query annotated with whether the caller responded and its response count |
| Workflow.AnnotateAll | backend/src/main/java/com/cropapp/controller/ExpertQueryController.java:107-109 | the annotated list has one entry per query of the page, in order, each with the caller's flag and the response count |
| Workflow.ExpertPage | backend/src/main/java/com/cropapp/controller/ExpertQueryController.java:104-116 | one page of the urgency queue, annotated, covers the queue from `page * size` on and reports every query in its total |
| Workflow.CreateQuery | backend/src/main/java/com/cropapp/controller/ExpertQueryController.java:171-220 | an invalid body and a non-farmer role are refused; otherwise it succeeds if and only if the caller exists, and appends one "pending", unanswered query owned by the caller with the body's title, description, crop type, category, urgency, image flag and path, created and updated now, changing nothing else |
| Workflow.Respond | backend/src/main/java/com/cropapp/controller/ExpertQueryController.java:222-290 | an invalid body, a non-expert role and an unverified expert are refused; for a verified expert the call succeeds exactly when the query exists and a status is given, a missing query being refused as not found; a success overwrites only that query's response, status and expert, stamps the response date, and notifies the farmer |
| Workflow.UpdateStatus | backend/src/main/java/com/cropapp/controller/ExpertQueryController.java:292-326 | a missing or non-numeric id or a missing status is refused; a success sets only that query's status, and notifies the farmer if and only if the status changed |
| Workflow.StatusNotificationOnlyOnChange | backend/src/main/java/com/cropapp/controller/ExpertQueryController.java:312-315 | re-submitting the current status adds no notification but refreshes `updatedAt`; a new status adds exactly one |
| Workflow.StatusUpdateIgnoresVerification | backend/src/main/java/com/cropapp/controller/ExpertQueryController.java:292-310 | the status endpoint succeeds for any expert-role caller on an existing query, verified or not |
| Workflow.AddResponse | backend/src/main/java/com/cropapp/controller/ExpertQueryController.java:329-398 | the checks run in order: body, role, caller, verification, duplicate response, query; a success appends one response, turns a "pending" query into "answered", leaves other queries unchanged and notifies the farmer |
| Workflow.AddResponseNotifiesFarmer | backend/src/main/java/com/cropapp/controller/ExpertQueryController.java:381-382 | a success adds exactly one response and one unread response notification for the query's farmer |
| Workflow.AddResponseKeepsOnePerExpert | backend/src/main/java/com/cropapp/controller/ExpertQueryController.java:357-361 | after any success, no expert has two responses to the same query |
| Workflow.AnswerKeepsOtherStatus | backend/src/main/java/com/cropapp/controller/ExpertQueryController.java:375-379 | answering a "pending" query makes it "answered"; any other status is kept |
| Workflow.EditExpertResponse | backend/src/main/java/com/cropapp/controller/ExpertQueryController.java:422-472 | the checks run in order: role, caller, response, ownership, blank text; for the owner of an existing response the edit succeeds exactly when the text has non-blank content, and a success replaces only that response's text by the trimmed text |
| Workflow.EditIsQuiet | backend/src/main/java/com/cropapp/controller/ExpertQueryController.java:449-458 | editing changes no query and sends no notification, and the stored text starts and ends with a visible character |
| Workflow.CreatePreservesWellFormed | backend/src/main/java/com/cropapp/controller/ExpertQueryController.java:171-220 | creating a query keeps ids equal to positions, every reference resolved and one response per expert and query |
| Workflow.AddResponsePreservesWellFormed | backend/src/main/java/com/cropapp/controller/ExpertQueryController.java:329-398 | adding a response keeps the board well formed and one response per expert and query |
| Workflow.RespondPreservesWellFormed | backend/src/main/java/com/cropapp/controller/ExpertQueryController.java:222-290 | the legacy respond endpoint keeps the board well formed |
| Workflow.UpdateStatusPreservesWellFormed | backend/src/main/java/com/cropapp/controller/ExpertQueryController.java:292-326 | a status update keeps the board well formed |
| Workflow.EditPreservesWellFormed | backend/src/main/java/com/cropapp/controller/ExpertQueryController.java:422-472 | editing a response keeps the board well formed |
| Workflow.CreateThenAnswer | backend/src/main/java/com/cropapp/controller/ExpertQueryController.java:171-398 | a farmer's new query answered by a verified expert becomes "answered", has one response, and the farmer has one more unread notification |
| Scans.CountByUser | backend/src/main/java/com/cropapp/repository/ScanRepository.java:35 | the count is the number of stored scans owned by the user |
| Scans.UserCountIsListLength | backend/src/main/java/com/cropapp/repository/ScanRepository.java:20-35 | the count query for a user equals the length of the user's history list |
| Scans.CountDiseasedByUser | backend/src/main/java/com/cropapp/repository/ScanRepository.java:38-39 | the count is the number of the user's scans whose disease is not "Healthy" |
| Scans.CountHealthyByUser | backend/src/main/java/com/cropapp/repository/ScanRepository.java:42-43 | the count is the number of the user's scans whose disease is "Healthy" |
| Scans.CountByUserAndStatus | backend/src/main/java/com/cropapp/repository/ScanRepository.java:55 | the count is the number of the user's scans with that status, never more than the user's scans |
| Scans.DiseasedPlusHealthy | backend/src/main/java/com/cropapp/repository/ScanRepository.java:35-43 | diseased and healthy counts of a user add up to the user's total, since the two queries split on the same comparison |
| Scans.LowerCaseHealthyIsDiseased | backend/src/main/java/com/cropapp/repository/ScanRepository.java:38-43 | under a case-sensitive collation, a scan labelled "healthy" counts as diseased |
| Scans.UserScans | backend/src/main/java/com/cropapp/repository/ScanRepository.java:20 | a user's history is newest first and holds each of that user's stored scans as often as it is stored, and no other scan |
| Scans.RecentByUser | backend/src/main/java/com/cropapp/repository/ScanRepository.java:50 | the activity feed is the first ten (or fewer, if the user has fewer) of the user's scans, newest first |
| Scans.RecentOverall | backend/src/main/java/com/cropapp/repository/ScanRepository.java:109 | the expert feed is the newest fifty scans of the whole store, or all of them when there are fewer |
| Scans.UserScansBetween | backend/src/main/java/com/cropapp/repository/ScanRepository.java:32 | a user's scans in a date range are newest first and hold exactly, with multiplicity, that user's scans created within the inclusive range |
| Scans.CountBetween | backend/src/main/java/com/cropapp/repository/ScanRepository.java:78-79 | the count is the number of stored scans created within the inclusive range |
| Scans.BetweenIncludesEnds | backend/src/main/java/com/cropapp/repository/ScanRepository.java:78-79 | BETWEEN is inclusive: a scan created exactly at either end of the range is counted |
| Scans.Mode | backend/src/main/java/com/cropapp/repository/ScanRepository.java:46-47 | the chosen disease occurs among the candidates and no candidate disease is more frequent for the user |
| Scans.MostCommonDisease | backend/src/main/java/com/cropapp/repository/ScanRepository.java:46-47 | no answer exactly when the user has no diseased scan; otherwise a disease other than "Healthy" that the user has and that no other diseased scan of theirs outnumbers |
| Scans.MostCommonWitness | backend/src/main/java/com/cropapp/repository/ScanRepository.java:46-47 | the mode of the user's diseased scans is itself a diseased label with the highest count |
| Scans.DiseaseDistribution | backend/src/main/java/com/cropapp/repository/ScanRepository.java:81-82 | the distribution has a key for exactly the diseases seen in the inclusive date range, and each key maps to the number of scans in the range with that disease |
| Scans.SplitOn | backend/src/main/java/com/cropapp/dto/ScanResponseDTO.java:40 | splitting yields at least one piece and no piece contains the separator |
| Scans.DropTrailingEmpty | backend/src/main/java/com/cropapp/dto/ScanResponseDTO.java:40 | Java's split drops only trailing empty strings: the result is a prefix whose last element is non-empty and everything cut off was empty |
| Scans.JavaSplit | backend/src/main/java/com/cropapp/dto/ScanResponseDTO.java:40-44 | no item of a split list contains the bar separator |
| Scans.SplitNoSeparator | backend/src/main/java/com/cropapp/dto/ScanResponseDTO.java:40 | text without the separator splits into itself alone |
| Scans.SplitAfterPiece | backend/src/main/java/com/cropapp/dto/ScanResponseDTO.java:40 | splitting a piece, the separator and a rest yields the piece followed by the split of the rest |
| Scans.Join | backend/src/main/java/com/cropapp/controller/ScanController.java:214-215 | joining a single item gives that item, and with separator-free items the separator shows in the joined text exactly when there are two items or more |
| Scans.SplitJoin | backend/src/main/java/com/cropapp/controller/ScanController.java:214-215 | joining separator-free items and splitting again gives back the items |
| Scans.JoinSplit | backend/src/main/java/com/cropapp/dto/ScanResponseDTO.java:40 | joining the pieces of a split gives back the original text |
| Scans.JavaSplitJoin | backend/src/main/java/com/cropapp/dto/ScanResponseDTO.java:40-44 | a stored bar-joined list reads back unchanged when its items are free of the bar separator and the last is non-empty |
| Scans.TrailingEmptyItemLost | backend/src/main/java/com/cropapp/dto/ScanResponseDTO.java:40-44 | a list ending in an empty item does not survive the join and split: ["a", ""] reads back as ["a"] |
| Scans.EarlyBlightRecommendationsOk | backend/src/main/java/com/cropapp/controller/ScanController.java:236-242 | the early blight advice is free of the bar separator and of empty items |
| Scans.LateBlightRecommendationsOk | backend/src/main/java/com/cropapp/controller/ScanController.java:243-249 | the late blight advice is free of the bar separator and of empty items |
| Scans.AppleScabRecommendationsOk | backend/src/main/java/com/cropapp/controller/ScanController.java:250-256 | the apple scab advice is free of the bar separator and of empty items |
| Scans.GenericRecommendationsOk | backend/src/main/java/com/cropapp/controller/ScanController.java:257-263 | the fallback advice is free of the bar separator and of empty items |
| Scans.EarlyBlightSymptomsOk | backend/src/main/java/com/cropapp/controller/ScanController.java:269-274 | the early blight symptoms are free of the bar separator and of empty items |
| Scans.LateBlightSymptomsOk | backend/src/main/java/com/cropapp/controller/ScanController.java:275-280 | the late blight symptoms are free of the bar separator and of empty items |
| Scans.AppleScabSymptomsOk | backend/src/main/java/com/cropapp/controller/ScanController.java:281-286 | the apple scab symptoms are free of the bar separator and of empty items |
| Scans.GenericSymptomsOk | backend/src/main/java/com/cropapp/controller/ScanController.java:287-288 | the fallback symptom is free of the bar separator and non-empty |
| Scans.DefaultRecommendations | backend/src/main/java/com/cropapp/controller/ScanController.java:234-265 | always four safe items; the fallback list is returned exactly when the lower-cased disease is none of the three known ones |
| Scans.DefaultSymptoms | backend/src/main/java/com/cropapp/controller/ScanController.java:267-290 | three safe items for a known disease, one for any other |
| Scans.DefaultsIgnoreCase | backend/src/main/java/com/cropapp/controller/ScanController.java:235 | diseases equal up to case get the same default lists |
| Scans.SampleScan | backend/src/main/java/com/cropapp/controller/ScanController.java:210-217 | a sample scan stores lists that split back into the disease's default recommendations and symptoms |
| Scans.Pad2 | backend/src/main/java/com/cropapp/dto/ScanResponseDTO.java:33 | a number below 100 is written as two digits whose value is the number |
| Scans.ClockTime | backend/src/main/java/com/cropapp/dto/ScanResponseDTO.java:33 | HH:mm is five characters, hours below 24 and minutes below 60, naming the minute of the day that contains the instant |
| Scans.ClockArithmetic | backend/src/main/java/com/cropapp/dto/ScanResponseDTO.java:33 | hour and minute taken from the time of day are in range and locate the instant within its minute |
| Scans.ListView | backend/src/main/java/com/cropapp/dto/ScanResponseDTO.java:39-45 | a stored list is shown only when it is present and non-empty |
| Scans.View | backend/src/main/java/com/cropapp/dto/ScanResponseDTO.java:27-48 | the view's id is the decimal id; a missing severity shows "Unknown" and a missing status "Analyzed", and present ones are shown as stored |
| Scans.ViewIdParses | backend/src/main/java/com/cropapp/controller/ScanController.java:117 | the id a view shows parses back to the scan's id |
| Scans.SampleViewRoundTrip | backend/src/main/java/com/cropapp/controller/ScanController.java:210-217 | the view of a sample scan shows its default lists unchanged |
| Scans.JoinLength | backend/src/main/java/com/cropapp/controller/ScanController.java:214-215 | a joined list is at least as long as its first item |
| Scans.SampleDetails | backend/src/main/java/com/cropapp/controller/ScanController.java:219-232 | the stand-in details keep the requested id and carry the early blight default lists |
| Scans.History | backend/src/main/java/com/cropapp/controller/ScanController.java:30-65 | an unknown caller is refused; otherwise a bad page is the only failure, and a page holds only the caller's own scans |
| Scans.AllScans | backend/src/main/java/com/cropapp/controller/ScanController.java:67-108 | an unknown caller is refused, a non-expert is refused, and for an expert the call succeeds exactly when the page number is non-negative and the size positive, giving the requested page of all scans |
| Scans.Details | backend/src/main/java/com/cropapp/controller/ScanController.java:110-135 | the call succeeds exactly when there is a caller and the id parses; an existing id shows that scan and any other parsed id shows the stand-in details |
| Scans.OrDefault | backend/src/main/java/com/cropapp/controller/ScanController.java:152-153 | the default is used only when the key is absent; a key present with null stays null |
| Scans.CreateScan | backend/src/main/java/com/cropapp/controller/ScanController.java:137-168 | an unknown caller is refused; missing confidence, plant type or disease fails; a success appends one scan owned by the caller, with the next id, the clock's time and defaulted severity and status, and returns its view |
| Scans.CreateDefaultsMatchView | backend/src/main/java/com/cropapp/controller/ScanController.java:152-153 | a scan created without severity or status shows "Unknown" and "Analyzed" |
| Scans.ApplyReview | backend/src/main/java/com/cropapp/controller/ScanController.java:189-197 | each review key present overwrites its field, absent keys keep the old value, and nothing else changes |
| Scans.ReviewScan | backend/src/main/java/com/cropapp/controller/ScanController.java:170-206 | an unknown caller, a non-expert and a missing scan are refused in that order; a rating outside Java's `int` range is a server error exactly then, with nothing saved; a success changes only the reviewed scan, as the review says |
| Scans.RatingPastIntRefused | backend/src/main/java/com/cropapp/controller/ScanController.java:192-193 | a rating of 2^31 fails the `(Integer)` cast and is a server error, while 2^31 - 1 is stored |
| Scans.ReviewIdempotent | backend/src/main/java/com/cropapp/controller/ScanController.java:170-206 | submitting the same review twice leaves the store as one submission did |
| Scans.ReviewIgnoresVerification | backend/src/main/java/com/cropapp/controller/ScanController.java:177 | reviewing depends on the expert role alone, not on the expert's other attributes |
| Scans.WritesKeepIds | backend/src/main/java/com/cropapp/controller/ScanController.java:137-206 | creating and reviewing keep every scan's id equal to its position |
| Reports.TallyFor | backend/src/main/java/com/cropapp/service/ReportService.java:47-62 | the tally's total, diseased and healthy figures are the user's three counts, and the critical and recommendation figures are the numbers of qualifying scans among the ten newest |
| Reports.RecentCounts | backend/src/main/java/com/cropapp/service/ReportService.java:53-60 | the critical and recommendation counts are the numbers of qualifying positions |
| Reports.RecentWithinTotal | backend/src/main/java/com/cropapp/service/ReportService.java:52 | the recent scans a tally inspects are never more than the user's scans |
| Reports.CriticalIgnoresCase | backend/src/main/java/com/cropapp/service/ReportService.java:53-56 | severity is compared ignoring case, so "HIGH" and "critical" count as critical |
| Reports.TreatmentSuccess | backend/src/main/java/com/cropapp/service/ReportService.java:107-108 | the success rate is zero without scans and otherwise the floor of treated times 100 over total, at most 100 when treated scans are among all scans |
| Reports.RiskLevel | backend/src/main/java/com/cropapp/service/ReportService.java:114-124 | High exactly when more than half the scans are diseased, Medium when more than a quarter but not half, Low otherwise or without scans |
| Reports.PercentageAbove | backend/src/main/java/com/cropapp/service/ReportService.java:117-120 | the floating-point percentage test against 100/k agrees with the integer test k times diseased above total |
| Reports.UserReports | backend/src/main/java/com/cropapp/repository/ReportRepository.java:20 | a user's report list is newest generated first, holds only that user's stored reports and every one of them, and is as long as the number of stored rows that are the user's |
| Reports.UserReportsSelects | backend/src/main/java/com/cropapp/repository/ReportRepository.java:20 | the list holds each of the user's stored reports as often as it is stored, and no other report |
| Reports.Refresh | backend/src/main/java/com/cropapp/service/ReportService.java:71-86 | a refreshed report carries the tally's counts, the weekly summary and the new time, and keeps everything else |
| Reports.RefreshRows | backend/src/main/java/com/cropapp/service/ReportService.java:71-89 | only the report being refreshed changes, and every row keeps its id and owner |
| Reports.NewWeekly | backend/src/main/java/com/cropapp/service/ReportService.java:65-69 | a new weekly analysis belongs to the user, carries the tally and is stamped with the current time |
| Reports.UpdateOrCreateWeekly | backend/src/main/java/com/cropapp/service/ReportService.java:45-90 | with no weekly analysis a new one is appended with the next id; otherwise the store keeps its size, ids, owners, kinds and titles; other users' rows never change |
| Reports.WeeklyReflectsTally | backend/src/main/java/com/cropapp/service/ReportService.java:45-90 | afterwards the user has a weekly analysis carrying the current tally and time |
| Reports.WeeklySummary | backend/src/main/java/com/cropapp/service/ReportService.java:78-83 | the weekly summary starts "Analysis of " exactly when the user has scans, and otherwise is the invitation to scan |
| Reports.WeeklySummaryReadsBack | backend/src/main/java/com/cropapp/service/ReportService.java:78-80 | a weekly summary with scans determines the total, diseased, healthy and critical counts it reports |
| Reports.FindingsReadBack | backend/src/main/java/com/cropapp/service/ReportService.java:79 | the findings text of a summary determines the diseased, healthy and critical counts |
| Reports.WeeklyCountAfter | backend/src/main/java/com/cropapp/service/ReportService.java:64-69 | the number of weekly analyses becomes one if there was none and stays the same otherwise |
| Reports.WeeklyFindOrCreate | backend/src/main/java/com/cropapp/service/ReportService.java:29-36 | listing creates the weekly analysis once; listing again never adds a second one |
| Reports.WeeklyPreservesValid | backend/src/main/java/com/cropapp/service/ReportService.java:45-90 | ids stay distinct and below the next id across the weekly update |
| Reports.ReportsForUser | backend/src/main/java/com/cropapp/service/ReportService.java:29-43 | listing runs the weekly update first and returns only the user's rows of the updated store, among them a weekly analysis with the current tally |
| Reports.GenerateReport | backend/src/main/java/com/cropapp/service/ReportService.java:181-218 | a generated report is appended with the next id, titled with the type and date, status "Generated", carrying the tally and the generated summary |
| Reports.GeneratedSummary | backend/src/main/java/com/cropapp/service/ReportService.java:209-214 | a generated summary starts "Generated " exactly when the user has scans, and otherwise is the invitation to scan |
| Reports.GeneratedSummaryReadsBack | backend/src/main/java/com/cropapp/service/ReportService.java:209-211 | for one report type, a generated summary with scans determines the total, diseased, healthy and critical counts it reports |
| Reports.GeneratePreservesValid | backend/src/main/java/com/cropapp/service/ReportService.java:181-218 | ids stay distinct and below the next id after generating |
| Reports.GeneratedIsNotWeekly | backend/src/main/java/com/cropapp/service/ReportService.java:198 | generating never changes how many weekly analyses the user has |
| Reports.GeneratedTitleIsNotWeekly | backend/src/main/java/com/cropapp/service/ReportService.java:198 | no generated title of the form type, dash, date equals the weekly analysis title while the type is the weekly type |
| Reports.ReportById | backend/src/main/java/com/cropapp/service/ReportService.java:223-228 | a found report has the id and belongs to the caller; with distinct ids nothing is found exactly when no row of the caller has the id |
| Reports.DeleteReport | backend/src/main/java/com/cropapp/service/ReportService.java:235-244 | deletion succeeds exactly when the caller owns a report with the id; a failure leaves the store untouched, a success removes the rows with that id |
| Reports.DeleteRemoves | backend/src/main/java/com/cropapp/service/ReportService.java:235-244 | after a deletion the id is no longer found for the caller, ids stay distinct, and every other user's report is kept |
| Reports.AnalyticsFor | backend/src/main/java/com/cropapp/service/ReportService.java:92-158 | the totals are the user's scan, diseased and healthy counts; critical issues come from the tally of the ten newest scans; success is the treated percentage of the total; the most common disease is the repository's answer or "None"; the risk level follows the diseased share; the distribution is the last thirty days' |
| Reports.AnalyticsByTimeRange | backend/src/main/java/com/cropapp/service/ReportService.java:247-258 | the range name is not applied: every range gives the analytics for all of the user's scans, with the user's total and diseased counts |
| Reports.AnalyticsAgreesWithHistory | backend/src/main/java/com/cropapp/service/ReportService.java:92-158 | the analytics total equals the length of the user's scan history |
| Reports.TimeRangeIgnored | backend/src/main/java/com/cropapp/service/ReportService.java:247-257 | the time range argument never changes the analytics |
| Reports.DiseaseMeasures | backend/src/main/java/com/cropapp/service/ReportService.java:393-402 | one disease line for each prediction with probability above 0.5 |
| Reports.PreventiveMeasures | backend/src/main/java/com/cropapp/service/ReportService.java:377-410 | six leading lines for High, three for Medium, none otherwise; then one line per notable prediction; and always the three general lines last |
| Reports.LowRiskMeasures | backend/src/main/java/com/cropapp/service/ReportService.java:377-410 | with no notable prediction a low risk yields exactly the three general lines |
| Dashboard.CriticalIssues | backend/src/main/java/com/cropapp/controller/DashboardController.java:56 | critical issues are a third of the diseased scans rounded down, capped at five, and reach five exactly from fifteen diseased scans |
| Dashboard.FarmHealthScore | backend/src/main/java/com/cropapp/controller/DashboardController.java:67 | the farm health score is 100 without scans and otherwise the floor of the healthy percentage |
| Dashboard.StatsTreatmentSuccess | backend/src/main/java/com/cropapp/controller/DashboardController.java:165 | the quick-stats success rate is 0 without scans and otherwise the floor of the healthy percentage |
| Dashboard.ScoresDifferOnlyWhenEmpty | backend/src/main/java/com/cropapp/controller/DashboardController.java:67-165 | the dashboard score and the quick-stats rate agree exactly when the user has scans |
| Dashboard.DashboardData | backend/src/main/java/com/cropapp/controller/DashboardController.java:38-83 | an unknown caller is refused; a failing database yields the fallback figures; otherwise total, diseased and healthy are the user's counts of all, diseased and healthy scans, critical issues are a third of the diseased capped at five, the score is the healthy percentage or 100 without scans, and the last scan day is absent exactly without scans and otherwise the day of one of the user's scans and no earlier than any of them |
| Dashboard.NewestIsLatest | backend/src/main/java/com/cropapp/controller/DashboardController.java:59-64 | the first of the recent scans is at least as new as every scan of the user, and the list is empty only without scans |
| Dashboard.NewestIsOwned | backend/src/main/java/com/cropapp/controller/DashboardController.java:59-64 | the first of the recent scans is one of the user's stored scans |
| Dashboard.Stats | backend/src/main/java/com/cropapp/controller/DashboardController.java:138-178 | an unknown caller is refused and a failing database is an error, each exactly in its case; otherwise plants scanned and total scans are the user's scan count, diseased and healthy are the user's counts, critical issues a third of the diseased capped at five, and the success rate the healthy percentage or 0 without scans |
| Dashboard.DashboardMatchesStats | backend/src/main/java/com/cropapp/controller/DashboardController.java:38-178 | the dashboard and the quick stats report the same counts |
| Dashboard.JavaDiv | backend/src/main/java/com/cropapp/controller/DashboardController.java:263-265 | Java's long division agrees with floor division on non-negative numbers and is never positive on negative ones |
| Dashboard.TimeAgo | backend/src/main/java/com/cropapp/controller/DashboardController.java:259-276 | the text is the rendering of a reading that describes the elapsed time: the largest unit with a positive whole count, or "Just now" |
| Dashboard.DescribesUnique | backend/src/main/java/com/cropapp/controller/DashboardController.java:267-275 | at most one reading describes any elapsed time |
| Dashboard.RenderParses | backend/src/main/java/com/cropapp/controller/DashboardController.java:267-275 | every rendered duration reads back as the same count and unit |
| Dashboard.TimeAgoReadsBack | backend/src/main/java/com/cropapp/controller/DashboardController.java:259-276 | the text for an elapsed time reads back as the reading that describes it |
| Dashboard.TimeAgoParses | backend/src/main/java/com/cropapp/controller/DashboardController.java:259-276 | the time text of every elapsed time reads back as a reading that describes it |
| Dashboard.DaysParse | backend/src/main/java/com/cropapp/controller/DashboardController.java:268 | a day count reads back from its rendering |
| Dashboard.HoursParse | backend/src/main/java/com/cropapp/controller/DashboardController.java:270 | an hour count reads back from its rendering |
| Dashboard.MinutesParse | backend/src/main/java/com/cropapp/controller/DashboardController.java:272 | a minute count reads back from its rendering |
| Dashboard.MakeActivity | backend/src/main/java/com/cropapp/controller/DashboardController.java:278-309 | an activity keeps its texts and type; the icon and colour follow the type, grey info for an unknown type |
| Dashboard.Subtitle | backend/src/main/java/com/cropapp/controller/DashboardController.java:104-110 | a scan named healthy in any case reads "No diseases detected"; any other starts with the disease and " detected - " and ends with " severity" |
| Dashboard.SubtitleReadsBack | backend/src/main/java/com/cropapp/controller/DashboardController.java:104-110 | the disease and the shown severity can both be read back from a diseased scan's subtitle |
| Dashboard.RecentActivity | backend/src/main/java/com/cropapp/controller/DashboardController.java:85-136 | an unknown caller is refused and a failing database is an error, each exactly in its case; without scans the feed is the single placeholder; otherwise it shows the user's newest scans, at most three, in order |
| Dashboard.ScanActivity | backend/src/main/java/com/cropapp/controller/DashboardController.java:101-113 | a scan's activity is titled by its plant, has the scan icon, the scan's subtitle, a green or orange colour, and a time text that reads back as the reading of the time since the scan |
| Dashboard.ScanActivities | backend/src/main/java/com/cropapp/controller/DashboardController.java:101-113 | one activity per scan, in the same order |
| Dashboard.RecentLength | backend/src/main/java/com/cropapp/controller/DashboardController.java:94 | the recent list holds ten of the user's scans, or all of them when there are fewer |
| Dashboard.HealthyScanIsGreen | backend/src/main/java/com/cropapp/controller/DashboardController.java:289 | a scan named healthy in any case is shown green |
| Dashboard.UnhealthyIsGreen | backend/src/main/java/com/cropapp/controller/DashboardController.java:289 | the colour is read from the subtitle text, so a diseased scan named "unhealthy" is shown green too |
| Uploads.DetectExtension | backend/src/main/java/com/cropapp/controller/AuthController.java:241-273 | fewer than four bytes give ".bin"; otherwise the extension of the first matching signature in the order JPEG, PNG, GIF, PDF, ZIP; ".bin" exactly when none matches |
| Uploads.SignaturesDisjoint | backend/src/main/java/com/cropapp/controller/AuthController.java:246-269 | no byte string starts with two of the five signatures, so the order of the checks never matters |
| Uploads.SignatureBytes | backend/src/main/java/com/cropapp/controller/AuthController.java:246-269 | each signature test is the byte comparison the source writes out |
| Uploads.PngFileDetected | backend/src/main/java/com/cropapp/controller/AuthController.java:251-254 | a file starting with the full PNG header is named ".png" |
| Uploads.GifFileDetected | backend/src/main/java/com/cropapp/controller/AuthController.java:256-259 | GIF87a and GIF89a headers are named ".gif" |
| Uploads.PdfFileDetected | backend/src/main/java/com/cropapp/controller/AuthController.java:261-264 | a file starting with "%PDF-" is named ".pdf" |
| Uploads.ShortJpegIsBinary | backend/src/main/java/com/cropapp/controller/AuthController.java:242-244 | a three-byte JPEG marker alone is too short and falls back to ".bin" |
| Uploads.DocumentPath | backend/src/main/java/com/cropapp/controller/AuthController.java:211-236 | the saved path is in the documents directory, starts with the expert's id and ends with the sniffed extension |
| Uploads.Extension | backend/src/main/java/com/cropapp/controller/ImageController.java:61-64 | no extension exactly when the name is missing or has no dot; otherwise the name's suffix from its last dot |
| Uploads.LastIndexOf | backend/src/main/java/com/cropapp/controller/ImageController.java:63 | absent exactly when the character does not occur; otherwise its position, with no later occurrence |
| Uploads.StoredName | backend/src/main/java/com/cropapp/controller/ImageController.java:65 | the stored name starts with the random id, an underscore and the time, and ends with the original extension |
| Uploads.UploadImage | backend/src/main/java/com/cropapp/controller/ImageController.java:31-86 | an empty file, a non-image type and an image over 5 MiB are refused, each exactly in its case and in that order; a success keeps the original extension |
| Uploads.UploadDocument | backend/src/main/java/com/cropapp/controller/ImageController.java:132-190 | an empty file, a type other than image or PDF and a document over 10 MiB are refused, each exactly in its case and in that order; a success keeps the original extension |
| Uploads.ImageLimitInclusive | backend/src/main/java/com/cropapp/controller/ImageController.java:48 | an image of exactly 5 MiB is accepted and one byte more is refused |
| Uploads.DocumentAcceptsImages | backend/src/main/java/com/cropapp/controller/ImageController.java:143-151 | any accepted image upload is also accepted as a document, under the same name |
| Uploads.PdfOnlyAsDocument | backend/src/main/java/com/cropapp/controller/ImageController.java:42-45 | a PDF within the document limit is accepted as a document and refused as an image |
| Uploads.ExtensionUsesLastDot | backend/src/main/java/com/cropapp/controller/ImageController.java:63 | "photo.final.JPG" keeps ".JPG", its case unchanged |
| Stores.ParseStoreType | backend/src/main/java/com/cropapp/service/AgriStoreService.java:35 | a parsed type is the one whose exact name was given |
| Stores.StoreTypeNames | backend/src/main/java/com/cropapp/service/AgriStoreService.java:35 | every type's name parses back to it, and only its exact name does |
| Stores.LowerCaseTypeRejected | backend/src/main/java/com/cropapp/controller/AgriStoreController.java:242 | a lower-case name is not a type by itself; the controller's upper-casing makes it one |
| Stores.CreateStore | backend/src/main/java/com/cropapp/service/AgriStoreService.java:24-42 | input failing the bean constraints (sizes in UTF-16 code units) and a missing admin are refused, each exactly in its case, and an unknown type fails; a success appends one active store copying the request, created by the admin, with the requested type |
| Stores.ValidInput | backend/src/main/java/com/cropapp/dto/AgriStoreDTO.java:12-33 | a valid store has a non-blank name of at most 100 characters and address of at most 255, both coordinates, and optional texts within their bounds |
| Stores.Find | backend/src/main/java/com/cropapp/service/AgriStoreService.java:48 | a store is found exactly when the id names a row, and it is that row |
| Stores.UpdateStore | backend/src/main/java/com/cropapp/service/AgriStoreService.java:47-73 | input failing the bean constraints (sizes in UTF-16 code units) and an unknown id are refused, each exactly in its case, and an unknown type fails; a success changes only that store, copying the request, keeping its creator, and changing type and active flag only when given |
| Stores.UpdateIdempotent | backend/src/main/java/com/cropapp/service/AgriStoreService.java:47-73 | sending the same update twice has the effect of sending it once |
| Stores.DeleteStore | backend/src/main/java/com/cropapp/service/AgriStoreService.java:78-88 | deletion fails exactly for an unknown id; a success only clears that store's active flag |
| Stores.ActiveStores | backend/src/main/java/com/cropapp/repository/AgriStoreRepository.java:17 | the public list holds exactly the active stores |
| Stores.DeleteIsSoft | backend/src/main/java/com/cropapp/service/AgriStoreService.java:78-88 | a deleted store stays in the table and can still be read by id, but leaves the public list |
| Stores.DeleteIdempotent | backend/src/main/java/com/cropapp/service/AgriStoreService.java:78-88 | deleting a store twice has the effect of deleting it once |
| Stores.DeleteShrinksActive | backend/src/main/java/com/cropapp/service/AgriStoreService.java:86 | deleting an active store removes exactly one store from the public list |
| Stores.StoreById | backend/src/main/java/com/cropapp/service/AgriStoreService.java:113-121 | a lookup succeeds exactly when the id names a row, and returns that store; otherwise it reports a missing store |
| Stores.StoresByType | backend/src/main/java/com/cropapp/controller/AgriStoreController.java:236-257 | the type name is upper-cased first; an unknown name fails, and a success lists exactly the active stores of that type |
| Stores.ByTypeWithinActive | backend/src/main/java/com/cropapp/service/AgriStoreService.java:199-205 | every store listed by type is also on the public list |
| Stores.CheckNearby | backend/src/main/java/com/cropapp/controller/AgriStoreController.java:151-172 | latitude outside [-90, 90] is refused first, then longitude outside [-180, 180], then a radius not in (0, 100]; a missing radius is 10 km; on success the search uses that radius |
| Stores.FirstFailure | backend/src/main/java/com/cropapp/controller/AgriStoreController.java:151-172 | running checks in order succeeds exactly when every check passes, and otherwise reports the error of the first failing check |
| Stores.NearbyIsFirstFailure | backend/src/main/java/com/cropapp/controller/AgriStoreController.java:151-172 | the nearby checks are latitude, longitude and radius run in that order, reporting the first that fails |
| Stores.NearbySmallerRadius | backend/src/main/java/com/cropapp/controller/AgriStoreController.java:166-170 | a search that passes with some radius passes with any smaller positive radius at the same point |
| Stores.NearbyBounds | backend/src/main/java/com/cropapp/controller/AgriStoreController.java:160-170 | the bounds are inclusive at the poles, the antimeridian and 100 km, and a radius of 0 is refused |
| Markdown.RStrip | convert_to_word.py:46 | rstrip keeps a prefix, removes only white space, and leaves no white space at the end |
| Markdown.LStrip | convert_to_word.py:120-121 | lstrip keeps a suffix, removes only white space, and leaves no white space at the start |
| Markdown.Strip | convert_to_word.py:113 | strip is empty exactly for a blank line and otherwise neither starts nor ends with white space |
| Markdown.StripTrimmed | convert_to_word.py:121 | stripping text already free of surrounding white space changes nothing |
| Markdown.StripAfterSpace | convert_to_word.py:121 | white space in front of trimmed text is all that strip removes |
| Markdown.Leading | convert_to_word.py:120 | the heading level counts exactly the leading hash signs |
| Markdown.LeadingDigits | convert_to_word.py:143-144 | the digit run in front of a numbered item is maximal |
| Markdown.Drop | convert_to_word.py:132-136 | slicing past the end of a string gives the empty string |
| Markdown.Inside | convert_to_word.py:163-166 | the inside of a marked piece is what remains between its markers when they fit |
| Markdown.IndexFrom | convert_to_word.py:154 | the search finds the first occurrence at or after the start, or reports that there is none |
| Markdown.LinkClose | convert_to_word.py:154 | a link closes at a "](" followed later by a ")" with no ")" in between |
| Markdown.StripLinks | convert_to_word.py:154 | link removal never lengthens the text and leaves text without "[" unchanged |
| Markdown.StripTicks | convert_to_word.py:156 | backtick removal never lengthens the text and leaves text without a backtick unchanged |
| Markdown.LinkKeepsText | convert_to_word.py:154 | a link in a plain paragraph is replaced by its text |
| Markdown.TicksKeepCode | convert_to_word.py:156 | inline code in a plain paragraph keeps its content without the backticks |
| Markdown.PairFrom | convert_to_word.py:160 | the bold search finds a double asterisk at or after the start |
| Markdown.EmphasisEnd | convert_to_word.py:160 | an emphasis match starts and ends with an asterisk and is at least two characters long |
| Markdown.Pieces | convert_to_word.py:160 | splitting on emphasis gives an odd number of pieces, the matches at odd positions, and the pieces together spell the line |
| Markdown.Classify | convert_to_word.py:161-169 | a bold run came from a piece with double asterisks on both ends, an italic one from single asterisks, and a plain run is the piece itself |
| Markdown.Runs | convert_to_word.py:158-169 | a paragraph with asterisks has one run per piece of the split, in order |
| Markdown.ClassifyAll | convert_to_word.py:161 | one run per piece, in order |
| Markdown.ShortPieces | convert_to_word.py:162-166 | a piece too short for its markers loses characters when they are sliced off |
| Markdown.ClassifyRoundTrip | convert_to_word.py:161-169 | a run written back with its markers gives the piece unless the piece is too short for them |
| Markdown.RunsRoundTrip | convert_to_word.py:158-169 | the runs written back give the whole line when no piece is too short for its markers |
| Markdown.PowerOperatorLost | convert_to_word.py:160-164 | "2 ** 3" splits into "2 ", an empty bold run and " 3", so the operator disappears |
| Markdown.Checkbox | convert_to_word.py:131-136 | the three task markers become their glyphs and the character after the marker is dropped; any other text is unchanged |
| Markdown.NumberText | convert_to_word.py:144 | the item text follows the digits, the dot and blank padding, and starts without white space |
| Markdown.NumberTextParts | convert_to_word.py:144 | the text after blank padding following the dot ends the line |
| Markdown.Cells | convert_to_word.py:83 | every cell is trimmed and free of the bar character |
| Markdown.StripCell | convert_to_word.py:83 | a stripped cell stays free of the bar and is trimmed |
| Markdown.StripKeepsOut | convert_to_word.py:83 | strip only removes characters |
| Markdown.Row | convert_to_word.py:98-103 | a data row has the header's width, its own cells first and empty cells after them; extra cells are dropped |
| Markdown.TableBlocks | convert_to_word.py:81-105 | two lines or fewer give nothing; more give a table whose header comes from the first line and whose body has one row per line after the separator, then a spacer |
| Markdown.CellsRoundTrip | convert_to_word.py:83 | a bordered line built from trimmed cells reads back as those cells |
| Markdown.SplitBordered | convert_to_word.py:83 | splitting a bordered line gives an empty piece at each end around the cells |
| Markdown.CellsOfPieces | convert_to_word.py:83 | the cells are the split pieces without the two border pieces |
| Markdown.LineBlocks | convert_to_word.py:112-177 | a line outside code and tables gives at most one block, and gives none exactly when it is a heading deeper than six or a blank line not following a line with text |
| Markdown.TextBlocks | convert_to_word.py:112-171 | a line with text gives one block unless it is a heading deeper than six levels |
| Markdown.ParagraphOf | convert_to_word.py:149-171 | a paragraph line gives one paragraph; without an asterisk it is a single plain run; with one, its runs written back as Markdown give the line whenever no piece is a lone or empty marker |
| Markdown.HeadingBlocks | convert_to_word.py:119-125 | a heading gives one block exactly when it has at most six hash signs |
| Markdown.HeadingLine | convert_to_word.py:119-125 | a heading line gives its text at its level capped at three, and nothing past six |
| Markdown.HeadingParts | convert_to_word.py:119-121 | a heading line keeps its first character through rstrip, has the given level, and its stripped rest is the text |
| Markdown.HeadingOf | convert_to_word.py:120-123 | the heading block follows from the level and the stripped text |
| Markdown.SingleLine | convert_to_word.py:45-46 | a one-line document gives the blocks of its stripped line |
| Markdown.HashLine | convert_to_word.py:113-119 | a line starting with a hash sign is read as a heading, never as a rule |
| Markdown.HashNotRule | convert_to_word.py:113 | a line starting with a hash sign is not a rule |
| Markdown.HeadingBare | convert_to_word.py:120-121 | a heading with no text has an empty text |
| Markdown.HeadingWithText | convert_to_word.py:120-121 | a heading with text keeps that text after the hash signs and the space |
| Markdown.BulletLine | convert_to_word.py:128-140 | a dash line gives a bullet with its text, task markers replaced |
| Markdown.BulletRaw | convert_to_word.py:128-129 | a dash line survives both strips and is neither a rule nor a heading |
| Markdown.BulletKind | convert_to_word.py:128-140 | a bullet line that is neither rule nor heading is a bullet |
| Markdown.CheckedTask | convert_to_word.py:131-132 | a ticked task shows the check-mark glyph before its text |
| Markdown.CheckedItem | convert_to_word.py:131-132 | the glyph replaces the marker and the space after it |
| Markdown.NumberedLine | convert_to_word.py:143-147 | a digits-and-dot line gives a numbered item with the text after the dot |
| Markdown.NumberedRaw | convert_to_word.py:143-144 | a digits-and-dot line survives both strips and its item text is the text after the dot |
| Markdown.NumberedKind | convert_to_word.py:143-147 | a numbered line is read as a numbered item |
| Markdown.DigitFirst | convert_to_word.py:113-128 | a line starting with a digit is not a rule, a bullet or a heading |
| Markdown.RStripAll | convert_to_word.py:46 | every line is stripped on the right, one for one |
| Markdown.CodeLineStep | convert_to_word.py:66-69 | inside a code block a line that is not a fence is collected |
| Markdown.CodeCloseStep | convert_to_word.py:49-59 | a closing fence writes the collected lines joined by newlines as one code block |
| Markdown.CodeBlock | convert_to_word.py:49-69 | a fenced block becomes one code block of the lines between the fences, and a table being gathered stays open across it |
| Markdown.UnterminatedFence | convert_to_word.py:62 | a fence that is never closed drops the rest of the document |
| Markdown.TableStep | convert_to_word.py:72-78 | a table line joins the table being gathered, or starts one |
| Markdown.TableCloseStep | convert_to_word.py:79-110 | an ordinary line closes an open table, which is written, and is then read again |
| Markdown.TableRun | convert_to_word.py:72-110 | a run of table lines becomes a table when it has more than two lines and is followed by another line; a run reaching the end of the file is never written |
| Markdown.RStripAllCons | convert_to_word.py:46 | stripping a range of lines strips its first line, then the rest |
| Markdown.ShortTableDropped | convert_to_word.py:81 | two table lines or fewer produce nothing |
| Markdown.OrdinaryLine | convert_to_word.py:112-177 | any other line outside code and tables adds its own blocks and the conversion moves on |
| Markdown.LineByLine | convert_to_word.py:45-177 | without code fences and table lines the converter gives, for every input, exactly the blocks of each line converted on its own, in order |
| Markdown.NoFenceNoCode | convert_to_word.py:49-64 | outside a code block and with no fence left to read, the converter gives no code block, whatever the lines |
| Markdown.TableAcrossCode | convert_to_word.py:49-110 | a code block inside a table is written before the table, and the table lines after it still join the table |
| Markdown.SmallTable | convert_to_word.py:81-105 | a header, a separator and one data row give a one-cell table and a spacer |
| Markdown.OneCell | convert_to_word.py:83 | a bordered single cell reads as that cell |
| Markdown.PlainWord | convert_to_word.py:150-171 | a word without markup is a plain paragraph |
| Markdown.Convert | convert_to_word.py:45-177 | from any line on, the converter appends at most one block per line still to read and per table line already gathered |
| Markdown.Document | convert_to_word.py:26-180 | a document never has more blocks than lines |

## Left out

- HTTP and security plumbing: response bodies, status codes, `@PreAuthorize` evaluation, the authentication manager and token issuing. JwtUtils is not part of this model. Each role check is an explicit parameter, and BCrypt is an opaque encoder passed in.
- Concurrency: the background threads that send the approval and sign-up mails, and the window between the duplicate-response check and the insert in ExpertQueryController. Requests are modelled one at a time, without transactions.
- File and network I/O: writing, serving and deleting images and documents; Base64 decoding (the decoded bytes are a parameter); template loading; SMTP; the SMS log; and reading and writing files in `convert_to_word.py`.
- Python-docx fonts, styles and table styling. The Word document is only the sequence of blocks.
- Floating-point heuristics: the outbreak predictions, their risk multipliers, confidence and timeframe; the confidence and accuracy averages; the Haversine nearby query and its distance rounding. Coordinates, radius and prediction probability are modelled as exact reals.
- Reports.RiskLevel: Java compares the double `diseased / total * 100` with 50 and 25. The model states the exact rational comparison. The two agree whenever the count is far below 2^50: the exact value then differs from a threshold by at least 50/total, which is far larger than the double rounding error.
- Stores.CheckNearby: reals have no NaN. In Java a NaN coordinate fails every comparison and so passes the checks.
- Randomness and the clock: OTP digits, UUIDs, the random sample scan data of DashboardController, and `LocalDateTime.now()` are all parameters.
- Calendar dates are not rendered. Time is a count of seconds.
  - The dashboard's last scan date is a day number.
  - A scan view omits its date and keeps its `HH:mm` time.
  - A generated report's title takes the date text as a parameter.
- Constant or mock payloads: trends, performance metrics, monthly mock data, fallback predictions and user settings.
- The expert dashboard statistics of DashboardController are computed from repository counts, but that endpoint is outside the modelled core.
- Thin wrappers: AnalyticsController, ReportsController and NotificationController forward to the services that are modelled.
- Missing entities: Notification.java, OtpEntity.java and AgriStore.java are not part of this model. A new notification is taken to be unread and stamped with the creation time. A new OTP starts with zero attempts and unverified. A new store starts active.
- Scans.MostCommonDisease: returns some disease of highest count. SQL leaves the order among tied counts unspecified, so the model does not say which tied disease is returned.
- Lists.Sort: rows with equal keys keep their insertion order. SQL leaves that order unspecified.
- Lists.Paginate: the page count is not stated in its own contract. Lists.PageCount states it.
- Reports.AnalyticsFor: counts are unbounded. The `(int)` casts of `long` counts would wrap only beyond 2^31 scans, and that wrap-around is not modelled. The same holds for the response counts listed by Workflow.ExpertQueries.
- Text.ParseLong: accepts ASCII digits only. Java's `Long.parseLong` also accepts other Unicode decimal digits.
- Case mapping (`toLowerCase`, `toUpperCase`, `equalsIgnoreCase`) is ASCII only. Java's locale-sensitive and Unicode cases are not modelled.
- Markdown.NumberText: `\d` is read as an ASCII digit. Python's `str` patterns also match other Unicode decimal digits.
- Scans.LowerCaseHealthyIsDiseased: string equality in the queries is decided by the database collation. The model assumes a case-sensitive (binary) one. Under MySQL's default case-insensitive collation, "healthy" would count as healthy in the repository counts.
- Queries.UrgencyRankCaseSensitive: the `CASE q.urgency` rank assumes a case-sensitive collation too. Under a case-insensitive one, "Critical" and "HIGH" would rank first and second.
- Accounts.FindByUsername: returns the first matching user. Spring Data fails when several users share a username, and the model does not show that failure. Sign-up, seeding and the administrator operations all keep usernames unique, so no modelled table reaches it.
- Lists.First: as a repository lookup it stands only for `findByUsername`; see the line above. Its other use, the weekly report search, is a stream `findFirst`, which is the first match exactly.
- Text.Utf16Length: the model's characters are Unicode scalar values. An unpaired surrogate, which a Java string can hold, is not modelled.
- Scans.ReviewScan: the review body is a typed record where Java reads a `Map<String, Object>`. A note or status that is not a JSON string, and a fractional rating, fail their casts in Java and answer with a server error, with nothing saved. The model cannot express such values. A whole-number rating outside Java's `int` range is modelled.
- Accounts.UpdateProfile: the same holds for a full name or mobile that is not a JSON string. A `null` mobile passes the in-use check in Java and then fails the save's `@NotBlank`. The model has no `null` inside a present key, so it does not show that path.
- Scans.CreateScan: the same holds for scan fields that are not JSON strings and for a confidence that is not a JSON number. Each fails its cast in Java and answers with a server error.
- Admin.Approve: the save does not re-check the entity's constraints on the changed row. A stored row that broke them would make Java's save fail with an error, while the model records the decision.
- Admin.Reject: the same holds as for Admin.Approve.
- Admin.Suspend: the same holds as for Admin.Approve.

=== FILE: accounts.dfy ===
/** The users table and the account operations around it: lookups
    (UserRepository, UserDetailsServiceImpl.java), sign-up and sign-in
    (AuthController.java), start-up seeding (DataInitializer.java) and the
    profile and password endpoints (UserController.java). A user's id is its
    position in the table; users are never deleted. */
module Accounts {
  import opened Wrappers
  import opened Text
  import opened Lists
  import opened Users
  import opened Requests
  import Email

  predicate WellFormed(users: seq<User>) {
    forall i | 0 <= i < |users| :: users[i].id == i
  }

  predicate UniqueUsernames(users: seq<User>) {
    forall i, j | 0 <= i < j < |users| :: users[i].username != users[j].username
  }

  predicate UniqueMobiles(users: seq<User>) {
    forall i, j | 0 <= i < j < |users| :: users[i].mobile != users[j].mobile
  }

  /** Every user's `isVerified` agrees with its status. */
  predicate AllConsistent(users: seq<User>) {
    forall i | 0 <= i < |users| :: VerificationConsistent(users[i])
  }

  /** `existsByUsername`: some row holds the name, which is to say the
      rows counted by that name are not zero. */
  function UsernameTaken(users: seq<User>, name: string): (ok: bool)
    ensures ok <==> Count(users, (u: User) => u.username == name) > 0
  {
    CountZero(users, (u: User) => u.username == name);
    exists i | 0 <= i < |users| :: users[i].username == name
  }

  /** `existsByMobile`: some row holds the mobile, which is to say the rows
      counted by that mobile are not zero. */
  function MobileTaken(users: seq<User>, mobile: string): (ok: bool)
    ensures ok <==> Count(users, (u: User) => u.mobile == mobile) > 0
  {
    CountZero(users, (u: User) => u.mobile == mobile);
    exists i | 0 <= i < |users| :: users[i].mobile == mobile
  }

  /** `findByUsername`, as the first user with that name. Spring Data
      fails when several users share it; `FindByUsernameIsSingle` shows the
      two agree on every table whose usernames are unique, which sign-up,
      seeding and the administrator operations all keep. */
  function FindByUsername(users: seq<User>, name: string): (r: Option<nat>)
    ensures r.Some? ==> r.value < |users| && users[r.value].username == name
    ensures r.Some? ==> forall j | 0 <= j < r.value :: users[j].username != name
    ensures r.None? <==> !UsernameTaken(users, name)
  {
    First(users, (u: User) => u.username == name)
  }

  /** On a table with unique usernames, the first-match lookup is the
      single-result query: it finds the one holder, or none, and never
      meets several. */
  lemma FindByUsernameIsSingle(users: seq<User>, name: string)
    requires UniqueUsernames(users)
    ensures var q := Single(users, (u: User) => u.username == name);
            q != ManyMatches
            && (FindByUsername(users, name).None? <==> q == NoMatch)
            && (FindByUsername(users, name).Some? ==> q == OneMatch(FindByUsername(users, name).value))
  {
  }

  /** `findByMobile`. Mobiles carry no unique constraint, and start-up
      seeding can repeat one, so several holders make this single-result
      query fail. */
  function FindByMobile(users: seq<User>, mobile: string): (r: Match)
    ensures r.OneMatch? ==> r.index < |users| && users[r.index].mobile == mobile
    ensures r.OneMatch? ==> forall j | 0 <= j < |users| && j != r.index :: users[j].mobile != mobile
    ensures r == NoMatch <==> !MobileTaken(users, mobile)
    ensures r == ManyMatches <==> exists i, j | 0 <= i < j < |users| :: users[i].mobile == mobile && users[j].mobile == mobile
  {
    Single(users, (u: User) => u.mobile == mobile)
  }

  /** Why `loadUserByUsername` throws: no user matches, or the mobile lookup
      failed on several holders. */
  datatype LookupError = NoSuchUser | SharedMobile

  /** `loadUserByUsername`: the identifier is tried as a mobile number first
      and as a username only when no user has that mobile. A mobile held by
      several users makes the first lookup throw, so the username is never
      tried. */
  function LoadUserByUsername(users: seq<User>, identifier: string): (r: Result<nat, LookupError>)
    ensures r.Ok? ==> r.value < |users|
    ensures r.Ok? && MobileTaken(users, identifier) ==> users[r.value].mobile == identifier
    ensures r.Ok? && !MobileTaken(users, identifier) ==> users[r.value].username == identifier
    ensures r == Err(SharedMobile) <==> exists i, j | 0 <= i < j < |users| :: users[i].mobile == identifier && users[j].mobile == identifier
    ensures r == Err(NoSuchUser) <==> !MobileTaken(users, identifier) && !UsernameTaken(users, identifier)
  {
    match FindByMobile(users, identifier)
    case OneMatch(i) => Ok(i)
    case ManyMatches => Err(SharedMobile)
    case NoMatch =>
      match FindByUsername(users, identifier)
      case Some(i) => Ok(i)
      case None => Err(NoSuchUser)
  }

  /** `loadUserByMobile`: mobile numbers only. */
  function LoadUserByMobile(users: seq<User>, mobile: string): (r: Result<nat, LookupError>)
    ensures r.Ok? ==> r.value < |users| && users[r.value].mobile == mobile
    ensures r.Ok? ==> forall j | 0 <= j < |users| && j != r.value :: users[j].mobile != mobile
    ensures r == Err(NoSuchUser) <==> !MobileTaken(users, mobile)
    ensures r == Err(SharedMobile) <==> exists i, j | 0 <= i < j < |users| :: users[i].mobile == mobile && users[j].mobile == mobile
  {
    match FindByMobile(users, mobile)
    case OneMatch(i) => Ok(i)
    case ManyMatches => Err(SharedMobile)
    case NoMatch => Err(NoSuchUser)
  }

  /** With unique mobiles, a user's mobile resolves to that user, even when
      the same string is another user's username. */
  lemma MobileResolvesToOwner(users: seq<User>, s: string, i: nat)
    requires UniqueMobiles(users)
    requires i < |users| && users[i].mobile == s
    ensures LoadUserByUsername(users, s) == Ok(i)
  {
    assert MobileTaken(users, s);
  }

  /** `loadUserByMobile` never consults usernames: two tables whose users
      have the same mobiles give the same answer. */
  lemma LoadByMobileIgnoresUsernames(users: seq<User>, renamed: seq<User>, mobile: string)
    requires |users| == |renamed|
    requires forall i | 0 <= i < |users| :: users[i].mobile == renamed[i].mobile
    ensures LoadUserByMobile(users, mobile) == LoadUserByMobile(renamed, mobile)
  {
    var p := (u: User) => u.mobile == mobile;
    SingleDependsOnMatches(users, renamed, p, p);
  }

  // ---------------------------------------------------------------- sign-up

  datatype SignupError = SignupInvalid | UsernameInUse | MobileInUse | SpecializationRequired | SignupRejectedOnSave

  datatype Registration = Registration(users: seq<User>, id: nat, mail: Option<Email.Mail>)

  /** The username a sign-up stores: the given one, or "user_" + mobile when
      it is missing or blank. */
  function SignupUsername(req: SignupRequest): (r: string)
    ensures HasText(req.username) ==> r == req.username.value
    ensures !HasText(req.username) ==> r == "user_" + req.mobile.GetOr("")
  {
    if req.username.None? || IsBlank(req.username.value) then "user_" + req.mobile.GetOr("")
    else req.username.value
  }

  /** The role named by the request, when it is present, non-empty and a
      valid name after upper-casing; otherwise the default applies. */
  function RequestedRole(req: SignupRequest): (r: Option<Role>)
    ensures r.Some? ==> req.role.Some? && RoleName(r.value) == ToUpper(req.role.value)
    ensures req.role.None? || req.role.value == [] ==> r.None?
  {
    if req.role.Some? && req.role.value != [] then RoleFromName(ToUpper(req.role.value)) else None
  }

  /** The entity `registerUser` builds for a valid request, before the save:
      an expert needs a specialization and is stored unverified and PENDING;
      every other role drops the specialization and is verified and
      APPROVED. The save rejects an entity that breaks its column
      constraints. */
  function SignupEntity(id: nat, req: SignupRequest, encoded: PasswordHash, now: nat): (r: Result<User, SignupError>)
    requires ValidSignup(req)
    ensures r.Err? ==> r.error == SpecializationRequired || r.error == SignupRejectedOnSave
    ensures r == Err(SpecializationRequired) <==> RequestedRole(req) == Some(EXPERT) && !HasText(req.specialization)
    ensures r.Ok? ==> var u := r.value;
                      u.id == id && u.username == SignupUsername(req) && u.mobile == req.mobile.value
                      && u.password == encoded && u.fullName == req.fullName && u.enabled
                      && VerificationConsistent(u) && EntityConstraints(u)
                      && u.role == RequestedRole(req).GetOr(USER)
                      && (HasText(req.email) ==> u.email == Some(Trim(req.email.value)))
                      && (!HasText(req.email) ==> u.email.None?)
                      && u.verificationDocument.None?
  {
    var withEmail := SignupBase(id, req, encoded, now);
    var requested := RequestedRole(req);
    if requested == Some(EXPERT) && !HasText(req.specialization) then Err(SpecializationRequired)
    else
      var u :=
        if requested == Some(EXPERT) then withEmail.(role := EXPERT, isVerified := false, verificationStatus := PENDING)
        else withEmail.(role := requested.GetOr(USER), specialization := None, isVerified := true, verificationStatus := APPROVED);
      if !EntityConstraints(u) then Err(SignupRejectedOnSave) else Ok(u)
  }

  /** `registerUser`. `encoded` is the encoder's hash of the password,
      `documentPath` the outcome of storing the verification document (None
      when that fails) and `template` the pending-mail template, if loaded. */
  function Register(users: seq<User>, req: SignupRequest, encoded: PasswordHash, documentPath: Option<string>, template: Option<string>, now: nat): (r: Result<Registration, SignupError>)
    ensures r == Err(SignupInvalid) <==> !ValidSignup(req)
    ensures ValidSignup(req) && UsernameTaken(users, SignupUsername(req)) ==> r == Err(UsernameInUse)
    ensures r.Ok? ==> !UsernameTaken(users, SignupUsername(req)) && !MobileTaken(users, req.mobile.value)
    ensures r.Ok? ==> |r.value.users| == |users| + 1 && r.value.users[..|users|] == users && r.value.id == |users|
    ensures r.Ok? ==> var u := r.value.users[|users|];
                      u.id == |users| && u.username == SignupUsername(req) && u.mobile == req.mobile.value
                      && u.password == encoded && u.fullName == req.fullName && u.enabled
                      && VerificationConsistent(u) && EntityConstraints(u)
    ensures r.Ok? ==> (r.value.mail.Some? ==> r.value.users[|users|].role == EXPERT)
  {
    if !ValidSignup(req) then Err(SignupInvalid)
    else if UsernameTaken(users, SignupUsername(req)) then Err(UsernameInUse)
    else if MobileTaken(users, req.mobile.value) then Err(MobileInUse)
    else match SignupEntity(|users|, req, encoded, now)
      case Err(e) => Err(e)
      case Ok(u) =>
        var stored :=
          if u.role == EXPERT && HasText(req.verificationDocument) && documentPath.Some?
          then u.(verificationDocument := documentPath) else u;
        var mail :=
          if u.role == EXPERT then Email.Send(Email.ExpertPending, u.email, Some(u.fullName.GetOr(u.username)), template)
          else None;
        Ok(Registration(users + [stored], |users|, mail))
  }

  /** An expert sign-up (the role named in any letter case) without a
      specialization is refused. */
  lemma SignupExpertNeedsSpecialization(users: seq<User>, req: SignupRequest, encoded: PasswordHash, documentPath: Option<string>, template: Option<string>, now: nat)
    requires ValidSignup(req)
    requires !UsernameTaken(users, SignupUsername(req)) && !MobileTaken(users, req.mobile.value)
    requires RequestedRole(req) == Some(EXPERT) && !HasText(req.specialization)
    ensures Register(users, req, encoded, documentPath, template, now) == Err(SpecializationRequired)
  {
  }

  /** An expert with a specialization is stored unverified and PENDING and
      keeps the specialization. */
  lemma SignupExpertPending(users: seq<User>, req: SignupRequest, encoded: PasswordHash, documentPath: Option<string>, template: Option<string>, now: nat)
    requires ValidSignup(req)
    requires !UsernameTaken(users, SignupUsername(req)) && !MobileTaken(users, req.mobile.value)
    requires Utf16Length(encoded) <= 255 && !IsBlank(encoded)
    requires RequestedRole(req) == Some(EXPERT) && HasText(req.specialization)
    ensures var r := Register(users, req, encoded, documentPath, template, now);
            r.Ok? && r.value.users[|users|].role == EXPERT && !r.value.users[|users|].isVerified
            && r.value.users[|users|].verificationStatus == PENDING
            && r.value.users[|users|].specialization == req.specialization
  {
    SignupSavesValidEntity(users, req, encoded, documentPath, template, now);
  }

  /** Every other valid role, ADMIN included, and a missing or unknown role
      are stored verified and APPROVED, without specialization and without
      a mail. */
  lemma SignupOthersApproved(users: seq<User>, req: SignupRequest, encoded: PasswordHash, documentPath: Option<string>, template: Option<string>, now: nat)
    requires ValidSignup(req)
    requires !UsernameTaken(users, SignupUsername(req)) && !MobileTaken(users, req.mobile.value)
    requires Utf16Length(encoded) <= 255 && !IsBlank(encoded)
    requires RequestedRole(req) != Some(EXPERT)
    ensures var r := Register(users, req, encoded, documentPath, template, now);
            r.Ok? && r.value.users[|users|].role == RequestedRole(req).GetOr(USER)
            && r.value.users[|users|].isVerified && r.value.users[|users|].verificationStatus == APPROVED
            && r.value.users[|users|].specialization.None? && r.value.mail.None?
  {
    SignupSavesValidEntity(users, req, encoded, documentPath, template, now);
  }

  /** A request that passed validation always satisfies the entity's own
      constraints, so the save never rejects a sign-up (given a well-formed
      hash). */
  lemma SignupSavesValidEntity(users: seq<User>, req: SignupRequest, encoded: PasswordHash, documentPath: Option<string>, template: Option<string>, now: nat)
    requires ValidSignup(req)
    requires Utf16Length(encoded) <= 255 && !IsBlank(encoded)
    ensures Register(users, req, encoded, documentPath, template, now) != Err(SignupRejectedOnSave)
  {
    if !UsernameTaken(users, SignupUsername(req)) && !MobileTaken(users, req.mobile.value) {
      EntityPassesSave(|users|, req, encoded, now);
      match SignupEntity(|users|, req, encoded, now)
      case Err(e) => assert e == SpecializationRequired;
      case Ok(u) =>
    }
  }

  /** The entity built from a valid request meets every column constraint. */
  lemma EntityPassesSave(id: nat, req: SignupRequest, encoded: PasswordHash, now: nat)
    requires ValidSignup(req)
    requires Utf16Length(encoded) <= 255 && !IsBlank(encoded)
    ensures SignupEntity(id, req, encoded, now) != Err(SignupRejectedOnSave)
  {
    var withEmail := SignupBase(id, req, encoded, now);
    BaseFits(id, req, encoded, now);
    var requested := RequestedRole(req);
    if requested == Some(EXPERT) {
      assert EntityConstraints(withEmail.(role := EXPERT, isVerified := false, verificationStatus := PENDING));
    } else {
      assert EntityConstraints(withEmail.(role := requested.GetOr(USER), specialization := None, isVerified := true, verificationStatus := APPROVED));
    }
  }

  /** The user `registerUser` fills in from the request, before the role
      decides verification. */
  function SignupBase(id: nat, req: SignupRequest, encoded: PasswordHash, now: nat): User
    requires ValidSignup(req)
  {
    var base := ConstructUser(id, SignupUsername(req), req.mobile.value, encoded, req.fullName, req.specialization, now);
    if HasText(req.email) then base.(email := Some(Trim(req.email.value))) else base
  }

  /** The fields taken from a valid request fit their columns. */
  lemma BaseFits(id: nat, req: SignupRequest, encoded: PasswordHash, now: nat)
    requires ValidSignup(req)
    requires Utf16Length(encoded) <= 255 && !IsBlank(encoded)
    ensures EntityConstraints(SignupBase(id, req, encoded, now))
  {
    SignupUsernameFits(req);
    if HasText(req.email) {
      TrimFits(req.email.value);
    }
  }

  /** The stored username is never blank and fits its column. */
  lemma SignupUsernameFits(req: SignupRequest)
    requires ValidSignup(req)
    ensures !IsBlank(SignupUsername(req)) && Utf16Length(SignupUsername(req)) <= 50
  {
    var username := SignupUsername(req);
    if !HasText(req.username) {
      assert username[0] == 'u';
      CharsetLength(req.mobile.value);
      Utf16LengthAppend("user_", req.mobile.value);
    }
  }

  /** Trimming never lengthens a string, in code units either. */
  lemma TrimFits(s: string)
    ensures Utf16Length(Trim(s)) <= Utf16Length(s)
  {
    Utf16LengthContains(s, Trim(s));
  }

  /** The e-mail is stored trimmed, and only when it has text. */
  lemma SignupStoresTrimmedEmail(users: seq<User>, req: SignupRequest, encoded: PasswordHash, documentPath: Option<string>, template: Option<string>, now: nat)
    requires Register(users, req, encoded, documentPath, template, now).Ok?
    ensures var u := Register(users, req, encoded, documentPath, template, now).value.users[|users|];
            (HasText(req.email) ==> u.email == Some(Trim(req.email.value)))
            && (!HasText(req.email) ==> u.email.None?)
  {
  }

  /** Failing to store the verification document does not fail the sign-up:
      the outcome is the same except for the stored document path. */
  lemma DocumentFailureHarmless(users: seq<User>, req: SignupRequest, encoded: PasswordHash, path: string, template: Option<string>, now: nat)
    ensures var failed := Register(users, req, encoded, None, template, now);
            var saved := Register(users, req, encoded, Some(path), template, now);
            failed.Ok? <==> saved.Ok?
    ensures var failed := Register(users, req, encoded, None, template, now);
            var saved := Register(users, req, encoded, Some(path), template, now);
            failed.Ok? ==> failed.value.users[|users|].verificationDocument.None?
                           && saved.value.users[|users|].(verificationDocument := None) == failed.value.users[|users|]
                           && saved.value.mail == failed.value.mail
  {
  }

  /** An expert sign-up asks for the pending mail exactly when an e-mail
      with text was given. */
  lemma ExpertSignupMail(users: seq<User>, req: SignupRequest, encoded: PasswordHash, documentPath: Option<string>, template: Option<string>, now: nat)
    requires Register(users, req, encoded, documentPath, template, now).Ok?
    requires Register(users, req, encoded, documentPath, template, now).value.users[|users|].role == EXPERT
    ensures var reg := Register(users, req, encoded, documentPath, template, now).value;
            (reg.mail.Some? <==> HasText(req.email))
            && (reg.mail.Some? ==> reg.mail.value.to == Trim(req.email.value))
  {
    RegisteredEntity(users, req, encoded, documentPath, template, now);
    var u := SignupEntity(|users|, req, encoded, now).value;
    if HasText(req.email) {
      TrimHasText(req.email.value);
    }
  }

  /** A successful sign-up stores the entity built from the request, with
      the mail that entity calls for. */
  lemma RegisteredEntity(users: seq<User>, req: SignupRequest, encoded: PasswordHash, documentPath: Option<string>, template: Option<string>, now: nat)
    requires Register(users, req, encoded, documentPath, template, now).Ok?
    ensures ValidSignup(req) && SignupEntity(|users|, req, encoded, now).Ok?
    ensures var u := SignupEntity(|users|, req, encoded, now).value;
            var reg := Register(users, req, encoded, documentPath, template, now).value;
            reg.users[|users|].role == u.role
            && reg.mail == if u.role == EXPERT then Email.Send(Email.ExpertPending, u.email, Some(u.fullName.GetOr(u.username)), template) else None
  {
  }

  /** A string with text still has text after trimming. */
  lemma TrimHasText(e: string)
    requires !IsBlank(e)
    ensures HasText(Some(Trim(e)))
  {
    var t := Trim(e);
    assert !IsSpace(t[0]);
  }

  /** Sign-up keeps the table well indexed, usernames and mobiles unique,
      and the verification flags consistent. */
  lemma RegisterPreservesInvariants(users: seq<User>, req: SignupRequest, encoded: PasswordHash, documentPath: Option<string>, template: Option<string>, now: nat)
    requires WellFormed(users) && UniqueUsernames(users) && UniqueMobiles(users) && AllConsistent(users)
    requires Register(users, req, encoded, documentPath, template, now).Ok?
    ensures var after := Register(users, req, encoded, documentPath, template, now).value.users;
            WellFormed(after) && UniqueUsernames(after) && UniqueMobiles(after) && AllConsistent(after)
  {
    var after := Register(users, req, encoded, documentPath, template, now).value.users;
    var u := after[|users|];
    assert after == after[..|users|] + [u];
    AppendPreservesInvariants(users, u);
  }

  /** Adding a user under the next id, with a fresh username and mobile and
      consistent flags, keeps every table invariant. */
  lemma AppendPreservesInvariants(users: seq<User>, u: User)
    requires WellFormed(users) && UniqueUsernames(users) && UniqueMobiles(users) && AllConsistent(users)
    requires u.id == |users| && VerificationConsistent(u)
    requires !UsernameTaken(users, u.username) && !MobileTaken(users, u.mobile)
    ensures var after := users + [u];
            WellFormed(after) && UniqueUsernames(after) && UniqueMobiles(after) && AllConsistent(after)
  {
    var after := users + [u];
    forall i, j | 0 <= i < j < |after|
      ensures after[i].username != after[j].username && after[i].mobile != after[j].mobile
    {
      if j == |users| {
        assert after[i] == users[i];
      }
    }
  }

  // ---------------------------------------------------------------- sign-in

  datatype SignInError = SignInInvalid | BadCredentials | ExpertAwaitingApproval | ExpertRejected | ExpertSuspended

  /** The body of the JWT response. */
  datatype Session = Session(token: string, id: nat, username: string, mobile: string, fullName: Option<string>, role: string)

  /** `authenticateUser`. The identifier in the mobile field is resolved by
      `LoadUserByUsername`; `matches` is the password encoder's check and
      `token` the JWT the token utility would issue. Every authentication
      failure, a failed lookup included, is the same "invalid mobile number
      or password" error. */
  function SignIn(users: seq<User>, req: LoginRequest, matches: (string, PasswordHash) -> bool, token: string): (r: Result<Session, SignInError>)
    ensures r == Err(SignInInvalid) <==> !ValidLogin(req)
    ensures r.Ok? ==> var i := LoadUserByUsername(users, req.mobile.value);
                      i.Ok? && r.value.id == users[i.value].id
                      && users[i.value].enabled && matches(req.password.value, users[i.value].password)
                      && (users[i.value].role == EXPERT ==> users[i.value].verificationStatus == APPROVED)
                      && r.value.role == RoleName(users[i.value].role) && r.value.token == token
    ensures ValidLogin(req) && LoadUserByUsername(users, req.mobile.value).Err? ==> r == Err(BadCredentials)
  {
    if !ValidLogin(req) then Err(SignInInvalid)
    else match LoadUserByUsername(users, req.mobile.value)
      case Err(_) => Err(BadCredentials)
      case Ok(i) =>
        var u := users[i];
        if !AccountUsable(u) || !matches(req.password.value, u.password) then Err(BadCredentials)
        else if u.role == EXPERT && u.verificationStatus == PENDING then Err(ExpertAwaitingApproval)
        else if u.role == EXPERT && u.verificationStatus == REJECTED then Err(ExpertRejected)
        else if u.role == EXPERT && u.verificationStatus == SUSPENDED then Err(ExpertSuspended)
        else Ok(Session(token, u.id, u.username, u.mobile, u.fullName, RoleName(u.role)))
  }

  /** A mobile held by two users signs nobody in: whatever the password,
      the answer is the generic credentials error. */
  lemma SharedMobileSignsNobodyIn(users: seq<User>, req: LoginRequest, matches: (string, PasswordHash) -> bool, token: string, i: nat, j: nat)
    requires ValidLogin(req)
    requires i < j < |users| && users[i].mobile == req.mobile.value && users[j].mobile == req.mobile.value
    ensures SignIn(users, req, matches, token) == Err(BadCredentials)
  {
    assert LoadUserByUsername(users, req.mobile.value) == Err(SharedMobile);
  }

  /** The expert gate: with correct credentials an expert signs in exactly
      when APPROVED, each other status giving its own error; an account of
      any other role signs in whatever its verification status. */
  lemma SignInExpertGate(users: seq<User>, req: LoginRequest, matches: (string, PasswordHash) -> bool, token: string)
    requires ValidLogin(req)
    requires LoadUserByUsername(users, req.mobile.value).Ok?
    requires var u := users[LoadUserByUsername(users, req.mobile.value).value];
             u.enabled && matches(req.password.value, u.password)
    ensures var u := users[LoadUserByUsername(users, req.mobile.value).value];
            var r := SignIn(users, req, matches, token);
            && (u.role != EXPERT ==> r.Ok?)
            && (u.role == EXPERT ==> (r.Ok? <==> u.verificationStatus == APPROVED))
            && (u.role == EXPERT && u.verificationStatus == PENDING ==> r == Err(ExpertAwaitingApproval))
            && (u.role == EXPERT && u.verificationStatus == REJECTED ==> r == Err(ExpertRejected))
            && (u.role == EXPERT && u.verificationStatus == SUSPENDED ==> r == Err(ExpertSuspended))
  {
  }

  // ---------------------------------------------------------------- seeding

  /** Inserts `u` under the next id unless its username is taken. */
  function SeedOne(users: seq<User>, u: User): (r: seq<User>)
    ensures UsernameTaken(users, u.username) ==> r == users
    ensures !UsernameTaken(users, u.username) ==> r == users + [u.(id := |users|)]
  {
    if UsernameTaken(users, u.username) then users else users + [u.(id := |users|)]
  }

  function SeedAdmin(hash: PasswordHash, now: nat): User {
    NewUser(0, now).(username := "admin", mobile := "9999999999", password := hash,
                     fullName := Some("System Administrator"), role := ADMIN, enabled := true,
                     isVerified := true, verificationStatus := APPROVED)
  }

  function SeedExpert(hash: PasswordHash, now: nat): User {
    NewUser(0, now).(username := "expert_test", mobile := "8888888888", password := hash,
                     fullName := Some("Dr. Test Expert"), role := EXPERT,
                     specialization := Some("Plant Pathology"), enabled := true,
                     isVerified := false, verificationStatus := PENDING, licenseNumber := Some("EXP-2024-001"))
  }

  /** The farmer is given a role and `enabled` but no verification fields,
      so it keeps the entity defaults. */
  function SeedFarmer(hash: PasswordHash, now: nat): User {
    NewUser(0, now).(username := "farmer_test", mobile := "7777777777", password := hash,
                     fullName := Some("Test Farmer"), role := USER, enabled := true)
  }

  /** The start-up seeding: admin, expert_test and farmer_test, each only
      when its username is absent. Mobiles are not checked. */
  function Seed(users: seq<User>, adminHash: PasswordHash, expertHash: PasswordHash, farmerHash: PasswordHash, now: nat): (r: seq<User>)
    ensures |users| <= |r| <= |users| + 3 && r[..|users|] == users
    ensures UsernameTaken(r, "admin") && UsernameTaken(r, "expert_test") && UsernameTaken(r, "farmer_test")
  {
    var ua, ue, uf := SeedAdmin(adminHash, now), SeedExpert(expertHash, now), SeedFarmer(farmerHash, now);
    SeedNames(ua, ue, uf, adminHash, expertHash, farmerHash, now);
    var a := SeedOne(users, ua);
    var b := SeedOne(a, ue);
    var c := SeedOne(b, uf);
    SeedOneAdds(users, ua);
    SeedOneAdds(a, ue);
    SeedOneAdds(b, uf);
    SeedOneTakenStable(a, ue, "admin");
    SeedOneTakenStable(b, uf, "admin");
    SeedOneTakenStable(b, uf, "expert_test");
    PrefixOfPrefix(users, a, b, c);
    c
  }

  lemma SeedNames(ua: User, ue: User, uf: User, adminHash: PasswordHash, expertHash: PasswordHash, farmerHash: PasswordHash, now: nat)
    requires ua == SeedAdmin(adminHash, now) && ue == SeedExpert(expertHash, now) && uf == SeedFarmer(farmerHash, now)
    ensures ua.username == "admin" && ue.username == "expert_test" && uf.username == "farmer_test"
  {
  }

  lemma PrefixOfPrefix(users: seq<User>, a: seq<User>, b: seq<User>, c: seq<User>)
    requires |users| <= |a| && a[..|users|] == users
    requires |a| <= |b| && b[..|a|] == a
    requires |b| <= |c| && c[..|b|] == b
    ensures c[..|users|] == users
  {
    assert c[..|users|] == c[..|b|][..|a|][..|users|];
  }

  /** After `SeedOne` the username is present and the earlier users are
      unchanged. */
  lemma SeedOneAdds(users: seq<User>, u: User)
    ensures UsernameTaken(SeedOne(users, u), u.username)
    ensures |users| <= |SeedOne(users, u)| <= |users| + 1 && SeedOne(users, u)[..|users|] == users
  {
    if !UsernameTaken(users, u.username) {
      assert SeedOne(users, u)[|users|].username == u.username;
    }
  }

  lemma SeedOneTakenStable(users: seq<User>, u: User, name: string)
    requires UsernameTaken(users, name)
    ensures UsernameTaken(SeedOne(users, u), name)
  {
    var i :| 0 <= i < |users| && users[i].username == name;
    assert SeedOne(users, u)[i] == users[i];
  }

  /** A second run of the seeding creates nothing. */
  lemma SeedIdempotent(users: seq<User>, h1: PasswordHash, h2: PasswordHash, h3: PasswordHash, now: nat, g1: PasswordHash, g2: PasswordHash, g3: PasswordHash, later: nat)
    ensures var once := Seed(users, h1, h2, h3, now);
            Seed(once, g1, g2, g3, later) == once
  {
    var once := Seed(users, h1, h2, h3, now);
    assert UsernameTaken(once, "admin") && UsernameTaken(once, "expert_test") && UsernameTaken(once, "farmer_test");
  }

  /** On an empty table the seeding creates an ADMIN that is verified and
      APPROVED, an EXPERT that is unverified, PENDING and licensed, and a
      USER that keeps the entity defaults (unverified and PENDING). */
  lemma SeedOnEmptyTable(h1: PasswordHash, h2: PasswordHash, h3: PasswordHash, now: nat)
    ensures var r := Seed([], h1, h2, h3, now);
            |r| == 3 && WellFormed(r) && AllConsistent(r)
            && r[0].username == "admin" && r[0].role == ADMIN && r[0].isVerified && r[0].verificationStatus == APPROVED
            && r[1].username == "expert_test" && r[1].role == EXPERT && !r[1].isVerified
            && r[1].verificationStatus == PENDING && r[1].licenseNumber == Some("EXP-2024-001")
            && r[2].username == "farmer_test" && HasEntityDefaults(r[2])
  {
    var a := SeedOne([], SeedAdmin(h1, now));
    assert !UsernameTaken([], "admin");
    assert a == [SeedAdmin(h1, now).(id := 0)];
    assert !UsernameTaken(a, "expert_test");
    var b := SeedOne(a, SeedExpert(h2, now));
    assert b == a + [SeedExpert(h2, now).(id := 1)];
    assert !UsernameTaken(b, "farmer_test") by {
      assert b[0].username == "admin" && b[1].username == "expert_test";
    }
  }

  /** Seeding looks at usernames only: a table whose only user already has
      the admin's mobile ends up with that mobile twice. */
  lemma SeedIgnoresMobile(other: User, h1: PasswordHash, h2: PasswordHash, h3: PasswordHash, now: nat)
    requires other.id == 0 && other.username == "someone" && other.mobile == "9999999999"
    ensures var r := Seed([other], h1, h2, h3, now);
            |r| == 4 && r[0].mobile == r[1].mobile && !UniqueMobiles(r)
  {
    var users := [other];
    assert !UsernameTaken(users, "admin");
    var a := SeedOne(users, SeedAdmin(h1, now));
    assert !UsernameTaken(a, "expert_test") by {
      assert a[0].username == "someone" && a[1].username == "admin";
    }
    var b := SeedOne(a, SeedExpert(h2, now));
    assert !UsernameTaken(b, "farmer_test") by {
      assert b[0].username == "someone" && b[1].username == "admin" && b[2].username == "expert_test";
    }
  }

  /** Seeding keeps the table well indexed, usernames unique and the
      verification flags consistent. */
  lemma SeedPreservesInvariants(users: seq<User>, h1: PasswordHash, h2: PasswordHash, h3: PasswordHash, now: nat)
    requires WellFormed(users) && UniqueUsernames(users) && AllConsistent(users)
    ensures var r := Seed(users, h1, h2, h3, now);
            WellFormed(r) && UniqueUsernames(r) && AllConsistent(r)
  {
    var a := SeedOne(users, SeedAdmin(h1, now));
    SeedOnePreserves(users, SeedAdmin(h1, now));
    var b := SeedOne(a, SeedExpert(h2, now));
    SeedOnePreserves(a, SeedExpert(h2, now));
    SeedOnePreserves(b, SeedFarmer(h3, now));
  }

  lemma SeedOnePreserves(users: seq<User>, u: User)
    requires WellFormed(users) && UniqueUsernames(users) && AllConsistent(users)
    requires VerificationConsistent(u)
    ensures var r := SeedOne(users, u);
            WellFormed(r) && UniqueUsernames(r) && AllConsistent(r)
  {
    if !UsernameTaken(users, u.username) {
      var r := SeedOne(users, u);
      forall i | 0 <= i < |users|
        ensures r[i].username != u.username
      {
        assert r[i] == users[i];
      }
    }
  }

  // ---------------------------------------------------------------- profile

  /** The JSON map of a profile update: `None` when the key is absent; a
      present `fullName` may be null. */
  datatype ProfileUpdate = ProfileUpdate(fullName: Option<Option<string>>, mobile: Option<string>)

  datatype ProfileError = ProfileNotAuthenticated | MobileAlreadyInUse | ProfileRejectedOnSave

  /** Replaces the user at position `i`. */
  function Put(users: seq<User>, i: nat, u: User): (r: seq<User>)
    requires i < |users|
    ensures |r| == |users| && r[i] == u
    ensures forall j | 0 <= j < |users| && j != i :: r[j] == users[j]
  {
    users[i := u]
  }

  /** The caller's row with the keys of the update applied, before the save. */
  function Applied(u: User, update: ProfileUpdate): (v: User)
    ensures update.fullName.Some? ==> v.fullName == update.fullName.value
    ensures update.fullName.None? ==> v.fullName == u.fullName
    ensures update.mobile.Some? ==> v.mobile == update.mobile.value
    ensures update.mobile.None? ==> v.mobile == u.mobile
    ensures v.(fullName := u.fullName, mobile := u.mobile) == u
  {
    var named := if update.fullName.Some? then u.(fullName := update.fullName.value) else u;
    if update.mobile.Some? then named.(mobile := update.mobile.value) else named
  }

  /** `updateUserProfile` for the authenticated user `caller`. The save
      flushes the row, stamping `updatedAt` and checking the entity's
      constraints, only when a column changed. */
  function UpdateProfile(users: seq<User>, caller: Option<nat>, update: ProfileUpdate, now: nat): (r: Result<seq<User>, ProfileError>)
    requires caller.Some? ==> caller.value < |users|
    ensures caller.None? ==> r == Err(ProfileNotAuthenticated)
    ensures r.Ok? ==> |r.value| == |users| && forall j | 0 <= j < |users| && j != caller.value :: r.value[j] == users[j]
    ensures r.Ok? ==> var u := r.value[caller.value];
                      (update.fullName.Some? ==> u.fullName == update.fullName.value)
                      && (update.fullName.None? ==> u.fullName == users[caller.value].fullName)
                      && (update.mobile.Some? ==> u.mobile == update.mobile.value)
                      && (update.mobile.None? ==> u.mobile == users[caller.value].mobile)
                      && u.password == users[caller.value].password && u.role == users[caller.value].role
                      && u.(updatedAt := users[caller.value].updatedAt) == Applied(users[caller.value], update)
                      && (u.updatedAt == now || u == users[caller.value])
                      && (u != users[caller.value] ==> u.updatedAt == now && EntityConstraints(u))
    ensures (caller.Some? && update.mobile.Some? && MobileTaken(users, update.mobile.value)
             && update.mobile.value != users[caller.value].mobile) ==> r == Err(MobileAlreadyInUse)
    ensures (caller.Some? && !(update.mobile.Some? && MobileTaken(users, update.mobile.value)
                               && update.mobile.value != users[caller.value].mobile))
            ==> (r.Ok? <==> Applied(users[caller.value], update) == users[caller.value]
                            || EntityConstraints(Applied(users[caller.value], update)))
  {
    match caller
    case None => Err(ProfileNotAuthenticated)
    case Some(i) =>
      var u := users[i];
      if update.mobile.Some? && MobileTaken(users, update.mobile.value) && update.mobile.value != u.mobile then
        Err(MobileAlreadyInUse)
      else
        var saved := Flushed(u, Applied(u, update), now);
        if saved != u && !EntityConstraints(saved) then Err(ProfileRejectedOnSave)
        else Ok(Put(users, i, saved))
  }

  /** Re-submitting one's own mobile is never refused as in use, and is
      accepted whenever the stored row met its constraints and the new full
      name fits its 100 code units; no profile update can give two users the
      same mobile. */
  lemma ProfileKeepsMobilesUnique(users: seq<User>, caller: nat, update: ProfileUpdate, now: nat)
    requires caller < |users| && UniqueMobiles(users)
    ensures update.mobile == Some(users[caller].mobile) ==> UpdateProfile(users, Some(caller), update, now) != Err(MobileAlreadyInUse)
    ensures update.mobile == Some(users[caller].mobile) && EntityConstraints(users[caller])
            && (update.fullName.None? || update.fullName.value.None? || Utf16Length(update.fullName.value.value) <= 100)
            ==> UpdateProfile(users, Some(caller), update, now).Ok?
    ensures UpdateProfile(users, Some(caller), update, now).Ok? ==> UniqueMobiles(UpdateProfile(users, Some(caller), update, now).value)
  {
    var r := UpdateProfile(users, Some(caller), update, now);
    if r.Ok? {
      var after := r.value;
      forall i, j | 0 <= i < j < |after|
        ensures after[i].mobile != after[j].mobile
      {
        if i != caller && j != caller {
        } else if update.mobile.Some? && update.mobile.value != users[caller].mobile {
          var other := if i == caller then j else i;
          assert !MobileTaken(users, update.mobile.value);
          assert users[other].mobile != update.mobile.value;
        }
      }
    }
  }

  /** A profile update that changes no column saves nothing: the table is
      returned as it was, `updatedAt` included, and no constraint is
      checked. The empty update `{}` is one. */
  lemma UnchangedProfileSavesNothing(users: seq<User>, caller: nat, update: ProfileUpdate, now: nat)
    requires caller < |users| && Applied(users[caller], update) == users[caller]
    ensures UpdateProfile(users, Some(caller), update, now) == Ok(users)
    ensures UpdateProfile(users, Some(caller), ProfileUpdate(None, None), now) == Ok(users)
  {
    assert update.mobile.Some? ==> update.mobile.value == users[caller].mobile;
    assert Flushed(users[caller], Applied(users[caller], update), now) == users[caller];
    assert Put(users, caller, users[caller]) == users;
    assert Applied(users[caller], ProfileUpdate(None, None)) == users[caller];
  }

  datatype PasswordError = PasswordNotAuthenticated | PasswordFieldsRequired | CurrentPasswordIncorrect | PasswordRejectedOnSave

  /** `changePassword`: `newHash` is the encoder's hash of the new
      password. The new password itself is not validated; the save checks
      the row's constraints, the hash's 255 code units among them, and
      stamps `updatedAt`, unless the hash is the stored one and nothing
      changed. */
  function ChangePassword(users: seq<User>, caller: Option<nat>, current: Option<string>, newPassword: Option<string>, matches: (string, PasswordHash) -> bool, newHash: PasswordHash, now: nat): (r: Result<seq<User>, PasswordError>)
    requires caller.Some? ==> caller.value < |users|
    ensures caller.None? <==> r == Err(PasswordNotAuthenticated)
    ensures caller.Some? && (current.None? || newPassword.None?) ==> r == Err(PasswordFieldsRequired)
    ensures caller.Some? && current.Some? && newPassword.Some? && !matches(current.value, users[caller.value].password)
            ==> r == Err(CurrentPasswordIncorrect)
    ensures r.Ok? ==> caller.Some? && current.Some? && newPassword.Some?
                      && matches(current.value, users[caller.value].password)
                      && |r.value| == |users| && (forall j | 0 <= j < |users| && j != caller.value :: r.value[j] == users[j])
                      && r.value[caller.value].password == newHash
                      && r.value[caller.value].(password := users[caller.value].password,
                                                updatedAt := users[caller.value].updatedAt) == users[caller.value]
                      && (r.value[caller.value].updatedAt == now || r.value[caller.value] == users[caller.value])
                      && (r.value[caller.value] != users[caller.value] ==> EntityConstraints(r.value[caller.value]))
    ensures caller.Some? && current.Some? && newPassword.Some? && matches(current.value, users[caller.value].password)
            ==> (r.Ok? <==> newHash == users[caller.value].password
                            || EntityConstraints(users[caller.value].(password := newHash)))
  {
    match caller
    case None => Err(PasswordNotAuthenticated)
    case Some(i) =>
      if current.None? || newPassword.None? then Err(PasswordFieldsRequired)
      else if !matches(current.value, users[i].password) then Err(CurrentPasswordIncorrect)
      else
        var saved := Flushed(users[i], users[i].(password := newHash), now);
        if saved != users[i] && !EntityConstraints(saved) then Err(PasswordRejectedOnSave)
        else Ok(Put(users, i, saved))
  }

  /** A password change keeps every user's username, mobile, role and
      verification, so the table's invariants survive it; afterwards the
      caller signs in with any password the encoder matches against the new
      hash, provided they could sign in with a matching password before. */
  lemma ChangePasswordKeepsAccounts(users: seq<User>, caller: nat, current: Option<string>, newPassword: Option<string>, matches: (string, PasswordHash) -> bool, newHash: PasswordHash, now: nat)
    requires caller < |users|
    ensures var r := ChangePassword(users, Some(caller), current, newPassword, matches, newHash, now);
            r.Ok? ==> (UniqueUsernames(users) ==> UniqueUsernames(r.value))
                      && (UniqueMobiles(users) ==> UniqueMobiles(r.value))
                      && (AllConsistent(users) ==> AllConsistent(r.value))
                      && (forall j | 0 <= j < |users| ::
                            r.value[j].username == users[j].username && r.value[j].mobile == users[j].mobile
                            && r.value[j].role == users[j].role && r.value[j].enabled == users[j].enabled)
  {
    var r := ChangePassword(users, Some(caller), current, newPassword, matches, newHash, now);
    if r.Ok? {
      var after := r.value;
      assert forall j | 0 <= j < |users| :: after[j].username == users[j].username && after[j].mobile == users[j].mobile;
      assert forall j | 0 <= j < |users| :: VerificationConsistent(after[j]) == VerificationConsistent(users[j]);
    }
  }

  /** The sign-in lookup reads only usernames and mobiles: two tables that
      agree on those resolve every identifier alike. */
  lemma LookupIgnoresOtherFields(users: seq<User>, after: seq<User>, identifier: string)
    requires |after| == |users|
    requires forall j | 0 <= j < |users| :: after[j].username == users[j].username && after[j].mobile == users[j].mobile
    ensures LoadUserByUsername(after, identifier) == LoadUserByUsername(users, identifier)
  {
    var a := FindByMobile(users, identifier);
    var b := FindByMobile(after, identifier);
    assert MobileTaken(after, identifier) == MobileTaken(users, identifier) by {
      if MobileTaken(users, identifier) {
        var i :| 0 <= i < |users| && users[i].mobile == identifier;
        assert after[i].mobile == identifier;
      }
    }
    if a.OneMatch? {
      assert after[a.index].mobile == identifier;
      assert b == OneMatch(a.index);
    } else if a == ManyMatches {
      var i, j :| 0 <= i < j < |users| && users[i].mobile == identifier && users[j].mobile == identifier;
      assert after[i].mobile == identifier && after[j].mobile == identifier;
    } else {
      assert b == NoMatch;
      var x := FindByUsername(users, identifier);
      var y := FindByUsername(after, identifier);
      if x.Some? {
        assert after[x.value].username == identifier;
        assert y == x;
      } else {
        assert y.None?;
      }
    }
  }

  /** After a password change the caller's sign-in is decided by the new
      hash: a password the encoder matches against it signs an enabled,
      non-suspended caller in, and any other password is refused. */
  lemma SignInAfterPasswordChange(users: seq<User>, caller: nat, current: Option<string>, newPassword: Option<string>, matches: (string, PasswordHash) -> bool, newHash: PasswordHash, now: nat, req: LoginRequest, token: string)
    requires caller < |users|
    requires ChangePassword(users, Some(caller), current, newPassword, matches, newHash, now).Ok?
    requires ValidLogin(req) && LoadUserByUsername(users, req.mobile.value) == Ok(caller)
    ensures var after := ChangePassword(users, Some(caller), current, newPassword, matches, newHash, now).value;
            (matches(req.password.value, newHash) && users[caller].enabled
             && (users[caller].role == EXPERT ==> users[caller].verificationStatus == APPROVED)
             ==> SignIn(after, req, matches, token).Ok? && SignIn(after, req, matches, token).value.id == users[caller].id)
            && (!matches(req.password.value, newHash) ==> SignIn(after, req, matches, token) == Err(BadCredentials))
  {
    var after := ChangePassword(users, Some(caller), current, newPassword, matches, newHash, now).value;
    assert after == users[caller := Flushed(users[caller], users[caller].(password := newHash), now)];
    assert LoadUserByUsername(after, req.mobile.value) == Ok(caller) by {
      LookupIgnoresOtherFields(users, after, req.mobile.value);
    }
    var u := after[caller];
    assert u.(updatedAt := users[caller].updatedAt) == users[caller].(password := newHash);
  }
}

=== FILE: admin.dfy ===
/** The expert-verification endpoints of AdminController.java: listing
    applications and approving, rejecting or suspending an expert. Every
    endpoint is restricted to the ADMIN role; the caller's role is an
    explicit parameter and the caller's username the one carried by the
    token. */
module Admin {
  import opened Wrappers
  import opened Text
  import opened Lists
  import opened Users
  import opened Accounts
  import Email

  datatype AdminError = Forbidden | AdminNotFound | ExpertNotFound | UnknownStatus

  /** `findById` on a path id. */
  predicate Found(users: seq<User>, id: int) {
    0 <= id < |users|
  }

  predicate IsExpertWithStatus(u: User, st: VerificationStatus) {
    u.role == EXPERT && u.verificationStatus == st
  }

  /** `getPendingExperts`: the experts whose status is PENDING, in table
      order. */
  function PendingExperts(users: seq<User>, callerRole: Role): (r: Result<seq<User>, AdminError>)
    ensures r.Err? <==> callerRole != ADMIN
    ensures r.Ok? ==> IsSubsequence(r.value, users)
    ensures r.Ok? ==> forall i | 0 <= i < |users| :: users[i] in r.value <==> IsExpertWithStatus(users[i], PENDING)
  {
    if callerRole != ADMIN then Err(Forbidden)
    else
      var p := (u: User) => IsExpertWithStatus(u, PENDING);
      FilterIsSubsequence(users, p);
      Ok(Filter(users, p))
  }

  /** `getAllExperts`: every expert when the status parameter is missing or
      empty; otherwise the experts whose status is the parameter upper-cased,
      and an error when that names no status. */
  function ExpertsByStatus(users: seq<User>, callerRole: Role, status: Option<string>): (r: Result<seq<User>, AdminError>)
    ensures callerRole != ADMIN ==> r == Err(Forbidden)
    ensures callerRole == ADMIN && (status.None? || status.value == []) ==>
              r.Ok? && forall i | 0 <= i < |users| :: users[i] in r.value <==> users[i].role == EXPERT
    ensures callerRole == ADMIN && status.Some? && status.value != [] ==>
              (r == Err(UnknownStatus) <==> StatusFromName(ToUpper(status.value)).None?)
    ensures r.Ok? && status.Some? && status.value != [] ==>
              var st := StatusFromName(ToUpper(status.value)).value;
              forall i | 0 <= i < |users| :: users[i] in r.value <==> IsExpertWithStatus(users[i], st)
    ensures r.Ok? ==> IsSubsequence(r.value, users)
  {
    if callerRole != ADMIN then Err(Forbidden)
    else if status.None? || status.value == [] then
      var p := (u: User) => u.role == EXPERT;
      FilterIsSubsequence(users, p);
      Ok(Filter(users, p))
    else match StatusFromName(ToUpper(status.value))
      case None => Err(UnknownStatus)
      case Some(st) =>
        var p := (u: User) => IsExpertWithStatus(u, st);
        FilterIsSubsequence(users, p);
        Ok(Filter(users, p))
  }

  /** The status filter is case-insensitive: "pending" lists exactly the
      pending applications. */
  lemma StatusFilterIgnoresCase(users: seq<User>)
    ensures ExpertsByStatus(users, ADMIN, Some("pending")) == PendingExperts(users, ADMIN)
  {
    assert ToUpper("pending") == "PENDING";
  }

  datatype Decision = Decision(users: seq<User>, expert: User, mail: Option<Email.Mail>)

  /** `approveExpert`: the caller must exist as a user and the target id
      must exist (its role is not checked); the target becomes verified and
      APPROVED, stamped with the time and the approving user's id, and the
      approval mail goes to its e-mail when that has text. As for every save
      of a user, `updatedAt` moves only when a column changed. */
  function Approve(users: seq<User>, callerRole: Role, callerName: string, id: int, template: Option<string>, now: nat): (r: Result<Decision, AdminError>)
    ensures callerRole != ADMIN ==> r == Err(Forbidden)
    ensures callerRole == ADMIN && !UsernameTaken(users, callerName) ==> r == Err(AdminNotFound)
    ensures callerRole == ADMIN && UsernameTaken(users, callerName) && !Found(users, id) ==> r == Err(ExpertNotFound)
    ensures r.Ok? <==> callerRole == ADMIN && UsernameTaken(users, callerName) && Found(users, id)
    ensures r.Ok? ==> Found(users, id) && |r.value.users| == |users|
                      && (forall j | 0 <= j < |users| && j != id :: r.value.users[j] == users[j])
    ensures r.Ok? ==> var e := r.value.users[id];
                      e == r.value.expert && e.isVerified && e.verificationStatus == APPROVED
                      && e.verifiedAt == Some(now) && e.verifiedBy == Some(users[FindByUsername(users, callerName).value].id)
                      && (e.updatedAt == now || e == users[id])
                      && e.(isVerified := users[id].isVerified, verificationStatus := users[id].verificationStatus,
                            verifiedAt := users[id].verifiedAt, verifiedBy := users[id].verifiedBy,
                            updatedAt := users[id].updatedAt) == users[id]
    ensures r.Ok? ==> (r.value.mail.Some? <==> HasText(users[id].email))
  {
    if callerRole != ADMIN then Err(Forbidden)
    else match FindByUsername(users, callerName)
      case None => Err(AdminNotFound)
      case Some(admin) =>
        if !Found(users, id) then Err(ExpertNotFound)
        else
          var e := Flushed(users[id], users[id].(isVerified := true, verificationStatus := APPROVED, verifiedAt := Some(now),
                                                 verifiedBy := Some(users[admin].id)), now);
          Ok(Decision(Put(users, id, e), e, Email.Send(Email.ExpertApproved, e.email, Some(NameOrUsername(e)), template)))
  }

  /** `rejectExpert`: as for approval, but the target becomes unverified and
      REJECTED; `verifiedBy` records the admin while `verifiedAt` keeps its
      old value. The optional reason is only logged. */
  function Reject(users: seq<User>, callerRole: Role, callerName: string, id: int, reason: Option<string>, now: nat): (r: Result<Decision, AdminError>)
    ensures callerRole != ADMIN ==> r == Err(Forbidden)
    ensures callerRole == ADMIN && !UsernameTaken(users, callerName) ==> r == Err(AdminNotFound)
    ensures callerRole == ADMIN && UsernameTaken(users, callerName) && !Found(users, id) ==> r == Err(ExpertNotFound)
    ensures r.Ok? <==> callerRole == ADMIN && UsernameTaken(users, callerName) && Found(users, id)
    ensures r.Ok? ==> Found(users, id) && |r.value.users| == |users|
                      && (forall j | 0 <= j < |users| && j != id :: r.value.users[j] == users[j])
    ensures r.Ok? ==> var e := r.value.users[id];
                      e == r.value.expert && !e.isVerified && e.verificationStatus == REJECTED
                      && e.verifiedAt == users[id].verifiedAt && e.verifiedBy == Some(users[FindByUsername(users, callerName).value].id)
                      && (e.updatedAt == now || e == users[id]) && r.value.mail.None?
  {
    if callerRole != ADMIN then Err(Forbidden)
    else match FindByUsername(users, callerName)
      case None => Err(AdminNotFound)
      case Some(admin) =>
        if !Found(users, id) then Err(ExpertNotFound)
        else
          var e := Flushed(users[id], users[id].(isVerified := false, verificationStatus := REJECTED,
                                                 verifiedBy := Some(users[admin].id)), now);
          Ok(Decision(Put(users, id, e), e, None))
  }

  /** `suspendExpert`: no lookup of the caller; the target becomes
      unverified and SUSPENDED, and the reason is only logged. */
  function Suspend(users: seq<User>, callerRole: Role, id: int, reason: Option<string>, now: nat): (r: Result<Decision, AdminError>)
    ensures callerRole != ADMIN ==> r == Err(Forbidden)
    ensures callerRole == ADMIN ==> (r.Ok? <==> Found(users, id))
    ensures r.Ok? ==> |r.value.users| == |users| && (forall j | 0 <= j < |users| && j != id :: r.value.users[j] == users[j])
    ensures r.Ok? ==> var e := r.value.users[id];
                      e == r.value.expert && !e.isVerified && e.verificationStatus == SUSPENDED
                      && e.verifiedAt == users[id].verifiedAt && e.verifiedBy == users[id].verifiedBy
                      && (e.updatedAt == now || e == users[id]) && r.value.mail.None?
  {
    if callerRole != ADMIN then Err(Forbidden)
    else if !Found(users, id) then Err(ExpertNotFound)
    else
      var e := Flushed(users[id], users[id].(isVerified := false, verificationStatus := SUSPENDED), now);
      Ok(Decision(Put(users, id, e), e, None))
  }

  /** `getExpertDetails`: any existing user, whatever its role. */
  function ExpertDetails(users: seq<User>, callerRole: Role, id: int): (r: Result<User, AdminError>)
    ensures callerRole != ADMIN ==> r == Err(Forbidden)
    ensures callerRole == ADMIN ==> (r.Ok? <==> Found(users, id))
    ensures r.Ok? ==> r.value == users[id]
  {
    if callerRole != ADMIN then Err(Forbidden)
    else if !Found(users, id) then Err(ExpertNotFound)
    else Ok(users[id])
  }

  /** Each decision keeps the table well indexed, usernames and mobiles
      unique and every user's verification flags consistent. */
  lemma DecisionsPreserveInvariants(users: seq<User>, callerName: string, id: int, reason: Option<string>, template: Option<string>, now: nat)
    requires WellFormed(users) && UniqueUsernames(users) && UniqueMobiles(users) && AllConsistent(users)
    ensures var r := Approve(users, ADMIN, callerName, id, template, now);
            r.Ok? ==> WellFormed(r.value.users) && UniqueUsernames(r.value.users)
                      && UniqueMobiles(r.value.users) && AllConsistent(r.value.users)
    ensures var r := Reject(users, ADMIN, callerName, id, reason, now);
            r.Ok? ==> WellFormed(r.value.users) && UniqueUsernames(r.value.users)
                      && UniqueMobiles(r.value.users) && AllConsistent(r.value.users)
    ensures var r := Suspend(users, ADMIN, id, reason, now);
            r.Ok? ==> WellFormed(r.value.users) && UniqueUsernames(r.value.users)
                      && UniqueMobiles(r.value.users) && AllConsistent(r.value.users)
  {
    var a := Approve(users, ADMIN, callerName, id, template, now);
    if a.Ok? {
      PutKeepsIdentity(users, id, a.value.expert);
    }
    var j := Reject(users, ADMIN, callerName, id, reason, now);
    if j.Ok? {
      PutKeepsIdentity(users, id, j.value.expert);
    }
    var s := Suspend(users, ADMIN, id, reason, now);
    if s.Ok? {
      PutKeepsIdentity(users, id, s.value.expert);
    }
  }

  /** Replacing a user by one with the same id, username and mobile keeps
      the table invariants. */
  lemma PutKeepsIdentity(users: seq<User>, i: int, u: User)
    requires WellFormed(users) && UniqueUsernames(users) && UniqueMobiles(users) && AllConsistent(users)
    requires 0 <= i < |users| && u.id == users[i].id && u.username == users[i].username && u.mobile == users[i].mobile
    requires VerificationConsistent(u)
    ensures var r := Put(users, i, u);
            WellFormed(r) && UniqueUsernames(r) && UniqueMobiles(r) && AllConsistent(r)
  {
  }

  /** An approved expert signs in: after approval, correct credentials on an
      enabled account yield a session. */
  lemma ApprovedExpertSignsIn(users: seq<User>, callerName: string, id: int, template: Option<string>, now: nat, req: Requests.LoginRequest, matches: (string, PasswordHash) -> bool, token: string)
    requires WellFormed(users) && UniqueMobiles(users)
    requires Approve(users, ADMIN, callerName, id, template, now).Ok?
    requires Requests.ValidLogin(req) && req.mobile.value == users[id].mobile
    requires users[id].enabled && matches(req.password.value, users[id].password)
    ensures SignIn(Approve(users, ADMIN, callerName, id, template, now).value.users, req, matches, token).Ok?
  {
    var after := Approve(users, ADMIN, callerName, id, template, now).value.users;
    ApprovalKeepsLogin(users, callerName, id, template, now);
    assert UniqueMobiles(after) by {
      PutKeepsMobiles(users, id, after[id]);
    }
    MobileResolvesToOwner(after, req.mobile.value, id as nat);
  }

  /** Approval replaces only the target, keeping its credentials and
      enabled flag and leaving it APPROVED. */
  lemma ApprovalKeepsLogin(users: seq<User>, callerName: string, id: int, template: Option<string>, now: nat)
    requires Approve(users, ADMIN, callerName, id, template, now).Ok?
    ensures var after := Approve(users, ADMIN, callerName, id, template, now).value.users;
            0 <= id < |users| && after == Put(users, id, after[id])
            && after[id].mobile == users[id].mobile && after[id].password == users[id].password
            && after[id].enabled == users[id].enabled && after[id].verificationStatus == APPROVED
  {
  }

  lemma PutKeepsMobiles(users: seq<User>, i: int, u: User)
    requires UniqueMobiles(users) && 0 <= i < |users| && u.mobile == users[i].mobile
    ensures UniqueMobiles(Put(users, i, u))
  {
  }

  /** A suspended or rejected expert cannot sign in any more. */
  lemma SuspendedExpertLocked(users: seq<User>, id: int, reason: Option<string>, now: nat, req: Requests.LoginRequest, matches: (string, PasswordHash) -> bool, token: string)
    requires UniqueMobiles(users)
    requires Suspend(users, ADMIN, id, reason, now).Ok? && users[id].role == EXPERT
    requires Requests.ValidLogin(req) && req.mobile.value == users[id].mobile
    requires users[id].enabled && matches(req.password.value, users[id].password)
    ensures SignIn(Suspend(users, ADMIN, id, reason, now).value.users, req, matches, token) == Err(ExpertSuspended)
  {
    var after := Suspend(users, ADMIN, id, reason, now).value.users;
    PutKeepsMobiles(users, id, after[id]);
    MobileResolvesToOwner(after, req.mobile.value, id as nat);
  }

  /** Approving twice at the same instant is the same as approving once. */
  lemma ApproveIdempotent(users: seq<User>, callerName: string, id: int, template: Option<string>, now: nat)
    requires UniqueUsernames(users)
    requires Approve(users, ADMIN, callerName, id, template, now).Ok?
    ensures var once := Approve(users, ADMIN, callerName, id, template, now).value.users;
            Approve(once, ADMIN, callerName, id, template, now).Ok?
            && Approve(once, ADMIN, callerName, id, template, now).value.users == once
  {
    var once := Approve(users, ADMIN, callerName, id, template, now).value.users;
    var admin := FindByUsername(users, callerName).value;
    assert FindByUsername(once, callerName) == Some(admin) by {
      assert once[admin].username == callerName;
      var other := FindByUsername(once, callerName).value;
      assert once[other].username == callerName;
      assert users[other].username == callerName;
    }
  }

  /** Suspending an expert who is already suspended and unverified saves
      nothing new, so not even `updatedAt` moves; hence suspending twice is
      suspending once, whatever the second instant. */
  lemma SuspendIdempotent(users: seq<User>, id: int, r1: Option<string>, r2: Option<string>, t1: nat, t2: nat)
    requires Found(users, id)
    ensures users[id].verificationStatus == SUSPENDED && !users[id].isVerified
            ==> Suspend(users, ADMIN, id, r1, t1).value.users == users
    ensures var once := Suspend(users, ADMIN, id, r1, t1).value.users;
            Suspend(once, ADMIN, id, r2, t2).Ok? && Suspend(once, ADMIN, id, r2, t2).value.users == once
  {
    var once := Suspend(users, ADMIN, id, r1, t1).value.users;
    assert once[id].verificationStatus == SUSPENDED && !once[id].isVerified;
    if users[id].verificationStatus == SUSPENDED && !users[id].isVerified {
      assert users[id].(isVerified := false, verificationStatus := SUSPENDED) == users[id];
    }
  }

  /** The reason given for a rejection has no effect on the outcome. */
  lemma RejectIgnoresReason(users: seq<User>, callerName: string, id: int, r1: Option<string>, r2: Option<string>, now: nat)
    ensures Reject(users, ADMIN, callerName, id, r1, now) == Reject(users, ADMIN, callerName, id, r2, now)
  {
  }

  /** Suspension needs no user record for the caller, unlike approval. */
  lemma SuspendNeedsNoAdminRecord(users: seq<User>, callerName: string, id: int, reason: Option<string>, template: Option<string>, now: nat)
    requires !UsernameTaken(users, callerName) && Found(users, id)
    ensures Approve(users, ADMIN, callerName, id, template, now) == Err(AdminNotFound)
    ensures Suspend(users, ADMIN, id, reason, now).Ok?
  {
  }
}

=== FILE: clock.dfy ===
/** Time in the model: every timestamp is a count of whole seconds, and the
    services' day-based windows and day numbers are measured in DAY. */
module Clock {
  /** Seconds in one day. */
  const DAY: nat := 86400
}

=== FILE: dashboard.dfy ===
/** The farmer dashboard (DashboardController.java): headline counts, quick
    stats and the recent-activity feed, all read from the scan table. */
module Dashboard {
  import opened Wrappers
  import opened Text
  import opened Lists
  import opened Scans
  import Reports
  import opened Clock

  const HOUR: nat := 3600
  const MINUTE: nat := 60

  /** A missing caller is a bad request; a repository failure inside the
      handlers' `try` blocks is an internal server error. */
  datatype DashboardError = NotAuthenticated | FetchFailed

  // ---------------------------------------------------------------------
  // Counters
  // ---------------------------------------------------------------------

  /** A third of the diseased scans, capped at five. */
  function CriticalIssues(diseased: nat): (r: nat)
    ensures r <= 5
    ensures r == 5 <==> diseased >= 15
    ensures r < 5 ==> 3 * r <= diseased < 3 * (r + 1)
  {
    if diseased > 0 then (if diseased / 3 < 5 then diseased / 3 else 5) else 0
  }

  /** `farmHealthScore`: the healthy percentage, or 100 with no scans. */
  function FarmHealthScore(healthy: nat, total: nat): (r: nat)
    ensures total == 0 ==> r == 100
    ensures total > 0 ==> r * total <= healthy * 100 < (r + 1) * total
    ensures healthy <= total ==> r <= 100
  {
    if total > 0 then Reports.TreatmentSuccess(healthy, total) else 100
  }

  /** The quick-stats success rate: the same percentage, but 0 with no
      scans. */
  function StatsTreatmentSuccess(healthy: nat, total: nat): (r: nat)
    ensures total == 0 ==> r == 0
    ensures total > 0 ==> r * total <= healthy * 100 < (r + 1) * total
  {
    if total > 0 then Reports.TreatmentSuccess(healthy, total) else 0
  }

  /** The two percentages disagree exactly on an empty scan table. */
  lemma ScoresDifferOnlyWhenEmpty(healthy: nat, total: nat)
    ensures FarmHealthScore(healthy, total) == StatsTreatmentSuccess(healthy, total) <==> total > 0
  {
  }

  // ---------------------------------------------------------------------
  // Headline and quick stats
  // ---------------------------------------------------------------------

  datatype Headline = Headline(
    totalScans: nat,
    diseasesDetected: nat,
    healthyPlants: nat,
    criticalIssues: nat,
    lastScanDay: Option<nat>,
    farmHealthScore: nat)

  /** The figures shown when the database cannot be read. */
  const FALLBACK: Headline := Headline(0, 0, 0, 0, None, 100)

  /** `getDashboardData`; `databaseUp` stands for whether the repository
      calls succeed. The last scan date is the day (days since the epoch)
      of the newest scan. */
  function DashboardData(scans: seq<Scan>, caller: Option<nat>, databaseUp: bool): (r: Result<Headline, DashboardError>)
    ensures caller.None? <==> r == Err(DashboardError.NotAuthenticated)
    ensures caller.Some? && !databaseUp ==> r == Ok(FALLBACK)
    ensures caller.Some? && databaseUp ==>
              && r.Ok?
              && r.value.totalScans == CountByUser(scans, caller.value)
              && r.value.diseasesDetected == CountDiseasedByUser(scans, caller.value)
              && r.value.healthyPlants == CountHealthyByUser(scans, caller.value)
              && r.value.diseasesDetected + r.value.healthyPlants == r.value.totalScans
              && r.value.criticalIssues == CriticalIssues(r.value.diseasesDetected)
              && r.value.farmHealthScore == FarmHealthScore(r.value.healthyPlants, r.value.totalScans)
              && r.value.farmHealthScore <= 100
              && (r.value.lastScanDay.None? <==> CountByUser(scans, caller.value) == 0)
              && (r.value.lastScanDay.Some? ==>
                    (exists i | 0 <= i < |scans| && OwnedBy(scans[i], caller.value) ::
                       scans[i].createdAt / DAY == r.value.lastScanDay.value)
                    && forall i | 0 <= i < |scans| && OwnedBy(scans[i], caller.value) ::
                         scans[i].createdAt / DAY <= r.value.lastScanDay.value)
  {
    if caller.None? then Err(DashboardError.NotAuthenticated)
    else if !databaseUp then Ok(FALLBACK)
    else
      var user := caller.value;
      var total := CountByUser(scans, user);
      var diseased := CountDiseasedByUser(scans, user);
      var healthy := CountHealthyByUser(scans, user);
      DiseasedPlusHealthy(scans, user);
      var recent := RecentByUser(scans, user);
      NewestIsLatest(scans, user);
      NewestIsOwned(scans, user);
      Ok(Headline(total, diseased, healthy, CriticalIssues(diseased),
                       if recent != [] then Some(recent[0].createdAt / DAY) else None,
                       FarmHealthScore(healthy, total)))
  }

  /** The first of the ten newest scans is at least as recent as every
      other scan of the user; the list is empty only without scans. */
  lemma NewestIsLatest(scans: seq<Scan>, user: nat)
    ensures RecentByUser(scans, user) == [] <==> CountByUser(scans, user) == 0
    ensures RecentByUser(scans, user) != [] ==>
              forall i | 0 <= i < |scans| && OwnedBy(scans[i], user) ::
                scans[i].createdAt <= RecentByUser(scans, user)[0].createdAt
  {
    var all := UserScans(scans, user);
    var recent := RecentByUser(scans, user);
    CountIsFilterLength(scans, (s: Scan) => OwnedBy(s, user));
    assert |all| == |Filter(scans, (s: Scan) => OwnedBy(s, user))|;
    if recent != [] {
      assert recent[0] == all[0];
      forall i | 0 <= i < |scans| && OwnedBy(scans[i], user)
        ensures scans[i].createdAt <= recent[0].createdAt
      {
        assert scans[i] in all;
        var j :| 0 <= j < |all| && all[j] == scans[i];
        if j > 0 {
          assert KeyLe(NewestFirst(all[0]), NewestFirst(all[j]));
        }
      }
    }
  }

  /** The newest of the user's scans is one of the user's rows. */
  lemma NewestIsOwned(scans: seq<Scan>, user: nat)
    ensures RecentByUser(scans, user) != [] ==>
              exists i | 0 <= i < |scans| && OwnedBy(scans[i], user) :: scans[i] == RecentByUser(scans, user)[0]
  {
    var all := UserScans(scans, user);
    var recent := RecentByUser(scans, user);
    if recent != [] {
      assert recent[0] == all[0];
      assert all[0] in all;
      assert all[0] in scans;
      var k :| 0 <= k < |scans| && scans[k] == all[0];
      assert OwnedBy(scans[k], user);
    }
  }

  datatype QuickStats = QuickStats(
    totalScans: nat,
    diseasesDetected: nat,
    plantsScanned: nat,
    healthyPlants: nat,
    criticalIssues: nat,
    treatmentSuccess: nat)

  /** `getQuickStats`; `databaseUp` stands for whether the repository
      calls return, and a failure answers with an error. */
  function Stats(scans: seq<Scan>, caller: Option<nat>, databaseUp: bool): (r: Result<QuickStats, DashboardError>)
    ensures caller.None? <==> r == Err(DashboardError.NotAuthenticated)
    ensures r == Err(DashboardError.FetchFailed) <==> caller.Some? && !databaseUp
    ensures r.Ok? <==> caller.Some? && databaseUp
    ensures r.Ok? ==>
              && r.value.plantsScanned == r.value.totalScans == CountByUser(scans, caller.value)
              && r.value.diseasesDetected == CountDiseasedByUser(scans, caller.value)
              && r.value.healthyPlants == CountHealthyByUser(scans, caller.value)
              && r.value.diseasesDetected + r.value.healthyPlants == r.value.totalScans
              && r.value.criticalIssues == CriticalIssues(r.value.diseasesDetected)
              && r.value.treatmentSuccess == StatsTreatmentSuccess(r.value.healthyPlants, r.value.totalScans)
              && r.value.treatmentSuccess <= 100
              && (r.value.totalScans == 0 ==> r.value.treatmentSuccess == 0)
  {
    if caller.None? then Err(DashboardError.NotAuthenticated)
    else if !databaseUp then Err(DashboardError.FetchFailed)
    else
      var user := caller.value;
      var total := CountByUser(scans, user);
      var diseased := CountDiseasedByUser(scans, user);
      var healthy := CountHealthyByUser(scans, user);
      DiseasedPlusHealthy(scans, user);
      Ok(QuickStats(total, diseased, total, healthy, CriticalIssues(diseased), StatsTreatmentSuccess(healthy, total)))
  }

  /** The dashboard and the quick stats agree on every count, and their
      percentages agree whenever the user has scans. */
  lemma DashboardMatchesStats(scans: seq<Scan>, user: nat)
    ensures var d := DashboardData(scans, Some(user), true).value;
            var s := Stats(scans, Some(user), true).value;
            && d.totalScans == s.totalScans && d.diseasesDetected == s.diseasesDetected
            && d.healthyPlants == s.healthyPlants && d.criticalIssues == s.criticalIssues
            && (d.totalScans > 0 <==> d.farmHealthScore == s.treatmentSuccess)
  {
  }

  // ---------------------------------------------------------------------
  // Time ago
  // ---------------------------------------------------------------------

  /** Java's `long` division, which truncates toward zero. */
  function JavaDiv(a: int, b: nat): (r: int)
    requires b > 0
    ensures a >= 0 ==> r == a / b
    ensures a < 0 ==> r <= 0
  {
    if a >= 0 then a / b else 0 - ((0 - a) / b)
  }

  /** The unit a duration is reported in. */
  datatype Ago = Days(n: nat) | Hours(n: nat) | Minutes(n: nat) | JustNow

  /** The reference reading of an elapsed time in seconds: the largest unit
      with a positive whole count. */
  predicate Describes(a: Ago, elapsed: int) {
    match a
    case Days(n) => n > 0 && n * DAY <= elapsed < (n + 1) * DAY
    case Hours(n) => n > 0 && n * HOUR <= elapsed < (n + 1) * HOUR && elapsed < DAY
    case Minutes(n) => n > 0 && n * MINUTE <= elapsed < (n + 1) * MINUTE && elapsed < HOUR
    case JustNow => elapsed < MINUTE
  }

  function Render(a: Ago): string {
    match a
    case Days(n) => if n == 1 then "1 day ago" else NatToString(n) + " days ago"
    case Hours(n) => if n == 1 then "1 hour ago" else NatToString(n) + " hours ago"
    case Minutes(n) => if n == 1 then "1 minute ago" else NatToString(n) + " minutes ago"
    case JustNow => "Just now"
  }

  /** `getTimeAgo`, with `elapsed` the seconds from the scan to now (negative
      for a scan dated in the future). */
  function TimeAgo(elapsed: int): (r: string)
    ensures exists a :: Describes(a, elapsed) && r == Render(a)
  {
    var days := JavaDiv(elapsed, DAY);
    var hours := JavaDiv(elapsed, HOUR);
    var minutes := JavaDiv(elapsed, MINUTE);
    if days > 0 then
      assert Describes(Days(days), elapsed);
      if days == 1 then "1 day ago" else NatToString(days) + " days ago"
    else if hours > 0 then
      assert Describes(Hours(hours), elapsed);
      if hours == 1 then "1 hour ago" else NatToString(hours) + " hours ago"
    else if minutes > 0 then
      assert Describes(Minutes(minutes), elapsed);
      if minutes == 1 then "1 minute ago" else NatToString(minutes) + " minutes ago"
    else
      assert Describes(JustNow, elapsed);
      "Just now"
  }

  /** At most one reading describes an elapsed time. */
  lemma DescribesUnique(a: Ago, b: Ago, elapsed: int)
    requires Describes(a, elapsed) && Describes(b, elapsed)
    ensures a == b
  {
  }

  /** The count in front of `suffix`, when `s` is digits followed by it. */
  function CountBefore(s: string, suffix: string): (r: Option<nat>)
    ensures r.Some? ==> EndsWith(s, suffix)
  {
    if EndsWith(s, suffix) && AllDigits(s[..|s| - |suffix|]) then Some(DigitsValue(s[..|s| - |suffix|])) else None
  }

  /** Reads a rendered duration back; shorter unit texts are tried first. */
  function ParseAgo(s: string): Option<Ago> {
    if s == "Just now" then Some(JustNow)
    else if CountBefore(s, " day ago").Some? then Some(Days(CountBefore(s, " day ago").value))
    else if CountBefore(s, " hour ago").Some? then Some(Hours(CountBefore(s, " hour ago").value))
    else if CountBefore(s, " days ago").Some? then Some(Days(CountBefore(s, " days ago").value))
    else if CountBefore(s, " hours ago").Some? then Some(Hours(CountBefore(s, " hours ago").value))
    else if CountBefore(s, " minute ago").Some? then Some(Minutes(CountBefore(s, " minute ago").value))
    else if CountBefore(s, " minutes ago").Some? then Some(Minutes(CountBefore(s, " minutes ago").value))
    else None
  }

  /** Rendering loses nothing: the text reads back as the same count and
      unit. */
  lemma RenderParses(a: Ago)
    ensures ParseAgo(Render(a)) == Some(a)
  {
    match a
    case JustNow =>
    case Days(n) => DaysParse(n);
    case Hours(n) => HoursParse(n);
    case Minutes(n) => MinutesParse(n);
  }

  /** The last `k` characters of `d + lit` come from `lit`. */
  lemma TailOfLiteral(d: string, lit: string, k: nat)
    requires k <= |lit|
    ensures EndsWith(d + lit, lit[|lit| - k..]) 
  {
    assert (d + lit)[|d + lit| - k..] == lit[|lit| - k..];
  }

  lemma DaysParse(n: nat)
    ensures ParseAgo(Render(Days(n))) == Some(Days(n))
  {
    if n == 1 {
      var s := "1 day ago";
      assert s == NatToString(1) + " day ago";
      SuffixParses(1, " day ago");
    } else {
      var s := NatToString(n) + " days ago";
      assert s == Render(Days(n));
      TailOfLiteral(NatToString(n), " days ago", 8);
      TailOfLiteral(NatToString(n), " days ago", 9);
      assert s[|s| - 8..] == "days ago" != " day ago";
      assert s[|s| - 9..] == " days ago" != " hour ago";
      assert CountBefore(s, " day ago") == None;
      assert CountBefore(s, " hour ago") == None;
      assert s != "Just now" by { assert |s| > 8; }
      SuffixParses(n, " days ago");
    }
  }

  lemma HoursParse(n: nat)
    ensures ParseAgo(Render(Hours(n))) == Some(Hours(n))
  {
    if n == 1 {
      var s := "1 hour ago";
      assert s[|s| - 8..] == "hour ago" != " day ago";
      assert CountBefore(s, " day ago") == None;
      assert s == NatToString(1) + " hour ago";
      SuffixParses(1, " hour ago");
    } else {
      var s := NatToString(n) + " hours ago";
      assert s == Render(Hours(n));
      TailOfLiteral(NatToString(n), " hours ago", 8);
      TailOfLiteral(NatToString(n), " hours ago", 9);
      TailOfLiteral(NatToString(n), " hours ago", 10);
      assert s[|s| - 8..] == "ours ago" != " day ago";
      assert s[|s| - 9..] == "hours ago" != " hour ago";
      assert s[|s| - 9..] != " days ago";
      assert CountBefore(s, " day ago") == None;
      assert CountBefore(s, " hour ago") == None;
      assert CountBefore(s, " days ago") == None;
      assert s != "Just now" by { assert |s| > 8; }
      SuffixParses(n, " hours ago");
    }
  }

  lemma MinutesParse(n: nat)
    ensures ParseAgo(Render(Minutes(n))) == Some(Minutes(n))
  {
    if n == 1 {
      OneMinuteParses();
    } else {
      MinutesParseMany(n);
    }
  }

  lemma OneMinuteParses()
    ensures ParseAgo("1 minute ago") == Some(Minutes(1))
  {
    var s := "1 minute ago";
    assert s == NatToString(1) + " minute ago";
    TailOfLiteral(NatToString(1), " minute ago", 10);
    MinuteTail(s, 0);
    SuffixParses(1, " minute ago");
  }

  lemma MinutesParseMany(n: nat)
    requires n != 1
    ensures ParseAgo(NatToString(n) + " minutes ago") == Some(Minutes(n))
  {
    var s := NatToString(n) + " minutes ago";
    TailOfLiteral(NatToString(n), " minutes ago", 11);
    MinuteTail(s, 1);
    assert !EndsWith(s, " minute ago") by {
      assert s[|s| - 11] == 'm';
    }
    assert s != "Just now" by { assert |s| > 8; }
    SuffixParses(n, " minutes ago");
  }

  /** A text ending in "minute ago" (`plural` = 0) or "minutes ago"
      (`plural` = 1) ends in none of the day and hour texts, so those
      readings are passed over. */
  lemma MinuteTail(s: string, plural: nat)
    requires plural <= 1
    requires plural == 0 ==> EndsWith(s, "minute ago")
    requires plural == 1 ==> EndsWith(s, "minutes ago")
    ensures CountBefore(s, " day ago") == None && CountBefore(s, " hour ago") == None
    ensures CountBefore(s, " days ago") == None && CountBefore(s, " hours ago") == None
  {
    NoSpaceAt(s, plural);
    NotEndingIn(s, " day ago");
    NotEndingIn(s, " hour ago");
    NotEndingIn(s, " days ago");
    NotEndingIn(s, " hours ago");
  }

  /** The eighth to tenth characters from the end are letters of "minute". */
  lemma NoSpaceAt(s: string, plural: nat)
    requires plural <= 1
    requires plural == 0 ==> EndsWith(s, "minute ago")
    requires plural == 1 ==> EndsWith(s, "minutes ago")
    ensures |s| >= 10 && s[|s| - 8] != ' ' && s[|s| - 9] != ' ' && s[|s| - 10] != ' '
  {
    var n := |s|;
    if plural == 0 {
      var t := s[n - 10..];
      assert t == "minute ago";
      assert s[n - 8] == t[2] && s[n - 9] == t[1] && s[n - 10] == t[0];
    } else {
      var t := s[n - 11..];
      assert t == "minutes ago";
      assert s[n - 8] == t[3] && s[n - 9] == t[2] && s[n - 10] == t[1];
    }
  }

  /** A suffix of eight to ten characters starting with a space is not
      there when that position holds another character. */
  lemma NotEndingIn(s: string, suffix: string)
    requires 8 <= |suffix| <= 10 && suffix[0] == ' '
    requires |s| >= 10 && s[|s| - 8] != ' ' && s[|s| - 9] != ' ' && s[|s| - 10] != ' '
    ensures CountBefore(s, suffix) == None
  {
    assert !EndsWith(s, suffix) by {
      assert s[|s| - |suffix|..][0] == s[|s| - |suffix|];
    }
  }

  lemma SuffixParses(n: nat, suffix: string)
    ensures CountBefore(NatToString(n) + suffix, suffix) == Some(n)
  {
    var s := NatToString(n) + suffix;
    assert s[..|s| - |suffix|] == NatToString(n);
    assert s[|s| - |suffix|..] == suffix;
    NatToStringRoundTrip(n);
  }

  /** `getTimeAgo` reports the one reading of the elapsed time, and the text
      reads back as that reading. */
  lemma TimeAgoReadsBack(elapsed: int, a: Ago)
    requires Describes(a, elapsed)
    ensures ParseAgo(TimeAgo(elapsed)) == Some(a)
  {
    var b :| Describes(b, elapsed) && TimeAgo(elapsed) == Render(b);
    DescribesUnique(a, b, elapsed);
    RenderParses(a);
  }

  /** The time text of any elapsed time reads back as a reading that
      describes it. */
  lemma TimeAgoParses(elapsed: int)
    ensures ParseAgo(TimeAgo(elapsed)).Some? && Describes(ParseAgo(TimeAgo(elapsed)).value, elapsed)
  {
    var t := TimeAgo(elapsed);
    var a :| Describes(a, elapsed) && t == Render(a);
    TimeAgoReadsBack(elapsed, a);
  }

  // ---------------------------------------------------------------------
  // Activity feed
  // ---------------------------------------------------------------------

  datatype Activity = Activity(title: string, subtitle: string, time: string, kind: string, icon: string, color: string)

  /** `createActivity`: the icon and colour follow the activity type; a scan
      is green when its subtitle reads as healthy. */
  function MakeActivity(title: string, subtitle: string, time: string, kind: string): (r: Activity)
    ensures r.title == title && r.subtitle == subtitle && r.time == time && r.kind == kind
    ensures kind == "scan" ==> r.icon == "local_florist"
                               && (r.color == "green" <==> Contains(subtitle, "No diseases") || Contains(subtitle, "healthy"))
                               && (r.color != "green" ==> r.color == "orange")
    ensures kind == "report" ==> r.icon == "article" && r.color == "blue"
    ensures kind == "reminder" ==> r.icon == "notification_important" && r.color == "red"
    ensures kind == "info" ==> r.icon == "info" && r.color == "blue"
    ensures kind != "scan" && kind != "report" && kind != "reminder" && kind != "info" ==> r.icon == "info" && r.color == "grey"
  {
    var (icon, color) :=
      if kind == "scan" then ("local_florist", if Contains(subtitle, "No diseases") || Contains(subtitle, "healthy") then "green" else "orange")
      else if kind == "report" then ("article", "blue")
      else if kind == "reminder" then ("notification_important", "red")
      else if kind == "info" then ("info", "blue")
      else ("info", "grey");
    Activity(title, subtitle, time, kind, icon, color)
  }

  /** The activity subtitle of a scan. */
  function Subtitle(s: Scan): (r: string)
    ensures EqualsIgnoreCase(s.disease, "healthy") ==> r == "No diseases detected"
    ensures !EqualsIgnoreCase(s.disease, "healthy") ==>
              StartsWith(r, s.disease + " detected - ") && EndsWith(r, " severity")
  {
    if EqualsIgnoreCase(s.disease, "healthy") then "No diseases detected"
    else
      var r := s.disease + " detected - " + (if s.severity.Some? then s.severity.value else "Unknown") + " severity";
      assert r[..|s.disease + " detected - "|] == s.disease + " detected - ";
      r
  }

  /** The severity shown in a subtitle: the recorded one, or "Unknown". */
  function ShownSeverity(s: Scan): string {
    if s.severity.Some? then s.severity.value else "Unknown"
  }

  /** The subtitle of a diseased scan names the disease and the severity, and
      both can be read back from it. */
  lemma SubtitleReadsBack(s: Scan)
    requires !EqualsIgnoreCase(s.disease, "healthy")
    ensures var r := Subtitle(s);
            |r| == |s.disease| + 12 + |ShownSeverity(s)| + 9
            && r[..|s.disease|] == s.disease
            && r[|s.disease| + 12..|r| - 9] == ShownSeverity(s)
  {
  }

  /** The scan activity for one scan: titled by the plant, its time text
      reading back as the reading of the time since the scan, green or
      orange. */
  function ScanActivity(s: Scan, now: nat): (r: Activity)
    ensures r.kind == "scan" && r.icon == "local_florist" && r.title == s.plantType + " plant scanned"
    ensures r.subtitle == Subtitle(s) && (r.color == "green" || r.color == "orange")
    ensures ParseAgo(r.time).Some? && Describes(ParseAgo(r.time).value, now as int - s.createdAt as int)
  {
    TimeAgoParses(now as int - s.createdAt as int);
    MakeActivity(s.plantType + " plant scanned", Subtitle(s), TimeAgo(now as int - s.createdAt as int), "scan")
  }

  const PLACEHOLDER: Activity :=
    MakeActivity("No scan activity yet", "Start scanning plants to see your activity here", "Just now", "info")

  /** `getRecentActivity`: the three newest scans of the user, or one
      placeholder when there are none; `databaseUp` as for `Stats`. */
  function RecentActivity(scans: seq<Scan>, caller: Option<nat>, databaseUp: bool, now: nat): (r: Result<seq<Activity>, DashboardError>)
    ensures caller.None? <==> r == Err(DashboardError.NotAuthenticated)
    ensures r == Err(DashboardError.FetchFailed) <==> caller.Some? && !databaseUp
    ensures r.Ok? <==> caller.Some? && databaseUp
    ensures r.Ok? && CountByUser(scans, caller.value) == 0 ==> r.value == [PLACEHOLDER]
    ensures r.Ok? && CountByUser(scans, caller.value) > 0 ==>
              && |r.value| == (if CountByUser(scans, caller.value) < 3 then CountByUser(scans, caller.value) else 3)
              && |UserScans(scans, caller.value)| == CountByUser(scans, caller.value)
              && forall i | 0 <= i < |r.value| :: r.value[i] == ScanActivity(UserScans(scans, caller.value)[i], now)
  {
    if caller.None? then Err(DashboardError.NotAuthenticated)
    else if !databaseUp then Err(DashboardError.FetchFailed)
    else
      var recent := RecentByUser(scans, caller.value);
      NewestIsLatest(scans, caller.value);
      RecentLength(scans, caller.value);
      var n := if |recent| < 3 then |recent| else 3;
      var activities := ScanActivities(recent[..n], now);
      if activities == [] then Ok([PLACEHOLDER]) else Ok(activities)
  }

  /** One activity per scan, in the same order. */
  function ScanActivities(scans: seq<Scan>, now: nat): (r: seq<Activity>)
    ensures |r| == |scans|
    ensures forall i | 0 <= i < |r| :: r[i] == ScanActivity(scans[i], now)
  {
    seq(|scans|, i requires 0 <= i < |scans| => ScanActivity(scans[i], now))
  }

  lemma RecentLength(scans: seq<Scan>, user: nat)
    ensures |UserScans(scans, user)| == CountByUser(scans, user)
    ensures |RecentByUser(scans, user)| == (if CountByUser(scans, user) < 10 then CountByUser(scans, user) else 10)
  {
    CountIsFilterLength(scans, (s: Scan) => OwnedBy(s, user));
    assert |UserScans(scans, user)| == |Filter(scans, (s: Scan) => OwnedBy(s, user))|;
  }

  /** A scan named "Healthy" in any letter case is shown green. */
  lemma HealthyScanIsGreen(s: Scan, now: nat)
    requires EqualsIgnoreCase(s.disease, "healthy")
    ensures ScanActivity(s, now).color == "green"
  {
    assert OccursAt(Subtitle(s), "No diseases", 0);
  }

  /** The colour is read from the subtitle text, so a disease whose name
      contains "healthy" is also shown green. */
  lemma UnhealthyIsGreen(now: nat, base: Scan)
    requires base.disease == "unhealthy" && base.severity == Some("High")
    ensures !EqualsIgnoreCase(base.disease, "healthy")
    ensures ScanActivity(base, now).color == "green"
  {
    UnhealthySubtitle(base, Subtitle(base));
  }

  lemma UnhealthySubtitle(base: Scan, sub: string)
    requires base.disease == "unhealthy" && base.severity == Some("High")
    requires sub == Subtitle(base)
    ensures Contains(sub, "healthy")
  {
    assert !EqualsIgnoreCase(base.disease, "healthy") by {
      assert |base.disease| != |"healthy"|;
    }
    assert sub[..|base.disease + " detected - "|] == base.disease + " detected - ";
    assert sub[2..9] == base.disease[2..9] == "healthy";
    assert OccursAt(sub, "healthy", 2);
  }
}

=== FILE: email.dfy ===
/** The expert e-mails (EmailService.java): whether a mail is sent at all, the
    display-name fallback, HTML escaping of the name and the template
    substitution. Loading the templates and the SMTP transport are outside
    the model: a template is a parameter and a mail is the value handed to
    the transport. */
module Email {
  import opened Wrappers
  import opened Text

  datatype MailKind = ExpertPending | ExpertApproved

  datatype Mail = Mail(to: string, subject: string, html: string)

  /** The characters `escapeHtml` rewrites. */
  predicate IsHtmlSpecial(c: char) {
    c == '&' || c == '<' || c == '>' || c == '"' || c == '\''
  }

  /** No raw markup character that could open a tag or end an attribute. */
  predicate MarkupFree(s: string) {
    forall i | 0 <= i < |s| :: s[i] != '<' && s[i] != '>' && s[i] != '"' && s[i] != '\''
  }

  /** The entity each character is written as. */
  function Entity(c: char): string {
    if c == '&' then "&amp;"
    else if c == '<' then "&lt;"
    else if c == '>' then "&gt;"
    else if c == '"' then "&quot;"
    else if c == '\'' then "&#x27;"
    else [c]
  }

  /** Reference definition: every character replaced by its entity at once. */
  function EscapeEach(s: string): string {
    if s == [] then [] else Entity(s[0]) + EscapeEach(s[1..])
  }

  /** The five `String.replace` calls in the order the source applies them. */
  function EscapeChain(s: string): string {
    var a := ReplaceAll(s, "&", "&amp;");
    var b := ReplaceAll(a, "<", "&lt;");
    var c := ReplaceAll(b, ">", "&gt;");
    var d := ReplaceAll(c, "\"", "&quot;");
    ReplaceAll(d, "'", "&#x27;")
  }

  /** `escapeHtml`: null becomes "", otherwise the sequence of replaces. */
  function EscapeHtml(input: Option<string>): (r: string)
    ensures input.None? ==> r == ""
    ensures input.Some? ==> r == EscapeEach(input.value)
    ensures MarkupFree(r)
  {
    match input
    case None => ""
    case Some(s) =>
      ChainIsEach(s);
      EscapeEachMarkupFree(s);
      EscapeChain(s)
  }

  lemma ReplaceOne(c: char, d: char, rep: string)
    ensures ReplaceAll([c], [d], rep) == if c == d then rep else [c]
  {
    if c == d {
      assert [c][..1] == [d];
      assert ReplaceAll([c], [d], rep) == rep + ReplaceAll([], [d], rep);
    } else {
      assert [c][..1] == [c] && [c][0] != [d][0];
      assert ReplaceAll([c], [d], rep) == [c] + ReplaceAll([], [d], rep);
    }
  }

  /** Later replaces leave an entity alone: none of them targets a
      character an entity contains. */
  lemma EntityStable(e: string)
    requires '<' !in e && '>' !in e && '"' !in e && '\'' !in e
    ensures ReplaceAll(e, "<", "&lt;") == e
    ensures ReplaceAll(e, ">", "&gt;") == e
    ensures ReplaceAll(e, "\"", "&quot;") == e
    ensures ReplaceAll(e, "'", "&#x27;") == e
  {
    ReplaceCharAbsent(e, '<', "&lt;");
    ReplaceCharAbsent(e, '>', "&gt;");
    ReplaceCharAbsent(e, '"', "&quot;");
    ReplaceCharAbsent(e, '\'', "&#x27;");
  }

  lemma SingleReplace(c: char)
    ensures EscapeChain([c]) == Entity(c)
  {
    ReplaceOne(c, '&', "&amp;");
    if c == '&' {
      EntityStable("&amp;");
    } else {
      ReplaceOne(c, '<', "&lt;");
      if c == '<' {
        EntityStable("&lt;");
      } else {
        ReplaceOne(c, '>', "&gt;");
        if c == '>' {
          EntityStable("&gt;");
        } else {
          ReplaceOne(c, '"', "&quot;");
          if c == '"' {
            EntityStable("&quot;");
          } else {
            ReplaceOne(c, '\'', "&#x27;");
          }
        }
      }
    }
  }

  lemma ChainAppend(a: string, b: string)
    ensures EscapeChain(a + b) == EscapeChain(a) + EscapeChain(b)
  {
    var a1, b1 := ReplaceAll(a, "&", "&amp;"), ReplaceAll(b, "&", "&amp;");
    ReplaceCharAppend(a, b, '&', "&amp;");
    var a2, b2 := ReplaceAll(a1, "<", "&lt;"), ReplaceAll(b1, "<", "&lt;");
    ReplaceCharAppend(a1, b1, '<', "&lt;");
    var a3, b3 := ReplaceAll(a2, ">", "&gt;"), ReplaceAll(b2, ">", "&gt;");
    ReplaceCharAppend(a2, b2, '>', "&gt;");
    var a4, b4 := ReplaceAll(a3, "\"", "&quot;"), ReplaceAll(b3, "\"", "&quot;");
    ReplaceCharAppend(a3, b3, '"', "&quot;");
    ReplaceCharAppend(a4, b4, '\'', "&#x27;");
  }

  /** Applying the replaces one after another is the same as escaping every
      character at once: because '&' goes first, no entity written by a
      later replace is escaped again. */
  lemma {:induction false} ChainIsEach(s: string)
    ensures EscapeChain(s) == EscapeEach(s)
  {
    if s != [] {
      assert s == [s[0]] + s[1..];
      ChainAppend([s[0]], s[1..]);
      SingleReplace(s[0]);
      ChainIsEach(s[1..]);
    }
  }

  lemma {:induction false} EscapeEachMarkupFree(s: string)
    ensures MarkupFree(EscapeEach(s))
  {
    if s != [] {
      EscapeEachMarkupFree(s[1..]);
      var e := Entity(s[0]);
      assert MarkupFree(e);
    }
  }

  /** Text without any of the five characters is returned unchanged. */
  lemma {:induction false} EscapeIdentity(s: string)
    requires forall i | 0 <= i < |s| :: !IsHtmlSpecial(s[i])
    ensures EscapeHtml(Some(s)) == s
  {
    EscapeEachIdentity(s);
  }

  lemma {:induction false} EscapeEachIdentity(s: string)
    requires forall i | 0 <= i < |s| :: !IsHtmlSpecial(s[i])
    ensures EscapeEach(s) == s
  {
    if s != [] {
      EscapeEachIdentity(s[1..]);
      assert s == [s[0]] + s[1..];
    }
  }

  /** Escaping is not idempotent: an ampersand is escaped again. */
  lemma EscapeNotIdempotent(s: string)
    requires s == "&"
    ensures EscapeHtml(Some(s)) == "&amp;"
    ensures EscapeHtml(Some(EscapeHtml(Some(s)))) == "&amp;amp;"
  {
    EscapeAmpersand(s);
    EscapeEntityAgain(EscapeHtml(Some(s)));
  }

  lemma EscapeAmpersand(s: string)
    requires s == "&"
    ensures EscapeEach(s) == "&amp;"
  {
    assert EscapeEach(s) == Entity('&') + EscapeEach([]);
  }

  lemma EscapeEntityAgain(e: string)
    requires e == "&amp;"
    ensures EscapeEach(e) == "&amp;amp;"
  {
    assert e == ['&'] + "amp;";
    EscapeEachIdentity("amp;");
    assert EscapeEach(e) == Entity('&') + EscapeEach("amp;");
  }

  /** Decoding of the five entities, left to right. */
  function Unescape(s: string): string
    decreases |s|
  {
    if s == [] then []
    else if StartsWith(s, "&amp;") then "&" + Unescape(s[5..])
    else if StartsWith(s, "&lt;") then "<" + Unescape(s[4..])
    else if StartsWith(s, "&gt;") then ">" + Unescape(s[4..])
    else if StartsWith(s, "&quot;") then "\"" + Unescape(s[6..])
    else if StartsWith(s, "&#x27;") then "'" + Unescape(s[6..])
    else [s[0]] + Unescape(s[1..])
  }

  /** Escaping loses nothing: decoding the entities gives back the input,
      so different names are rendered differently. */
  lemma {:induction false} UnescapeEscape(s: string)
    ensures Unescape(EscapeEach(s)) == s
  {
    if s != [] {
      UnescapeEscape(s[1..]);
      UnescapeEntity(s[0], EscapeEach(s[1..]));
      assert s == [s[0]] + s[1..];
    }
  }

  lemma UnescapeEntity(c: char, t: string)
    ensures Unescape(Entity(c) + t) == [c] + Unescape(t)
  {
    var e := Entity(c);
    assert (e + t)[..|e|] == e;
    assert (e + t)[|e|..] == t;
    if c == '&' {
      UnescapeAmp(t);
    } else if c == '<' {
      UnescapeLt(t);
    } else if c == '>' {
      UnescapeGt(t);
    } else if c == '"' {
      UnescapeQuot(t);
    } else if c == '\'' {
      UnescapeApos(t);
    } else {
      UnescapePlain(c, t);
    }
  }

  /** A character outside the five is copied. */
  lemma UnescapePlain(c: char, t: string)
    requires !IsHtmlSpecial(c)
    ensures Unescape([c] + t) == [c] + Unescape(t)
  {
    var s := [c] + t;
    assert s[0] == c && s[1..] == t;
    assert !StartsWith(s, "&amp;") && !StartsWith(s, "&lt;") && !StartsWith(s, "&gt;")
        && !StartsWith(s, "&quot;") && !StartsWith(s, "&#x27;") by {
      NotEntityStart(s);
    }
  }

  /** A string not starting with '&' starts no entity. */
  lemma NotEntityStart(s: string)
    requires s != [] && s[0] != '&'
    ensures !StartsWith(s, "&amp;") && !StartsWith(s, "&lt;") && !StartsWith(s, "&gt;")
    ensures !StartsWith(s, "&quot;") && !StartsWith(s, "&#x27;")
  {
    assert "&amp;"[0] == '&' && "&lt;"[0] == '&' && "&gt;"[0] == '&';
    assert "&quot;"[0] == '&' && "&#x27;"[0] == '&';
  }

  lemma UnescapeAmp(t: string)
    ensures Unescape("&amp;" + t) == "&" + Unescape(t)
  {
    var s := "&amp;" + t;
    assert s[..5] == "&amp;" && s[5..] == t;
  }

  lemma UnescapeLt(t: string)
    ensures Unescape("&lt;" + t) == "<" + Unescape(t)
  {
    var s := "&lt;" + t;
    assert s[..4] == "&lt;" && s[4..] == t;
    assert !StartsWith(s, "&amp;") by {
      assert s[1] == 'l' && "&amp;"[1] == 'a';
    }
  }

  lemma UnescapeGt(t: string)
    ensures Unescape("&gt;" + t) == ">" + Unescape(t)
  {
    var s := "&gt;" + t;
    assert s[..4] == "&gt;" && s[4..] == t;
    assert !StartsWith(s, "&amp;") by {
      assert s[1] == 'g' && "&amp;"[1] == 'a';
    }
    assert !StartsWith(s, "&lt;") by {
      assert s[1] == 'g' && "&lt;"[1] == 'l';
    }
  }

  lemma UnescapeQuot(t: string)
    ensures Unescape("&quot;" + t) == "\"" + Unescape(t)
  {
    var s := "&quot;" + t;
    assert s[1] == 'q' && s[..6] == "&quot;" && s[6..] == t;
  }

  lemma UnescapeApos(t: string)
    ensures Unescape("&#x27;" + t) == "'" + Unescape(t)
  {
    var s := "&#x27;" + t;
    assert s[1] == '#' && s[..6] == "&#x27;" && s[6..] == t;
  }

  /** The name shown in a mail: the given name, or the fallback when it is
      null or blank. */
  function DisplayName(name: Option<string>, fallback: string): (r: string)
    ensures HasText(name) ==> r == name.value
    ensures !HasText(name) ==> r == fallback
  {
    if name.None? || IsBlank(name.value) then fallback else name.value
  }

  function Subject(kind: MailKind): string {
    match kind
    case ExpertPending => "Your expert account is pending approval"
    case ExpertApproved => "Your expert account has been approved!"
  }

  function FallbackName(kind: MailKind): string {
    match kind
    case ExpertPending => "Applicant"
    case ExpertApproved => "Expert"
  }

  /** The fixed paragraphs after the greeting of the plain fallback body. */
  function FallbackTail(kind: MailKind): string {
    match kind
    case ExpertPending =>
      "<p>Thank you for registering as an expert on CropApp. Your account is pending review and will be approved by an administrator shortly.</p>"
      + "<p>Regards,<br/>CropApp Team</p>"
    case ExpertApproved =>
      "<p>Congratulations! Your expert account on CropApp has been approved by our administrators.</p>"
      + "<p>You can now log in to your account and access all expert features.</p>"
      + "<p>Thank you for joining our community of agricultural experts.</p>"
      + "<p>Best regards,<br/>CropApp Team</p>"
  }

  /** The placeholder a template marks the recipient's name with. */
  const NAME_PLACEHOLDER: string := "{{name}}"

  /** The HTML body: the template with every "{{name}}" replaced by the
      escaped name, or the fallback greeting when no template was loaded.
      With a template, the body is the template's pieces between the
      placeholders, none of which holds a whole placeholder, rejoined by the
      escaped name. */
  function Body(kind: MailKind, template: Option<string>, displayName: string): (r: string)
    ensures template.None? ==> r == "<p>Hello " + EscapeHtml(Some(displayName)) + ",</p>" + FallbackTail(kind)
    ensures template.Some? && !Contains(template.value, NAME_PLACEHOLDER) ==> r == template.value
    ensures template.Some? && Contains(template.value, NAME_PLACEHOLDER) ==> Contains(r, EscapeHtml(Some(displayName)))
    ensures template.Some? ==>
              exists parts :: SplitsAs(template.value, NAME_PLACEHOLDER, r, EscapeHtml(Some(displayName)), parts)
  {
    var escaped := EscapeHtml(Some(displayName));
    match template
    case None => "<p>Hello " + escaped + ",</p>" + FallbackTail(kind)
    case Some(t) =>
      ReplaceAllSplitsExist(t, NAME_PLACEHOLDER, escaped);
      if Contains(t, NAME_PLACEHOLDER) then
        ReplacementPresent(t, NAME_PLACEHOLDER, escaped);
        ReplaceAll(t, NAME_PLACEHOLDER, escaped)
      else
        ReplaceAllAbsent(t, NAME_PLACEHOLDER, escaped);
        ReplaceAll(t, NAME_PLACEHOLDER, escaped)
  }

  /** Where the pattern occurs, the replacement appears in the result. */
  lemma {:induction false} ReplacementPresent(s: string, pat: string, rep: string)
    requires |pat| > 0 && Contains(s, pat)
    ensures Contains(ReplaceAll(s, pat, rep), rep)
    decreases |s|
  {
    var r := ReplaceAll(s, pat, rep);
    if s[..|pat|] == pat {
      assert OccursAt(r, rep, 0);
    } else {
      ContainsInTail(s, pat);
      ReplacementPresent(s[1..], pat, rep);
      ContainsUnderHead(s[0], ReplaceAll(s[1..], pat, rep), rep);
    }
  }

  /** An occurrence that is not at the start lies in the tail. */
  lemma ContainsInTail(s: string, pat: string)
    requires |pat| > 0 && Contains(s, pat) && !OccursAt(s, pat, 0)
    ensures Contains(s[1..], pat)
  {
    var i: nat :| i <= |s| && OccursAt(s, pat, i);
    assert OccursAt(s[1..], pat, i - 1) by {
      assert s[1..][i - 1..i - 1 + |pat|] == s[i..i + |pat|];
    }
  }

  /** An occurrence survives putting a character in front. */
  lemma ContainsUnderHead(c: char, rest: string, rep: string)
    requires Contains(rest, rep)
    ensures Contains([c] + rest, rep)
  {
    var k: nat :| k <= |rest| && OccursAt(rest, rep, k);
    assert ([c] + rest)[k + 1..k + 1 + |rep|] == rest[k..k + |rep|];
    assert OccursAt([c] + rest, rep, k + 1);
  }

  /** `sendExpertPending` / `sendExpertApproved`: nothing is sent to a null
      or blank recipient; otherwise the mail carries the kind's subject and
      the body for the display name. A transport failure is caught inside the
      service, so it never reaches the caller. */
  function Send(kind: MailKind, to: Option<string>, name: Option<string>, template: Option<string>): (r: Option<Mail>)
    ensures r.None? <==> !HasText(to)
    ensures r.Some? ==> r.value.to == to.value && r.value.subject == Subject(kind)
    ensures r.Some? ==> r.value.html == Body(kind, template, DisplayName(name, FallbackName(kind)))
  {
    if to.None? || IsBlank(to.value) then None
    else Some(Mail(to.value, Subject(kind), Body(kind, template, DisplayName(name, FallbackName(kind)))))
  }

  /** A blank or missing name is greeted with the kind's fallback name,
      which escaping leaves as it is. */
  lemma BlankNameFallsBack(kind: MailKind, name: Option<string>)
    requires !HasText(name)
    ensures EscapeHtml(Some(DisplayName(name, FallbackName(kind)))) == FallbackName(kind)
  {
    var f := FallbackName(kind);
    assert forall i | 0 <= i < |f| :: !IsHtmlSpecial(f[i]);
    EscapeIdentity(f);
  }
}

=== FILE: lists.dfy ===
/** Repository results as sequences. A Spring Data `ORDER BY` is modelled as
    a stable insertion sort on a lexicographic pair of integers; a `WHERE`
    clause is a filter that keeps the stored order; a derived `findBy`
    returning an `Optional` finds no row, one row, or fails when several
    rows match. */
module Lists {
  import opened Wrappers

  /** Sort key: ordered by `major`, then by `minor`. A descending column is
      sorted on its negation. */
  datatype Key = Key(major: int, minor: int)

  predicate KeyLe(a: Key, b: Key) {
    a.major < b.major || (a.major == b.major && a.minor <= b.minor)
  }

  predicate Sorted<T>(s: seq<T>, key: T -> Key) {
    forall i, j | 0 <= i < j < |s| :: KeyLe(key(s[i]), key(s[j]))
  }

  /** Inserts `x` before the first element whose key is not below its own. */
  function Insert<T>(x: T, s: seq<T>, key: T -> Key): (r: seq<T>)
    requires Sorted(s, key)
    ensures Sorted(r, key)
    ensures multiset(r) == multiset(s) + multiset([x])
  {
    if s == [] || KeyLe(key(x), key(s[0])) then
      ConsSorted(x, s, key);
      [x] + s
    else
      var rest := Insert(x, s[1..], key);
      assert s == [s[0]] + s[1..];
      forall y | y in rest
        ensures KeyLe(key(s[0]), key(y))
      {
        assert y in multiset(rest);
        if y != x {
          var k :| 0 <= k < |s[1..]| && s[1..][k] == y;
          assert s[k + 1] == y;
        }
      }
      ConsSorted(s[0], rest, key);
      [s[0]] + rest
  }

  /** An element no greater than any element of a sorted list may be put in
      front of it. */
  lemma ConsSorted<T>(h: T, s: seq<T>, key: T -> Key)
    requires Sorted(s, key)
    requires forall y | y in s :: KeyLe(key(h), key(y))
    ensures Sorted([h] + s, key)
  {
    var r := [h] + s;
    forall i, j | 0 <= i < j < |r|
      ensures KeyLe(key(r[i]), key(r[j]))
    {
      assert r[j] == s[j - 1];
      if i > 0 {
        assert r[i] == s[i - 1];
      }
    }
  }

  /** Stable insertion sort: the result is ordered and is a permutation. */
  function Sort<T>(s: seq<T>, key: T -> Key): (r: seq<T>)
    ensures Sorted(r, key)
    ensures multiset(r) == multiset(s)
    ensures |r| == |s|
  {
    if s == [] then []
    else
      assert s == [s[0]] + s[1..];
      var r := Insert(s[0], Sort(s[1..], key), key);
      assert |r| == |multiset(r)|;
      r
  }

  /** Sorting keeps exactly the elements it was given. */
  lemma SortSameElements<T>(s: seq<T>, key: T -> Key)
    ensures forall x | x in Sort(s, key) :: x in s
    ensures forall i | 0 <= i < |s| :: s[i] in Sort(s, key)
  {
    var r := Sort(s, key);
    forall x | x in r
      ensures x in s
    {
      assert x in multiset(r);
    }
    forall i | 0 <= i < |s|
      ensures s[i] in r
    {
      assert s[i] in multiset(s);
    }
  }

  /** The elements satisfying `p`, in their original order. */
  function Filter<T>(s: seq<T>, p: T -> bool): (r: seq<T>)
    ensures |r| <= |s|
    ensures forall x | x in r :: x in s && p(x)
    ensures forall i | 0 <= i < |s| :: p(s[i]) ==> s[i] in r
    ensures forall i | 0 <= i < |r| :: p(r[i])
  {
    if s == [] then [] else (if p(s[0]) then [s[0]] else []) + Filter(s[1..], p)
  }

  /** Number of elements satisfying `p` (a `COUNT(*) ... WHERE` query). */
  function Count<T>(s: seq<T>, p: T -> bool): (n: nat)
    ensures n <= |s|
  {
    if s == [] then 0 else (if p(s[0]) then 1 else 0) + Count(s[1..], p)
  }

  /** A count query agrees with the length of the matching list. */
  lemma {:induction false} CountIsFilterLength<T>(s: seq<T>, p: T -> bool)
    ensures Count(s, p) == |Filter(s, p)|
  {
    if s != [] {
      CountIsFilterLength(s[1..], p);
    }
  }

  /** The positions of the elements satisfying `p`. */
  function Positions<T>(s: seq<T>, p: T -> bool): set<nat> {
    set i: nat | i < |s| && p(s[i])
  }

  /** A count query counts the matching rows: the number of positions
      that match. */
  lemma {:induction false} CountIsCardinality<T>(s: seq<T>, p: T -> bool)
    ensures Count(s, p) == |Positions(s, p)|
    decreases |s|
  {
    if s != [] {
      var init := s[..|s| - 1];
      var x := s[|s| - 1];
      assert init + [x] == s;
      CountIsCardinality(init, p);
      CountAppend(init, x, p);
      if p(x) {
        assert Positions(s, p) == Positions(init, p) + {|init|};
      } else {
        assert Positions(s, p) == Positions(init, p);
      }
    }
  }

  /** `r` holds exactly the elements of `s` satisfying `p`, each as often
      as in `s`. */
  ghost predicate SelectsExactly<T(!new)>(r: seq<T>, s: seq<T>, p: T -> bool) {
    forall x :: multiset(r)[x] == if p(x) then multiset(s)[x] else 0
  }

  /** A filter keeps every matching element as often as it occurs and no
      other element. */
  lemma {:induction false} FilterSelects<T(!new)>(s: seq<T>, p: T -> bool)
    ensures SelectsExactly(Filter(s, p), s, p)
  {
    if s != [] {
      FilterSelects(s[1..], p);
      assert s == [s[0]] + s[1..];
      assert multiset(s) == multiset{s[0]} + multiset(s[1..]);
      var head := if p(s[0]) then [s[0]] else [];
      assert multiset(Filter(s, p)) == multiset(head) + multiset(Filter(s[1..], p));
    }
  }

  /** `a` is obtained from `b` by deleting elements. */
  predicate IsSubsequence<T(==)>(a: seq<T>, b: seq<T>)
    decreases |b|
  {
    a == [] || (b != [] && ((a[0] == b[0] && IsSubsequence(a[1..], b[1..])) || IsSubsequence(a, b[1..])))
  }

  lemma {:induction false} FilterIsSubsequence<T>(s: seq<T>, p: T -> bool)
    ensures IsSubsequence(Filter(s, p), s)
  {
    if s != [] {
      var rest := Filter(s[1..], p);
      FilterIsSubsequence(s[1..], p);
      if p(s[0]) {
        assert Filter(s, p) == [s[0]] + rest;
        assert ([s[0]] + rest)[1..] == rest;
      } else {
        assert Filter(s, p) == rest;
      }
    }
  }

  lemma {:induction false} FilterInsertKept<T>(x: T, s: seq<T>, key: T -> Key, p: T -> bool)
    requires Sorted(s, key) && p(x)
    ensures Sorted(Filter(s, p), key)
    ensures Filter(Insert(x, s, key), p) == Insert(x, Filter(s, p), key)
  {
    FilterSorted(s, key, p);
    if s == [] {
      assert Insert(x, s, key) == [x];
      assert Filter([x], p) == [x] + Filter([x][1..], p);
    } else if KeyLe(key(x), key(s[0])) {
      var f := Filter(s, p);
      assert Insert(x, s, key) == [x] + s;
      assert ([x] + s)[1..] == s;
      assert Filter([x] + s, p) == [x] + f;
      if f != [] {
        assert f[0] in s;
        var k :| 0 <= k < |s| && s[k] == f[0];
        assert k == 0 || KeyLe(key(s[0]), key(s[k]));
        assert KeyLe(key(x), key(f[0]));
      }
    } else {
      var rest := Insert(x, s[1..], key);
      var f1 := Filter(s[1..], p);
      assert Sorted(s[1..], key);
      FilterInsertKept(x, s[1..], key, p);
      assert Insert(x, s, key) == [s[0]] + rest;
      assert ([s[0]] + rest)[1..] == rest;
      if p(s[0]) {
        assert Filter(s, p) == [s[0]] + f1;
        assert ([s[0]] + f1)[1..] == f1;
        assert Filter([s[0]] + rest, p) == [s[0]] + Filter(rest, p);
        assert Insert(x, [s[0]] + f1, key) == [s[0]] + Insert(x, f1, key);
      } else {
        assert Filter(s, p) == f1;
        assert Filter([s[0]] + rest, p) == Filter(rest, p);
      }
    }
  }

  lemma {:induction false} FilterInsertDropped<T>(x: T, s: seq<T>, key: T -> Key, p: T -> bool)
    requires Sorted(s, key) && !p(x)
    ensures Filter(Insert(x, s, key), p) == Filter(s, p)
  {
    if s == [] || KeyLe(key(x), key(s[0])) {
      assert Insert(x, s, key) == [x] + s;
      assert ([x] + s)[1..] == s;
    } else {
      var rest := Insert(x, s[1..], key);
      assert Sorted(s[1..], key);
      FilterInsertDropped(x, s[1..], key, p);
      assert Insert(x, s, key) == [s[0]] + rest;
      assert ([s[0]] + rest)[1..] == rest;
    }
  }

  /** Filtering keeps a sorted list sorted. */
  lemma FilterSorted<T>(s: seq<T>, key: T -> Key, p: T -> bool)
    requires Sorted(s, key)
    ensures Sorted(Filter(s, p), key)
  {
    var f := Filter(s, p);
    FilterIsSubsequence(s, p);
    SubsequenceSorted(f, s, key);
  }

  lemma {:induction false} SubsequenceSorted<T>(a: seq<T>, b: seq<T>, key: T -> Key)
    requires IsSubsequence(a, b) && Sorted(b, key)
    ensures Sorted(a, key)
    ensures forall x | x in a :: x in b
    decreases |b|
  {
    if a != [] {
      assert Sorted(b[1..], key);
      if a[0] == b[0] && IsSubsequence(a[1..], b[1..]) {
        SubsequenceSorted(a[1..], b[1..], key);
        assert a == [a[0]] + a[1..];
        forall i, j | 0 <= i < j < |a|
          ensures KeyLe(key(a[i]), key(a[j]))
        {
          if i == 0 {
            assert a[j] in a[1..];
            var k :| 0 <= k < |b[1..]| && b[1..][k] == a[j];
            assert b[k + 1] == a[j];
          } else {
            assert a[i] == a[1..][i - 1] && a[j] == a[1..][j - 1];
          }
        }
      } else {
        SubsequenceSorted(a, b[1..], key);
      }
    }
  }

  /** Sorting and filtering commute: the filtered result of a sorted list is
      the sorted filtered list, in the same relative order. */
  lemma {:induction false} FilterSortCommute<T>(s: seq<T>, key: T -> Key, p: T -> bool)
    ensures Filter(Sort(s, key), p) == Sort(Filter(s, p), key)
  {
    if s != [] {
      var f1 := Filter(s[1..], p);
      FilterSortCommute(s[1..], key, p);
      assert Sort(s, key) == Insert(s[0], Sort(s[1..], key), key);
      if p(s[0]) {
        FilterInsertKept(s[0], Sort(s[1..], key), key, p);
        assert Filter(s, p) == [s[0]] + f1;
        assert ([s[0]] + f1)[1..] == f1;
        assert Sort([s[0]] + f1, key) == Insert(s[0], Sort(f1, key), key);
      } else {
        FilterInsertDropped(s[0], Sort(s[1..], key), key, p);
        assert Filter(s, p) == f1;
      }
    }
  }

  /** The first `n` elements, or all of them when there are fewer. */
  function Take<T>(s: seq<T>, n: nat): (r: seq<T>)
    ensures |r| == if |s| <= n then |s| else n
    ensures r == s[..|r|]
  {
    if |s| <= n then s else s[..n]
  }

  /** Index of the first element satisfying `p`. */
  function First<T>(s: seq<T>, p: T -> bool): (r: Option<nat>)
    ensures r.Some? ==> r.value < |s| && p(s[r.value])
    ensures r.Some? ==> forall j | 0 <= j < r.value :: !p(s[j])
    ensures r.None? <==> forall i | 0 <= i < |s| :: !p(s[i])
  {
    if s == [] then None
    else if p(s[0]) then Some(0)
    else match First(s[1..], p)
      case None => None
      case Some(k) => Some(k + 1)
  }

  /** The outcome of a query that must return at most one row: no row, the
      one row, or a failure because several rows matched. */
  datatype Match = NoMatch | OneMatch(index: nat) | ManyMatches

  /** A single-result query (a repository method returning `Optional`):
      several matching rows are an error, whatever the `ORDER BY`. */
  function Single<T>(s: seq<T>, p: T -> bool): (r: Match)
    ensures r == NoMatch <==> forall i | 0 <= i < |s| :: !p(s[i])
    ensures r.OneMatch? ==> r.index < |s| && p(s[r.index])
    ensures r.OneMatch? ==> forall j | 0 <= j < |s| && j != r.index :: !p(s[j])
    ensures r == ManyMatches <==> exists i, j | 0 <= i < j < |s| :: p(s[i]) && p(s[j])
  {
    if s == [] then NoMatch
    else
      var rest := Single(s[1..], p);
      assert forall k | 0 <= k < |s| - 1 :: s[1..][k] == s[k + 1];
      if p(s[0]) then
        (match rest
         case NoMatch => OneMatch(0)
         case OneMatch(k) => assert p(s[0]) && p(s[k + 1]); ManyMatches
         case ManyMatches => ManyMatches)
      else
        (match rest
         case NoMatch => NoMatch
         case OneMatch(k) => OneMatch(k + 1)
         case ManyMatches =>
           assert exists i, j | 1 <= i < j < |s| :: p(s[i]) && p(s[j]);
           ManyMatches)
  }

  /** The three outcomes are the three ranges of the matching count. */
  lemma {:induction false} SingleCounts<T>(s: seq<T>, p: T -> bool)
    ensures Single(s, p) == NoMatch <==> Count(s, p) == 0
    ensures Single(s, p).OneMatch? <==> Count(s, p) == 1
    ensures Single(s, p) == ManyMatches <==> Count(s, p) >= 2
  {
    if s != [] {
      SingleCounts(s[1..], p);
    }
  }

  /** A single-result query sees only which rows match. */
  lemma {:induction false} SingleDependsOnMatches<T>(a: seq<T>, b: seq<T>, p: T -> bool, q: T -> bool)
    requires |a| == |b|
    requires forall j | 0 <= j < |a| :: p(a[j]) == q(b[j])
    ensures Single(a, p) == Single(b, q)
  {
    if a != [] {
      SingleDependsOnMatches(a[1..], b[1..], p, q);
    }
  }

  /** Two successive filters select what their conjunction selects. */
  lemma {:induction false} FilterFilter<T>(s: seq<T>, p: T -> bool, q: T -> bool, pq: T -> bool)
    requires forall i | 0 <= i < |s| :: pq(s[i]) == (p(s[i]) && q(s[i]))
    ensures Filter(Filter(s, p), q) == Filter(s, pq)
  {
    if s != [] {
      var t := s[1..];
      var ft := Filter(t, p);
      FilterFilter(t, p, q, pq);
      assert pq(s[0]) == (p(s[0]) && q(s[0]));
      assert Filter(s, pq) == (if pq(s[0]) then [s[0]] else []) + Filter(t, pq);
      if p(s[0]) {
        var fs := [s[0]] + ft;
        assert Filter(s, p) == fs;
        assert fs[0] == s[0] && fs[1..] == ft;
        assert Filter(fs, q) == (if q(s[0]) then [s[0]] else []) + Filter(ft, q);
      } else {
        assert Filter(s, p) == ft;
      }
    }
  }

  /** A Spring Data page: `PageRequest.of(number, size)` applied to a result. */
  datatype Page<T> = Page(content: seq<T>, totalElements: nat, totalPages: nat, number: nat, size: nat)

  /** The page `number` of `s` with `size` elements per page; `None` when
      `PageRequest.of` refuses the arguments (a negative page index or a
      size below one). */
  function Paginate<T>(s: seq<T>, number: int, size: int): (r: Option<Page<T>>)
    ensures r.None? <==> number < 0 || size < 1
    ensures r.Some? ==> r.value.totalElements == |s| && r.value.number == number && r.value.size == size
    ensures r.Some? ==> |r.value.content| <= size && number * size >= 0
    ensures r.Some? ==> forall i | 0 <= i < |r.value.content| :: number * size + i < |s| && r.value.content[i] == s[number * size + i]
    ensures r.Some? ==> (number * size < |s| ==> |r.value.content| == if |s| - number * size < size then |s| - number * size else size)
  {
    if number < 0 || size < 1 then None
    else
      var lo := number * size;
      assert lo >= 0 by {
        PageStart(number, size);
      }
      var content := Window(s, lo, size);
      Some(Page(content, |s|, (|s| + size - 1) / size, number, size))
  }

  lemma PageStart(number: int, size: int)
    requires number >= 0 && size >= 1
    ensures number * size >= 0
  {
  }

  /** At most `size` elements of `s` from index `lo` on. */
  function Window<T>(s: seq<T>, lo: nat, size: nat): (r: seq<T>)
    ensures |r| <= size
    ensures forall i | 0 <= i < |r| :: lo + i < |s| && r[i] == s[lo + i]
    ensures lo < |s| ==> |r| == if |s| - lo < size then |s| - lo else size
    ensures lo >= |s| ==> r == []
  {
    if lo >= |s| then [] else if |s| - lo < size then s[lo..] else s[lo..lo + size]
  }

  /** Spring's page count, `ceil(n / size)`, is the fewest pages of `size`
      that hold `n` elements. */
  lemma PageCount<T>(s: seq<T>, number: int, size: int)
    requires Paginate(s, number, size).Some?
    ensures var q := Paginate(s, number, size).value.totalPages;
            ((q - 1) * size < |s| <= q * size) || (|s| == 0 && q == 0)
  {
    var n := |s|;
    var q := (n + size - 1) / size;
    var m := (n + size - 1) % size;
    assert n + size - 1 == q * size + m && 0 <= m < size;
    if n == 0 {
      assert q == 0;
    }
  }

  /** A page holds elements of the list it was cut from. */
  lemma PageContentIn<T>(s: seq<T>, number: int, size: int)
    requires Paginate(s, number, size).Some?
    ensures forall x | x in Paginate(s, number, size).value.content :: x in s
  {
    var c := Paginate(s, number, size).value.content;
    forall x | x in c
      ensures x in s
    {
      var i :| 0 <= i < |c| && c[i] == x;
      assert c[i] == s[number * size + i];
    }
  }

  /** Every element is found on page `i / size` at position `i % size`. */
  lemma PageHolds<T>(s: seq<T>, size: int, i: nat)
    requires size >= 1 && i < |s|
    ensures var p := Paginate(s, i / size, size);
            p.Some? && i % size < |p.value.content| && p.value.content[i % size] == s[i]
  {
    var n := i / size;
    assert n * size + i % size == i;
    assert n * size <= i;
  }

  /** Nothing is counted exactly when nothing matches. */
  lemma {:induction false} CountZero<T>(s: seq<T>, p: T -> bool)
    ensures Count(s, p) == 0 <==> forall i | 0 <= i < |s| :: !p(s[i])
  {
    if s != [] {
      CountZero(s[1..], p);
      assert forall i | 1 <= i < |s| :: s[1..][i - 1] == s[i];
    }
  }

  /** A count is positive as soon as one element matches. */
  lemma {:induction false} CountPositive<T>(s: seq<T>, p: T -> bool, i: nat)
    requires i < |s| && p(s[i])
    ensures Count(s, p) > 0
  {
    if i > 0 {
      CountPositive(s[1..], p, i - 1);
    }
  }

  /** Counting a disjoint union: when every element matching `p` matches
      exactly one of `q` and `r`, and nothing else does, the counts add. */
  lemma {:induction false} CountPartition<T>(s: seq<T>, p: T -> bool, q: T -> bool, r: T -> bool)
    requires forall i | 0 <= i < |s| :: p(s[i]) == (q(s[i]) || r(s[i])) && !(q(s[i]) && r(s[i]))
    ensures Count(s, p) == Count(s, q) + Count(s, r)
  {
    if s != [] {
      CountPartition(s[1..], p, q, r);
    }
  }

  /** A prefix of an ordered list is ordered. */
  lemma TakeSorted<T>(s: seq<T>, n: nat, key: T -> Key)
    requires Sorted(s, key)
    ensures Sorted(Take(s, n), key)
  {
  }

  /** Appending one element adds one to the count exactly when it matches. */
  lemma {:induction false} CountAppend<T>(s: seq<T>, x: T, p: T -> bool)
    ensures Count(s + [x], p) == Count(s, p) + (if p(x) then 1 else 0)
  {
    if s == [] {
      assert [] + [x] == [x];
      assert [x][1..] == [];
    } else {
      assert (s + [x])[1..] == s[1..] + [x];
      CountAppend(s[1..], x, p);
    }
  }

  /** A stronger condition counts no more elements. */
  lemma {:induction false} CountSubset<T>(s: seq<T>, p: T -> bool, q: T -> bool)
    requires forall i | 0 <= i < |s| :: p(s[i]) ==> q(s[i])
    ensures Count(s, p) <= Count(s, q)
  {
    if s != [] {
      CountSubset(s[1..], p, q);
    }
  }

  /** Replacing elements by ones that match exactly when the originals did
      keeps the count. */
  lemma {:induction false} CountPointwise<T>(a: seq<T>, b: seq<T>, p: T -> bool)
    requires |a| == |b|
    requires forall j | 0 <= j < |a| :: p(a[j]) == p(b[j])
    ensures Count(a, p) == Count(b, p)
  {
    if a != [] {
      CountPointwise(a[1..], b[1..], p);
    }
  }
}

=== FILE: markdown.dfy ===
/** The documentation converter `convert_to_word.py`: a line-by-line
    classifier that turns a Markdown file into Word paragraphs, headings,
    list items, code blocks and tables.  The Word document is modelled as
    the sequence of blocks the converter appends to it; fonts and styles
    are left out. */
module Markdown {
  import opened Wrappers
  import opened Text
  import Scans

  // ---------------------------------------------------------------------
  // Python string primitives
  // ---------------------------------------------------------------------

  /** Python's `str.isspace()`, which is also what `\s` matches in a `str`
      pattern: ASCII tab to carriage return, the information separators
      U+001C to U+001F, the space, and the Unicode space separators. */
  predicate PySpace(c: char) {
    var n := c as int;
    (9 <= n <= 13) || (28 <= n <= 32) || n == 0x85 || n == 0xA0 || n == 0x1680
    || (0x2000 <= n <= 0x200A) || n == 0x2028 || n == 0x2029 || n == 0x202F
    || n == 0x205F || n == 0x3000
  }

  /** `not s.strip()`: the string holds nothing but white space. */
  predicate Blank(s: string) {
    forall k | 0 <= k < |s| :: PySpace(s[k])
  }

  /** `s.rstrip()`: the longest prefix that does not end in white space. */
  function RStrip(s: string): (r: string)
    ensures |r| <= |s| && r == s[..|r|]
    ensures forall k | |r| <= k < |s| :: PySpace(s[k])
    ensures r == [] || !PySpace(r[|r| - 1])
  {
    if s != [] && PySpace(s[|s| - 1]) then RStrip(s[..|s| - 1]) else s
  }

  /** `s.lstrip()`: the longest suffix that does not start with white space. */
  function LStrip(s: string): (r: string)
    ensures |r| <= |s| && r == s[|s| - |r|..]
    ensures forall k | 0 <= k < |s| - |r| :: PySpace(s[k])
    ensures r == [] || !PySpace(r[0])
  {
    if s != [] && PySpace(s[0]) then LStrip(s[1..]) else s
  }

  /** `s.strip()`: empty exactly for blank strings, and otherwise a string
      that neither starts nor ends with white space. */
  function Strip(s: string): (r: string)
    ensures r == [] <==> Blank(s)
    ensures r == [] || (!PySpace(r[0]) && !PySpace(r[|r| - 1]))
  {
    var t := RStrip(s);
    var r := LStrip(t);
    assert r != [] ==> r[|r| - 1] == t[|t| - 1];
    assert t != [] ==> !PySpace(t[|t| - 1]);
    r
  }

  /** A string already free of surrounding white space. */
  predicate Trimmed(t: string) {
    t == [] || (!PySpace(t[0]) && !PySpace(t[|t| - 1]))
  }

  /** Stripping leaves a trimmed string alone. */
  lemma StripTrimmed(t: string)
    requires Trimmed(t)
    ensures Strip(t) == t
  {
  }

  /** White space in front of a string that does not start with any is
      exactly what `lstrip` removes. */
  lemma {:induction false} LStripPad(pad: string, t: string)
    requires Blank(pad) && (t == [] || !PySpace(t[0]))
    ensures LStrip(pad + t) == t
  {
    if pad != [] {
      assert (pad + t)[0] == pad[0];
      assert (pad + t)[1..] == pad[1..] + t;
      LStripPad(pad[1..], t);
    } else {
      assert pad + t == t;
    }
  }

  /** Stripping a trimmed string with white space in front gives the string. */
  lemma StripAfterSpace(pad: string, t: string)
    requires Blank(pad) && Trimmed(t)
    ensures Strip(pad + t) == t
  {
    var s := pad + t;
    if t == [] {
      assert s == pad;
    } else {
      assert s[|s| - 1] == t[|t| - 1];
      assert RStrip(s) == s;
      LStripPad(pad, t);
    }
  }

  /** Number of leading characters equal to `c` (`len(s) - len(s.lstrip(c))`). */
  function Leading(s: string, c: char): (n: nat)
    ensures n <= |s|
    ensures forall k | 0 <= k < n :: s[k] == c
    ensures n < |s| ==> s[n] != c
  {
    if s != [] && s[0] == c then 1 + Leading(s[1..], c) else 0
  }

  /** Number of leading ASCII digits (what `\d+` consumes). */
  function LeadingDigits(s: string): (n: nat)
    ensures n <= |s| && AllDigits(s[..n])
    ensures n < |s| ==> !IsDigit(s[n])
  {
    if s != [] && IsDigit(s[0]) then
      var n := 1 + LeadingDigits(s[1..]);
      assert s[..n] == [s[0]] + s[1..][..n - 1];
      n
    else 0
  }

  /** Python's `s[n:]`, which is empty rather than an error past the end. */
  function Drop(s: string, n: nat): (r: string)
    ensures |r| == if n <= |s| then |s| - n else 0
  {
    if n <= |s| then s[n..] else []
  }

  /** Python's `s[n:-n]`, empty when the two cuts overlap. */
  function Inside(s: string, n: nat): (r: string)
    ensures 2 * n <= |s| ==> s == s[..n] + r + s[|s| - n..]
  {
    if 2 * n <= |s| then s[n..|s| - n] else []
  }

  function Min(a: nat, b: nat): nat {
    if a <= b then a else b
  }

  function Concat(parts: seq<string>): string {
    if parts == [] then [] else parts[0] + Concat(parts[1..])
  }

  /** Every odd piece is an emphasis match: it starts and ends with `*`. */
  predicate OddMatches(r: seq<string>) {
    forall k | 0 <= k < |r| && k % 2 == 1 :: |r[k]| >= 2 && r[k][0] == '*' && r[k][|r[k]| - 1] == '*'
  }

  lemma OddMatchesCons(a: string, m: string, rest: seq<string>)
    requires OddMatches(rest) && |rest| % 2 == 1
    requires |m| >= 2 && m[0] == '*' && m[|m| - 1] == '*'
    ensures OddMatches([a, m] + rest) && |[a, m] + rest| % 2 == 1
  {
    var r := [a, m] + rest;
    forall k | 0 <= k < |r| && k % 2 == 1
      ensures |r[k]| >= 2 && r[k][0] == '*' && r[k][|r[k]| - 1] == '*'
    {
      if k > 1 {
        assert r[k] == rest[k - 2];
      }
    }
  }

  /** Text, a match and the pieces after the match spell the text from
      `start` on. */
  lemma PiecesCons(s: string, start: nat, i: nat, e: nat, rest: seq<string>)
    requires start <= i < e <= |s| && Concat(rest) == s[e..]
    ensures Concat([s[start..i], s[i..e]] + rest) == s[start..]
  {
    var r := [s[start..i], s[i..e]] + rest;
    assert r[1..][1..] == rest;
    assert Concat(r) == s[start..i] + (s[i..e] + Concat(rest));
    assert s[start..] == s[start..i] + (s[i..e] + s[e..]);
  }

  /** The first index at or after `from` holding `c`. */
  function IndexFrom(s: string, from: nat, c: char): (r: Option<nat>)
    ensures r.Some? ==> from <= r.value < |s| && s[r.value] == c
    ensures r.Some? ==> forall k | from <= k < r.value :: s[k] != c
    ensures r.None? ==> forall k | from <= k < |s| :: s[k] != c
    decreases |s| - from
  {
    if from >= |s| then None
    else if s[from] == c then Some(from)
    else IndexFrom(s, from + 1, c)
  }

  /** The first `c` from `from` on is the one at `j` when none comes
      before it. */
  lemma IndexFromFirst(s: string, from: nat, j: nat, c: char)
    requires from <= j < |s| && s[j] == c
    requires forall m | from <= m < j :: s[m] != c
    ensures IndexFrom(s, from, c) == Some(j)
  {
  }

  // ---------------------------------------------------------------------
  // The document
  // ---------------------------------------------------------------------

  /** A run of text in a paragraph, bold or italic or plain. */
  datatype Run = Run(text: string, bold: bool, italic: bool)

  /** What the converter appends to the Word document. */
  datatype Block =
    | Code(text: string)
    | Table(header: seq<string>, body: seq<seq<string>>)
    | Heading(text: string, level: nat)
    | Bullet(text: string)
    | Numbered(text: string)
    | Paragraph(runs: seq<Run>)

  /** `doc.add_paragraph()` with no text: the spacer after tables, rules and
      blank lines. */
  const EMPTY := Paragraph([])

  function Plain(text: string): Block {
    Paragraph([Run(text, false, false)])
  }

  // ---------------------------------------------------------------------
  // Inline markup
  // ---------------------------------------------------------------------

  /** Where the link `\[(.+?)\]\(.+?\)` opened at `i` closes: the first `](`
      at or after `j` that some later `)` can finish, paired with the
      nearest such `)`.  Python's lazy groups try the shortest text first. */
  function LinkClose(s: string, j: nat): (r: Option<(nat, nat)>)
    ensures r.Some? ==> j <= r.value.0 && r.value.0 + 3 <= r.value.1 < |s|
    ensures r.Some? ==> s[r.value.0] == ']' && s[r.value.0 + 1] == '(' && s[r.value.1] == ')'
    ensures r.Some? ==> forall k | r.value.0 + 3 <= k < r.value.1 :: s[k] != ')'
    decreases |s| - j
  {
    if j + 1 >= |s| then None
    else if s[j] == ']' && s[j + 1] == '(' && IndexFrom(s, j + 3, ')').Some? then
      Some((j, IndexFrom(s, j + 3, ')').value))
    else LinkClose(s, j + 1)
  }

  /** `re.sub(r'\[(.+?)\]\(.+?\)', r'\1', s[i:])`: each link replaced by its
      text, the scan resuming after the link. */
  function StripLinks(s: string, i: nat): (r: string)
    ensures |r| <= |s| - i || i > |s|
    ensures '[' !in s[Min(i, |s|)..] ==> r == s[Min(i, |s|)..]
    decreases |s| - i
  {
    if i >= |s| then []
    else if s[i] == '[' && LinkClose(s, i + 2).Some? then
      var (j, k) := LinkClose(s, i + 2).value;
      s[i + 1..j] + StripLinks(s, k + 1)
    else
      assert s[i..] == [s[i]] + s[i + 1..];
      [s[i]] + StripLinks(s, i + 1)
  }

  /** `re.sub(r'`(.+?)`', r'\1', s[i:])`: inline code loses its backticks. */
  function StripTicks(s: string, i: nat): (r: string)
    ensures |r| <= |s| - i || i > |s|
    ensures '`' !in s[Min(i, |s|)..] ==> r == s[Min(i, |s|)..]
    decreases |s| - i
  {
    if i >= |s| then []
    else if s[i] == '`' && IndexFrom(s, i + 2, '`').Some? then
      var j := IndexFrom(s, i + 2, '`').value;
      s[i + 1..j] + StripTicks(s, j + 1)
    else
      assert s[i..] == [s[i]] + s[i + 1..];
      [s[i]] + StripTicks(s, i + 1)
  }

  /** The text of a paragraph without asterisks: links keep their text and
      inline code its content.  The bold substitution the converter applies
      first cannot match a line without `*`. */
  function InlineText(line: string): string {
    StripTicks(StripLinks(line, 0), 0)
  }

  /** A link is replaced by its text. */
  lemma LinkKeepsText(t: string, url: string)
    requires t != [] && ']' !in t && url != [] && ')' !in url
    ensures StripLinks("[" + t + "](" + url + ")", 0) == t
  {
    var s := "[" + t + "](" + url + ")";
    var j := |t| + 1;
    LinkLayout(s, t, url);
    LinkCloseSkips(s, 2, j);
    IndexFromFirst(s, j + 3, |s| - 1, ')');
    assert LinkClose(s, 2) == Some((j, |s| - 1));
    assert StripLinks(s, |s|) == [];
  }

  /** Where the pieces of `[t](url)` sit. */
  lemma LinkLayout(s: string, t: string, url: string)
    requires s == "[" + t + "](" + url + ")"
    requires t != [] && ']' !in t && url != [] && ')' !in url
    ensures |s| == |t| + |url| + 4 && s[0] == '['
    ensures s[|t| + 1] == ']' && s[|t| + 2] == '(' && s[|s| - 1] == ')'
    ensures s[1..|t| + 1] == t
    ensures forall m | 2 <= m < |t| + 1 :: s[m] != ']'
    ensures forall m | |t| + 4 <= m < |s| - 1 :: s[m] != ')'
  {
    assert forall m | 1 <= m < |t| + 1 :: s[m] == t[m - 1];
    assert forall m | |t| + 3 <= m < |s| - 1 :: s[m] == url[m - |t| - 3];
  }

  /** No `](` pair starts before `j`, so the search for one starts at `j`. */
  lemma {:induction false} LinkCloseSkips(s: string, from: nat, j: nat)
    requires from <= j < |s|
    requires forall m | from <= m < j :: s[m] != ']'
    ensures LinkClose(s, from) == LinkClose(s, j)
    decreases j - from
  {
    if from < j {
      LinkCloseSkips(s, from + 1, j);
    }
  }

  /** Inline code loses its backticks. */
  lemma TicksKeepCode(t: string)
    requires t != [] && '`' !in t
    ensures StripTicks("`" + t + "`", 0) == t
  {
    var s := "`" + t + "`";
    assert forall m | 2 <= m < |s| - 1 :: s[m] == t[m - 1];
    assert forall m | 2 <= m < |s| - 1 :: s[m] != '`';
    IndexFromFirst(s, 2, |s| - 1, '`');
    assert s[1..|s| - 1] == t;
  }

  /** The first `**` at or after `from`. */
  function PairFrom(s: string, from: nat): (r: Option<nat>)
    ensures r.Some? ==> from <= r.value && r.value + 1 < |s| && s[r.value] == '*' && s[r.value + 1] == '*'
    decreases |s| - from
  {
    if from + 1 >= |s| then None
    else if s[from] == '*' && s[from + 1] == '*' then Some(from)
    else PairFrom(s, from + 1)
  }

  /** Where `(\*\*.*?\*\*|\*.*?\*)` matching at `i` ends: the bold form is
      tried first, then the italic form. */
  function EmphasisEnd(s: string, i: nat): (r: Option<nat>)
    requires i < |s|
    ensures r.Some? ==> i + 2 <= r.value <= |s| && s[i] == '*' && s[r.value - 1] == '*'
  {
    if s[i] != '*' then None
    else if i + 1 < |s| && s[i + 1] == '*' && PairFrom(s, i + 2).Some? then
      Some(PairFrom(s, i + 2).value + 2)
    else if IndexFrom(s, i + 1, '*').Some? then
      Some(IndexFrom(s, i + 1, '*').value + 1)
    else None
  }

  /** `re.split` with the emphasis pattern, from a segment starting at
      `start` and a scan at `i`: text and matches alternate, the matches at
      odd positions, and the pieces put back together give the input. */
  function Pieces(s: string, start: nat, i: nat): (r: seq<string>)
    requires start <= i <= |s|
    ensures |r| % 2 == 1
    ensures Concat(r) == s[start..]
    ensures OddMatches(r)
    decreases |s| - i
  {
    if i == |s| then [s[start..]]
    else if EmphasisEnd(s, i).Some? then
      var e := EmphasisEnd(s, i).value;
      var rest := Pieces(s, e, e);
      PiecesCons(s, start, i, e, rest);
      OddMatchesCons(s[start..i], s[i..e], rest);
      [s[start..i], s[i..e]] + rest
    else Pieces(s, start, i + 1)
  }

  /** One piece as a run: `**…**` bold, `*…*` italic, anything else plain. */
  function Classify(part: string): (r: Run)
    ensures r.bold ==> StartsWith(part, "**") && EndsWith(part, "**") && !r.italic
    ensures r.italic ==> StartsWith(part, "*") && EndsWith(part, "*")
    ensures !r.bold && !r.italic ==> r.text == part
  {
    if StartsWith(part, "**") && EndsWith(part, "**") then Run(Inside(part, 2), true, false)
    else if StartsWith(part, "*") && EndsWith(part, "*") then Run(Inside(part, 1), false, true)
    else Run(part, false, false)
  }

  /** The runs of a paragraph with asterisks. */
  function Runs(line: string): (r: seq<Run>)
    ensures |r| == |Pieces(line, 0, 0)|
    ensures forall k | 0 <= k < |r| :: r[k] == Classify(Pieces(line, 0, 0)[k])
  {
    ClassifyAll(Pieces(line, 0, 0))
  }

  /** One run per piece, in order. */
  function ClassifyAll(parts: seq<string>): (r: seq<Run>)
    ensures |r| == |parts|
    ensures forall k | 0 <= k < |r| :: r[k] == Classify(parts[k])
  {
    seq(|parts|, k requires 0 <= k < |parts| => Classify(parts[k]))
  }

  /** A run written back as Markdown. */
  function Markup(run: Run): string {
    if run.bold then "**" + run.text + "**"
    else if run.italic then "*" + run.text + "*"
    else run.text
  }

  /** The pieces Python's slicing cannot give back: a lone `*`, and `**` or
      `***` taken as a bold run with no room inside. */
  predicate Degenerate(part: string) {
    part == "*" || part == "**" || part == "***"
  }

  /** The pieces too short for the markers they start and end with. */
  lemma ShortPieces(part: string)
    ensures StartsWith(part, "**") && EndsWith(part, "**") && |part| < 4 ==> Degenerate(part)
    ensures StartsWith(part, "*") && EndsWith(part, "*") && |part| < 2 ==> Degenerate(part)
  {
    if StartsWith(part, "*") && |part| == 1 {
      assert part == "*";
    }
    if StartsWith(part, "**") && |part| == 2 {
      assert part == "**";
    }
    if StartsWith(part, "**") && EndsWith(part, "**") && |part| == 3 {
      assert part[2] == '*';
      assert part == "***";
    }
  }

  /** Classifying a piece keeps all of it unless it is degenerate. */
  lemma ClassifyRoundTrip(part: string)
    requires !Degenerate(part)
    ensures Markup(Classify(part)) == part
  {
    ShortPieces(part);
  }

  /** The runs, written back, give the line, provided no piece is
      degenerate. */
  lemma RunsRoundTrip(line: string)
    requires forall k | 0 <= k < |Pieces(line, 0, 0)| :: !Degenerate(Pieces(line, 0, 0)[k])
    ensures Concat(MarkupAll(Runs(line))) == line
  {
    var parts := Pieces(line, 0, 0);
    var runs := Runs(line);
    assert MarkupAll(runs) == parts by {
      forall k | 0 <= k < |parts|
        ensures MarkupAll(runs)[k] == parts[k]
      {
        ClassifyRoundTrip(parts[k]);
      }
    }
  }

  lemma RunsWriteBack(line: string)
    ensures (forall k | 0 <= k < |Pieces(line, 0, 0)| :: !Degenerate(Pieces(line, 0, 0)[k]))
            ==> Concat(MarkupAll(Runs(line))) == line
  {
    if forall k | 0 <= k < |Pieces(line, 0, 0)| :: !Degenerate(Pieces(line, 0, 0)[k]) {
      RunsRoundTrip(line);
    }
  }

  function MarkupAll(runs: seq<Run>): (r: seq<string>)
    ensures |r| == |runs| && forall k | 0 <= k < |runs| :: r[k] == Markup(runs[k])
  {
    seq(|runs|, k requires 0 <= k < |runs| => Markup(runs[k]))
  }

  /** `2 ** 3`: the exponent operator is taken for an empty bold run, so the
      paragraph reads "2  3". */
  lemma PowerOperatorLost(s: string)
    requires s == "2 ** 3"
    ensures Runs(s) == [Run("2 ", false, false), Run("", true, false), Run(" 3", false, false)]
  {
    PowerPieces(s);
    RunsOfThree(s, s[0..2], s[2..4], s[4..]);
    PowerClassify(s[0..2], s[2..4], s[4..]);
  }

  /** A line cut into three pieces gives one run per piece. */
  lemma RunsOfThree(line: string, a: string, b: string, c: string)
    requires Pieces(line, 0, 0) == [a, b, c]
    ensures Runs(line) == [Classify(a), Classify(b), Classify(c)]
  {
    ClassifyThree(a, b, c);
  }

  lemma ClassifyThree(a: string, b: string, c: string)
    ensures ClassifyAll([a, b, c]) == [Classify(a), Classify(b), Classify(c)]
  {
    var r := ClassifyAll([a, b, c]);
    assert r == [r[0], r[1], r[2]];
  }

  lemma PowerClassify(a: string, b: string, c: string)
    requires a == "2 " && b == "**" && c == " 3"
    ensures Classify(a) == Run("2 ", false, false)
    ensures Classify(b) == Run("", true, false)
    ensures Classify(c) == Run(" 3", false, false)
  {
    assert a[0] != '*' && c[0] != '*';
    assert Inside(b, 2) == [];
  }

  lemma PowerPieces(s: string)
    requires s == "2 ** 3"
    ensures Pieces(s, 0, 0) == [s[0..2], s[2..4], s[4..]]
  {
    PowerMatch(s);
    PowerTail(s);
    assert s[0] == '2' && s[1] == ' ';
    assert EmphasisEnd(s, 0) == None && EmphasisEnd(s, 1) == None;
    assert Pieces(s, 0, 2) == [s[0..2], s[2..4], s[4..]];
  }

  lemma PowerMatch(s: string)
    requires s == "2 ** 3"
    ensures EmphasisEnd(s, 2) == Some(4)
  {
    assert s[2] == '*' && s[3] == '*' && s[4] == ' ' && s[5] == '3';
    assert PairFrom(s, 5) == None;
    assert PairFrom(s, 4) == None;
    assert IndexFrom(s, 3, '*') == Some(3);
  }

  lemma PowerTail(s: string)
    requires s == "2 ** 3"
    ensures Pieces(s, 4, 4) == [s[4..]]
  {
    assert s[4] == ' ' && s[5] == '3';
    assert EmphasisEnd(s, 4) == None && EmphasisEnd(s, 5) == None;
    assert Pieces(s, 4, 5) == [s[4..]];
  }

  // ---------------------------------------------------------------------
  // Lists and headings
  // ---------------------------------------------------------------------

  const CHECKED := "\U{2713} "
  const PARTIAL := "\U{25D0} "
  const UNCHECKED := "\U{2610} "

  /** Task-list markers become glyphs; the character after the marker goes. */
  function Checkbox(text: string): (r: string)
    ensures !StartsWith(text, "[x]") && !StartsWith(text, "[/]") && !StartsWith(text, "[ ]") ==> r == text
    ensures StartsWith(text, "[x]") ==> r == CHECKED + Drop(text, 4)
    ensures StartsWith(text, "[/]") ==> r == PARTIAL + Drop(text, 4)
    ensures StartsWith(text, "[ ]") ==> r == UNCHECKED + Drop(text, 4)
  {
    if StartsWith(text, "[x]") then CHECKED + Drop(text, 4)
    else if StartsWith(text, "[/]") then PARTIAL + Drop(text, 4)
    else if StartsWith(text, "[ ]") then UNCHECKED + Drop(text, 4)
    else text
  }

  /** `re.match(r'^\d+\.', s)`. */
  predicate IsNumbered(s: string) {
    var d := LeadingDigits(s);
    1 <= d < |s| && s[d] == '.'
  }

  /** `re.sub(r'^\d+\.\s*', '', s)`: the item text after the number, the dot
      and any white space. */
  function NumberText(s: string): (r: string)
    requires IsNumbered(s)
    ensures |r| < |s| - LeadingDigits(s) && s == s[..|s| - |r|] + r
    ensures AllDigits(s[..LeadingDigits(s)]) && s[LeadingDigits(s)] == '.'
    ensures Blank(s[LeadingDigits(s) + 1..|s| - |r|])
    ensures r == [] || !PySpace(r[0])
  {
    var d := LeadingDigits(s);
    var u := s[d + 1..];
    var r := LStrip(u);
    LStripPadBlank(u);
    NumberTextParts(s, d, u, r);
    r
  }

  /** `s` is digits, a dot, then `u`; `u` is blank padding followed by `r`. */
  lemma NumberTextParts(s: string, d: nat, u: string, r: string)
    requires d < |s| && u == s[d + 1..]
    requires |r| <= |u| && r == u[|u| - |r|..] && Blank(u[..|u| - |r|])
    ensures |r| < |s| - d && s == s[..|s| - |r|] + r
    ensures Blank(s[d + 1..|s| - |r|])
  {
    var m := |s| - |r|;
    assert s[m..] == r;
    assert s == s[..m] + s[m..];
    assert s[d + 1..m] == u[..|u| - |r|];
  }

  /** What `lstrip` removes is white space. */
  lemma LStripPadBlank(u: string)
    ensures Blank(u[..|u| - |LStrip(u)|])
  {
    var pad := u[..|u| - |LStrip(u)|];
    forall k | 0 <= k < |pad|
      ensures PySpace(pad[k])
    {
      assert pad[k] == u[k];
    }
  }

  // ---------------------------------------------------------------------
  // Tables
  // ---------------------------------------------------------------------

  /** `[c.strip() for c in line.split('|')[1:-1]]`. */
  function Cells(line: string): (r: seq<string>)
    ensures forall k | 0 <= k < |r| :: '|' !in r[k] && Trimmed(r[k])
  {
    var parts := Scans.SplitOn(line, '|');
    var inner := if |parts| >= 2 then parts[1..|parts| - 1] else [];
    seq(|inner|, k requires 0 <= k < |inner| => StripCell(inner[k]))
  }

  function StripCell(c: string): (r: string)
    requires '|' !in c
    ensures '|' !in r && Trimmed(r)
  {
    StripKeepsOut(c, '|');
    Strip(c)
  }

  /** `strip` only removes characters, so one absent before is absent
      after. */
  lemma StripKeepsOut(s: string, x: char)
    requires x !in s
    ensures x !in Strip(s)
  {
    var t := RStrip(s);
    var r := Strip(s);
    assert r == s[|t| - |r|..|t|] by {
      assert r == t[|t| - |r|..] && t == s[..|t|];
    }
  }

  /** A data row as the table shows it: its cells up to the header's width,
      empty cells after them. */
  function Row(cells: seq<string>, width: nat): (r: seq<string>)
    ensures |r| == width
    ensures forall j | 0 <= j < width :: r[j] == if j < |cells| then cells[j] else []
  {
    seq(width, j requires 0 <= j < width => if j < |cells| then cells[j] else [])
  }

  /** The table built from the collected lines when there are more than two
      (header, separator, data): the header row from the first line, the
      separator skipped, and a spacer paragraph after it. */
  function TableBlocks(t: seq<string>): (r: seq<Block>)
    ensures |t| <= 2 ==> r == []
    ensures |t| > 2 ==> |r| == 2 && r[1] == EMPTY && r[0].Table?
    ensures |t| > 2 ==> r[0].header == Cells(t[0]) && |r[0].body| == |t| - 2
    ensures |t| > 2 ==> forall k | 0 <= k < |t| - 2 :: r[0].body[k] == Row(Cells(t[k + 2]), |Cells(t[0])|)
  {
    if |t| <= 2 then []
    else
      var header := Cells(t[0]);
      var body := seq(|t| - 2, k requires 0 <= k < |t| - 2 => Row(Cells(t[k + 2]), |header|));
      [Table(header, body), EMPTY]
  }

  /** A table line written with a border on each side reads back as its
      cells. */
  lemma CellsRoundTrip(cells: seq<string>)
    requires |cells| >= 1
    requires forall k | 0 <= k < |cells| :: '|' !in cells[k] && Trimmed(cells[k])
    ensures Cells("|" + Scans.Join(cells, '|') + "|") == cells
  {
    SplitBordered(cells);
    CellsOfPieces("|" + Scans.Join(cells, '|') + "|", cells);
  }

  lemma SplitBordered(cells: seq<string>)
    requires |cells| >= 1
    requires forall k | 0 <= k < |cells| :: '|' !in cells[k]
    ensures Scans.SplitOn("|" + Scans.Join(cells, '|') + "|", '|') == [[]] + cells + [[]]
  {
    var items := [[]] + cells + [[]];
    JoinBorders(cells);
    forall k | 0 <= k < |items|
      ensures '|' !in items[k]
    {
      if 0 < k < |items| - 1 {
        assert items[k] == cells[k - 1];
      }
    }
    Scans.SplitJoin(items, '|');
  }

  lemma CellsOfPieces(line: string, cells: seq<string>)
    requires Scans.SplitOn(line, '|') == [[]] + cells + [[]]
    requires forall k | 0 <= k < |cells| :: Trimmed(cells[k])
    ensures Cells(line) == cells
  {
    var items := [[]] + cells + [[]];
    assert items[1..|items| - 1] == cells;
    forall k | 0 <= k < |cells|
      ensures StripCell(cells[k]) == cells[k]
    {
      StripTrimmed(cells[k]);
    }
  }

  /** Empty items at both ends of a join put a separator on each side. */
  lemma {:induction false} JoinBorders(cells: seq<string>)
    requires |cells| >= 1
    ensures Scans.Join([[]] + cells + [[]], '|') == "|" + Scans.Join(cells, '|') + "|"
  {
    var items := [[]] + cells + [[]];
    assert items[1..] == cells + [[]];
    JoinAppendEmpty(cells);
  }

  lemma {:induction false} JoinAppendEmpty(cells: seq<string>)
    requires |cells| >= 1
    ensures Scans.Join(cells + [[]], '|') == Scans.Join(cells, '|') + "|"
  {
    var items := cells + [[]];
    if |cells| == 1 {
      assert items[1..] == [[]];
    } else {
      assert items[1..] == cells[1..] + [[]];
      JoinAppendEmpty(cells[1..]);
    }
  }

  // ---------------------------------------------------------------------
  // One line outside code blocks and tables
  // ---------------------------------------------------------------------

  /** `line.strip() == '---' or line.strip() == '___'`. */
  predicate IsRule(s: string) {
    s == "---" || s == "___"
  }

  predicate IsBullet(s: string) {
    StartsWith(s, "- ") || StartsWith(s, "* ")
  }

  /** The block a line gives when it is neither a fence nor a table line.
      Blank lines give a spacer only after a line with text. */
  function LineBlocks(lines: seq<string>, i: nat): (r: seq<Block>)
    requires i < |lines|
    ensures |r| <= 1
    ensures r == [] <==> Dropped(lines, i)
  {
    if Blank(lines[i]) then
      if i > 0 && !Blank(lines[i - 1]) then [EMPTY] else []
    else
      TextBlocks(RStrip(lines[i]))
  }

  /** A line gives nothing only when it is a heading deeper than six levels,
      or a blank line that does not follow a line with text. */
  predicate Dropped(lines: seq<string>, i: nat)
    requires i < |lines|
  {
    var line := RStrip(lines[i]);
    (!Blank(lines[i]) && StartsWith(line, "#") && Leading(line, '#') > 6)
    || (Blank(lines[i]) && !(i > 0 && !Blank(lines[i - 1])))
  }

  /** A line with text, after the converter's `rstrip`: a rule, a heading, a
      bullet, a numbered item or a paragraph, tried in that order. */
  function TextBlocks(line: string): (r: seq<Block>)
    requires !Blank(line)
    ensures |r| <= 1
    ensures r == [] <==> StartsWith(line, "#") && Leading(line, '#') > 6
  {
    var s := Strip(line);
    if IsRule(s) then
      assert line[0] != '#' by {
        StripStartsWithHash(line);
      }
      [EMPTY]
    else if StartsWith(line, "#") then HeadingBlocks(line)
    else if IsBullet(s) then [Bullet(Checkbox(s[2..]))]
    else if IsNumbered(s) then [Numbered(NumberText(s))]
    else [ParagraphOf(line)]
  }

  /** `#` to `######` give a heading at their level, capped at three;
      deeper headings are dropped. */
  function HeadingBlocks(line: string): (r: seq<Block>)
    ensures |r| <= 1 && (r == [] <==> Leading(line, '#') > 6)
  {
    var n := Leading(line, '#');
    if n <= 6 then [Heading(Strip(line[n..]), Min(n, 3))] else []
  }

  /** A paragraph: split into runs when it has an asterisk, otherwise with
      links and inline code reduced to their text.  Runs keep link and code
      markup. */
  function ParagraphOf(line: string): (r: Block)
    ensures r.Paragraph?
    ensures '*' !in line ==> |r.runs| == 1 && !r.runs[0].bold && !r.runs[0].italic
    ensures '*' in line && (forall k | 0 <= k < |Pieces(line, 0, 0)| :: !Degenerate(Pieces(line, 0, 0)[k]))
            ==> Concat(MarkupAll(r.runs)) == line
  {
    if '*' in line then
      RunsWriteBack(line);
      Paragraph(Runs(line))
    else Plain(InlineText(line))
  }

  /** A string starting with `#` keeps it through `strip`. */
  lemma StripStartsWithHash(line: string)
    ensures line != [] && line[0] == '#' ==> Strip(line) != [] && Strip(line)[0] == '#'
  {
    if line != [] && line[0] == '#' {
      assert !PySpace(line[0]);
      assert RStrip(line)[0] == '#';
    }
  }

  /** A string of `n` hash signs. */
  function Hashes(n: nat): (r: string)
    ensures |r| == n && forall k | 0 <= k < n :: r[k] == '#'
  {
    if n == 0 then [] else "#" + Hashes(n - 1)
  }

  lemma {:induction false} LeadingHashes(n: nat, rest: string)
    requires rest == [] || rest[0] != '#'
    ensures Leading(Hashes(n) + rest, '#') == n
  {
    if n > 0 {
      assert (Hashes(n) + rest)[0] == '#';
      assert (Hashes(n) + rest)[1..] == Hashes(n - 1) + rest;
      LeadingHashes(n - 1, rest);
    }
  }

  /** `## text` is a level-two heading reading `text`; levels past three are
      shown at three and levels past six are dropped. */
  lemma HeadingLine(n: nat, t: string)
    requires n >= 1 && Trimmed(t)
    ensures LineBlocks([Hashes(n) + (" " + t)], 0) == if n <= 6 then [Heading(t, Min(n, 3))] else []
  {
    var raw := Hashes(n) + (" " + t);
    HeadingParts(n, t);
    var line := RStrip(raw);
    SingleLine(raw);
    HashLine(line);
    HeadingOf(line, n, t);
  }

  /** The line `#…# t` keeps its first character through `rstrip`, and
      reads as `n` hash signs followed by the text `t`. */
  lemma HeadingParts(n: nat, t: string)
    requires n >= 1 && Trimmed(t)
    ensures var raw := Hashes(n) + (" " + t);
            var line := RStrip(raw);
            raw != [] && !PySpace(raw[0])
            && line != [] && line[0] == '#' && Leading(line, '#') == n && Strip(line[n..]) == t
  {
    var raw := Hashes(n) + (" " + t);
    assert raw[0] == '#';
    if t == [] {
      assert " " + t == " ";
      HeadingBare(n);
    } else {
      HeadingWithText(n, t);
    }
  }

  /** A heading line's block, given its level and its stripped text. */
  lemma HeadingOf(line: string, n: nat, t: string)
    requires Leading(line, '#') == n && Strip(line[n..]) == t
    ensures HeadingBlocks(line) == if n <= 6 then [Heading(t, Min(n, 3))] else []
  {
  }

  /** A document of one line with text is that line's blocks. */
  lemma SingleLine(raw: string)
    requires raw != [] && !PySpace(raw[0])
    ensures LineBlocks([raw], 0) == TextBlocks(RStrip(raw))
  {
    assert !Blank(raw);
  }

  /** A line starting with `#` is read as a heading. */
  lemma HashLine(line: string)
    requires line != [] && line[0] == '#'
    ensures !Blank(line) && TextBlocks(line) == HeadingBlocks(line)
  {
    assert !PySpace(line[0]);
    StripStartsWithHash(line);
    HashNotRule(Strip(line));
    assert StartsWith(line, "#") by {
      assert line[..1] == "#";
    }
  }

  /** A text starting with `#` is not a rule. */
  lemma HashNotRule(s: string)
    requires s != [] && s[0] == '#'
    ensures !IsRule(s)
  {
    assert "---"[0] == '-' && "___"[0] == '_';
  }

  lemma HeadingBare(n: nat)
    requires n >= 1
    ensures RStrip(Hashes(n) + " ") == Hashes(n)
    ensures Hashes(n)[0] == '#' && Leading(Hashes(n), '#') == n && Hashes(n)[n..] == []
  {
    var raw := Hashes(n) + " ";
    assert raw[..|raw| - 1] == Hashes(n) && PySpace(raw[|raw| - 1]);
    assert Hashes(n)[n - 1] == '#';
    assert RStrip(Hashes(n)) == Hashes(n);
    LeadingHashes(n, []);
    assert Hashes(n) + [] == Hashes(n);
  }

  lemma HeadingWithText(n: nat, t: string)
    requires n >= 1 && t != [] && Trimmed(t)
    ensures RStrip(Hashes(n) + (" " + t)) == Hashes(n) + (" " + t)
    ensures (Hashes(n) + (" " + t))[0] == '#'
    ensures Leading(Hashes(n) + (" " + t), '#') == n
    ensures Strip((Hashes(n) + (" " + t))[n..]) == t
  {
    KeptByRStrip(Hashes(n), " " + t);
    LeadingHashes(n, " " + t);
    assert (Hashes(n) + (" " + t))[n..] == " " + t;
    StripAfterOneSpace(t);
  }

  /** A string ending in a character that is not white space survives
      `rstrip`. */
  lemma KeptByRStrip(a: string, t: string)
    requires t != [] && !PySpace(t[|t| - 1])
    ensures RStrip(a + t) == a + t
  {
    assert (a + t)[|a + t| - 1] == t[|t| - 1];
  }

  lemma StripAfterOneSpace(t: string)
    requires Trimmed(t)
    ensures Strip(" " + t) == t
  {
    assert Blank(" ");
    StripAfterSpace(" ", t);
  }

  /** `- item` is a bullet with the item's text, task markers replaced. */
  lemma BulletLine(t: string)
    requires t != [] && Trimmed(t)
    ensures LineBlocks(["- " + t], 0) == [Bullet(Checkbox(t))]
  {
    var raw := "- " + t;
    BulletRaw(t);
    SingleLine(raw);
    BulletKind(raw, t);
  }

  /** `- t` survives `rstrip` and `strip` and reads as a bullet. */
  lemma BulletRaw(t: string)
    requires t != [] && Trimmed(t)
    ensures var raw := "- " + t;
            raw != [] && !PySpace(raw[0]) && RStrip(raw) == raw && Strip(raw) == raw
            && raw[2..] == t && IsBullet(raw) && !IsRule(raw) && !StartsWith(raw, "#")
  {
    var raw := "- " + t;
    assert raw[0] == '-' && raw[1] == ' ';
    assert raw[|raw| - 1] == t[|t| - 1];
    assert RStrip(raw) == raw;
    StripTrimmed(raw);
    assert raw[2..] == t;
    assert raw[..2] == "- ";
    assert !IsRule(raw) by {
      assert "---"[1] == '-' && "___"[0] == '_';
    }
    assert "#"[0] == '#';
  }

  lemma BulletKind(raw: string, t: string)
    requires raw != [] && !PySpace(raw[0]) && Strip(raw) == raw
    requires |raw| >= 2 && raw[2..] == t && IsBullet(raw) && !IsRule(raw) && !StartsWith(raw, "#")
    ensures !Blank(raw) && TextBlocks(raw) == [Bullet(Checkbox(t))]
  {
  }

  /** A ticked task `- [x] done` shows as `✓ done`. */
  lemma CheckedTask(t: string)
    requires t != [] && Trimmed(t)
    ensures LineBlocks(["- " + ("[x] " + t)], 0) == [Bullet(CHECKED + t)]
  {
    var item := "[x] " + t;
    CheckedItem(t);
    BulletLine(item);
  }

  /** The item text after `- ` is a trimmed task marked done. */
  lemma CheckedItem(t: string)
    requires t != [] && Trimmed(t)
    ensures var item := "[x] " + t;
            item != [] && Trimmed(item) && Checkbox(item) == CHECKED + t
  {
    var item := "[x] " + t;
    assert item[0] == '[' && item[|item| - 1] == t[|t| - 1];
    assert !PySpace('[');
    assert item[..3] == "[x]" && item[4..] == t;
  }

  /** `12. item` is a numbered item with the item's text. */
  lemma NumberedLine(digits: string, t: string)
    requires digits != [] && AllDigits(digits) && t != [] && Trimmed(t)
    ensures LineBlocks([digits + ". " + t], 0) == [Numbered(t)]
  {
    var raw := digits + ". " + t;
    NumberedRaw(digits, t);
    SingleLine(raw);
    NumberedKind(digits, t);
  }

  /** The line survives `rstrip` and `strip`, and reads as a numbered item
      whose text is `t`. */
  lemma NumberedRaw(digits: string, t: string)
    requires digits != [] && AllDigits(digits) && t != [] && Trimmed(t)
    ensures var raw := digits + ". " + t;
      raw != [] && IsDigit(raw[0]) && !Blank(raw) && RStrip(raw) == raw && Strip(raw) == raw
      && IsNumbered(raw) && NumberText(raw) == t
  {
    var raw := digits + ". " + t;
    assert raw[0] == digits[0] && raw[|raw| - 1] == t[|t| - 1];
    assert IsDigit(raw[0]) && !PySpace(raw[0]);
    assert RStrip(raw) == raw;
    StripTrimmed(raw);
    assert raw == digits + "." + (" " + t);
    DigitsThenDot(digits, " " + t);
    assert raw[|digits|] == '.';
    assert raw[|digits| + 1..] == " " + t;
    assert LStrip(" " + t) == t;
  }

  /** A numbered line `12. item` is read as a numbered item. */
  lemma NumberedKind(digits: string, t: string)
    requires digits != [] && AllDigits(digits) && t != [] && Trimmed(t)
    ensures !Blank(digits + ". " + t) && TextBlocks(digits + ". " + t) == [Numbered(t)]
  {
    NumberedRaw(digits, t);
    DigitFirst(digits + ". " + t);
  }

  /** A line starting with a digit is neither a rule, a bullet nor a
      heading. */
  lemma DigitFirst(s: string)
    requires s != [] && IsDigit(s[0])
    ensures !IsRule(s) && !IsBullet(s) && !StartsWith(s, "#")
  {
    var c := s[0];
    assert c != '#' && c != '-' && c != '*' && c != '_';
    assert !IsRule(s) by {
      assert "---"[0] == '-' && "___"[0] == '_';
    }
    assert !IsBullet(s) by {
      assert "- "[0] == '-' && "* "[0] == '*';
    }
    assert "#"[0] == '#';
  }

  lemma {:induction false} DigitsThenDot(digits: string, rest: string)
    requires AllDigits(digits)
    ensures LeadingDigits(digits + "." + rest) == |digits|
  {
    if digits != [] {
      assert (digits + "." + rest)[0] == digits[0];
      assert (digits + "." + rest)[1..] == digits[1..] + "." + rest;
      DigitsThenDot(digits[1..], rest);
    } else {
      assert (digits + "." + rest)[0] == '.';
    }
  }

  // ---------------------------------------------------------------------
  // The whole document
  // ---------------------------------------------------------------------

  /** The converter's state between lines. */
  datatype State = State(inCode: bool, code: seq<string>, inTable: bool, table: seq<string>)

  const IDLE := State(false, [], false, [])

  predicate IsFence(line: string) {
    StartsWith(line, "```")
  }

  predicate IsTableLine(line: string) {
    StartsWith(line, "|")
  }

  /** The blocks appended from line `i` on.  A fence opens or closes a code
      block; inside one every line is kept verbatim; `|` lines gather into
      a table that the first other line outside code closes and that line is
      then read again; whatever is still open at the end is lost. */
  function Convert(lines: seq<string>, i: nat, st: State): (r: seq<Block>)
    requires i <= |lines|
    ensures |r| <= |lines| - i + (if st.inTable then |st.table| else 0)
    decreases |lines| - i, if st.inTable then 1 else 0
  {
    if i == |lines| then []
    else
      var line := RStrip(lines[i]);
      if IsFence(line) then
        if st.inCode then [Code(Scans.Join(st.code, '\n'))] + Convert(lines, i + 1, st.(inCode := false, code := []))
        else Convert(lines, i + 1, st.(inCode := true))
      else if st.inCode then Convert(lines, i + 1, st.(code := st.code + [line]))
      else if IsTableLine(line) then
        Convert(lines, i + 1, st.(inTable := true, table := (if st.inTable then st.table else []) + [line]))
      else if st.inTable then TableBlocks(st.table) + Convert(lines, i, st.(inTable := false, table := []))
      else LineBlocks(lines, i) + Convert(lines, i + 1, st)
  }

  /** `process_markdown_to_docx` on the lines `readlines` gives: never more
      blocks than lines. */
  function Document(lines: seq<string>): (r: seq<Block>)
    ensures |r| <= |lines|
  {
    Convert(lines, 0, IDLE)
  }

  function RStripAll(xs: seq<string>): (r: seq<string>)
    ensures |r| == |xs| && forall k | 0 <= k < |xs| :: r[k] == RStrip(xs[k])
  {
    seq(|xs|, k requires 0 <= k < |xs| => RStrip(xs[k]))
  }

  /** One step inside a code block: a line that is not a fence is kept. */
  lemma CodeLineStep(lines: seq<string>, j: nat, st: State, acc: seq<string>)
    requires j < |lines| && !IsFence(RStrip(lines[j]))
    ensures Convert(lines, j, st.(inCode := true, code := acc))
         == Convert(lines, j + 1, st.(inCode := true, code := acc + [RStrip(lines[j])]))
  {
    var line := RStrip(lines[j]);
    assert st.(inCode := true, code := acc).(code := acc + [line]) == st.(inCode := true, code := acc + [line]);
  }

  /** The closing fence writes the collected lines as one code block. */
  lemma CodeCloseStep(lines: seq<string>, k: nat, st: State, acc: seq<string>)
    requires k < |lines| && IsFence(RStrip(lines[k]))
    ensures Convert(lines, k, st.(inCode := true, code := acc))
         == [Code(Scans.Join(acc, '\n'))] + Convert(lines, k + 1, st.(inCode := false, code := []))
  {
    assert st.(inCode := true, code := acc).(inCode := false, code := []) == st.(inCode := false, code := []);
  }

  /** Inside a code block every line up to the closing fence is collected. */
  lemma {:induction false} CodeBody(lines: seq<string>, j: nat, k: nat, st: State, acc: seq<string>)
    requires j <= k < |lines|
    requires IsFence(RStrip(lines[k]))
    requires forall m | j <= m < k :: !IsFence(RStrip(lines[m]))
    ensures Convert(lines, j, st.(inCode := true, code := acc))
         == [Code(Scans.Join(acc + RStripAll(lines[j..k]), '\n'))] + Convert(lines, k + 1, st.(inCode := false, code := []))
    decreases k - j
  {
    if j == k {
      assert acc + RStripAll(lines[j..k]) == acc;
      CodeCloseStep(lines, k, st, acc);
    } else {
      var line := RStrip(lines[j]);
      CodeLineStep(lines, j, st, acc);
      CodeBody(lines, j + 1, k, st, acc + [line]);
      RStripAllCons(lines, j, k);
      assert acc + RStripAll(lines[j..k]) == acc + [line] + RStripAll(lines[j + 1..k]);
    }
  }

  /** A fenced block becomes one code block holding the lines between the
      fences joined by newlines; any table being gathered stays open across
      it. */
  lemma CodeBlock(lines: seq<string>, i: nat, k: nat, st: State)
    requires !st.inCode && st.code == []
    requires i < k < |lines|
    requires IsFence(RStrip(lines[i])) && IsFence(RStrip(lines[k]))
    requires forall m | i < m < k :: !IsFence(RStrip(lines[m]))
    ensures Convert(lines, i, st) == [Code(Scans.Join(RStripAll(lines[i + 1..k]), '\n'))] + Convert(lines, k + 1, st)
  {
    assert st.(inCode := true) == st.(inCode := true, code := []);
    CodeBody(lines, i + 1, k, st, []);
    assert [] + RStripAll(lines[i + 1..k]) == RStripAll(lines[i + 1..k]);
    assert st.(inCode := false, code := []) == st;
  }

  /** A code block never closed produces nothing, nor does anything after
      its fence. */
  lemma {:induction false} OpenCodeLost(lines: seq<string>, j: nat, st: State)
    requires j <= |lines| && st.inCode
    requires forall m | j <= m < |lines| :: !IsFence(RStrip(lines[m]))
    ensures Convert(lines, j, st) == []
    decreases |lines| - j
  {
    if j < |lines| {
      OpenCodeLost(lines, j + 1, st.(code := st.code + [RStrip(lines[j])]));
    }
  }

  /** An unterminated fence drops the rest of the document. */
  lemma UnterminatedFence(lines: seq<string>, i: nat, st: State)
    requires i < |lines| && !st.inCode
    requires IsFence(RStrip(lines[i]))
    requires forall m | i < m < |lines| :: !IsFence(RStrip(lines[m]))
    ensures Convert(lines, i, st) == []
  {
    OpenCodeLost(lines, i + 1, st.(inCode := true));
  }

  /** One step of the converter on a table line outside code: the line
      joins the table being gathered, or starts one. */
  lemma TableStep(lines: seq<string>, j: nat, acc: seq<string>)
    requires j < |lines| && IsTableLine(RStrip(lines[j]))
    ensures Convert(lines, j, State(false, [], true, acc)) == Convert(lines, j + 1, State(false, [], true, acc + [RStrip(lines[j])]))
    ensures Convert(lines, j, IDLE) == Convert(lines, j + 1, State(false, [], true, [RStrip(lines[j])]))
  {
    var line := RStrip(lines[j]);
    assert !IsFence(line) by {
      assert line[0] == '|';
    }
    assert State(false, [], true, acc).(inTable := true, table := acc + [line]) == State(false, [], true, acc + [line]);
    assert IDLE.(inTable := true, table := [] + [line]) == State(false, [], true, [line]);
  }

  /** One step on an ordinary line while a table is open: the table is
      written and the line is read again with nothing open. */
  lemma TableCloseStep(lines: seq<string>, k: nat, acc: seq<string>)
    requires k < |lines| && !IsTableLine(RStrip(lines[k])) && !IsFence(RStrip(lines[k]))
    ensures Convert(lines, k, State(false, [], true, acc)) == TableBlocks(acc) + Convert(lines, k, IDLE)
  {
    assert State(false, [], true, acc).(inTable := false, table := []) == IDLE;
  }

  /** While a table is being gathered, `|` lines join it until a line that is
      neither a table line nor a fence closes it. */
  lemma {:induction false} TableBody(lines: seq<string>, j: nat, k: nat, acc: seq<string>)
    requires j <= k <= |lines|
    requires forall m | j <= m < k :: IsTableLine(RStrip(lines[m]))
    requires k < |lines| ==> !IsTableLine(RStrip(lines[k])) && !IsFence(RStrip(lines[k]))
    ensures Convert(lines, j, State(false, [], true, acc))
         == if k == |lines| then [] else TableBlocks(acc + RStripAll(lines[j..k])) + Convert(lines, k, IDLE)
    decreases k - j
  {
    if j == k {
      assert acc + RStripAll(lines[j..k]) == acc;
      if k < |lines| {
        TableCloseStep(lines, k, acc);
      }
    } else {
      var more := acc + [RStrip(lines[j])];
      calc {
        Convert(lines, j, State(false, [], true, acc));
        { TableStep(lines, j, acc); }
        Convert(lines, j + 1, State(false, [], true, more));
        { TableBody(lines, j + 1, k, more); }
        if k == |lines| then [] else TableBlocks(more + RStripAll(lines[j + 1..k])) + Convert(lines, k, IDLE);
        { RStripAllCons(lines, j, k);
          assert more + RStripAll(lines[j + 1..k]) == acc + RStripAll(lines[j..k]); }
        if k == |lines| then [] else TableBlocks(acc + RStripAll(lines[j..k])) + Convert(lines, k, IDLE);
      }
    }
  }

  /** A run of `|` lines ended by an ordinary line becomes a table when it
      has more than two lines and nothing otherwise; a run that reaches the
      end of the file is never written. */
  lemma TableRun(lines: seq<string>, i: nat, k: nat)
    requires i < k <= |lines|
    requires forall m | i <= m < k :: IsTableLine(RStrip(lines[m]))
    requires k < |lines| ==> !IsTableLine(RStrip(lines[k])) && !IsFence(RStrip(lines[k]))
    ensures Convert(lines, i, IDLE)
         == if k == |lines| then [] else TableBlocks(RStripAll(lines[i..k])) + Convert(lines, k, IDLE)
  {
    var line := RStrip(lines[i]);
    TableStep(lines, i, []);
    TableBody(lines, i + 1, k, [line]);
    RStripAllCons(lines, i, k);
  }

  /** Stripping a range of lines strips its first line, then the rest. */
  lemma RStripAllCons(lines: seq<string>, i: nat, k: nat)
    requires i < k <= |lines|
    ensures RStripAll(lines[i..k]) == [RStrip(lines[i])] + RStripAll(lines[i + 1..k])
  {
    assert lines[i..k][1..] == lines[i + 1..k];
  }

  /** Two `|` lines or fewer (a header and a separator, say) give no table
      at all. */
  lemma ShortTableDropped(lines: seq<string>, i: nat, k: nat)
    requires i < k < |lines| && k - i <= 2
    requires forall m | i <= m < k :: IsTableLine(RStrip(lines[m]))
    requires !IsTableLine(RStrip(lines[k])) && !IsFence(RStrip(lines[k]))
    ensures Convert(lines, i, IDLE) == Convert(lines, k, IDLE)
  {
    TableRun(lines, i, k);
    assert |RStripAll(lines[i..k])| <= 2;
  }

  /** Any other line outside code and tables adds its own block. */
  lemma OrdinaryLine(lines: seq<string>, i: nat)
    requires i < |lines|
    requires !IsFence(RStrip(lines[i])) && !IsTableLine(RStrip(lines[i]))
    ensures Convert(lines, i, IDLE) == LineBlocks(lines, i) + Convert(lines, i + 1, IDLE)
  {
  }

  /** Each line converted on its own, in order. */
  function PerLine(lines: seq<string>, i: nat): (r: seq<Block>)
    requires i <= |lines|
    ensures |r| <= |lines| - i
    decreases |lines| - i
  {
    if i == |lines| then [] else LineBlocks(lines, i) + PerLine(lines, i + 1)
  }

  /** Without code fences and table lines, the converter treats every line
      on its own. */
  lemma {:induction false} LineByLine(lines: seq<string>, i: nat)
    requires i <= |lines|
    requires forall j | i <= j < |lines| :: !IsFence(RStrip(lines[j])) && !IsTableLine(RStrip(lines[j]))
    ensures Convert(lines, i, IDLE) == PerLine(lines, i)
    decreases |lines| - i
  {
    if i < |lines| {
      OrdinaryLine(lines, i);
      LineByLine(lines, i + 1);
    }
  }

  /** Only a line that is not a fence is a candidate for one of the blocks
      a line gives on its own, and none of them is code. */
  lemma LineBlocksNotCode(lines: seq<string>, i: nat)
    requires i < |lines|
    ensures forall k | 0 <= k < |LineBlocks(lines, i)| :: !LineBlocks(lines, i)[k].Code?
  {
    if !Blank(lines[i]) {
      var line := RStrip(lines[i]);
      if StartsWith(line, "#") && !IsRule(Strip(line)) {
        assert TextBlocks(line) == HeadingBlocks(line);
      }
    }
  }

  /** A code block comes only from a fence: outside a code block and with
      no fence left to read, the converter gives no code. */
  lemma {:induction false} NoFenceNoCode(lines: seq<string>, i: nat, st: State)
    requires i <= |lines| && !st.inCode
    requires forall j | i <= j < |lines| :: !IsFence(RStrip(lines[j]))
    ensures forall k | 0 <= k < |Convert(lines, i, st)| :: !Convert(lines, i, st)[k].Code?
    decreases |lines| - i, if st.inTable then 1 else 0
  {
    if i < |lines| {
      var line := RStrip(lines[i]);
      if IsTableLine(line) {
        NoFenceNoCode(lines, i + 1, st.(inTable := true, table := (if st.inTable then st.table else []) + [line]));
      } else if st.inTable {
        NoFenceNoCode(lines, i, st.(inTable := false, table := []));
      } else {
        LineBlocksNotCode(lines, i);
        NoFenceNoCode(lines, i + 1, st);
      }
    }
  }

  /** A table that a code block interrupts. */
  predicate Interrupted(lines: seq<string>) {
    lines == ["|a|", "|-|", "```", "x", "```", "|b|", "c"]
  }

  /** A table stays open across a code block: the code is written first and
      the table lines after the block still join the table. */
  lemma TableAcrossCode(lines: seq<string>)
    requires Interrupted(lines)
    ensures Document(lines) == [Code("x"), Table(["a"], [["b"]]), EMPTY, Plain("c")]
  {
    GatherTwo(lines);
    AfterTwoLines(lines, State(false, [], true, ["|a|", "|-|"]));
  }

  lemma AfterTwoLines(lines: seq<string>, gathered: State)
    requires Interrupted(lines) && gathered == State(false, [], true, ["|a|", "|-|"])
    ensures Convert(lines, 2, gathered) == [Code("x"), Table(["a"], [["b"]]), EMPTY, Plain("c")]
  {
    CodeInsideTable(lines, gathered);
    AfterCode(lines, gathered);
    assert [Code("x")] + [Table(["a"], [["b"]]), EMPTY, Plain("c")]
        == [Code("x"), Table(["a"], [["b"]]), EMPTY, Plain("c")];
  }

  lemma AfterCode(lines: seq<string>, gathered: State)
    requires Interrupted(lines) && gathered == State(false, [], true, ["|a|", "|-|"])
    ensures Convert(lines, 5, gathered) == [Table(["a"], [["b"]]), EMPTY, Plain("c")]
  {
    TableResumes(lines, gathered);
    SmallTable();
    LastLine(lines);
    assert [Table(["a"], [["b"]]), EMPTY] + [Plain("c")] == [Table(["a"], [["b"]]), EMPTY, Plain("c")];
  }

  lemma SmallTable()
    ensures TableBlocks(["|a|", "|-|", "|b|"]) == [Table(["a"], [["b"]]), EMPTY]
  {
    var t := ["|a|", "|-|", "|b|"];
    OneCell("a");
    OneCell("b");
    assert "|" + "a" + "|" == "|a|" && "|" + "b" + "|" == "|b|";
    assert Cells(t[0]) == ["a"] && Cells(t[2]) == ["b"];
    assert Row(["b"], 1) == ["b"];
    var r := TableBlocks(t);
    assert r[0].body[0] == ["b"];
    assert r[0].body == [["b"]];
  }

  lemma GatherTwo(lines: seq<string>)
    requires Interrupted(lines)
    ensures Convert(lines, 0, IDLE) == Convert(lines, 2, State(false, [], true, ["|a|", "|-|"]))
  {
    assert !PySpace('|');
    assert RStrip(lines[0]) == "|a|" && RStrip(lines[1]) == "|-|";
    assert !IsFence("|a|") && !IsFence("|-|") by {
      assert "|a|"[0] != "```"[0] && "|-|"[0] != "```"[0];
    }
    assert IsTableLine("|a|") && IsTableLine("|-|");
    assert IDLE.(inTable := true, table := [] + ["|a|"]) == State(false, [], true, ["|a|"]);
    assert Convert(lines, 0, IDLE) == Convert(lines, 1, State(false, [], true, ["|a|"]));
    assert State(false, [], true, ["|a|"]).(inTable := true, table := ["|a|"] + ["|-|"])
        == State(false, [], true, ["|a|", "|-|"]);
    assert Convert(lines, 1, State(false, [], true, ["|a|"])) == Convert(lines, 2, State(false, [], true, ["|a|", "|-|"]));
  }

  lemma CodeInsideTable(lines: seq<string>, gathered: State)
    requires Interrupted(lines) && gathered == State(false, [], true, ["|a|", "|-|"])
    ensures Convert(lines, 2, gathered) == [Code("x")] + Convert(lines, 5, gathered)
  {
    InterruptedLines(lines);
    CodeBlock(lines, 2, 4, gathered);
    assert RStripAll(lines[3..4]) == ["x"];
  }

  lemma TableResumes(lines: seq<string>, gathered: State)
    requires Interrupted(lines) && gathered == State(false, [], true, ["|a|", "|-|"])
    ensures Convert(lines, 5, gathered) == TableBlocks(["|a|", "|-|", "|b|"]) + Convert(lines, 6, IDLE)
  {
    InterruptedLines(lines);
    TableBody(lines, 5, 6, ["|a|", "|-|"]);
    assert ["|a|", "|-|"] + RStripAll(lines[5..6]) == ["|a|", "|-|", "|b|"];
  }

  /** The example's lines are unchanged by `rstrip`, and which of them are
      fences and table lines. */
  lemma InterruptedLines(lines: seq<string>)
    requires Interrupted(lines)
    ensures RStrip(lines[2]) == lines[2] && RStrip(lines[3]) == lines[3] && RStrip(lines[4]) == lines[4]
    ensures RStrip(lines[5]) == lines[5] && RStrip(lines[6]) == lines[6]
    ensures IsFence(lines[2]) && !IsFence(lines[3]) && IsFence(lines[4])
    ensures IsTableLine(lines[5]) && !IsTableLine(lines[6]) && !IsFence(lines[6])
  {
    assert !PySpace('`') && !PySpace('x') && !PySpace('|') && !PySpace('c');
    assert lines[3][0] != '`' && lines[6][0] != '`' && lines[6][0] != '|';
  }

  lemma LastLine(lines: seq<string>)
    requires Interrupted(lines)
    ensures Convert(lines, 6, IDLE) == [Plain("c")]
  {
    assert RStrip(lines[6]) == "c";
    OrdinaryLine(lines, 6);
    PlainWord();
    SingleLine("c");
    assert LineBlocks(lines, 6) == LineBlocks(["c"], 0);
  }

  /** `|x|` has the single cell `x`. */
  lemma OneCell(x: string)
    requires x != [] && '|' !in x && Trimmed(x)
    ensures Cells("|" + x + "|") == [x]
  {
    CellsRoundTrip([x]);
    assert Scans.Join([x], '|') == x;
  }

  /** A word without markup is a plain paragraph. */
  lemma PlainWord()
    ensures !Blank("c") && TextBlocks("c") == [Plain("c")]
  {
    assert !PySpace('c');
    StripTrimmed("c");
    assert !IsNumbered("c") && !IsRule("c") && !IsBullet("c");
    assert ParagraphOf("c") == Plain("c") by {
      assert StripLinks("c", 0) == "c";
    }
  }
}

=== FILE: notifications.dfy ===
/** In-app notifications (NotificationService.java, NotificationRepository.java).
    The notification table keeps its rows in insertion order with
    generated ids; `nextId` is the id the next insert receives. The entity
    itself (Notification.java) is not part of this model: a new notification
    is taken to be unread and stamped with the creation time. */
module Notifications {
  import opened Wrappers
  import opened Text
  import opened Lists
  import opened Users
  import opened Clock

  datatype NotificationType = QUERY_RESPONSE | QUERY_STATUS_UPDATE | SYSTEM_NOTIFICATION

  datatype Notification = Notification(id: nat, user: nat, title: string, message: string, kind: NotificationType,
                                       relatedId: Option<nat>, isRead: bool, createdAt: nat)

  datatype Inbox = Inbox(items: seq<Notification>, nextId: nat)

  /** Generated ids are distinct and below `nextId`. */
  predicate ValidInbox(inbox: Inbox) {
    (forall i | 0 <= i < |inbox.items| :: inbox.items[i].id < inbox.nextId)
    && (forall i, j | 0 <= i < j < |inbox.items| :: inbox.items[i].id != inbox.items[j].id)
  }

  /** Saves a new unread notification. */
  function Push(inbox: Inbox, user: nat, title: string, message: string, kind: NotificationType, relatedId: Option<nat>, now: nat): (r: Inbox)
    ensures |r.items| == |inbox.items| + 1 && r.items[..|inbox.items|] == inbox.items
    ensures r.items[|inbox.items|] == Notification(inbox.nextId, user, title, message, kind, relatedId, false, now)
    ensures ValidInbox(inbox) ==> ValidInbox(r)
  {
    Inbox(inbox.items + [Notification(inbox.nextId, user, title, message, kind, relatedId, false, now)], inbox.nextId + 1)
  }

  function ResponseMessage(expertName: string, queryTitle: string): string {
    "Expert " + expertName + " has responded to your query: \"" + queryTitle + "\""
  }

  /** The status as shown to the farmer: underscores become spaces and the
      text is upper-cased. */
  function StatusText(status: string): string {
    ToUpper(ReplaceAll(status, "_", " "))
  }

  function StatusMessage(queryTitle: string, newStatus: string): string {
    "Your query \"" + queryTitle + "\" status has been updated to: " + StatusText(newStatus)
  }

  /** `createQueryResponseNotification`: to the query's farmer, about the
      query, naming the expert by full name or else username. */
  function NotifyResponse(inbox: Inbox, farmer: nat, queryId: nat, queryTitle: string, expert: User, now: nat): (r: Inbox)
    ensures |r.items| == |inbox.items| + 1 && r.items[..|inbox.items|] == inbox.items
    ensures var n := r.items[|inbox.items|];
            n.user == farmer && n.kind == QUERY_RESPONSE && n.relatedId == Some(queryId) && !n.isRead
            && n.title == "Expert Response Received" && n.message == ResponseMessage(NameOrUsername(expert), queryTitle)
  {
    Push(inbox, farmer, "Expert Response Received", ResponseMessage(NameOrUsername(expert), queryTitle),
         QUERY_RESPONSE, Some(queryId), now)
  }

  /** `createQueryStatusNotification`. */
  function NotifyStatus(inbox: Inbox, farmer: nat, queryId: nat, queryTitle: string, newStatus: string, now: nat): (r: Inbox)
    ensures |r.items| == |inbox.items| + 1 && r.items[..|inbox.items|] == inbox.items
    ensures var n := r.items[|inbox.items|];
            n.user == farmer && n.kind == QUERY_STATUS_UPDATE && n.relatedId == Some(queryId) && !n.isRead
            && n.title == "Query Status Updated" && n.message == StatusMessage(queryTitle, newStatus)
  {
    Push(inbox, farmer, "Query Status Updated", StatusMessage(queryTitle, newStatus), QUERY_STATUS_UPDATE, Some(queryId), now)
  }

  /** `createSystemNotification`: no related entity. */
  function NotifySystem(inbox: Inbox, user: nat, title: string, message: string, now: nat): (r: Inbox)
    ensures |r.items| == |inbox.items| + 1 && r.items[..|inbox.items|] == inbox.items
    ensures var n := r.items[|inbox.items|];
            n.user == user && n.kind == SYSTEM_NOTIFICATION && n.relatedId.None? && n.title == title && n.message == message
  {
    Push(inbox, user, title, message, SYSTEM_NOTIFICATION, None, now)
  }

  /** The status shown in a status notification has no underscore and no
      lower-case ASCII letter. */
  lemma StatusTextShape(status: string)
    ensures '_' !in StatusText(status)
    ensures forall i | 0 <= i < |StatusText(status)| :: !('a' <= StatusText(status)[i] <= 'z')
  {
    var replaced := ReplaceAll(status, "_", " ");
    ReplaceCharRemoves(status, '_', " ");
    assert "_" == ['_'];
    var r := StatusText(status);
    forall i | 0 <= i < |r|
      ensures r[i] != '_'
    {
      assert r[i] == UpperChar(replaced[i]);
      assert replaced[i] in replaced;
    }
  }

  /** `markAsReadByIdAndUser`: marks the notification with that id only when
      it belongs to `user`. */
  function MarkAsRead(inbox: Inbox, id: int, user: nat): (r: Inbox)
    ensures |r.items| == |inbox.items| && r.nextId == inbox.nextId
    ensures forall i | 0 <= i < |r.items| :: r.items[i].(isRead := inbox.items[i].isRead) == inbox.items[i]
    ensures forall i | 0 <= i < |r.items| ::
              r.items[i].isRead <==> inbox.items[i].isRead || (inbox.items[i].id == id && inbox.items[i].user == user)
  {
    Inbox(seq(|inbox.items|, i requires 0 <= i < |inbox.items| =>
            var n := inbox.items[i];
            if n.id == id && n.user == user then n.(isRead := true) else n),
          inbox.nextId)
  }

  /** `markAllAsReadByUser`: every unread notification of `user`. */
  function MarkAllAsRead(inbox: Inbox, user: nat): (r: Inbox)
    ensures |r.items| == |inbox.items| && r.nextId == inbox.nextId
    ensures forall i | 0 <= i < |r.items| :: r.items[i].(isRead := inbox.items[i].isRead) == inbox.items[i]
    ensures forall i | 0 <= i < |r.items| :: r.items[i].isRead <==> inbox.items[i].isRead || inbox.items[i].user == user
  {
    Inbox(seq(|inbox.items|, i requires 0 <= i < |inbox.items| =>
            var n := inbox.items[i];
            if n.user == user && !n.isRead then n.(isRead := true) else n),
          inbox.nextId)
  }

  predicate IsUnreadOf(n: Notification, user: nat) {
    n.user == user && !n.isRead
  }

  /** `countByUserAndIsReadFalse`: the number of the user's unread
      notifications, zero exactly when there is none. */
  function UnreadCount(inbox: Inbox, user: nat): (r: nat)
    ensures r <= |inbox.items|
    ensures r == |set i: nat | i < |inbox.items| && IsUnreadOf(inbox.items[i], user)|
    ensures r == 0 <==> forall i | 0 <= i < |inbox.items| :: !IsUnreadOf(inbox.items[i], user)
  {
    var p := (n: Notification) => IsUnreadOf(n, user);
    CountIsCardinality(inbox.items, p);
    CountZero(inbox.items, p);
    assert Positions(inbox.items, p) == set i: nat | i < |inbox.items| && IsUnreadOf(inbox.items[i], user);
    Count(inbox.items, p)
  }

  /** Marking the notification of another user (or an unknown id) changes
      nothing, and marking twice is marking once. */
  lemma MarkAsReadScoped(inbox: Inbox, id: int, user: nat)
    ensures (forall i | 0 <= i < |inbox.items| :: !(inbox.items[i].id == id && inbox.items[i].user == user))
            ==> MarkAsRead(inbox, id, user) == inbox
    ensures MarkAsRead(MarkAsRead(inbox, id, user), id, user) == MarkAsRead(inbox, id, user)
  {
    var r := MarkAsRead(inbox, id, user);
    if forall i | 0 <= i < |inbox.items| :: !(inbox.items[i].id == id && inbox.items[i].user == user) {
      assert r.items == inbox.items;
    }
    assert MarkAsRead(r, id, user).items == r.items;
  }

  /** After marking all, the caller has no unread notification and other
      users' notifications are untouched. */
  lemma MarkAllClearsUnread(inbox: Inbox, user: nat)
    ensures UnreadCount(MarkAllAsRead(inbox, user), user) == 0
    ensures forall i | 0 <= i < |inbox.items| && inbox.items[i].user != user ::
              MarkAllAsRead(inbox, user).items[i] == inbox.items[i]
  {
    var r := MarkAllAsRead(inbox, user);
    CountNone(r.items, (n: Notification) => IsUnreadOf(n, user));
  }

  lemma {:induction false} CountNone<T>(s: seq<T>, p: T -> bool)
    requires forall i | 0 <= i < |s| :: !p(s[i])
    ensures Count(s, p) == 0
  {
    if s != [] {
      CountNone(s[1..], p);
    }
  }

  /** `deleteOldNotifications`: removes exactly the notifications created
      before the cutoff, read or not, keeping the order of the rest. */
  function DeleteOlderThan(inbox: Inbox, cutoff: int): (r: Inbox)
    ensures r.nextId == inbox.nextId && IsSubsequence(r.items, inbox.items)
    ensures forall n | n in r.items :: n.createdAt >= cutoff
    ensures forall i | 0 <= i < |inbox.items| :: inbox.items[i].createdAt >= cutoff ==> inbox.items[i] in r.items
  {
    var p := (n: Notification) => n.createdAt >= cutoff;
    FilterIsSubsequence(inbox.items, p);
    Inbox(Filter(inbox.items, p), inbox.nextId)
  }

  const RETENTION_DAYS: nat := 30

  /** `cleanupOldNotifications`: the cutoff is 30 days before `now`. */
  function Cleanup(inbox: Inbox, now: nat): (r: Inbox)
    ensures forall n | n in r.items :: now - n.createdAt <= RETENTION_DAYS * DAY
    ensures forall i | 0 <= i < |inbox.items| :: now - inbox.items[i].createdAt <= RETENTION_DAYS * DAY ==> inbox.items[i] in r.items
  {
    DeleteOlderThan(inbox, now - RETENTION_DAYS * DAY)
  }

  /** Deleting keeps the ids valid. */
  lemma DeletePreservesValid(inbox: Inbox, cutoff: int)
    requires ValidInbox(inbox)
    ensures ValidInbox(DeleteOlderThan(inbox, cutoff))
  {
    var r := DeleteOlderThan(inbox, cutoff);
    SubsequenceDistinctIds(r.items, inbox.items);
  }

  lemma {:induction false} SubsequenceDistinctIds(a: seq<Notification>, b: seq<Notification>)
    requires IsSubsequence(a, b)
    requires forall i, j | 0 <= i < j < |b| :: b[i].id != b[j].id
    ensures forall n | n in a :: n in b
    ensures forall i, j | 0 <= i < j < |a| :: a[i].id != a[j].id
    decreases |b|
  {
    if a != [] {
      assert b != [];
      if a[0] == b[0] && IsSubsequence(a[1..], b[1..]) {
        SubsequenceDistinctIds(a[1..], b[1..]);
        forall j | 1 <= j < |a|
          ensures a[0].id != a[j].id
        {
          assert a[j] in a[1..];
          var k :| 0 <= k < |b[1..]| && b[1..][k] == a[j];
          assert b[k + 1] == a[j];
        }
        forall i, j | 0 <= i < j < |a|
          ensures a[i].id != a[j].id
        {
          if i > 0 {
            assert a[1..][i - 1] == a[i] && a[1..][j - 1] == a[j];
          }
        }
        forall n | n in a
          ensures n in b
        {
          if n != a[0] {
            assert n in a[1..];
          }
        }
      } else {
        SubsequenceDistinctIds(a, b[1..]);
      }
    }
  }

  /** Newest first; notifications created at the same instant keep their
      insertion order. */
  function NewestNotificationFirst(n: Notification): Key {
    Key(0 - n.createdAt as int, 0)
  }

  /** `findByUserOrderByCreatedAtDesc`. */
  function UserNotifications(inbox: Inbox, user: nat): (r: seq<Notification>)
    ensures Sorted(r, NewestNotificationFirst)
    ensures SelectsExactly(r, inbox.items, (n: Notification) => n.user == user)
    ensures forall n | n in r :: n in inbox.items && n.user == user
    ensures forall i | 0 <= i < |inbox.items| && inbox.items[i].user == user :: inbox.items[i] in r
  {
    var mine := Filter(inbox.items, (n: Notification) => n.user == user);
    SortSameElements(mine, NewestNotificationFirst);
    FilterSelects(inbox.items, (n: Notification) => n.user == user);
    Sort(mine, NewestNotificationFirst)
  }

  /** `findByUserAndIsReadFalseOrderByCreatedAtDesc`. */
  function UnreadNotifications(inbox: Inbox, user: nat): (r: seq<Notification>)
    ensures Sorted(r, NewestNotificationFirst)
    ensures SelectsExactly(r, inbox.items, (n: Notification) => IsUnreadOf(n, user))
    ensures forall n | n in r :: n in inbox.items && IsUnreadOf(n, user)
    ensures forall i | 0 <= i < |inbox.items| && IsUnreadOf(inbox.items[i], user) :: inbox.items[i] in r
  {
    var unread := Filter(inbox.items, (n: Notification) => IsUnreadOf(n, user));
    SortSameElements(unread, NewestNotificationFirst);
    FilterSelects(inbox.items, (n: Notification) => IsUnreadOf(n, user));
    Sort(unread, NewestNotificationFirst)
  }

  /** The unread list is the full list with the read notifications removed,
      in the same order, and its length is the unread count. */
  lemma UnreadListConsistent(inbox: Inbox, user: nat)
    ensures UnreadNotifications(inbox, user) == Filter(UserNotifications(inbox, user), (n: Notification) => !n.isRead)
    ensures IsSubsequence(UnreadNotifications(inbox, user), UserNotifications(inbox, user))
    ensures |UnreadNotifications(inbox, user)| == UnreadCount(inbox, user)
  {
    var mine := (n: Notification) => n.user == user;
    var unread := (n: Notification) => !n.isRead;
    var both := (n: Notification) => IsUnreadOf(n, user);
    FilterSortCommute(Filter(inbox.items, mine), NewestNotificationFirst, unread);
    FilterFilter(inbox.items, mine, unread, both);
    FilterIsSubsequence(UserNotifications(inbox, user), unread);
    CountIsFilterLength(inbox.items, both);
  }
}

=== FILE: otp.dfy ===
/** One-time passwords for mobile sign-in (OtpService.java,
    OtpRepository.java). The table keeps rows in insertion order with
    generated ids. The entity itself (OtpEntity.java) is not part of this
    model: a new row is taken to start with zero attempts, unverified, and
    created at the generation time. */
module Otp {
  import opened Wrappers
  import opened Text
  import opened Lists
  import Requests

  const OTP_LENGTH: nat := 6
  const OTP_EXPIRY_SECONDS: nat := 5 * 60
  const MAX_ATTEMPTS: nat := 3

  datatype OtpRecord = OtpRecord(id: nat, mobile: string, code: string, expiresAt: nat, createdAt: nat, attempts: nat, verified: bool)

  datatype OtpStore = OtpStore(rows: seq<OtpRecord>, nextId: nat)

  /** The `WHERE` clause of `findValidOtpByMobile`: same mobile, not yet
      verified and expiring strictly after `now`. */
  predicate ValidFor(o: OtpRecord, mobile: string, now: nat) {
    o.mobile == mobile && !o.verified && o.expiresAt > now
  }

  /** `findValidOtpByMobile`: the rows of that mobile that are unverified
      and unexpired. The query returns an `Optional`, so two such rows make
      it fail; its `ORDER BY` never gets to choose between them. */
  function ValidLookup(rows: seq<OtpRecord>, mobile: string, now: nat): (r: Match)
    ensures r.OneMatch? ==> r.index < |rows| && ValidFor(rows[r.index], mobile, now)
    ensures r.OneMatch? ==> forall j | 0 <= j < |rows| && j != r.index :: !ValidFor(rows[j], mobile, now)
    ensures r == NoMatch <==> forall j | 0 <= j < |rows| :: !ValidFor(rows[j], mobile, now)
    ensures r == ManyMatches <==> exists i, j | 0 <= i < j < |rows| :: ValidFor(rows[i], mobile, now) && ValidFor(rows[j], mobile, now)
  {
    Single(rows, (o: OtpRecord) => ValidFor(o, mobile, now))
  }

  /** Two tables that agree, row by row, on which rows are valid give the
      same answer. */
  lemma ValidLookupDependsOnValidity(a: seq<OtpRecord>, b: seq<OtpRecord>, mobile: string, now: nat)
    requires |a| == |b|
    requires forall i | 0 <= i < |a| :: ValidFor(a[i], mobile, now) == ValidFor(b[i], mobile, now)
    ensures ValidLookup(a, mobile, now) == ValidLookup(b, mobile, now)
  {
    var p := (o: OtpRecord) => ValidFor(o, mobile, now);
    SingleDependsOnMatches(a, b, p, p);
  }

  /** `deleteExpiredOtps`: removes exactly the rows whose expiry is strictly
      before `now`. */
  function DeleteExpired(store: OtpStore, now: nat): (r: OtpStore)
    ensures r.nextId == store.nextId && IsSubsequence(r.rows, store.rows)
    ensures forall o | o in r.rows :: o.expiresAt >= now
    ensures forall i | 0 <= i < |store.rows| :: store.rows[i].expiresAt >= now ==> store.rows[i] in r.rows
  {
    var keep := (o: OtpRecord) => o.expiresAt >= now;
    FilterIsSubsequence(store.rows, keep);
    OtpStore(Filter(store.rows, keep), store.nextId)
  }

  /** An OTP expiring exactly now is neither valid nor deleted. */
  lemma ExpiryBoundary(store: OtpStore, i: nat, now: nat)
    requires i < |store.rows| && store.rows[i].expiresAt == now
    ensures !ValidFor(store.rows[i], store.rows[i].mobile, now)
    ensures store.rows[i] in DeleteExpired(store, now).rows
  {
  }

  /** `generateOtp`: the decimal digits drawn from the random source. */
  function CodeFromDigits(digits: seq<nat>): (code: string)
    requires |digits| == OTP_LENGTH && forall i | 0 <= i < |digits| :: digits[i] < 10
    ensures |code| == OTP_LENGTH && AllDigits(code)
    ensures forall i | 0 <= i < OTP_LENGTH :: DigitValue(code[i]) == digits[i]
  {
    seq(OTP_LENGTH, i requires 0 <= i < OTP_LENGTH => DigitChar(digits[i]))
  }

  /** Every generated code passes the verification form's constraints. */
  lemma GeneratedCodeAccepted(digits: seq<nat>, mobile: string)
    requires |digits| == OTP_LENGTH && forall i | 0 <= i < |digits| :: digits[i] < 10
    requires Requests.IndianMobile(mobile)
    ensures Requests.ValidOtpVerify(Requests.OtpVerifyRequest(Some(mobile), Some(CodeFromDigits(digits))))
  {
    Requests.OtpCodeShape(mobile, CodeFromDigits(digits));
  }

  /** `generateAndSendOtp`: purges expired rows, stores a new code expiring
      five minutes from now, and reports success whether or not the SMS was
      sent (`smsSent` is the SMS gateway's answer). */
  function GenerateAndSend(store: OtpStore, mobile: string, digits: seq<nat>, smsSent: bool, now: nat): (r: (OtpStore, bool))
    requires |digits| == OTP_LENGTH && forall i | 0 <= i < |digits| :: digits[i] < 10
    ensures r.1
    ensures var purged := DeleteExpired(store, now);
            r.0.rows == purged.rows + [OtpRecord(store.nextId, mobile, CodeFromDigits(digits), now + OTP_EXPIRY_SECONDS, now, 0, false)]
            && r.0.nextId == store.nextId + 1
  {
    var purged := DeleteExpired(store, now);
    var row := OtpRecord(purged.nextId, mobile, CodeFromDigits(digits), now + OTP_EXPIRY_SECONDS, now, 0, false);
    (OtpStore(purged.rows + [row], purged.nextId + 1), true)
  }

  /** `verifyOtp`. Without exactly one valid row (none, or the lookup
      failing on several, which the `catch` turns into `false`): false and
      nothing changes. With the one valid row at MAX_ATTEMPTS or more: false,
      nothing changes. Otherwise its attempts grow by one, and an exact
      match also marks it verified and answers true. */
  function Verify(store: OtpStore, mobile: string, code: string, now: nat): (r: (OtpStore, bool))
    ensures !ValidLookup(store.rows, mobile, now).OneMatch? ==> r == (store, false)
    ensures ValidLookup(store.rows, mobile, now).OneMatch? && store.rows[ValidLookup(store.rows, mobile, now).index].attempts >= MAX_ATTEMPTS
            ==> r == (store, false)
    ensures r.1 <==> ValidLookup(store.rows, mobile, now).OneMatch?
                     && store.rows[ValidLookup(store.rows, mobile, now).index].attempts < MAX_ATTEMPTS
                     && store.rows[ValidLookup(store.rows, mobile, now).index].code == code
    ensures r.0.nextId == store.nextId && |r.0.rows| == |store.rows|
    ensures forall j | 0 <= j < |store.rows| && OneMatch(j) != ValidLookup(store.rows, mobile, now) :: r.0.rows[j] == store.rows[j]
    ensures ValidLookup(store.rows, mobile, now).OneMatch? && store.rows[ValidLookup(store.rows, mobile, now).index].attempts < MAX_ATTEMPTS ==>
              var i := ValidLookup(store.rows, mobile, now).index;
              r.0.rows[i] == store.rows[i].(attempts := store.rows[i].attempts + 1, verified := store.rows[i].code == code)
  {
    match ValidLookup(store.rows, mobile, now)
    case NoMatch => (store, false)
    case ManyMatches => (store, false)
    case OneMatch(i) =>
      var o := store.rows[i];
      if o.attempts >= MAX_ATTEMPTS then (store, false)
      else
        var tried := o.(attempts := o.attempts + 1);
        if tried.code == code then (store.(rows := store.rows[i := tried.(verified := true)]), true)
        else (store.(rows := store.rows[i := tried]), false)
  }

  /** An accepted code was the only valid one for its mobile. */
  lemma AcceptedWasOnlyValid(store: OtpStore, mobile: string, code: string, now: nat)
    requires Verify(store, mobile, code, now).1
    ensures Count(store.rows, (o: OtpRecord) => ValidFor(o, mobile, now)) == 1
  {
    SingleCounts(store.rows, (o: OtpRecord) => ValidFor(o, mobile, now));
  }

  /** `markOtpAsVerified`: every row with that mobile and code, expired or
      not. */
  function MarkVerified(store: OtpStore, mobile: string, code: string): (r: OtpStore)
    ensures r.nextId == store.nextId && |r.rows| == |store.rows|
    ensures forall i | 0 <= i < |r.rows| :: r.rows[i].(verified := store.rows[i].verified) == store.rows[i]
    ensures forall i | 0 <= i < |r.rows| :: r.rows[i].verified <==> store.rows[i].verified || (store.rows[i].mobile == mobile && store.rows[i].code == code)
  {
    OtpStore(seq(|store.rows|, i requires 0 <= i < |store.rows| =>
               var o := store.rows[i];
               if o.mobile == mobile && o.code == code then o.(verified := true) else o),
             store.nextId)
  }

  /** No replay: once a code has been accepted, that row is never valid
      again, at any time. */
  lemma NoReplay(store: OtpStore, mobile: string, code: string, now: nat, later: nat)
    requires Verify(store, mobile, code, now).1
    ensures var i := ValidLookup(store.rows, mobile, now).index;
            var after := Verify(store, mobile, code, now).0;
            i < |after.rows| && !ValidFor(after.rows[i], mobile, later)
            && ValidLookup(after.rows, mobile, later) != OneMatch(i)
  {
  }

  /** The rows a generation keeps from the old table are old rows. */
  lemma GeneratedRows(store: OtpStore, mobile: string, digits: seq<nat>, smsSent: bool, now: nat, j: nat)
    requires |digits| == OTP_LENGTH && forall i | 0 <= i < |digits| :: digits[i] < 10
    requires j < |GenerateAndSend(store, mobile, digits, smsSent, now).0.rows| - 1
    ensures GenerateAndSend(store, mobile, digits, smsSent, now).0.rows[j] in store.rows
  {
    var purged := DeleteExpired(store, now).rows;
    assert GenerateAndSend(store, mobile, digits, smsSent, now).0.rows[j] == purged[j];
    assert purged[j] in purged;
  }

  /** A code just generated is the one `verifyOtp` checks at time `t`, as
      long as no other code for that mobile is still valid at `t`. */
  lemma FreshCodeIsChecked(store: OtpStore, mobile: string, digits: seq<nat>, smsSent: bool, now: nat, t: nat)
    requires |digits| == OTP_LENGTH && forall i | 0 <= i < |digits| :: digits[i] < 10
    requires forall i | 0 <= i < |store.rows| :: !ValidFor(store.rows[i], mobile, t)
    requires now <= t < now + OTP_EXPIRY_SECONDS
    ensures var after := GenerateAndSend(store, mobile, digits, smsSent, now).0;
            ValidLookup(after.rows, mobile, t) == OneMatch(|after.rows| - 1)
  {
    var after := GenerateAndSend(store, mobile, digits, smsSent, now).0;
    forall j | 0 <= j < |after.rows| - 1
      ensures !ValidFor(after.rows[j], mobile, t)
    {
      GeneratedRows(store, mobile, digits, smsSent, now, j);
    }
    assert ValidFor(after.rows[|after.rows| - 1], mobile, t);
  }

  /** Lock-out: three wrong codes against a fresh OTP exhaust it, and then
      even the right code is refused. Each wrong try counts one attempt. */
  lemma LockoutAfterThreeWrongCodes(store: OtpStore, mobile: string, digits: seq<nat>, smsSent: bool, now: nat, wrong1: string, wrong2: string, wrong3: string, t: nat)
    requires |digits| == OTP_LENGTH && forall i | 0 <= i < |digits| :: digits[i] < 10
    requires forall i | 0 <= i < |store.rows| :: !ValidFor(store.rows[i], mobile, t)
    requires now <= t < now + OTP_EXPIRY_SECONDS
    requires var c := CodeFromDigits(digits); wrong1 != c && wrong2 != c && wrong3 != c
    ensures var s0 := GenerateAndSend(store, mobile, digits, smsSent, now).0;
            var v1 := Verify(s0, mobile, wrong1, t);
            var v2 := Verify(v1.0, mobile, wrong2, t);
            var v3 := Verify(v2.0, mobile, wrong3, t);
            var v4 := Verify(v3.0, mobile, CodeFromDigits(digits), t);
            !v1.1 && !v2.1 && !v3.1 && !v4.1
  {
    var s0 := GenerateAndSend(store, mobile, digits, smsSent, now).0;
    FreshCodeIsChecked(store, mobile, digits, smsSent, now, t);
    var i := |s0.rows| - 1;
    var v1 := Verify(s0, mobile, wrong1, t);
    ValidLookupDependsOnValidity(s0.rows, v1.0.rows, mobile, t);
    assert v1.0.rows[i].attempts == 1;
    var v2 := Verify(v1.0, mobile, wrong2, t);
    ValidLookupDependsOnValidity(v1.0.rows, v2.0.rows, mobile, t);
    assert v2.0.rows[i].attempts == 2;
    var v3 := Verify(v2.0, mobile, wrong3, t);
    ValidLookupDependsOnValidity(v2.0.rows, v3.0.rows, mobile, t);
    assert v3.0.rows[i].attempts == 3;
  }

  /** The right code within five minutes, on the first try, is accepted when
      no other code for that mobile is still valid. */
  lemma FreshCodeAccepted(store: OtpStore, mobile: string, digits: seq<nat>, smsSent: bool, now: nat, t: nat)
    requires |digits| == OTP_LENGTH && forall i | 0 <= i < |digits| :: digits[i] < 10
    requires forall i | 0 <= i < |store.rows| :: !ValidFor(store.rows[i], mobile, t)
    requires now <= t < now + OTP_EXPIRY_SECONDS
    ensures Verify(GenerateAndSend(store, mobile, digits, smsSent, now).0, mobile, CodeFromDigits(digits), t).1
  {
    FreshCodeIsChecked(store, mobile, digits, smsSent, now, t);
  }

  /** A resend within five minutes leaves two valid codes, so every
      verification fails, and changes nothing, until the first code
      expires. */
  lemma ResendBlocksVerification(store: OtpStore, mobile: string, d1: seq<nat>, d2: seq<nat>, sms1: bool, sms2: bool, t1: nat, t2: nat, code: string, t: nat)
    requires |d1| == OTP_LENGTH && forall i | 0 <= i < |d1| :: d1[i] < 10
    requires |d2| == OTP_LENGTH && forall i | 0 <= i < |d2| :: d2[i] < 10
    requires t1 <= t2 <= t < t1 + OTP_EXPIRY_SECONDS
    ensures var s1 := GenerateAndSend(store, mobile, d1, sms1, t1).0;
            var s2 := GenerateAndSend(s1, mobile, d2, sms2, t2).0;
            Verify(s2, mobile, code, t) == (s2, false)
  {
    var s1 := GenerateAndSend(store, mobile, d1, sms1, t1).0;
    var s2 := GenerateAndSend(s1, mobile, d2, sms2, t2).0;
    var first := s1.rows[|s1.rows| - 1];
    var purged := DeleteExpired(s1, t2).rows;
    assert first.expiresAt >= t2;
    assert first in purged;
    var k :| 0 <= k < |purged| && purged[k] == first;
    assert s2.rows[k] == first && ValidFor(s2.rows[k], mobile, t);
    assert ValidFor(s2.rows[|purged|], mobile, t);
  }

  /** Once the first of two codes has expired, the second one is accepted,
      provided no other code for that mobile was outstanding. */
  lemma ResendRecoversAfterExpiry(store: OtpStore, mobile: string, d1: seq<nat>, d2: seq<nat>, sms1: bool, sms2: bool, t1: nat, t2: nat, t: nat)
    requires |d1| == OTP_LENGTH && forall i | 0 <= i < |d1| :: d1[i] < 10
    requires |d2| == OTP_LENGTH && forall i | 0 <= i < |d2| :: d2[i] < 10
    requires forall i | 0 <= i < |store.rows| :: !ValidFor(store.rows[i], mobile, t1)
    requires t1 <= t2 <= t < t2 + OTP_EXPIRY_SECONDS && t1 + OTP_EXPIRY_SECONDS <= t
    ensures var s1 := GenerateAndSend(store, mobile, d1, sms1, t1).0;
            var s2 := GenerateAndSend(s1, mobile, d2, sms2, t2).0;
            Verify(s2, mobile, CodeFromDigits(d2), t).1
  {
    var s1 := GenerateAndSend(store, mobile, d1, sms1, t1).0;
    forall j | 0 <= j < |s1.rows|
      ensures !ValidFor(s1.rows[j], mobile, t)
    {
      if j < |s1.rows| - 1 {
        GeneratedRows(store, mobile, d1, sms1, t1, j);
      }
    }
    FreshCodeIsChecked(s1, mobile, d2, sms2, t2, t);
  }
}

=== FILE: queries.dfy ===
/** Expert queries and expert responses (ExpertQuery.java,
    ExpertResponse.java) and the repository queries over them
    (ExpertQueryRepository.java, ExpertResponseRepository.java). A query's
    and a response's id is its position in its table; rows are never
    deleted. Users are referred to by id. */
module Queries {
  import opened Wrappers
  import opened Lists

  datatype Query = Query(
    id: nat,
    title: string,
    description: string,
    cropType: string,
    category: string,
    urgency: string,
    imagePath: Option<string>,
    status: string,
    hasImage: Option<bool>,
    createdAt: nat,
    updatedAt: nat,
    responseDate: Option<nat>,
    response: Option<string>,
    farmer: nat,
    expert: Option<nat>)

  const STATUS_PENDING: string := "pending"
  const STATUS_ANSWERED: string := "answered"

  /** A freshly persisted query: status "pending", no response and no
      expert, both timestamps set to the persist time. `hasImage` is the
      value the caller supplies (the entity's own default is false). */
  function NewQuery(id: nat, title: string, description: string, cropType: string, category: string, urgency: string, hasImage: Option<bool>, imagePath: Option<string>, farmer: nat, now: nat): (q: Query)
    ensures q.status == STATUS_PENDING && q.response.None? && q.responseDate.None? && q.expert.None?
    ensures q.createdAt == now && q.updatedAt == now && q.farmer == farmer && q.id == id
  {
    Query(id, title, description, cropType, category, urgency, imagePath, STATUS_PENDING, hasImage, now, now, None, None, farmer, None)
  }

  /** `setStatus`: also refreshes `updatedAt`, even when the status is the
      same. */
  function SetStatus(q: Query, status: string, now: nat): (r: Query)
    ensures r.status == status && r.updatedAt == now
    ensures r.(status := q.status, updatedAt := q.updatedAt) == q
  {
    q.(status := status, updatedAt := now)
  }

  /** `setResponse`: stamps both `responseDate` and `updatedAt`. */
  function SetResponse(q: Query, response: string, now: nat): (r: Query)
    ensures r.response == Some(response) && r.responseDate == Some(now) && r.updatedAt == now
    ensures r.(response := q.response, responseDate := q.responseDate, updatedAt := q.updatedAt) == q
  {
    q.(response := Some(response), responseDate := Some(now), updatedAt := now)
  }

  datatype ExpertResponse = ExpertResponse(id: nat, query: nat, expert: nat, text: string, createdAt: nat, updatedAt: nat)

  /** The three-argument constructor: both timestamps are the construction
      time. */
  function NewResponse(id: nat, query: nat, expert: nat, text: string, now: nat): (r: ExpertResponse)
    ensures r.query == query && r.expert == expert && r.text == text && r.id == id
    ensures r.createdAt == now && r.updatedAt == now
  {
    ExpertResponse(id, query, expert, text, now, now)
  }

  /** `setResponse` on a response: the text and `updatedAt` change, nothing
      else. */
  function EditResponse(r: ExpertResponse, text: string, now: nat): (e: ExpertResponse)
    ensures e.text == text && e.updatedAt == now
    ensures e.id == r.id && e.query == r.query && e.expert == r.expert && e.createdAt == r.createdAt
  {
    r.(text := text, updatedAt := now)
  }

  // ------------------------------------------------------------- orderings

  /** The `CASE q.urgency` rank, matching the four names exactly. The
      database compares through the column's collation; the model assumes
      a case-sensitive (binary) one. */
  function UrgencyRank(urgency: string): (r: int)
    ensures 1 <= r <= 5
    ensures r == 1 <==> urgency == "critical"
    ensures r == 2 <==> urgency == "high"
    ensures r == 3 <==> urgency == "medium"
    ensures r == 4 <==> urgency == "low"
  {
    if urgency == "critical" then 1
    else if urgency == "high" then 2
    else if urgency == "medium" then 3
    else if urgency == "low" then 4
    else 5
  }

  /** Under the case-sensitive collation the model assumes, any other
      spelling ranks last, including a capitalised one. */
  lemma UrgencyRankCaseSensitive()
    ensures UrgencyRank("Critical") == 5 && UrgencyRank("urgent") == 5 && UrgencyRank("HIGH") == 5
  {
  }

  /** `urgency IN ('high', 'critical')`. */
  predicate HighPriority(urgency: string) {
    urgency == "high" || urgency == "critical"
  }

  lemma HighPriorityIsTopRanks(urgency: string)
    ensures HighPriority(urgency) <==> UrgencyRank(urgency) <= 2
  {
  }

  function QueueKey(q: Query): Key {
    Key(UrgencyRank(q.urgency), q.createdAt)
  }

  /** `findAllOrderByUrgencyAndCreatedAt`: most urgent first, then oldest
      first. */
  function ExpertQueue(queries: seq<Query>): (r: seq<Query>)
    ensures Sorted(r, QueueKey) && multiset(r) == multiset(queries) && |r| == |queries|
  {
    Sort(queries, QueueKey)
  }

  /** `findByStatusOrderByUrgencyAndCreatedAt`. */
  function StatusQueue(queries: seq<Query>, status: string): (r: seq<Query>)
    ensures Sorted(r, QueueKey)
    ensures forall q | q in r :: q in queries && q.status == status
    ensures forall i | 0 <= i < |queries| && queries[i].status == status :: queries[i] in r
  {
    var matching := Filter(queries, (q: Query) => q.status == status);
    SortSameElements(matching, QueueKey);
    Sort(matching, QueueKey)
  }

  /** The status queue is the full queue with the other statuses removed,
      in the same order. */
  lemma StatusQueueIsFilteredQueue(queries: seq<Query>, status: string)
    ensures StatusQueue(queries, status) == Filter(ExpertQueue(queries), (q: Query) => q.status == status)
  {
    FilterSortCommute(queries, QueueKey, (q: Query) => q.status == status);
  }

  function NewestKey(q: Query): Key {
    Key(0 - q.createdAt as int, 0)
  }

  /** `findByFarmerOrderByCreatedAtDesc`. */
  function FarmerQueries(queries: seq<Query>, farmer: nat): (r: seq<Query>)
    ensures Sorted(r, NewestKey)
    ensures forall q | q in r :: q in queries && q.farmer == farmer
    ensures forall i | 0 <= i < |queries| && queries[i].farmer == farmer :: queries[i] in r
  {
    var mine := Filter(queries, (q: Query) => q.farmer == farmer);
    SortSameElements(mine, NewestKey);
    Sort(mine, NewestKey)
  }

  /** `countByFarmer` agrees with the farmer's list. */
  lemma FarmerCountIsListLength(queries: seq<Query>, farmer: nat)
    ensures Count(queries, (q: Query) => q.farmer == farmer) == |FarmerQueries(queries, farmer)|
  {
    CountIsFilterLength(queries, (q: Query) => q.farmer == farmer);
  }

  /** `countPendingQueriesByDateRange`: status exactly "pending", created
      within the inclusive range. */
  function PendingInRange(queries: seq<Query>, start: nat, end: nat): (n: nat)
    ensures n <= |queries|
    ensures n == |Filter(queries, (q: Query) => q.status == STATUS_PENDING && start <= q.createdAt <= end)|
  {
    var p := (q: Query) => q.status == STATUS_PENDING && start <= q.createdAt <= end;
    CountIsFilterLength(queries, p);
    Count(queries, p)
  }

  // ------------------------------------------------------------- responses

  function ResponseNewest(r: ExpertResponse): Key {
    Key(0 - r.createdAt as int, 0)
  }

  /** `findByQueryIdOrderByCreatedAtDesc`. */
  function ResponsesFor(responses: seq<ExpertResponse>, query: int): (r: seq<ExpertResponse>)
    ensures Sorted(r, ResponseNewest)
    ensures forall x | x in r :: x in responses && x.query == query
    ensures forall i | 0 <= i < |responses| && responses[i].query == query :: responses[i] in r
  {
    var forQuery := Filter(responses, (x: ExpertResponse) => x.query == query);
    SortSameElements(forQuery, ResponseNewest);
    Sort(forQuery, ResponseNewest)
  }

  /** `findByExpertIdOrderByCreatedAtDesc`. */
  function ResponsesBy(responses: seq<ExpertResponse>, expert: int): (r: seq<ExpertResponse>)
    ensures Sorted(r, ResponseNewest)
    ensures SelectsExactly(r, responses, (x: ExpertResponse) => x.expert == expert)
    ensures forall x | x in r :: x in responses && x.expert == expert
    ensures forall i | 0 <= i < |responses| && responses[i].expert == expert :: responses[i] in r
  {
    var byExpert := Filter(responses, (x: ExpertResponse) => x.expert == expert);
    SortSameElements(byExpert, ResponseNewest);
    FilterSelects(responses, (x: ExpertResponse) => x.expert == expert);
    Sort(byExpert, ResponseNewest)
  }

  /** `countByQueryId`: the number of stored responses to the query. */
  function ResponseCount(responses: seq<ExpertResponse>, query: int): (n: nat)
    ensures n == |set i: nat | i < |responses| && responses[i].query == query|
    ensures n <= |responses|
  {
    var p := (x: ExpertResponse) => x.query == query;
    CountIsCardinality(responses, p);
    assert Positions(responses, p) == set i: nat | i < |responses| && responses[i].query == query;
    Count(responses, p)
  }

  /** `existsByQueryIdAndExpertId`: some stored response to the query is the
      expert's, so the query's count is then positive. */
  function HasResponded(responses: seq<ExpertResponse>, query: int, expert: int): (ok: bool)
    ensures ok ==> ResponseCount(responses, query) > 0
    ensures ok <==> Count(responses, (x: ExpertResponse) => x.query == query && x.expert == expert) > 0
  {
    var p := (x: ExpertResponse) => x.query == query && x.expert == expert;
    CountZero(responses, p);
    var found := exists i | 0 <= i < |responses| :: responses[i].query == query && responses[i].expert == expert;
    if found then
      var i :| 0 <= i < |responses| && responses[i].query == query && responses[i].expert == expert;
      CountPositive(responses, (x: ExpertResponse) => x.query == query, i);
      found
    else found
  }

  /** The count is the length of the list, and an expert has responded
      exactly when one of the listed responses is theirs. */
  lemma ResponseQueriesAgree(responses: seq<ExpertResponse>, query: int, expert: int)
    ensures ResponseCount(responses, query) == |ResponsesFor(responses, query)|
    ensures HasResponded(responses, query, expert) <==> exists x | x in ResponsesFor(responses, query) :: x.expert == expert
  {
    var p := (x: ExpertResponse) => x.query == query;
    CountIsFilterLength(responses, p);
    SortSameElements(Filter(responses, p), ResponseNewest);
    if HasResponded(responses, query, expert) {
      var i :| 0 <= i < |responses| && responses[i].query == query && responses[i].expert == expert;
      assert responses[i] in ResponsesFor(responses, query);
    }
  }
}

=== FILE: reports.dfy ===
/** Per-user reports and analytics (ReportService.java) computed from the
    scan table. Reports can be deleted, so they carry generated ids and the
    store keeps the next id to hand out. */
module Reports {
  import opened Wrappers
  import opened Text
  import opened Lists
  import opened Scans
  import opened Clock

  datatype Report = Report(
    id: nat,
    user: nat,
    title: string,
    kind: string,
    status: string,
    summary: string,
    diseaseCount: nat,
    healthyCount: nat,
    criticalIssues: nat,
    recommendationsCount: nat,
    generatedAt: nat,
    createdAt: nat,
    updatedAt: nat)

  datatype ReportStore = ReportStore(rows: seq<Report>, nextId: nat)

  /** Ids are distinct and below the next id. */
  predicate ValidStore(store: ReportStore) {
    && (forall i | 0 <= i < |store.rows| :: store.rows[i].id < store.nextId)
    && (forall i, j | 0 <= i < j < |store.rows| :: store.rows[i].id != store.rows[j].id)
  }


  // ---------------------------------------------------------------------
  // Counts over the scan table
  // ---------------------------------------------------------------------

  /** A severity of "High" or "Critical", in any letter case. */
  predicate IsCritical(s: Scan) {
    s.severity.Some? && (EqualsIgnoreCase(s.severity.value, "High") || EqualsIgnoreCase(s.severity.value, "Critical"))
  }

  /** Non-null recommendations that are not blank after `trim()`. */
  predicate HasRecommendations(s: Scan) {
    HasText(s.recommendations)
  }

  /** The figures every report and the analytics are built from. */
  datatype Tally = Tally(total: nat, diseased: nat, healthy: nat, critical: nat, recommendations: nat)

  /** The user's counts; the critical and recommendation counts look only at
      the ten newest scans. */
  function TallyFor(scans: seq<Scan>, user: nat): (t: Tally)
    ensures t.total == CountByUser(scans, user)
    ensures t.diseased == CountDiseasedByUser(scans, user) && t.healthy == CountHealthyByUser(scans, user)
    ensures t.diseased + t.healthy == t.total
    ensures var recent := RecentByUser(scans, user);
            t.critical == |set i: nat | i < |recent| && IsCritical(recent[i])|
            && t.recommendations == |set i: nat | i < |recent| && HasRecommendations(recent[i])|
    ensures t.critical <= 10 && t.critical <= t.total
    ensures t.recommendations <= 10 && t.recommendations <= t.total
  {
    var recent := RecentByUser(scans, user);
    DiseasedPlusHealthy(scans, user);
    RecentWithinTotal(scans, user);
    RecentCounts(recent);
    Tally(CountByUser(scans, user), CountDiseasedByUser(scans, user), CountHealthyByUser(scans, user),
          Count(recent, IsCritical), Count(recent, HasRecommendations))
  }

  /** The critical and recommendation counts of some scans, as the number
      of positions that qualify. */
  lemma RecentCounts(recent: seq<Scan>)
    ensures Count(recent, IsCritical) == |set i: nat | i < |recent| && IsCritical(recent[i])|
    ensures Count(recent, HasRecommendations) == |set i: nat | i < |recent| && HasRecommendations(recent[i])|
  {
    CountIsCardinality(recent, IsCritical);
    CountIsCardinality(recent, HasRecommendations);
    assert Positions(recent, IsCritical) == set i: nat | i < |recent| && IsCritical(recent[i]);
    assert Positions(recent, HasRecommendations) == set i: nat | i < |recent| && HasRecommendations(recent[i]);
  }

  /** The ten newest scans are some of the user's scans. */
  lemma RecentWithinTotal(scans: seq<Scan>, user: nat)
    ensures |RecentByUser(scans, user)| <= CountByUser(scans, user)
  {
    var own := Filter(scans, (s: Scan) => OwnedBy(s, user));
    CountIsFilterLength(scans, (s: Scan) => OwnedBy(s, user));
    assert |UserScans(scans, user)| == |own|;
  }

  /** Severity matching ignores case: "HIGH" and "critical" both count. */
  lemma CriticalIgnoresCase(s: Scan)
    requires s.severity == Some("HIGH") || s.severity == Some("critical")
    ensures IsCritical(s)
  {
  }

  /** `treatedScans * 100 / totalScans`, or 0 without scans. */
  function TreatmentSuccess(treated: nat, total: nat): (r: nat)
    ensures total == 0 ==> r == 0
    ensures total > 0 ==> r * total <= treated * 100 < (r + 1) * total
    ensures treated <= total ==> r <= 100
  {
    if total > 0 then
      DivisionBracket(treated * 100, total);
      PercentAtMost(treated, total);
      treated * 100 / total
    else 0
  }

  lemma DivisionBracket(a: nat, b: nat)
    requires b > 0
    ensures (a / b) * b <= a < (a / b + 1) * b
  {
    assert a == (a / b) * b + a % b;
  }

  lemma PercentAtMost(a: nat, b: nat)
    requires b > 0
    ensures a <= b ==> a * 100 / b <= 100
  {
    if a <= b {
      DivisionBracket(a * 100, b);
    }
  }

  datatype Risk = Low | Medium | High

  function RiskName(r: Risk): string {
    match r
    case Low => "Low"
    case Medium => "Medium"
    case High => "High"
  }

  /** The risk level as the source computes it: the percentage of diseased
      scans against the thresholds 50 and 25 (both exclusive). */
  function RiskLevel(total: nat, diseased: nat): (r: Risk)
    ensures r == High <==> total > 0 && 2 * diseased > total
    ensures r == Medium <==> total > 0 && 2 * diseased <= total && 4 * diseased > total
    ensures r == Low <==> total == 0 || 4 * diseased <= total
  {
    if total > 0 then
      var percentage := diseased as real / total as real * 100.0;
      PercentageAbove(diseased, total, 50.0, 2);
      PercentageAbove(diseased, total, 25.0, 4);
      if percentage > 50.0 then High
      else if percentage > 25.0 then Medium
      else Low
    else Low
  }

  /** `d / t * 100 > 100 / k` is `k * d > t` for positive `t`. */
  lemma PercentageAbove(d: nat, t: nat, bound: real, k: nat)
    requires t > 0 && k > 0 && bound == 100.0 / k as real
    ensures d as real / t as real * 100.0 > bound <==> k * d > t
  {
    var q := d as real / t as real;
    assert q * t as real == d as real;
    assert bound * k as real == 100.0;
    if k * d > t {
      assert (k * d) as real > t as real;
      assert q * 100.0 * t as real * k as real == d as real * 100.0 * k as real;
    } else {
      assert (k * d) as real <= t as real;
      assert q * 100.0 * t as real * k as real == d as real * 100.0 * k as real;
    }
  }

  // ---------------------------------------------------------------------
  // Report rows
  // ---------------------------------------------------------------------

  const WEEKLY_TYPE: string := "Weekly Report"
  const WEEKLY_TITLE: string := "Weekly Disease Analysis"

  predicate IsWeekly(r: Report) {
    r.kind == WEEKLY_TYPE && r.title == WEEKLY_TITLE
  }

  predicate IsWeeklyOf(r: Report, user: nat) {
    r.user == user && IsWeekly(r)
  }

  function WeeklyCount(store: ReportStore, user: nat): nat {
    Count(store.rows, (r: Report) => IsWeeklyOf(r, user))
  }

  /** `OrderByGeneratedAtDesc`. */
  function NewestGenerated(r: Report): Key {
    Key(0 - r.generatedAt as int, 0)
  }

  /** `findByUserOrderByGeneratedAtDesc`. */
  function UserReports(store: ReportStore, user: nat): (r: seq<Report>)
    ensures Sorted(r, NewestGenerated)
    ensures forall x | x in r :: x in store.rows && x.user == user
    ensures forall i | 0 <= i < |store.rows| && store.rows[i].user == user :: store.rows[i] in r
    ensures |r| == Count(store.rows, (x: Report) => x.user == user)
  {
    var own := Filter(store.rows, (x: Report) => x.user == user);
    SortSameElements(own, NewestGenerated);
    CountIsFilterLength(store.rows, (x: Report) => x.user == user);
    Sort(own, NewestGenerated)
  }

  /** A user's report list holds each of the user's stored reports as often
      as it is stored, and no other report. */
  lemma UserReportsSelects(store: ReportStore, user: nat)
    ensures SelectsExactly(UserReports(store, user), store.rows, (x: Report) => x.user == user)
  {
    FilterSelects(store.rows, (x: Report) => x.user == user);
  }

  /** The opening of both summaries when the user has no scans. */
  const NO_SCAN_DATA := "No scan data available yet. "

  /** The figures both summaries end with. */
  function Findings(t: Tally): string {
    NatToString(t.diseased) + (" diseases and " + (NatToString(t.healthy) + (" healthy plants with "
    + (NatToString(t.critical) + " critical issues."))))
  }

  /** The weekly summary sentence: the figures when there are scans, an
      invitation to scan otherwise. */
  function WeeklySummary(t: Tally): (r: string)
    ensures t.total > 0 <==> StartsWith(r, "Analysis of ")
  {
    if t.total > 0 then
      "Analysis of " + (NatToString(t.total) + (" plant scans. Found " + Findings(t)))
    else
      var invitation := NO_SCAN_DATA + "Start scanning plants to see analysis.";
      assert invitation[0] == 'N' && "Analysis of "[0] == 'A';
      FirstCharDiffers(invitation, "Analysis of ");
      invitation
  }

  /** The summary of an on-demand report of type `kind`: the figures when
      there are scans, an invitation to scan otherwise. */
  function GeneratedSummary(kind: string, t: Tally): (r: string)
    ensures t.total > 0 <==> StartsWith(r, "Generated ")
  {
    if t.total > 0 then
      "Generated " + (kind + (" based on " + (NatToString(t.total) + (" plant scans. Found " + Findings(t)))))
    else
      var invitation := NO_SCAN_DATA + "Start scanning plants to generate meaningful reports.";
      assert invitation[0] == 'N' && "Generated "[0] == 'G';
      FirstCharDiffers(invitation, "Generated ");
      invitation
  }

  /** The figures text reads back as the three counts it shows. */
  lemma FindingsReadBack(t1: Tally, t2: Tally)
    requires Findings(t1) == Findings(t2)
    ensures t1.diseased == t2.diseased && t1.healthy == t2.healthy && t1.critical == t2.critical
  {
    var c1 := NatToString(t1.critical) + " critical issues.";
    var c2 := NatToString(t2.critical) + " critical issues.";
    var h1 := NatToString(t1.healthy) + (" healthy plants with " + c1);
    var h2 := NatToString(t2.healthy) + (" healthy plants with " + c2);
    NumberPrefixUnique(t1.diseased, " diseases and " + h1, t2.diseased, " diseases and " + h2);
    DropPrefix(" diseases and ", h1, h2);
    NumberPrefixUnique(t1.healthy, " healthy plants with " + c1, t2.healthy, " healthy plants with " + c2);
    DropPrefix(" healthy plants with ", c1, c2);
    NumberPrefixUnique(t1.critical, " critical issues.", t2.critical, " critical issues.");
  }

  /** A summary with scans determines the figures it reports: two tallies
      with the same weekly summary agree on every count it shows. */
  lemma WeeklySummaryReadsBack(t1: Tally, t2: Tally)
    requires t1.total > 0 && t2.total > 0 && WeeklySummary(t1) == WeeklySummary(t2)
    ensures t1.total == t2.total && t1.diseased == t2.diseased && t1.healthy == t2.healthy && t1.critical == t2.critical
  {
    var f1 := " plant scans. Found " + Findings(t1);
    var f2 := " plant scans. Found " + Findings(t2);
    DropPrefix("Analysis of ", NatToString(t1.total) + f1, NatToString(t2.total) + f2);
    NumberPrefixUnique(t1.total, f1, t2.total, f2);
    DropPrefix(" plant scans. Found ", Findings(t1), Findings(t2));
    FindingsReadBack(t1, t2);
  }

  /** The same for a generated report of one type. */
  lemma GeneratedSummaryReadsBack(kind: string, t1: Tally, t2: Tally)
    requires t1.total > 0 && t2.total > 0 && GeneratedSummary(kind, t1) == GeneratedSummary(kind, t2)
    ensures t1.total == t2.total && t1.diseased == t2.diseased && t1.healthy == t2.healthy && t1.critical == t2.critical
  {
    var f1 := " plant scans. Found " + Findings(t1);
    var f2 := " plant scans. Found " + Findings(t2);
    var n1 := NatToString(t1.total) + f1;
    var n2 := NatToString(t2.total) + f2;
    DropPrefix("Generated ", kind + (" based on " + n1), kind + (" based on " + n2));
    DropPrefix(kind, " based on " + n1, " based on " + n2);
    DropPrefix(" based on ", n1, n2);
    NumberPrefixUnique(t1.total, f1, t2.total, f2);
    DropPrefix(" plant scans. Found ", Findings(t1), Findings(t2));
    FindingsReadBack(t1, t2);
  }

  /** A row carrying the tally's figures. */
  predicate Reflects(r: Report, t: Tally) {
    r.diseaseCount == t.diseased && r.healthyCount == t.healthy
    && r.criticalIssues == t.critical && r.recommendationsCount == t.recommendations
  }

  /** The weekly row with fresh figures; saving it refreshes `updatedAt`. */
  function Refresh(r: Report, t: Tally, now: nat): (r': Report)
    ensures Reflects(r', t) && r'.summary == WeeklySummary(t) && r'.generatedAt == now
    ensures r'.(diseaseCount := r.diseaseCount, healthyCount := r.healthyCount, criticalIssues := r.criticalIssues,
                recommendationsCount := r.recommendationsCount, summary := r.summary, generatedAt := r.generatedAt,
                updatedAt := r.updatedAt) == r
  {
    r.(diseaseCount := t.diseased, healthyCount := t.healthy, criticalIssues := t.critical,
       recommendationsCount := t.recommendations, summary := WeeklySummary(t), generatedAt := now, updatedAt := now)
  }

  /** The rows with the row found by id (`target`) refreshed. */
  function RefreshRows(rows: seq<Report>, target: Report, t: Tally, now: nat): (r: seq<Report>)
    ensures |r| == |rows|
    ensures forall j | 0 <= j < |rows| :: r[j].id == rows[j].id && r[j].user == rows[j].user
                                          && r[j].kind == rows[j].kind && r[j].title == rows[j].title
    ensures forall j | 0 <= j < |rows| && rows[j] != target :: r[j] == rows[j]
    ensures forall j | 0 <= j < |rows| && rows[j] == target :: Reflects(r[j], t) && r[j].generatedAt == now
  {
    seq(|rows|, j requires 0 <= j < |rows| => if rows[j] == target then Refresh(rows[j], t, now) else rows[j])
  }

  /** A new weekly analysis row with status "Completed". */
  function NewWeekly(id: nat, user: nat, t: Tally, now: nat): (r: Report)
    ensures IsWeeklyOf(r, user) && Reflects(r, t) && r.id == id && r.generatedAt == now
  {
    Report(id, user, WEEKLY_TITLE, WEEKLY_TYPE, "Completed", WeeklySummary(t),
           t.diseased, t.healthy, t.critical, t.recommendations, now, now, now)
  }

  /** `updateOrCreateWeeklyAnalysis`: the newest weekly row of the user is
      refreshed in place; without one, a new row is added. */
  function UpdateOrCreateWeekly(store: ReportStore, scans: seq<Scan>, user: nat, now: nat): (r: ReportStore)
    ensures WeeklyCount(store, user) == 0 ==>
              && |r.rows| == |store.rows| + 1
              && r.rows == store.rows + [r.rows[|store.rows|]]
              && r.rows[|store.rows|] == NewWeekly(store.nextId, user, TallyFor(scans, user), now)
              && r.nextId == store.nextId + 1
    ensures WeeklyCount(store, user) > 0 ==>
              && |r.rows| == |store.rows| && r.nextId == store.nextId
              && forall j | 0 <= j < |store.rows| :: r.rows[j].id == store.rows[j].id && r.rows[j].user == store.rows[j].user
                                                    && r.rows[j].kind == store.rows[j].kind && r.rows[j].title == store.rows[j].title
    ensures forall i | 0 <= i < |store.rows| && !IsWeeklyOf(store.rows[i], user) :: r.rows[i] == store.rows[i]
  {
    var t := TallyFor(scans, user);
    var mine := UserReports(store, user);
    match First(mine, IsWeekly)
    case Some(k) =>
      WeeklyHitInStore(store, user, mine, k);
      ReportStore(RefreshRows(store.rows, mine[k], t, now), store.nextId)
    case None =>
      NoWeeklyInStore(store, user, mine);
      ReportStore(store.rows + [NewWeekly(store.nextId, user, t, now)], store.nextId + 1)
  }

  /** After the call the user has a weekly row carrying the current tally. */
  lemma WeeklyReflectsTally(store: ReportStore, scans: seq<Scan>, user: nat, now: nat)
    ensures var r := UpdateOrCreateWeekly(store, scans, user, now);
            exists i | 0 <= i < |r.rows| :: IsWeeklyOf(r.rows[i], user) && Reflects(r.rows[i], TallyFor(scans, user))
                                            && r.rows[i].generatedAt == now
  {
    var r := UpdateOrCreateWeekly(store, scans, user, now);
    var t := TallyFor(scans, user);
    var mine := UserReports(store, user);
    match First(mine, IsWeekly)
    case Some(k) =>
      WeeklyHitInStore(store, user, mine, k);
      var j :| 0 <= j < |store.rows| && store.rows[j] == mine[k];
      assert r.rows == RefreshRows(store.rows, mine[k], t, now);
      assert IsWeeklyOf(r.rows[j], user) && Reflects(r.rows[j], t) && r.rows[j].generatedAt == now;
    case None =>
      NoWeeklyInStore(store, user, mine);
      assert r.rows[|store.rows|] == NewWeekly(store.nextId, user, t, now);
  }

  lemma WeeklyHitInStore(store: ReportStore, user: nat, mine: seq<Report>, k: nat)
    requires mine == UserReports(store, user) && k < |mine| && IsWeekly(mine[k])
    ensures exists j | 0 <= j < |store.rows| :: store.rows[j] == mine[k]
    ensures WeeklyCount(store, user) > 0
  {
    assert mine[k] in mine;
    var j :| 0 <= j < |store.rows| && store.rows[j] == mine[k];
    CountPositive(store.rows, (r: Report) => IsWeeklyOf(r, user), j);
  }

  lemma NoWeeklyInStore(store: ReportStore, user: nat, mine: seq<Report>)
    requires mine == UserReports(store, user)
    requires forall i | 0 <= i < |mine| :: !IsWeekly(mine[i])
    ensures WeeklyCount(store, user) == 0
  {
    forall j | 0 <= j < |store.rows|
      ensures !IsWeeklyOf(store.rows[j], user)
    {
      if store.rows[j].user == user {
        assert store.rows[j] in mine;
      }
    }
    CountNoneOf(store.rows, (r: Report) => IsWeeklyOf(r, user));
  }

  lemma {:induction false} CountNoneOf<T>(s: seq<T>, p: T -> bool)
    requires forall i | 0 <= i < |s| :: !p(s[i])
    ensures Count(s, p) == 0
  {
    if s != [] {
      CountNoneOf(s[1..], p);
    }
  }

  lemma ReplaceKeepsWeeklyCount(store: ReportStore, rows: seq<Report>, user: nat)
    requires |rows| == |store.rows|
    requires forall j | 0 <= j < |rows| :: rows[j].user == store.rows[j].user && rows[j].kind == store.rows[j].kind
                                          && rows[j].title == store.rows[j].title
    ensures Count(rows, (r: Report) => IsWeeklyOf(r, user)) == WeeklyCount(store, user)
  {
    CountPointwise(rows, store.rows, (r: Report) => IsWeeklyOf(r, user));
  }

  /** The weekly analysis exists after the first call, and repeated calls
      never add a second one. */
  lemma WeeklyFindOrCreate(store: ReportStore, scans: seq<Scan>, user: nat, now: nat, later: nat)
    ensures var once := UpdateOrCreateWeekly(store, scans, user, now);
            WeeklyCount(once, user) == (if WeeklyCount(store, user) == 0 then 1 else WeeklyCount(store, user))
    ensures var once := UpdateOrCreateWeekly(store, scans, user, now);
            WeeklyCount(UpdateOrCreateWeekly(once, scans, user, later), user) == WeeklyCount(once, user)
  {
    var once := UpdateOrCreateWeekly(store, scans, user, now);
    WeeklyCountAfter(store, scans, user, now);
    WeeklyCountAfter(once, scans, user, later);
  }

  lemma WeeklyCountAfter(store: ReportStore, scans: seq<Scan>, user: nat, now: nat)
    ensures var r := UpdateOrCreateWeekly(store, scans, user, now);
            WeeklyCount(r, user) == (if WeeklyCount(store, user) == 0 then 1 else WeeklyCount(store, user))
  {
    var r := UpdateOrCreateWeekly(store, scans, user, now);
    if WeeklyCount(store, user) == 0 {
      CountAppend(store.rows, r.rows[|store.rows|], (x: Report) => IsWeeklyOf(x, user));
    } else {
      ReplaceKeepsWeeklyCount(store, r.rows, user);
    }
  }

  /** The weekly analysis keeps a valid store valid. */
  lemma WeeklyPreservesValid(store: ReportStore, scans: seq<Scan>, user: nat, now: nat)
    requires ValidStore(store)
    ensures ValidStore(UpdateOrCreateWeekly(store, scans, user, now))
  {
    var r := UpdateOrCreateWeekly(store, scans, user, now);
    if WeeklyCount(store, user) > 0 {
      SameIdsValid(store, r);
    } else {
      AppendValid(store, r.rows[|store.rows|]);
    }
  }

  lemma SameIdsValid(store: ReportStore, r: ReportStore)
    requires ValidStore(store) && |r.rows| == |store.rows| && r.nextId == store.nextId
    requires forall j | 0 <= j < |store.rows| :: r.rows[j].id == store.rows[j].id
    ensures ValidStore(r)
  {
  }

  /** Appending a row that takes the next id keeps the store valid. */
  lemma AppendValid(store: ReportStore, x: Report)
    requires ValidStore(store) && x.id == store.nextId
    ensures ValidStore(ReportStore(store.rows + [x], store.nextId + 1))
  {
    var rows := store.rows + [x];
    forall i, j | 0 <= i < j < |rows|
      ensures rows[i].id != rows[j].id
    {
      if j == |store.rows| {
        assert rows[i] == store.rows[i];
      } else {
        assert rows[i] == store.rows[i] && rows[j] == store.rows[j];
      }
    }
  }

  /** `getReportsForUser`: refresh the weekly analysis, then list the user's
      reports newest first. */
  function ReportsForUser(store: ReportStore, scans: seq<Scan>, user: nat, now: nat): (r: (ReportStore, seq<Report>))
    ensures r.0 == UpdateOrCreateWeekly(store, scans, user, now)
    ensures forall x | x in r.1 :: x.user == user && x in r.0.rows
    ensures exists i | 0 <= i < |r.1| :: IsWeekly(r.1[i]) && Reflects(r.1[i], TallyFor(scans, user))
  {
    var after := UpdateOrCreateWeekly(store, scans, user, now);
    var list := UserReports(after, user);
    WeeklyReflectsTally(store, scans, user, now);
    var i :| 0 <= i < |after.rows| && IsWeeklyOf(after.rows[i], user) && Reflects(after.rows[i], TallyFor(scans, user))
                                   && after.rows[i].generatedAt == now;
    assert after.rows[i] in list;
    (after, list)
  }

  /** `generateReport`: a new row titled "<type> - <date>" with status
      "Generated"; `date` is the ISO date of `now`. */
  function GenerateReport(store: ReportStore, scans: seq<Scan>, user: nat, kind: string, date: string, now: nat): (r: (ReportStore, Report))
    ensures r.0.rows == store.rows + [r.1] && r.0.nextId == store.nextId + 1
    ensures r.1.id == store.nextId && r.1.user == user && r.1.kind == kind
    ensures r.1.title == kind + " - " + date && r.1.status == "Generated"
    ensures Reflects(r.1, TallyFor(scans, user))
    ensures r.1.summary == GeneratedSummary(kind, TallyFor(scans, user))
  {
    var t := TallyFor(scans, user);
    var report := Report(store.nextId, user, kind + " - " + date, kind, "Generated", GeneratedSummary(kind, t),
                         t.diseased, t.healthy, t.critical, t.recommendations, now, now, now);
    (ReportStore(store.rows + [report], store.nextId + 1), report)
  }

  /** Generating a report keeps a valid store valid. */
  lemma GeneratePreservesValid(store: ReportStore, scans: seq<Scan>, user: nat, kind: string, date: string, now: nat)
    requires ValidStore(store)
    ensures ValidStore(GenerateReport(store, scans, user, kind, date, now).0)
  {
    AppendValid(store, GenerateReport(store, scans, user, kind, date, now).1);
  }

  /** A generated report is never mistaken for the weekly analysis, so it
      does not change the weekly count. */
  lemma GeneratedIsNotWeekly(store: ReportStore, scans: seq<Scan>, user: nat, kind: string, date: string, now: nat)
    ensures WeeklyCount(GenerateReport(store, scans, user, kind, date, now).0, user) == WeeklyCount(store, user)
  {
    var (after, report) := GenerateReport(store, scans, user, kind, date, now);
    GeneratedTitleIsNotWeekly(kind, date);
    CountAppend(store.rows, report, (x: Report) => IsWeeklyOf(x, user));
  }

  /** "Weekly Report - <date>" differs from "Weekly Disease Analysis" at
      its eighth character. */
  lemma GeneratedTitleIsNotWeekly(kind: string, date: string)
    ensures !(kind == WEEKLY_TYPE && kind + " - " + date == WEEKLY_TITLE)
  {
    if kind == WEEKLY_TYPE {
      var title := kind + " - " + date;
      assert title[7] == kind[7] == 'R';
      assert WEEKLY_TITLE[7] == 'D';
    }
  }

  /** `findById(id).filter(owned by user)`. */
  function ReportById(store: ReportStore, id: int, user: nat): (r: Option<Report>)
    ensures r.Some? ==> r.value in store.rows && r.value.id == id && r.value.user == user
    ensures ValidStore(store) ==> (r.None? <==> forall i | 0 <= i < |store.rows| :: !(store.rows[i].id == id && store.rows[i].user == user))
  {
    match First(store.rows, (x: Report) => x.id == id)
    case None => None
    case Some(k) => if store.rows[k].user == user then Some(store.rows[k]) else None
  }

  /** `deleteReport`: removes the row only when it belongs to the caller. */
  function DeleteReport(store: ReportStore, id: int, user: nat): (r: (ReportStore, bool))
    ensures r.1 <==> ReportById(store, id, user).Some?
    ensures !r.1 ==> r.0 == store
    ensures r.1 ==> r.0.rows == Filter(store.rows, (x: Report) => x.id != id) && r.0.nextId == store.nextId
  {
    if ReportById(store, id, user).Some? then
      (ReportStore(Filter(store.rows, (x: Report) => x.id != id), store.nextId), true)
    else (store, false)
  }

  /** Deleting keeps the store valid, and the report is gone afterwards. */
  lemma DeleteRemoves(store: ReportStore, id: int, user: nat)
    requires ValidStore(store)
    ensures ValidStore(DeleteReport(store, id, user).0)
    ensures ReportById(DeleteReport(store, id, user).0, id, user).None?
    ensures forall i | 0 <= i < |store.rows| && store.rows[i].user != user :: store.rows[i] in DeleteReport(store, id, user).0.rows
  {
    var (after, deleted) := DeleteReport(store, id, user);
    if deleted {
      var owner := ReportById(store, id, user).value;
      forall i | 0 <= i < |store.rows| && store.rows[i].user != user
        ensures store.rows[i] in after.rows
      {
        assert store.rows[i] != owner;
      }
      var rows := after.rows;
      assert forall x | x in rows :: x in store.rows && x.id != id;
      forall i, j | 0 <= i < j < |rows|
        ensures rows[i].id != rows[j].id
      {
        FilterKeepsDistinct(store, id, i, j);
      }
    }
  }

  lemma FilterKeepsDistinct(store: ReportStore, id: int, i: nat, j: nat)
    requires ValidStore(store)
    requires i < j < |Filter(store.rows, (x: Report) => x.id != id)|
    ensures Filter(store.rows, (x: Report) => x.id != id)[i].id != Filter(store.rows, (x: Report) => x.id != id)[j].id
  {
    var rows := Filter(store.rows, (x: Report) => x.id != id);
    FilterIsSubsequence(store.rows, (x: Report) => x.id != id);
    SubsequenceDistinct(rows, store.rows, i, j);
  }

  /** Distinct ids stay distinct in a subsequence. */
  lemma {:induction false} SubsequenceDistinct(a: seq<Report>, b: seq<Report>, i: nat, j: nat)
    requires IsSubsequence(a, b)
    requires forall x, y | 0 <= x < y < |b| :: b[x].id != b[y].id
    requires i < j < |a|
    ensures a[i].id != a[j].id
    decreases |b|
  {
    assert b != [];
    if a[0] == b[0] && IsSubsequence(a[1..], b[1..]) {
      if i == 0 {
        assert a[j] == a[1..][j - 1];
        SubsequenceMember(a[1..], b[1..], j - 1);
      } else {
        SubsequenceDistinct(a[1..], b[1..], i - 1, j - 1);
      }
    } else {
      SubsequenceDistinct(a, b[1..], i, j);
    }
  }

  lemma {:induction false} SubsequenceMember<T>(a: seq<T>, b: seq<T>, k: nat)
    requires IsSubsequence(a, b) && k < |a|
    ensures exists m | 0 <= m < |b| :: b[m] == a[k]
    decreases |b|
  {
    if a[0] == b[0] && IsSubsequence(a[1..], b[1..]) {
      if k > 0 {
        SubsequenceMember(a[1..], b[1..], k - 1);
        var m :| 0 <= m < |b[1..]| && b[1..][m] == a[1..][k - 1];
        assert b[m + 1] == a[k];
      } else {
        assert b[0] == a[0];
      }
    } else {
      SubsequenceMember(a, b[1..], k);
      var m :| 0 <= m < |b[1..]| && b[1..][m] == a[k];
      assert b[m + 1] == a[k];
    }
  }

  // ---------------------------------------------------------------------
  // Analytics
  // ---------------------------------------------------------------------

  datatype Analytics = Analytics(
    totalScans: nat,
    diseasesDetected: nat,
    healthyPlants: nat,
    criticalIssues: nat,
    treatmentSuccess: nat,
    mostCommonDisease: string,
    riskLevel: Risk,
    diseaseDistribution: map<string, nat>)

  /** `getAnalyticsForUser`. The disease distribution covers the last 30
      days of every user's scans, not only the caller's. */
  function AnalyticsFor(scans: seq<Scan>, user: nat, now: nat): (r: Analytics)
    ensures r.totalScans == CountByUser(scans, user)
    ensures r.diseasesDetected == CountDiseasedByUser(scans, user) && r.healthyPlants == CountHealthyByUser(scans, user)
    ensures r.diseasesDetected + r.healthyPlants == r.totalScans
    ensures r.criticalIssues == TallyFor(scans, user).critical
    ensures r.treatmentSuccess == TreatmentSuccess(CountByUserAndStatus(scans, user, "Treated"), r.totalScans)
    ensures r.treatmentSuccess <= 100
    ensures MostCommonDisease(scans, user).Some? ==> r.mostCommonDisease == MostCommonDisease(scans, user).value
    ensures r.mostCommonDisease == "None" <==> MostCommonDisease(scans, user) == None || MostCommonDisease(scans, user) == Some("None")
    ensures r.mostCommonDisease != HEALTHY
    ensures r.riskLevel == RiskLevel(r.totalScans, r.diseasesDetected)
    ensures r.diseaseDistribution == DiseaseDistribution(scans, now - 30 * DAY, now)
  {
    var t := TallyFor(scans, user);
    var treated := CountByUserAndStatus(scans, user, "Treated");
    var common := MostCommonDisease(scans, user);
    Analytics(t.total, t.diseased, t.healthy, t.critical, TreatmentSuccess(treated, t.total),
              if common.Some? then common.value else "None",
              RiskLevel(t.total, t.diseased), DiseaseDistribution(scans, now - 30 * DAY, now))
  }

  /** `getAnalyticsByTimeRange`: the range name is read but not applied, so
      every range gives the unfiltered analytics. */
  function AnalyticsByTimeRange(scans: seq<Scan>, user: nat, timeRange: string, now: nat): (r: Analytics)
    ensures r == AnalyticsFor(scans, user, now)
    ensures r.totalScans == CountByUser(scans, user) && r.diseasesDetected == CountDiseasedByUser(scans, user)
  {
    AnalyticsFor(scans, user, now)
  }

  /** The analytics count the same scans the scan history lists. */
  lemma AnalyticsAgreesWithHistory(scans: seq<Scan>, user: nat, now: nat)
    ensures AnalyticsFor(scans, user, now).totalScans == |UserScans(scans, user)|
  {
    UserCountIsListLength(scans, user);
  }

  lemma TimeRangeIgnored(scans: seq<Scan>, user: nat, a: string, b: string, now: nat)
    ensures AnalyticsByTimeRange(scans, user, a, now) == AnalyticsByTimeRange(scans, user, b, now)
  {
  }

  // ---------------------------------------------------------------------
  // Preventive measures
  // ---------------------------------------------------------------------

  /** An outbreak prediction as far as the measures use it. */
  datatype Prediction = Prediction(disease: string, probability: real)

  const URGENT_MEASURES: seq<string> := [
    "Implement immediate disease surveillance in high-risk areas",
    "Prepare emergency response teams for rapid deployment",
    "Issue urgent alerts to farmers in predicted outbreak zones"]

  const MONITORING_MEASURES: seq<string> := [
    "Increase field monitoring frequency",
    "Apply protective fungicides in vulnerable areas",
    "Coordinate with agricultural extension services"]

  const GENERAL_MEASURES: seq<string> := [
    "Update farmer education materials on early detection",
    "Ensure adequate supply of treatment materials",
    "Establish communication channels for rapid information sharing"]

  predicate Notable(p: Prediction) {
    p.probability > 0.5
  }

  /** One line for each prediction above 0.5, sharper above 0.7. */
  function DiseaseMeasures(predictions: seq<Prediction>): (r: seq<string>)
    ensures |r| == Count(predictions, Notable)
  {
    if predictions == [] then []
    else
      var p := predictions[0];
      var line := if p.probability > 0.7 then ["High priority: Implement " + p.disease + " specific prevention protocols"]
                  else if p.probability > 0.5 then ["Monitor " + p.disease + " susceptible crops closely"]
                  else [];
      line + DiseaseMeasures(predictions[1..])
  }

  /** `generatePreventiveMeasures`: urgent lines for "High", monitoring
      lines for "High" and "Medium", then the disease lines, and always the
      three general lines last. */
  function PreventiveMeasures(predictions: seq<Prediction>, riskLevel: string): (r: seq<string>)
    ensures |r| == (if riskLevel == "High" then 6 else if riskLevel == "Medium" then 3 else 0) + Count(predictions, Notable) + 3
    ensures r[|r| - 3..] == GENERAL_MEASURES
    ensures riskLevel == "High" ==> r[..6] == URGENT_MEASURES + MONITORING_MEASURES
    ensures riskLevel == "Medium" ==> r[..3] == MONITORING_MEASURES
  {
    var head := if riskLevel == "High" then URGENT_MEASURES + MONITORING_MEASURES
                else if riskLevel == "Medium" then MONITORING_MEASURES
                else [];
    var r := head + DiseaseMeasures(predictions) + GENERAL_MEASURES;
    assert r[|r| - 3..] == GENERAL_MEASURES;
    assert r[..|head|] == head;
    r
  }

  /** With no notable prediction, a low risk yields exactly the general
      lines. */
  lemma LowRiskMeasures(predictions: seq<Prediction>)
    requires forall i | 0 <= i < |predictions| :: !Notable(predictions[i])
    ensures PreventiveMeasures(predictions, "Low") == GENERAL_MEASURES
  {
    CountNoneOf(predictions, Notable);
    var r := PreventiveMeasures(predictions, "Low");
    assert |r| == 3;
  }
}

=== FILE: requests.dfy ===
/** The request bodies of the REST endpoints and their Bean Validation
    constraints (`@NotBlank`, `@NotNull`, `@Size`, `@Pattern`). `None` is a
    JSON null or a missing field. `@Size` and `@Pattern` accept null;
    `@Pattern` must match the whole string. */
module Requests {
  import opened Wrappers
  import opened Text

  /** `@NotBlank`: present and not only white space. */
  predicate NotBlank(s: Option<string>) {
    HasText(s)
  }

  /** `@Size(min, max)`: null, or a length in [min, max], counted as Java
      counts it, in UTF-16 code units. */
  predicate SizeOk(s: Option<string>, min: nat, max: nat) {
    s.None? || min <= Utf16Length(s.value) <= max
  }

  /** A string of digits and '+' has one code unit per character. */
  lemma CharsetLength(s: string)
    ensures MobileCharset(s) || AllDigits(s) ==> Utf16Length(s) == |s|
  {
    if MobileCharset(s) || AllDigits(s) {
      assert forall i | 0 <= i < |s| :: IsBmp(s[i]);
    }
  }

  /** Java's regex class `\s`: space, tab, line feed, vertical tab, form
      feed and carriage return. */
  predicate IsRegexSpace(c: char) {
    c == ' ' || 9 <= c as int <= 13
  }

  /** The pattern `^[0-9+]+` matched against the whole value. */
  predicate MobileCharset(s: string) {
    |s| >= 1 && forall i | 0 <= i < |s| :: IsDigit(s[i]) || s[i] == '+'
  }

  /** The pattern `^[6-9]\d{9}$`: ten digits, the first one 6 to 9. */
  predicate IndianMobile(s: string) {
    |s| == 10 && '6' <= s[0] <= '9' && AllDigits(s)
  }

  /** A string in one of the digit patterns is not blank. */
  lemma NotBlankDigits(s: string)
    ensures |s| > 0 && IsDigit(s[0]) ==> !IsBlank(s)
  {
    if |s| > 0 && IsDigit(s[0]) {
      assert !IsSpace(s[0]);
    }
  }

  /** The pattern `\d{6}`. */
  predicate SixDigits(s: string) {
    |s| == 6 && AllDigits(s)
  }

  /** The pattern `^$|^\S+@\S+\.\S+$`: empty, or free of white space with an
      '@' after a non-empty part and a '.' after a non-empty part that is
      itself followed by at least one character. */
  predicate EmailShape(s: string) {
    s == [] ||
    ((forall k | 0 <= k < |s| :: !IsRegexSpace(s[k])) &&
     exists i, j | 1 <= i && i + 2 <= j && j + 2 <= |s| :: s[i] == '@' && s[j] == '.')
  }

  predicate PatternOk(s: Option<string>, p: string -> bool) {
    s.None? || p(s.value)
  }

  datatype SignupRequest = SignupRequest(
    username: Option<string>,
    mobile: Option<string>,
    password: Option<string>,
    fullName: Option<string>,
    role: Option<string>,
    specialization: Option<string>,
    email: Option<string>,
    verificationDocument: Option<string>)

  /** A valid sign-up body carries a mobile of 10 to 15 digits and '+' and
      a non-blank password of 6 to 40 code units, so at least 3 and at most
      40 characters; the optional texts stay within their bounds. */
  function ValidSignup(r: SignupRequest): (ok: bool)
    ensures ok ==> r.mobile.Some? && 10 <= |r.mobile.value| <= 15 && MobileCharset(r.mobile.value)
    ensures ok ==> r.password.Some? && !IsBlank(r.password.value) && 6 <= Utf16Length(r.password.value) <= 40
    ensures ok ==> 3 <= |r.password.value| <= 40
    ensures ok ==> (r.username.None? || Utf16Length(r.username.value) <= 50) && (r.email.None? || Utf16Length(r.email.value) <= 100)
    ensures ok ==> (r.username.None? || |r.username.value| <= 50) && (r.email.None? || |r.email.value| <= 100)
  {
    CharsetLength(r.mobile.GetOr(""));
    SizeOk(r.username, 0, 50)
    && NotBlank(r.mobile) && SizeOk(r.mobile, 10, 15) && PatternOk(r.mobile, MobileCharset)
    && NotBlank(r.password) && SizeOk(r.password, 6, 40)
    && SizeOk(r.fullName, 0, 100)
    && SizeOk(r.specialization, 0, 200)
    && SizeOk(r.email, 0, 100) && PatternOk(r.email, EmailShape)
  }

  datatype LoginRequest = LoginRequest(mobile: Option<string>, password: Option<string>)

  /** A sign-in body is valid exactly when its mobile is 10 to 15 digits
      and '+' and its password is non-blank. */
  function ValidLogin(r: LoginRequest): (ok: bool)
    ensures ok <==> r.mobile.Some? && 10 <= |r.mobile.value| <= 15 && MobileCharset(r.mobile.value) && HasText(r.password)
  {
    CharsetLength(r.mobile.GetOr(""));
    NotBlank(r.mobile) && SizeOk(r.mobile, 10, 15) && PatternOk(r.mobile, MobileCharset)
    && NotBlank(r.password)
  }

  datatype OtpRequest = OtpRequest(mobile: Option<string>)

  /** An OTP request is valid exactly when its mobile is an Indian mobile
      number; `@NotBlank` adds nothing to the pattern. */
  function ValidOtpRequest(r: OtpRequest): (ok: bool)
    ensures ok <==> r.mobile.Some? && IndianMobile(r.mobile.value)
  {
    NotBlankDigits(r.mobile.GetOr(""));
    NotBlank(r.mobile) && PatternOk(r.mobile, IndianMobile)
  }

  datatype OtpVerifyRequest = OtpVerifyRequest(mobile: Option<string>, otp: Option<string>)

  /** An OTP form is valid exactly when its mobile is an Indian mobile
      number and its code six digits; `@Size(6, 6)` adds nothing. */
  function ValidOtpVerify(r: OtpVerifyRequest): (ok: bool)
    ensures ok <==> r.mobile.Some? && IndianMobile(r.mobile.value) && r.otp.Some? && SixDigits(r.otp.value)
  {
    NotBlankDigits(r.mobile.GetOr(""));
    NotBlankDigits(r.otp.GetOr(""));
    CharsetLength(r.otp.GetOr(""));
    NotBlank(r.mobile) && PatternOk(r.mobile, IndianMobile)
    && NotBlank(r.otp) && SizeOk(r.otp, 6, 6) && PatternOk(r.otp, SixDigits)
  }

  datatype CreateQueryRequest = CreateQueryRequest(
    title: Option<string>,
    description: Option<string>,
    cropType: Option<string>,
    category: Option<string>,
    urgency: Option<string>,
    hasImage: Option<bool>,
    imagePath: Option<string>)

  /** A body that leaves out `hasImage` and `imagePath` binds them to their
      initial values: false and null. */
  function CreateQueryWithDefaults(title: Option<string>, description: Option<string>, cropType: Option<string>, category: Option<string>, urgency: Option<string>): (r: CreateQueryRequest)
    ensures r.hasImage == Some(false) && r.imagePath.None?
    ensures r.title == title && r.description == description && r.urgency == urgency
  {
    CreateQueryRequest(title, description, cropType, category, urgency, Some(false), None)
  }

  /** A valid query body has a title of 5 to 100 code units and a
      description of 20 to 1000, so at least 3 and 10 characters, and
      non-blank crop type, category and urgency. */
  function ValidCreateQuery(r: CreateQueryRequest): (ok: bool)
    ensures ok <==> HasText(r.title) && 5 <= Utf16Length(r.title.value) <= 100
                    && HasText(r.description) && 20 <= Utf16Length(r.description.value) <= 1000
                    && HasText(r.cropType) && HasText(r.category) && HasText(r.urgency)
    ensures ok ==> HasText(r.title) && 3 <= |r.title.value| <= 100
    ensures ok ==> HasText(r.description) && 10 <= |r.description.value| <= 1000
    ensures ok ==> HasText(r.cropType) && HasText(r.category) && HasText(r.urgency)
  {
    NotBlank(r.title) && SizeOk(r.title, 5, 100)
    && NotBlank(r.description) && SizeOk(r.description, 20, 1000)
    && NotBlank(r.cropType) && NotBlank(r.category) && NotBlank(r.urgency)
  }

  datatype AddResponseRequest = AddResponseRequest(response: Option<string>)

  /** A valid response is non-blank text of 10 to 2000 code units, so 5 to
      2000 characters. */
  function ValidAddResponse(r: AddResponseRequest): (ok: bool)
    ensures ok <==> HasText(r.response) && 10 <= Utf16Length(r.response.value) <= 2000
    ensures ok ==> HasText(r.response) && 5 <= |r.response.value| <= 2000
  {
    NotBlank(r.response) && SizeOk(r.response, 10, 2000)
  }

  datatype RespondToQueryRequest = RespondToQueryRequest(queryId: Option<int>, response: Option<string>, status: Option<string>)

  /** A body without `status` binds it to "answered". */
  function RespondWithDefaultStatus(queryId: Option<int>, response: Option<string>): (r: RespondToQueryRequest)
    ensures r.status == Some("answered")
    ensures r.queryId == queryId && r.response == response
  {
    RespondToQueryRequest(queryId, response, Some("answered"))
  }

  /** A respond body is valid exactly when it names a query and its
      response would be a valid added response; the status is free. */
  function ValidRespondToQuery(r: RespondToQueryRequest): (ok: bool)
    ensures ok <==> r.queryId.Some? && ValidAddResponse(AddResponseRequest(r.response))
  {
    r.queryId.Some? && NotBlank(r.response) && SizeOk(r.response, 10, 2000)
  }

  /** A valid sign-in mobile is 10 to 15 characters of digits and '+'; a
      generated username such as "user_9876543210" never validates, so the
      sign-in form cannot be used with one. */
  lemma LoginMobileShape(r: LoginRequest)
    ensures ValidLogin(r) ==> 10 <= |r.mobile.value| <= 15 && MobileCharset(r.mobile.value)
    ensures forall m: string :: !ValidLogin(LoginRequest(Some("user_" + m), r.password))
  {
    forall m: string
      ensures !ValidLogin(LoginRequest(Some("user_" + m), r.password))
    {
      var s := "user_" + m;
      assert s[0] == 'u';
    }
  }

  /** The sign-in password has no length bound: any non-blank text passes,
      however long. */
  lemma LoginPasswordUnbounded(mobile: string, password: string)
    requires NotBlank(Some(mobile)) && 10 <= |mobile| <= 15 && MobileCharset(mobile)
    ensures ValidLogin(LoginRequest(Some(mobile), Some(password))) <==> !IsBlank(password)
  {
  }

  /** A valid one-time-password mobile is ten digits starting 6 to 9, so a
      leading '+' or a country code is refused; every such number is also
      a valid sign-up and sign-in mobile. */
  lemma OtpMobileShape(m: string)
    ensures ValidOtpRequest(OtpRequest(Some(m))) <==> IndianMobile(m)
    ensures |m| > 0 && m[0] == '+' ==> !ValidOtpRequest(OtpRequest(Some(m)))
    ensures |m| != 10 ==> !ValidOtpRequest(OtpRequest(Some(m)))
    ensures IndianMobile(m) ==> MobileCharset(m) && 10 <= |m| <= 15
  {
    if IndianMobile(m) {
      assert !IsSpace(m[0]);
    }
  }

  /** An OTP form passes exactly when the code is six ASCII digits. */
  lemma OtpCodeShape(mobile: string, code: string)
    requires IndianMobile(mobile)
    ensures ValidOtpVerify(OtpVerifyRequest(Some(mobile), Some(code))) <==> SixDigits(code)
  {
    assert !IsSpace(mobile[0]);
    if SixDigits(code) {
      assert !IsSpace(code[0]);
    }
  }

  /** `@Size` counts the untrimmed text, so a single character padded with
      nine spaces satisfies the ten-character minimum of a response. */
  lemma PaddedResponseAccepted(c: char)
    requires !IsSpace(c)
    ensures ValidAddResponse(AddResponseRequest(Some([c] + "         ")))
    ensures ValidRespondToQuery(RespondWithDefaultStatus(Some(1), Some([c] + "         ")))
    ensures !ValidAddResponse(AddResponseRequest(Some("          ")))
  {
    var s := [c] + "         ";
    assert s[0] == c;
    var blank := "          ";
    assert forall i | 0 <= i < |blank| :: blank[i] == ' ';
  }

  /** A response is accepted exactly when it is non-blank and 10 to 2000
      characters long; both response-carrying bodies agree on this. */
  lemma ResponseBodiesAgree(q: int, text: Option<string>, status: Option<string>)
    ensures ValidAddResponse(AddResponseRequest(text))
        <==> text.Some? && !IsBlank(text.value) && 10 <= Utf16Length(text.value) <= 2000
    ensures ValidAddResponse(AddResponseRequest(text)) <==> ValidRespondToQuery(RespondToQueryRequest(Some(q), text, status))
    ensures !ValidRespondToQuery(RespondToQueryRequest(None, text, status))
  {
  }

  /** Urgency has no allow-list: any non-blank text validates. */
  lemma AnyUrgencyValidates(r: CreateQueryRequest, urgency: string)
    requires ValidCreateQuery(r) && !IsBlank(urgency)
    ensures ValidCreateQuery(r.(urgency := Some(urgency)))
  {
  }

  /** The e-mail pattern accepts the empty string and a plain address and
      refuses addresses without a dot after the '@' part. */
  lemma EmailShapeExamples()
    ensures EmailShape("")
    ensures EmailShape("a@b.c")
    ensures !EmailShape("a@b")
    ensures !EmailShape("@b.c")
    ensures !EmailShape("a b@c.d")
  {
    var s := "a@b.c";
    assert s[1] == '@' && s[3] == '.';
    var t := "a b@c.d";
    assert IsRegexSpace(t[1]);
  }

  /** Characters outside the Basic Multilingual Plane count twice, so five
      such characters already meet the ten-unit minimum of a response. */
  lemma SupplementaryCountsTwice(c: char)
    requires !IsBmp(c)
    ensures Utf16Length([c, c, c, c, c]) == 10
    ensures ValidAddResponse(AddResponseRequest(Some([c, c, c, c, c])))
  {
    var s := [c, c, c, c, c];
    assert Utf16Length([c]) == 2 by { assert [c][1..] == []; }
    assert Utf16Length([c, c]) == 4 by { assert [c, c][1..] == [c]; }
    assert Utf16Length([c, c, c]) == 6 by { assert [c, c, c][1..] == [c, c]; }
    assert Utf16Length([c, c, c, c]) == 8 by { assert [c, c, c, c][1..] == [c, c, c]; }
    assert s[1..] == [c, c, c, c];
    assert !IsSpace(s[0]);
  }

  /** Every sign-up body with an e-mail of 100 characters or fewer in the
      pattern's shape passes the e-mail constraints, and a null e-mail
      always does. */
  lemma SignupEmailOptional(r: SignupRequest)
    requires ValidSignup(r)
    ensures ValidSignup(r.(email := None))
    ensures ValidSignup(r.(email := Some("")))
    ensures ValidSignup(r.(verificationDocument := None)) && ValidSignup(r.(role := None))
  {
  }
}

=== FILE: scans.dfy ===
/** Plant-disease scans: the `Scan` entity (Scan.java), the queries of
    ScanRepository.java, the endpoints of ScanController.java and the
    response view of ScanResponseDTO.java. Scan ids are positions in the
    table (scans are never deleted). */
module Scans {
  import opened Wrappers
  import opened Text
  import opened Lists
  import opened Users

  /** `confidence` is a `Double` in the source; it is only copied here, so a
      `real` stands for it. `severity`, `status` and the list fields are
      nullable columns; `plantType`, `disease` and `confidence` are not. */
  datatype Scan = Scan(
    id: nat,
    user: nat,
    plantType: string,
    disease: string,
    confidence: real,
    severity: Option<string>,
    status: Option<string>,
    imagePath: Option<string>,
    recommendations: Option<string>,
    symptoms: Option<string>,
    expertNotes: Option<string>,
    expertRating: Option<int>,
    createdAt: nat,
    updatedAt: nat)

  const HEALTHY: string := "Healthy"
  const SEPARATOR: char := '|'

  /** Ids are table positions. */
  predicate IdsAreIndexes(scans: seq<Scan>) {
    forall i | 0 <= i < |scans| :: scans[i].id == i
  }

  // ---------------------------------------------------------------------
  // Repository predicates and counts (ScanRepository.java)
  // ---------------------------------------------------------------------

  /** `s.disease = 'Healthy'`, compared exactly. The database decides the
      comparison through the column's collation; the model assumes a
      case-sensitive (binary) one. */
  predicate IsHealthy(s: Scan) {
    s.disease == HEALTHY
  }

  /** `s.disease != 'Healthy'` (the column is never null). */
  predicate IsDiseased(s: Scan) {
    s.disease != HEALTHY
  }

  predicate OwnedBy(s: Scan, user: nat) {
    s.user == user
  }

  /** `countByUser`: the number of the user's rows. */
  function CountByUser(scans: seq<Scan>, user: nat): (n: nat)
    ensures n == |set i: nat | i < |scans| && OwnedBy(scans[i], user)|
  {
    var p := (s: Scan) => OwnedBy(s, user);
    CountIsCardinality(scans, p);
    assert Positions(scans, p) == set i: nat | i < |scans| && OwnedBy(scans[i], user);
    Count(scans, p)
  }

  /** `countDiseasesDetectedByUser`: the user's rows not labelled
      'Healthy'. */
  function CountDiseasedByUser(scans: seq<Scan>, user: nat): (n: nat)
    ensures n == |set i: nat | i < |scans| && OwnedBy(scans[i], user) && IsDiseased(scans[i])|
  {
    var p := (s: Scan) => OwnedBy(s, user) && IsDiseased(s);
    CountIsCardinality(scans, p);
    assert Positions(scans, p) == set i: nat | i < |scans| && OwnedBy(scans[i], user) && IsDiseased(scans[i]);
    Count(scans, p)
  }

  /** `countHealthyScansByUser`: the user's rows labelled 'Healthy'. */
  function CountHealthyByUser(scans: seq<Scan>, user: nat): (n: nat)
    ensures n == |set i: nat | i < |scans| && OwnedBy(scans[i], user) && IsHealthy(scans[i])|
  {
    var p := (s: Scan) => OwnedBy(s, user) && IsHealthy(s);
    CountIsCardinality(scans, p);
    assert Positions(scans, p) == set i: nat | i < |scans| && OwnedBy(scans[i], user) && IsHealthy(scans[i]);
    Count(scans, p)
  }

  /** `countByUserAndStatus`: the user's rows with that status; a scan
      without a status never matches. */
  function CountByUserAndStatus(scans: seq<Scan>, user: nat, status: string): (n: nat)
    ensures n == |set i: nat | i < |scans| && OwnedBy(scans[i], user) && scans[i].status == Some(status)|
    ensures n <= CountByUser(scans, user)
  {
    var p := (s: Scan) => OwnedBy(s, user) && s.status == Some(status);
    CountSubset(scans, p, (s: Scan) => OwnedBy(s, user));
    CountIsCardinality(scans, p);
    assert Positions(scans, p) == set i: nat | i < |scans| && OwnedBy(scans[i], user) && scans[i].status == Some(status);
    Count(scans, p)
  }

  /** Every scan of a user is either diseased or healthy, never both, so the
      two counts add up to the user's total. */
  lemma DiseasedPlusHealthy(scans: seq<Scan>, user: nat)
    ensures CountDiseasedByUser(scans, user) + CountHealthyByUser(scans, user) == CountByUser(scans, user)
  {
    CountPartition(scans, (s: Scan) => OwnedBy(s, user),
                   (s: Scan) => OwnedBy(s, user) && IsDiseased(s),
                   (s: Scan) => OwnedBy(s, user) && IsHealthy(s));
  }

  /** Under the case-sensitive collation the model assumes, a scan
      recorded as "healthy" (lower case) counts as a disease. */
  lemma LowerCaseHealthyIsDiseased(s: Scan)
    requires s.disease == "healthy"
    ensures IsDiseased(s) && !IsHealthy(s)
  {
    assert s.disease[0] != HEALTHY[0];
  }

  /** `OrderByCreatedAtDesc`. */
  function NewestFirst(s: Scan): Key {
    Key(0 - s.createdAt as int, 0)
  }

  /** `findByUserOrderByCreatedAtDesc`: every scan of the user, as often as
      it is stored and no other, newest first. */
  function UserScans(scans: seq<Scan>, user: nat): (r: seq<Scan>)
    ensures Sorted(r, NewestFirst)
    ensures SelectsExactly(r, scans, (s: Scan) => OwnedBy(s, user))
    ensures forall x | x in r :: x in scans && OwnedBy(x, user)
    ensures forall i | 0 <= i < |scans| && OwnedBy(scans[i], user) :: scans[i] in r
  {
    var own := Filter(scans, (s: Scan) => OwnedBy(s, user));
    SortSameElements(own, NewestFirst);
    FilterSelects(scans, (s: Scan) => OwnedBy(s, user));
    Sort(own, NewestFirst)
  }

  /** The count query and the list query agree. */
  lemma UserCountIsListLength(scans: seq<Scan>, user: nat)
    ensures CountByUser(scans, user) == |UserScans(scans, user)|
  {
    var p := (s: Scan) => OwnedBy(s, user);
    CountIsFilterLength(scans, p);
  }

  /** `findTop10ByUserOrderByCreatedAtDesc`: the first ten of the user's
      newest-first list. */
  function RecentByUser(scans: seq<Scan>, user: nat): (r: seq<Scan>)
    ensures |r| <= 10 && |r| <= |UserScans(scans, user)|
    ensures r == UserScans(scans, user)[..|r|]
    ensures |r| == 10 || r == UserScans(scans, user)
    ensures Sorted(r, NewestFirst)
    ensures forall x | x in r :: x in scans && OwnedBy(x, user)
  {
    var all := UserScans(scans, user);
    TakeSorted(all, 10, NewestFirst);
    var r := Take(all, 10);
    assert forall x | x in r :: x in all;
    r
  }

  /** `findTop50ByOrderByCreatedAtDesc`: the fifty newest scans of everyone. */
  function RecentOverall(scans: seq<Scan>): (r: seq<Scan>)
    ensures |r| <= 50 && |r| <= |scans|
    ensures r == Sort(scans, NewestFirst)[..|r|]
    ensures |r| == 50 || |r| == |scans|
    ensures Sorted(r, NewestFirst)
  {
    TakeSorted(Sort(scans, NewestFirst), 50, NewestFirst);
    Take(Sort(scans, NewestFirst), 50)
  }

  /** SQL `BETWEEN`: both ends included. */
  predicate CreatedBetween(s: Scan, start: int, end: int) {
    start <= s.createdAt <= end
  }

  /** `findByUserAndCreatedAtBetweenOrderByCreatedAtDesc`: every scan of
      the user taken within the range, as often as it is stored and no
      other, newest first. */
  function UserScansBetween(scans: seq<Scan>, user: nat, start: int, end: int): (r: seq<Scan>)
    ensures Sorted(r, NewestFirst)
    ensures SelectsExactly(r, scans, (s: Scan) => OwnedBy(s, user) && CreatedBetween(s, start, end))
    ensures forall x | x in r :: x in scans && OwnedBy(x, user) && CreatedBetween(x, start, end)
    ensures forall i | 0 <= i < |scans| && OwnedBy(scans[i], user) && CreatedBetween(scans[i], start, end) :: scans[i] in r
  {
    var hits := Filter(scans, (s: Scan) => OwnedBy(s, user) && CreatedBetween(s, start, end));
    SortSameElements(hits, NewestFirst);
    FilterSelects(scans, (s: Scan) => OwnedBy(s, user) && CreatedBetween(s, start, end));
    Sort(hits, NewestFirst)
  }

  /** `countByCreatedAtBetween` (all users): the rows taken within the
      range. */
  function CountBetween(scans: seq<Scan>, start: int, end: int): (n: nat)
    ensures n == |set i: nat | i < |scans| && CreatedBetween(scans[i], start, end)|
  {
    var p := (s: Scan) => CreatedBetween(s, start, end);
    CountIsCardinality(scans, p);
    assert Positions(scans, p) == set i: nat | i < |scans| && CreatedBetween(scans[i], start, end);
    Count(scans, p)
  }

  /** A scan taken exactly at either end of the range is counted. */
  lemma BetweenIncludesEnds(scans: seq<Scan>, i: nat, start: int, end: int)
    requires i < |scans| && start <= end
    requires scans[i].createdAt == start || scans[i].createdAt == end
    ensures CountBetween(scans, start, end) > 0
  {
    CountPositive(scans, (s: Scan) => CreatedBetween(s, start, end), i);
  }

  /** Number of the user's scans with disease `d`. */
  function UserDiseaseCount(scans: seq<Scan>, user: nat, d: string): nat {
    Count(scans, (s: Scan) => OwnedBy(s, user) && s.disease == d)
  }

  /** A disease among `cands` whose count is maximal (the first on ties). */
  function Mode(cands: seq<Scan>, scans: seq<Scan>, user: nat): (r: string)
    requires cands != []
    ensures exists i | 0 <= i < |cands| :: cands[i].disease == r
    ensures forall i | 0 <= i < |cands| :: UserDiseaseCount(scans, user, cands[i].disease) <= UserDiseaseCount(scans, user, r)
  {
    if |cands| == 1 then cands[0].disease
    else
      var m := Mode(cands[1..], scans, user);
      assert forall i | 1 <= i < |cands| :: cands[i] == cands[1..][i - 1];
      if UserDiseaseCount(scans, user, cands[0].disease) >= UserDiseaseCount(scans, user, m) then cands[0].disease else m
  }

  /** `findMostCommonDiseaseByUser`, first row: a disease other than
      'Healthy' that the user's scans show most often; `None` when the user
      has no diseased scan. The query does not order ties. */
  function MostCommonDisease(scans: seq<Scan>, user: nat): (r: Option<string>)
    ensures r.None? <==> forall i | 0 <= i < |scans| :: !(OwnedBy(scans[i], user) && IsDiseased(scans[i]))
    ensures r.Some? ==> r.value != HEALTHY && UserDiseaseCount(scans, user, r.value) > 0
    ensures r.Some? ==> forall i | 0 <= i < |scans| && OwnedBy(scans[i], user) && IsDiseased(scans[i]) ::
                          UserDiseaseCount(scans, user, scans[i].disease) <= UserDiseaseCount(scans, user, r.value)
  {
    var pool := Filter(scans, (s: Scan) => OwnedBy(s, user) && IsDiseased(s));
    if pool == [] then None
    else
      var d := Mode(pool, scans, user);
      MostCommonWitness(scans, user, pool, d);
      Some(d)
  }

  lemma MostCommonWitness(scans: seq<Scan>, user: nat, pool: seq<Scan>, d: string)
    requires pool == Filter(scans, (s: Scan) => OwnedBy(s, user) && IsDiseased(s)) && pool != []
    requires d == Mode(pool, scans, user)
    ensures d != HEALTHY && UserDiseaseCount(scans, user, d) > 0
    ensures forall i | 0 <= i < |scans| && OwnedBy(scans[i], user) && IsDiseased(scans[i]) ::
              UserDiseaseCount(scans, user, scans[i].disease) <= UserDiseaseCount(scans, user, d)
  {
    var k :| 0 <= k < |pool| && pool[k].disease == d;
    assert pool[k] in pool;
    var j :| 0 <= j < |scans| && scans[j] == pool[k];
    CountPositive(scans, (s: Scan) => OwnedBy(s, user) && s.disease == d, j);
    forall i | 0 <= i < |scans| && OwnedBy(scans[i], user) && IsDiseased(scans[i])
      ensures UserDiseaseCount(scans, user, scans[i].disease) <= UserDiseaseCount(scans, user, d)
    {
      assert scans[i] in pool;
      var m :| 0 <= m < |pool| && pool[m] == scans[i];
    }
  }

  /** `getDiseaseDistributionByDateRange`: for every disease seen in the
      range (over all users), the number of scans in the range. */
  function DiseaseDistribution(scans: seq<Scan>, start: int, end: int): (r: map<string, nat>)
    ensures forall d :: d in r <==> exists i | 0 <= i < |scans| :: CreatedBetween(scans[i], start, end) && scans[i].disease == d
    ensures forall d | d in r :: r[d] == |set i: nat | i < |scans| && CreatedBetween(scans[i], start, end) && scans[i].disease == d|
    ensures forall d | d in r :: r[d] > 0
  {
    var seen := set i | 0 <= i < |scans| && CreatedBetween(scans[i], start, end) :: scans[i].disease;
    var r := map d | d in seen :: Count(scans, (s: Scan) => CreatedBetween(s, start, end) && s.disease == d);
    forall d | d in r
      ensures r[d] > 0
      ensures r[d] == |set i: nat | i < |scans| && CreatedBetween(scans[i], start, end) && scans[i].disease == d|
    {
      var p := (s: Scan) => CreatedBetween(s, start, end) && s.disease == d;
      var i :| 0 <= i < |scans| && CreatedBetween(scans[i], start, end) && scans[i].disease == d;
      CountPositive(scans, p, i);
      CountIsCardinality(scans, p);
      assert Positions(scans, p) == set i: nat | i < |scans| && CreatedBetween(scans[i], start, end) && scans[i].disease == d;
    }
    r
  }

  // ---------------------------------------------------------------------
  // The '|'-separated list encoding
  // ---------------------------------------------------------------------

  /** `String.join(sep, items)`: with separator-free items, the separator
      shows exactly when there are two items or more. */
  function Join(items: seq<string>, sep: char): (r: string)
    ensures |items| == 1 ==> r == items[0]
    ensures (forall i | 0 <= i < |items| :: sep !in items[i]) ==> (sep in r <==> |items| > 1)
  {
    if items == [] then []
    else if |items| == 1 then items[0]
    else
      assert (items[0] + [sep] + Join(items[1..], sep))[|items[0]|] == sep;
      items[0] + [sep] + Join(items[1..], sep)
  }

  /** Every piece between separators, empty pieces included. */
  function SplitOn(s: string, sep: char): (r: seq<string>)
    ensures |r| >= 1
    ensures forall i | 0 <= i < |r| :: sep !in r[i]
  {
    if s == [] then [[]]
    else
      var rest := SplitOn(s[1..], sep);
      if s[0] == sep then [[]] + rest
      else
        assert forall i | 1 <= i < |rest| :: ([[s[0]] + rest[0]] + rest[1..])[i] == rest[i];
        [[s[0]] + rest[0]] + rest[1..]
  }

  /** Removes the empty strings at the end. */
  function DropTrailingEmpty(xs: seq<string>): (r: seq<string>)
    ensures |r| <= |xs| && r == xs[..|r|]
    ensures r == [] || r[|r| - 1] != []
    ensures forall i | |r| <= i < |xs| :: xs[i] == []
  {
    if xs == [] || xs[|xs| - 1] != [] then xs
    else DropTrailingEmpty(xs[..|xs| - 1])
  }

  /** Java's `s.split("\\|")`: without a separator the string itself;
      otherwise the pieces with trailing empty strings removed. */
  function JavaSplit(s: string, sep: char): (r: seq<string>)
    ensures forall i | 0 <= i < |r| :: sep !in r[i]
  {
    if sep !in s then [s] else DropTrailingEmpty(SplitOn(s, sep))
  }

  lemma {:induction false} SplitNoSeparator(a: string, sep: char)
    requires sep !in a
    ensures SplitOn(a, sep) == [a]
  {
    if a != [] {
      SplitNoSeparator(a[1..], sep);
      assert [a[0]] + a[1..] == a;
    }
  }

  lemma {:induction false} SplitAfterPiece(a: string, sep: char, b: string)
    requires sep !in a
    ensures SplitOn(a + [sep] + b, sep) == [a] + SplitOn(b, sep)
  {
    if a == [] {
      assert a + [sep] + b == [sep] + b;
      assert ([sep] + b)[1..] == b;
    } else {
      var t := a + [sep] + b;
      assert t[0] == a[0] && t[1..] == a[1..] + [sep] + b;
      SplitAfterPiece(a[1..], sep, b);
      assert [a[0]] + a[1..] == a;
    }
  }

  /** Splitting a join of separator-free items gives the items back. */
  lemma {:induction false} SplitJoin(items: seq<string>, sep: char)
    requires |items| >= 1
    requires forall i | 0 <= i < |items| :: sep !in items[i]
    ensures SplitOn(Join(items, sep), sep) == items
  {
    if |items| == 1 {
      SplitNoSeparator(items[0], sep);
    } else {
      SplitAfterPiece(items[0], sep, Join(items[1..], sep));
      SplitJoin(items[1..], sep);
      assert [items[0]] + items[1..] == items;
    }
  }

  /** Joining the pieces restores any string. */
  lemma {:induction false} JoinSplit(s: string, sep: char)
    ensures Join(SplitOn(s, sep), sep) == s
  {
    if s != [] {
      var rest := SplitOn(s[1..], sep);
      JoinSplit(s[1..], sep);
      if s[0] == sep {
        assert [[]] + rest == SplitOn(s, sep);
        assert ([[]] + rest)[1..] == rest;
        assert [s[0]] + s[1..] == s;
      } else {
        var r := [[s[0]] + rest[0]] + rest[1..];
        assert r[1..] == rest[1..];
        if |rest| == 1 {
          assert rest == [rest[0]];
        } else {
          assert Join(rest, sep) == rest[0] + [sep] + Join(rest[1..], sep);
        }
        assert [s[0]] + s[1..] == s;
      }
    }
  }

  /** The round trip the stored lists rely on: items free of '|' whose last
      item is non-empty survive `split` of their `join`. */
  lemma JavaSplitJoin(items: seq<string>)
    requires |items| >= 1 && items[|items| - 1] != []
    requires forall i | 0 <= i < |items| :: SEPARATOR !in items[i]
    ensures JavaSplit(Join(items, SEPARATOR), SEPARATOR) == items
  {
    SplitJoin(items, SEPARATOR);
    if SEPARATOR !in Join(items, SEPARATOR) {
      SplitNoSeparator(Join(items, SEPARATOR), SEPARATOR);
    }
  }

  /** A trailing empty item is lost: "a|" splits to ["a"]. */
  lemma TrailingEmptyItemLost()
    ensures JavaSplit(Join(["a", ""], SEPARATOR), SEPARATOR) == ["a"]
  {
    var s := Join(["a", ""], SEPARATOR);
    assert s == ['a', SEPARATOR];
    assert s[1..][1..] == [];
    assert SplitOn(s[1..], SEPARATOR) == [[]] + SplitOn([], SEPARATOR) == [[], []];
    assert SplitOn(s, SEPARATOR) == [[s[0]] + []] + [[]];
    assert [s[0]] + [] == ['a'];
    assert SplitOn(s, SEPARATOR) == [['a'], []];
    assert SEPARATOR in s;
  }

  // ---------------------------------------------------------------------
  // Default and sample content (ScanController.java)
  // ---------------------------------------------------------------------

  /** The three diseases with specific advice, matched by `toLowerCase()`. */
  predicate KnownDisease(disease: string) {
    ToLower(disease) in {"early blight", "late blight", "apple scab"}
  }

  predicate ListItemsOk(items: seq<string>) {
    forall i | 0 <= i < |items| :: items[i] != [] && SEPARATOR !in items[i]
  }

  /* The default lists. Items are spelled as concatenated fragments, which
     leaves their text unchanged and lets the verifier inspect them piece by
     piece. */
  const EARLY_BLIGHT_RECOMMENDATIONS: seq<string> := [
    "Apply " + "copper-based " + "fungicide",
    "Improve air " + "circulation " + "around " + "plants",
    "Remove " + "affected " + "leaves",
    "Monitor for " + "spread to " + "other plants"]
  const LATE_BLIGHT_RECOMMENDATIONS: seq<string> := [
    "Apply " + "preventive " + "fungicide " + "immediately",
    "Remove and " + "destroy  " + "plants",
    "Avoid " + "overhead " + "watering",
    "Ensure good " + "drainage"]
  const APPLE_SCAB_RECOMMENDATIONS: seq<string> := [
    "Apply " + "fungicide " + "during wet " + "periods",
    "Rake and " + "dispose of " + "fallen " + "leaves",
    "Prune for " + "better air " + "circulation",
    "Choose " + "resistant " + "varieties " + "for future " + "planting"]
  const GENERIC_RECOMMENDATIONS: seq<string> := [
    "Monitor " + "plant " + "health " + "regularly",
    "Maintain " + "proper " + "watering " + "schedule",
    "Ensure " + "adequate " + "nutrition",
    "Consult " + "agricultural " + "expert if " + "needed"]
  const EARLY_BLIGHT_SYMPTOMS: seq<string> := [
    "Dark spots " + "on leaves",
    "Yellowing " + "around spots",
    "Leaf drop " + "in severe " + "cases"]
  const LATE_BLIGHT_SYMPTOMS: seq<string> := [
    "Water-soaked " + "lesions on " + "leaves",
    "White fuzzy " + "growth on " + "leaf " + "undersides",
    "Rapid plant " + "collapse"]
  const APPLE_SCAB_SYMPTOMS: seq<string> := [
    "Olive-green " + "to black " + "spots on " + "leaves",
    "Scabby " + "lesions on " + "fruit",
    "Premature " + "leaf drop"]
  const GENERIC_SYMPTOMS: seq<string> := [
    "No specific " + "symptoms " + "identified"]

  lemma EarlyBlightRecommendationsOk()
    ensures ListItemsOk(EARLY_BLIGHT_RECOMMENDATIONS)
  {
    assert SEPARATOR !in EARLY_BLIGHT_RECOMMENDATIONS[0];
    assert SEPARATOR !in EARLY_BLIGHT_RECOMMENDATIONS[1];
    assert SEPARATOR !in EARLY_BLIGHT_RECOMMENDATIONS[2];
    assert SEPARATOR !in EARLY_BLIGHT_RECOMMENDATIONS[3];
  }

  lemma LateBlightRecommendationsOk()
    ensures ListItemsOk(LATE_BLIGHT_RECOMMENDATIONS)
  {
    assert SEPARATOR !in LATE_BLIGHT_RECOMMENDATIONS[0];
    assert SEPARATOR !in LATE_BLIGHT_RECOMMENDATIONS[1];
    assert SEPARATOR !in LATE_BLIGHT_RECOMMENDATIONS[2];
    assert SEPARATOR !in LATE_BLIGHT_RECOMMENDATIONS[3];
  }

  lemma AppleScabRecommendationsOk()
    ensures ListItemsOk(APPLE_SCAB_RECOMMENDATIONS)
  {
    assert SEPARATOR !in APPLE_SCAB_RECOMMENDATIONS[0];
    assert SEPARATOR !in APPLE_SCAB_RECOMMENDATIONS[1];
    assert SEPARATOR !in APPLE_SCAB_RECOMMENDATIONS[2];
    assert SEPARATOR !in APPLE_SCAB_RECOMMENDATIONS[3];
  }

  lemma GenericRecommendationsOk()
    ensures ListItemsOk(GENERIC_RECOMMENDATIONS)
  {
    assert SEPARATOR !in GENERIC_RECOMMENDATIONS[0];
    assert SEPARATOR !in GENERIC_RECOMMENDATIONS[1];
    assert SEPARATOR !in GENERIC_RECOMMENDATIONS[2];
    assert SEPARATOR !in GENERIC_RECOMMENDATIONS[3];
  }

  lemma EarlyBlightSymptomsOk()
    ensures ListItemsOk(EARLY_BLIGHT_SYMPTOMS)
  {
    assert SEPARATOR !in EARLY_BLIGHT_SYMPTOMS[0];
    assert SEPARATOR !in EARLY_BLIGHT_SYMPTOMS[1];
    assert SEPARATOR !in EARLY_BLIGHT_SYMPTOMS[2];
  }

  lemma LateBlightSymptomsOk()
    ensures ListItemsOk(LATE_BLIGHT_SYMPTOMS)
  {
    assert SEPARATOR !in LATE_BLIGHT_SYMPTOMS[0];
    assert SEPARATOR !in LATE_BLIGHT_SYMPTOMS[1];
    assert SEPARATOR !in LATE_BLIGHT_SYMPTOMS[2];
  }

  lemma AppleScabSymptomsOk()
    ensures ListItemsOk(APPLE_SCAB_SYMPTOMS)
  {
    assert SEPARATOR !in APPLE_SCAB_SYMPTOMS[0];
    assert SEPARATOR !in APPLE_SCAB_SYMPTOMS[1];
    assert SEPARATOR !in APPLE_SCAB_SYMPTOMS[2];
  }

  lemma GenericSymptomsOk()
    ensures ListItemsOk(GENERIC_SYMPTOMS)
  {
    assert SEPARATOR !in GENERIC_SYMPTOMS[0];
  }

  /** `getDefaultRecommendations`: four items, the generic four exactly when
      the disease is none of the known three. */
  function DefaultRecommendations(disease: string): (r: seq<string>)
    ensures |r| == 4 && ListItemsOk(r)
    ensures !KnownDisease(disease) <==> r == GENERIC_RECOMMENDATIONS
  {
    EarlyBlightRecommendationsOk();
    LateBlightRecommendationsOk();
    AppleScabRecommendationsOk();
    GenericRecommendationsOk();
    var d := ToLower(disease);
    if d == "early blight" then
      assert EARLY_BLIGHT_RECOMMENDATIONS[0][0] != GENERIC_RECOMMENDATIONS[0][0];
      EARLY_BLIGHT_RECOMMENDATIONS
    else if d == "late blight" then
      assert LATE_BLIGHT_RECOMMENDATIONS[0][0] != GENERIC_RECOMMENDATIONS[0][0];
      LATE_BLIGHT_RECOMMENDATIONS
    else if d == "apple scab" then
      assert APPLE_SCAB_RECOMMENDATIONS[0][0] != GENERIC_RECOMMENDATIONS[0][0];
      APPLE_SCAB_RECOMMENDATIONS
    else GENERIC_RECOMMENDATIONS
  }

  /** `getDefaultSymptoms`: three items for a known disease, one otherwise. */
  function DefaultSymptoms(disease: string): (r: seq<string>)
    ensures |r| == (if KnownDisease(disease) then 3 else 1) && ListItemsOk(r)
  {
    EarlyBlightSymptomsOk();
    LateBlightSymptomsOk();
    AppleScabSymptomsOk();
    GenericSymptomsOk();
    var d := ToLower(disease);
    if d == "early blight" then EARLY_BLIGHT_SYMPTOMS
    else if d == "late blight" then LATE_BLIGHT_SYMPTOMS
    else if d == "apple scab" then APPLE_SCAB_SYMPTOMS
    else GENERIC_SYMPTOMS
  }

  /** Disease names are matched ignoring ASCII case. */
  lemma DefaultsIgnoreCase(a: string, b: string)
    requires ToLower(a) == ToLower(b)
    ensures DefaultRecommendations(a) == DefaultRecommendations(b)
    ensures DefaultSymptoms(a) == DefaultSymptoms(b)
  {
  }

  /** `createSampleScan`: the default lists stored '|'-joined. */
  function SampleScan(id: nat, user: nat, plantType: string, disease: string, confidence: real, severity: string, status: string, now: nat): (r: Scan)
    ensures r.recommendations.Some? && r.symptoms.Some?
    ensures JavaSplit(r.recommendations.value, SEPARATOR) == DefaultRecommendations(disease)
    ensures JavaSplit(r.symptoms.value, SEPARATOR) == DefaultSymptoms(disease)
  {
    JavaSplitJoin(DefaultRecommendations(disease));
    JavaSplitJoin(DefaultSymptoms(disease));
    Scan(id, user, plantType, disease, confidence, Some(severity), Some(status), None,
         Some(Join(DefaultRecommendations(disease), SEPARATOR)),
         Some(Join(DefaultSymptoms(disease), SEPARATOR)), None, None, now, now)
  }

  // ---------------------------------------------------------------------
  // The response view (ScanResponseDTO.java)
  // ---------------------------------------------------------------------

  datatype ScanView = ScanView(
    id: string,
    plantType: string,
    disease: string,
    confidence: real,
    time: string,
    severity: string,
    status: string,
    imageUrl: Option<string>,
    recommendations: Option<seq<string>>,
    symptoms: Option<seq<string>>,
    expertNotes: Option<string>,
    expertRating: Option<int>)

  /** Two-digit zero-padded rendering. */
  function Pad2(n: nat): (r: string)
    requires n < 100
    ensures |r| == 2 && AllDigits(r) && DigitsValue(r) == n
  {
    var r := [DigitChar(n / 10), DigitChar(n % 10)];
    assert r[..1] == [DigitChar(n / 10)] && r[..1][..0] == [];
    assert DigitValue(r[0]) == n / 10 && DigitValue(r[1]) == n % 10;
    assert DigitsValue(r[..1]) == DigitsValue(r[..1][..0]) * 10 + DigitValue(r[0]) == n / 10;
    assert r[..|r| - 1] == r[..1];
    assert DigitsValue(r) == DigitsValue(r[..1]) * 10 + DigitValue(r[1]);
    r
  }

  /** `format("HH:mm")` of a time given in seconds since a midnight. */
  function ClockTime(t: nat): (r: string)
    ensures |r| == 5 && r[2] == ':' && AllDigits(r[..2]) && AllDigits(r[3..])
    ensures DigitsValue(r[..2]) < 24 && DigitsValue(r[3..]) < 60
    ensures DigitsValue(r[..2]) * 3600 + DigitsValue(r[3..]) * 60 <= t % 86400 < DigitsValue(r[..2]) * 3600 + DigitsValue(r[3..]) * 60 + 60
  {
    var h := (t % 86400) / 3600;
    var m := (t % 3600) / 60;
    ClockArithmetic(t);
    var r := Pad2(h) + ":" + Pad2(m);
    assert r[..2] == Pad2(h) && r[3..] == Pad2(m);
    r
  }

  lemma ClockArithmetic(t: nat)
    ensures (t % 86400) / 3600 < 24 && (t % 3600) / 60 < 60
    ensures (t % 86400) / 3600 * 3600 + (t % 3600) / 60 * 60 <= t % 86400 < (t % 86400) / 3600 * 3600 + (t % 3600) / 60 * 60 + 60
  {
    var x := t % 86400;
    var h := x / 3600;
    var y := x % 3600;
    assert x == 3600 * h + y;
    var q := t / 86400;
    assert t == 86400 * q + x;
    assert t == 3600 * (24 * q + h) + y;
    assert t % 3600 == y;
    var m := y / 60;
    assert y == 60 * m + y % 60;
  }

  /** The view of a stored list: `None` for a null or empty string,
      otherwise its `split`. */
  function ListView(raw: Option<string>): (r: Option<seq<string>>)
    ensures r.None? <==> raw.None? || raw.value == []
  {
    if raw.None? || raw.value == [] then None else Some(JavaSplit(raw.value, SEPARATOR))
  }

  /** `new ScanResponseDTO(scan)`. */
  function View(s: Scan): (r: ScanView)
    ensures r.id == NatToString(s.id)
    ensures s.severity.None? <==> r.severity == "Unknown" && s.severity != Some("Unknown")
    ensures s.status.None? <==> r.status == "Analyzed" && s.status != Some("Analyzed")
    ensures s.severity.Some? ==> r.severity == s.severity.value
    ensures s.status.Some? ==> r.status == s.status.value
  {
    ScanView(NatToString(s.id), s.plantType, s.disease, s.confidence, ClockTime(s.createdAt),
             if s.severity.Some? then s.severity.value else "Unknown",
             if s.status.Some? then s.status.value else "Analyzed",
             s.imagePath, ListView(s.recommendations), ListView(s.symptoms),
             s.expertNotes, s.expertRating)
  }

  /** The view's id text parses back to the scan's id, which is what a
      client sends to `GET /api/scans/{scanId}`. */
  lemma ViewIdParses(s: Scan)
    requires s.id <= LONG_MAX
    ensures ParseLong(View(s).id) == Some(s.id as int)
  {
    ParseLongOfNatToString(s.id);
  }

  /** A sample scan's view carries its default lists unchanged. */
  lemma SampleViewRoundTrip(id: nat, user: nat, plantType: string, disease: string, confidence: real, severity: string, status: string, now: nat)
    ensures View(SampleScan(id, user, plantType, disease, confidence, severity, status, now)).recommendations
            == Some(DefaultRecommendations(disease))
    ensures View(SampleScan(id, user, plantType, disease, confidence, severity, status, now)).symptoms
            == Some(DefaultSymptoms(disease))
  {
    var s := SampleScan(id, user, plantType, disease, confidence, severity, status, now);
    assert s.recommendations.value != [] by {
      var items := DefaultRecommendations(disease);
      assert |Join(items, SEPARATOR)| >= |items[0]| by { JoinLength(items, SEPARATOR); }
    }
    assert s.symptoms.value != [] by {
      var items := DefaultSymptoms(disease);
      assert |Join(items, SEPARATOR)| >= |items[0]| by { JoinLength(items, SEPARATOR); }
    }
  }

  lemma JoinLength(items: seq<string>, sep: char)
    requires |items| >= 1
    ensures |Join(items, sep)| >= |items[0]|
  {
  }

  /** `createSampleScanDetails`: the fixed record returned for an unknown id. */
  function SampleDetails(scanId: string, now: nat): (r: ScanView)
    ensures r.id == scanId
    ensures r.recommendations == Some(DefaultRecommendations("Early Blight"))
    ensures r.symptoms == Some(DefaultSymptoms("Early Blight"))
  {
    ScanView(scanId, "Tomato", "Early Blight", 0.92, ClockTime(now), "Medium", "Treated", None,
             Some(DefaultRecommendations("Early Blight")), Some(DefaultSymptoms("Early Blight")), None, None)
  }

  // ---------------------------------------------------------------------
  // Endpoints (ScanController.java)
  // ---------------------------------------------------------------------

  datatype ScanError = ScanNotAuthenticated | ExpertRoleRequired | BadScanId | ScanNotFound | ServerError

  /** `GET /api/scans/history`: the caller's scans, newest first, one page.
      An invalid page request fails inside the handler's `try`. */
  function History(scans: seq<Scan>, caller: Option<User>, page: int, size: int): (r: Result<Page<Scan>, ScanError>)
    ensures caller.None? <==> r == Err(ScanNotAuthenticated)
    ensures r.Err? ==> r.error == ScanNotAuthenticated || r.error == ServerError
    ensures caller.Some? ==> (r.Err? <==> page < 0 || size < 1)
    ensures r.Ok? ==> forall x | x in r.value.content :: x in scans && OwnedBy(x, caller.value.id)
  {
    if caller.None? then Err(ScanNotAuthenticated)
    else
      var own := UserScans(scans, caller.value.id);
      match Paginate(own, page, size)
      case None => Err(ServerError)
      case Some(p) =>
        PageContentIn(own, page, size);
        Ok(p)
  }

  /** `GET /api/scans/all`: every scan of every user, in table order, for
      callers with role EXPERT only; verification status is not consulted
      and ADMIN is refused. */
  function AllScans(scans: seq<Scan>, caller: Option<User>, page: int, size: int): (r: Result<Page<Scan>, ScanError>)
    ensures caller.None? <==> r == Err(ScanNotAuthenticated)
    ensures caller.Some? ==> (r == Err(ExpertRoleRequired) <==> caller.value.role != EXPERT)
    ensures caller.Some? && caller.value.role == EXPERT ==> (r.Ok? <==> page >= 0 && size >= 1)
    ensures r.Ok? ==> Paginate(scans, page, size) == Some(r.value)
  {
    if caller.None? then Err(ScanNotAuthenticated)
    else if caller.value.role != EXPERT then Err(ExpertRoleRequired)
    else match Paginate(scans, page, size)
      case None => Err(ServerError)
      case Some(p) => Ok(p)
  }

  /** `GET /api/scans/{scanId}`: a malformed id is a bad request; a
      well-formed id that names no scan yields the sample record. Any
      authenticated caller may read any scan. */
  function Details(scans: seq<Scan>, caller: Option<User>, scanId: string, now: nat): (r: Result<ScanView, ScanError>)
    ensures caller.None? <==> r == Err(ScanNotAuthenticated)
    ensures caller.Some? ==> (r == Err(BadScanId) <==> ParseLong(scanId).None?)
    ensures r.Ok? <==> caller.Some? && ParseLong(scanId).Some?
    ensures r.Ok? ==> var v := ParseLong(scanId).value;
                      if 0 <= v < |scans| then r.value == View(scans[v]) else r.value == SampleDetails(scanId, now)
  {
    if caller.None? then Err(ScanNotAuthenticated)
    else match ParseLong(scanId)
      case None => Err(BadScanId)
      case Some(v) => if 0 <= v < |scans| then Ok(View(scans[v])) else Ok(SampleDetails(scanId, now))
  }

  /** The JSON body of `POST /api/scans`. An absent `severity` or `status`
      key is `None`; a key present with JSON null is `Some(None)`. */
  datatype ScanInput = ScanInput(
    plantType: Option<string>,
    disease: Option<string>,
    confidence: Option<real>,
    severity: Option<Option<string>>,
    status: Option<Option<string>>,
    imagePath: Option<string>,
    recommendations: Option<string>,
    symptoms: Option<string>)

  /** `Map.getOrDefault`: the default only when the key is absent. */
  function OrDefault(v: Option<Option<string>>, default: string): (r: Option<string>)
    ensures v.None? ==> r == Some(default)
    ensures v.Some? ==> r == v.value
  {
    if v.None? then Some(default) else v.value
  }

  /** `POST /api/scans`: a missing confidence fails before the save, a
      missing plant type or disease fails at the save (non-null columns). */
  function CreateScan(scans: seq<Scan>, caller: Option<User>, input: ScanInput, now: nat): (r: Result<(seq<Scan>, ScanView), ScanError>)
    ensures caller.None? <==> r == Err(ScanNotAuthenticated)
    ensures caller.Some? ==> (r.Err? <==> input.confidence.None? || input.plantType.None? || input.disease.None?)
    ensures r.Err? ==> r.error == ScanNotAuthenticated || r.error == ServerError
    ensures r.Ok? ==> var (after, view) := r.value;
                      && |after| == |scans| + 1 && after[..|scans|] == scans
                      && after[|scans|].id == |scans| && after[|scans|].user == caller.value.id
                      && after[|scans|].createdAt == now && after[|scans|].updatedAt == now
                      && after[|scans|].severity == OrDefault(input.severity, "Unknown")
                      && after[|scans|].status == OrDefault(input.status, "Analyzed")
                      && view == View(after[|scans|])
  {
    if caller.None? then Err(ScanNotAuthenticated)
    else if input.confidence.None? || input.plantType.None? || input.disease.None? then Err(ServerError)
    else
      var s := Scan(|scans|, caller.value.id, input.plantType.value, input.disease.value, input.confidence.value,
                    OrDefault(input.severity, "Unknown"), OrDefault(input.status, "Analyzed"), input.imagePath,
                    input.recommendations, input.symptoms, None, None, now, now);
      Ok((scans + [s], View(s)))
  }

  /** A scan created without explicit severity and status shows the same
      defaults the view would have supplied. */
  lemma CreateDefaultsMatchView(scans: seq<Scan>, caller: User, input: ScanInput, now: nat)
    requires input.confidence.Some? && input.plantType.Some? && input.disease.Some?
    requires input.severity.None? && input.status.None?
    ensures var view := CreateScan(scans, Some(caller), input, now).value.1;
            view.severity == "Unknown" && view.status == "Analyzed"
  {
  }

  /** The JSON body of `PUT /api/scans/{id}/review`: `None` for an absent
      key, `Some(None)` for a key present with null. */
  datatype Review = Review(expertNotes: Option<Option<string>>, expertRating: Option<Option<int>>, status: Option<Option<string>>)

  /** The reviewed fields; a key that is absent leaves its field alone. */
  function ApplyReview(s: Scan, review: Review): (r: Scan)
    ensures r.expertNotes == (if review.expertNotes.Some? then review.expertNotes.value else s.expertNotes)
    ensures r.expertRating == (if review.expertRating.Some? then review.expertRating.value else s.expertRating)
    ensures r.status == (if review.status.Some? then review.status.value else s.status)
    ensures r.(expertNotes := s.expertNotes, expertRating := s.expertRating, status := s.status) == s
  {
    var s1 := if review.expertNotes.Some? then s.(expertNotes := review.expertNotes.value) else s;
    var s2 := if review.expertRating.Some? then s1.(expertRating := review.expertRating.value) else s1;
    if review.status.Some? then s2.(status := review.status.value) else s2
  }

  /** Java's `int` range. JSON decodes a whole number into an `Integer`
      only within it; a larger one becomes a `Long` or `BigInteger`. */
  predicate IsJavaInt(n: int) {
    -0x8000_0000 <= n < 0x8000_0000
  }

  /** `PUT /api/scans/{id}/review`: role EXPERT only; the save refreshes
      `updatedAt` when it changes a column (the `@PreUpdate` callback of a
      dirty entity). A rating outside `int` fails the `(Integer)` cast, and
      the handler answers with a server error before anything is saved. */
  function ReviewScan(scans: seq<Scan>, caller: Option<User>, id: int, review: Review, now: nat): (r: Result<seq<Scan>, ScanError>)
    ensures caller.None? <==> r == Err(ScanNotAuthenticated)
    ensures caller.Some? ==> (r == Err(ExpertRoleRequired) <==> caller.value.role != EXPERT)
    ensures caller.Some? && caller.value.role == EXPERT ==> (r == Err(ScanNotFound) <==> !(0 <= id < |scans|))
    ensures r == Err(ServerError) <==>
              caller.Some? && caller.value.role == EXPERT && 0 <= id < |scans|
              && review.expertRating.Some? && review.expertRating.value.Some? && !IsJavaInt(review.expertRating.value.value)
    ensures r.Ok? ==> review.expertRating.Some? && review.expertRating.value.Some? ==> IsJavaInt(review.expertRating.value.value)
    ensures r.Ok? ==> |r.value| == |scans| && forall j | 0 <= j < |scans| && j != id :: r.value[j] == scans[j]
    ensures r.Ok? ==> var after := r.value[id];
                      after.(updatedAt := scans[id].updatedAt) == ApplyReview(scans[id], review)
                      && (after.updatedAt == now || after == scans[id])
  {
    if caller.None? then Err(ScanNotAuthenticated)
    else if caller.value.role != EXPERT then Err(ExpertRoleRequired)
    else if !(0 <= id < |scans|) then Err(ScanNotFound)
    else if review.expertRating.Some? && review.expertRating.value.Some? && !IsJavaInt(review.expertRating.value.value) then
      Err(ServerError)
    else
      var changed := ApplyReview(scans[id], review);
      var saved := if changed == scans[id] then changed else changed.(updatedAt := now);
      Ok(scans[..id] + [saved] + scans[id + 1..])
  }

  /** A rating one past `Integer.MAX_VALUE` is refused and the table is
      left alone. */
  lemma RatingPastIntRefused(scans: seq<Scan>, caller: User, id: int, now: nat)
    requires caller.role == EXPERT && 0 <= id < |scans|
    ensures ReviewScan(scans, Some(caller), id, Review(None, Some(Some(0x8000_0000)), None), now) == Err(ServerError)
    ensures ReviewScan(scans, Some(caller), id, Review(None, Some(Some(0x7fff_ffff)), None), now).Ok?
  {
  }

  /** Submitting the same review twice leaves the scan as one submission
      did. */
  lemma ReviewIdempotent(scans: seq<Scan>, caller: User, id: int, review: Review, now: nat)
    requires ReviewScan(scans, Some(caller), id, review, now).Ok?
    ensures var once := ReviewScan(scans, Some(caller), id, review, now).value;
            ReviewScan(once, Some(caller), id, review, now) == Ok(once)
  {
    var once := ReviewScan(scans, Some(caller), id, review, now).value;
    var twice := ReviewScan(once, Some(caller), id, review, now).value;
    assert ApplyReview(once[id], review) == once[id];
    assert twice == once;
  }

  /** Reviewing and listing all scans depend on the role alone: two
      experts in any verification states get the same outcome. */
  lemma ReviewIgnoresVerification(scans: seq<Scan>, a: User, b: User, id: int, review: Review, now: nat)
    requires a.role == EXPERT && b.role == EXPERT
    ensures ReviewScan(scans, Some(a), id, review, now) == ReviewScan(scans, Some(b), id, review, now)
  {
  }

  /** Creating and reviewing keep ids equal to positions. */
  lemma WritesKeepIds(scans: seq<Scan>, caller: User, input: ScanInput, id: int, review: Review, now: nat)
    requires IdsAreIndexes(scans)
    ensures CreateScan(scans, Some(caller), input, now).Ok? ==> IdsAreIndexes(CreateScan(scans, Some(caller), input, now).value.0)
    ensures ReviewScan(scans, Some(caller), id, review, now).Ok? ==> IdsAreIndexes(ReviewScan(scans, Some(caller), id, review, now).value)
  {
  }
}

=== FILE: stores.dfy ===
/** Agricultural supply stores (AgriStoreService.java, AgriStoreController.java):
    admin maintenance with soft delete, the public listings and the checks
    on a nearby-store search. Stores are never removed, so a store's id is
    its position in the table. */
module Stores {
  import opened Wrappers
  import opened Text
  import opened Lists

  datatype StoreType = SEEDS | FERTILIZERS | PESTICIDES | EQUIPMENT | GENERAL

  function TypeName(t: StoreType): string {
    match t
    case SEEDS => "SEEDS"
    case FERTILIZERS => "FERTILIZERS"
    case PESTICIDES => "PESTICIDES"
    case EQUIPMENT => "EQUIPMENT"
    case GENERAL => "GENERAL"
  }

  /** `StoreType.valueOf`: the constant with exactly that name. */
  function ParseStoreType(s: string): (r: Option<StoreType>)
    ensures r.Some? ==> TypeName(r.value) == s
  {
    if s == "SEEDS" then Some(SEEDS)
    else if s == "FERTILIZERS" then Some(FERTILIZERS)
    else if s == "PESTICIDES" then Some(PESTICIDES)
    else if s == "EQUIPMENT" then Some(EQUIPMENT)
    else if s == "GENERAL" then Some(GENERAL)
    else None
  }

  /** Every constant's name parses back to it, and only names parse. */
  lemma StoreTypeNames(t: StoreType, s: string)
    ensures ParseStoreType(TypeName(t)) == Some(t)
    ensures ParseStoreType(s) == Some(t) <==> s == TypeName(t)
  {
  }

  /** `valueOf` is case-sensitive: a lower-case name is rejected. */
  lemma LowerCaseTypeRejected()
    ensures ParseStoreType("seeds") == None
    ensures ParseStoreType(ToUpper("seeds")) == Some(SEEDS)
  {
    assert ToUpper("seeds") == "SEEDS";
  }

  datatype Store = Store(
    id: nat,
    name: string,
    description: Option<string>,
    address: string,
    latitude: real,
    longitude: real,
    contactNumber: Option<string>,
    ownerName: Option<string>,
    storeType: Option<StoreType>,
    active: bool,
    createdBy: Option<nat>)

  predicate StoreIdsAreIndexes(stores: seq<Store>) {
    forall i | 0 <= i < |stores| :: stores[i].id == i
  }

  /** The request body (`AgriStoreDTO`); `None` is a JSON null. */
  datatype StoreInput = StoreInput(
    name: Option<string>,
    description: Option<string>,
    address: Option<string>,
    latitude: Option<real>,
    longitude: Option<real>,
    contactNumber: Option<string>,
    ownerName: Option<string>,
    storeType: Option<string>,
    isActive: Option<bool>)

  /** `@Size(max = ...)`: null, or at most `max` UTF-16 code units. */
  predicate AtMost(s: Option<string>, max: nat) {
    s.None? || Utf16Length(s.value) <= max
  }

  /** The bean-validation constraints of the request body: a valid store
      has a non-blank name and address within their bounds in characters,
      both coordinates, and optional texts within theirs. */
  function ValidInput(d: StoreInput): (ok: bool)
    ensures ok ==> HasText(d.name) && |d.name.value| <= 100 && HasText(d.address) && |d.address.value| <= 255
    ensures ok ==> d.latitude.Some? && d.longitude.Some?
    ensures ok ==> (d.contactNumber.None? || |d.contactNumber.value| <= 15)
    ensures ok ==> (d.description.None? || |d.description.value| <= 500) && (d.ownerName.None? || |d.ownerName.value| <= 100)
  {
    && HasText(d.name) && AtMost(d.name, 100)
    && AtMost(d.description, 500)
    && HasText(d.address) && AtMost(d.address, 255)
    && d.latitude.Some? && d.longitude.Some?
    && AtMost(d.contactNumber, 15)
    && AtMost(d.ownerName, 100)
  }

  datatype StoreError =
    | InvalidInput
    | NoSuchAdmin
    | UnknownStoreType
    | StoreNotFound
    | InvalidLatitude
    | InvalidLongitude
    | InvalidRadius

  /** The requested type: absent is fine, an unknown name is not. */
  function RequestedType(d: StoreInput): Result<Option<StoreType>, StoreError> {
    if d.storeType.None? then Ok(None)
    else match ParseStoreType(d.storeType.value)
      case None => Err(UnknownStoreType)
      case Some(t) => Ok(Some(t))
  }

  /** The fields every save copies from the request. */
  predicate CopiesInput(s: Store, d: StoreInput)
    requires ValidInput(d)
  {
    && s.name == d.name.value && s.description == d.description && s.address == d.address.value
    && s.latitude == d.latitude.value && s.longitude == d.longitude.value
    && s.contactNumber == d.contactNumber && s.ownerName == d.ownerName
  }

  /** `createStore`: the calling admin is recorded as creator; the type is set
      only when given. */
  function CreateStore(stores: seq<Store>, d: StoreInput, admin: Option<nat>): (r: Result<seq<Store>, StoreError>)
    requires StoreIdsAreIndexes(stores)
    ensures !ValidInput(d) <==> r == Err(InvalidInput)
    ensures ValidInput(d) && admin.None? <==> r == Err(NoSuchAdmin)
    ensures r.Ok? <==> ValidInput(d) && admin.Some? && RequestedType(d).Ok?
    ensures r.Ok? ==>
              && |r.value| == |stores| + 1 && r.value[..|stores|] == stores
              && StoreIdsAreIndexes(r.value)
              && var s := r.value[|stores|];
                 CopiesInput(s, d) && s.createdBy == admin && s.active
                 && s.storeType == RequestedType(d).value
  {
    if !ValidInput(d) then Err(InvalidInput)
    else if admin.None? then Err(NoSuchAdmin)
    else match RequestedType(d)
      case Err(e) => Err(e)
      case Ok(t) =>
        var s := Store(|stores|, d.name.value, d.description, d.address.value, d.latitude.value, d.longitude.value,
                       d.contactNumber, d.ownerName, t, true, admin);
        var r := stores + [s];
        assert r[..|stores|] == stores;
        Ok(r)
  }

  /** The row with id `id`, if any. */
  function Find(stores: seq<Store>, id: int): (r: Option<nat>)
    requires StoreIdsAreIndexes(stores)
    ensures r.Some? <==> 0 <= id < |stores|
    ensures r.Some? ==> r.value == id
  {
    if 0 <= id < |stores| then Some(id) else None
  }

  /** The row after an update: the plain fields are overwritten, while the
      type and the active flag change only when the request carries them. */
  function Updated(s: Store, d: StoreInput, t: Option<StoreType>): Store
    requires ValidInput(d)
  {
    s.(name := d.name.value, description := d.description, address := d.address.value,
       latitude := d.latitude.value, longitude := d.longitude.value, contactNumber := d.contactNumber,
       ownerName := d.ownerName,
       storeType := if t.Some? then t else s.storeType,
       active := if d.isActive.Some? then d.isActive.value else s.active)
  }

  /** `updateStore`. */
  function UpdateStore(stores: seq<Store>, id: int, d: StoreInput): (r: Result<seq<Store>, StoreError>)
    requires StoreIdsAreIndexes(stores)
    ensures !ValidInput(d) <==> r == Err(InvalidInput)
    ensures ValidInput(d) && Find(stores, id).None? <==> r == Err(StoreNotFound)
    ensures r.Ok? <==> ValidInput(d) && Find(stores, id).Some? && RequestedType(d).Ok?
    ensures r.Ok? ==>
              && |r.value| == |stores| && StoreIdsAreIndexes(r.value)
              && (forall i | 0 <= i < |stores| && i != id :: r.value[i] == stores[i])
              && var s := r.value[id];
                 && CopiesInput(s, d) && s.createdBy == stores[id].createdBy
                 && s.storeType == (if d.storeType.None? then stores[id].storeType else RequestedType(d).value)
                 && s.active == (if d.isActive.None? then stores[id].active else d.isActive.value)
  {
    if !ValidInput(d) then Err(InvalidInput)
    else match Find(stores, id)
      case None => Err(StoreNotFound)
      case Some(i) =>
        match RequestedType(d)
        case Err(e) => Err(e)
        case Ok(t) => Ok(stores[i := Updated(stores[i], d, t)])
  }

  /** Sending the same update twice has the effect of sending it once. */
  lemma UpdateIdempotent(stores: seq<Store>, id: int, d: StoreInput)
    requires StoreIdsAreIndexes(stores) && UpdateStore(stores, id, d).Ok?
    ensures UpdateStore(UpdateStore(stores, id, d).value, id, d) == UpdateStore(stores, id, d)
  {
    var once := UpdateStore(stores, id, d).value;
    var t := RequestedType(d).value;
    assert once == stores[id := Updated(stores[id], d, t)];
    assert Updated(once[id], d, t) == once[id];
    assert once[id := Updated(once[id], d, t)] == once;
  }

  /** `deleteStore`: a soft delete that only clears the active flag. */
  function DeleteStore(stores: seq<Store>, id: int): (r: Result<seq<Store>, StoreError>)
    requires StoreIdsAreIndexes(stores)
    ensures r.Err? <==> Find(stores, id).None?
    ensures r.Err? ==> r.error == StoreNotFound
    ensures r.Ok? ==>
              && |r.value| == |stores| && StoreIdsAreIndexes(r.value)
              && !r.value[id].active && r.value[id] == stores[id].(active := false)
              && forall i | 0 <= i < |stores| && i != id :: r.value[i] == stores[i]
  {
    match Find(stores, id)
    case None => Err(StoreNotFound)
    case Some(i) => Ok(stores[i := stores[i].(active := false)])
  }

  /** `findByIsActiveTrue`. */
  function ActiveStores(stores: seq<Store>): (r: seq<Store>)
    ensures forall s | s in r :: s in stores && s.active
    ensures forall i | 0 <= i < |stores| && stores[i].active :: stores[i] in r
    ensures |r| == Count(stores, (s: Store) => s.active)
  {
    CountIsFilterLength(stores, (s: Store) => s.active);
    Filter(stores, (s: Store) => s.active)
  }

  /** After a delete the store is still in the table that `getAllStores`
      lists for admins, gone from the public list, and still reachable by
      id. */
  lemma DeleteIsSoft(stores: seq<Store>, id: nat)
    requires StoreIdsAreIndexes(stores) && id < |stores|
    ensures var after := DeleteStore(stores, id).value;
            && |after| == |stores|
            && after[id] !in ActiveStores(after)
            && StoreById(after, id) == Ok(after[id])
  {
  }

  /** Deleting twice is deleting once. */
  lemma DeleteIdempotent(stores: seq<Store>, id: int)
    requires StoreIdsAreIndexes(stores) && DeleteStore(stores, id).Ok?
    ensures DeleteStore(DeleteStore(stores, id).value, id) == DeleteStore(stores, id)
  {
    var once := DeleteStore(stores, id).value;
    assert once[id := once[id].(active := false)] == once;
  }

  /** Deleting an active store shortens the public list by exactly one. */
  lemma DeleteShrinksActive(stores: seq<Store>, id: nat)
    requires StoreIdsAreIndexes(stores) && id < |stores| && stores[id].active
    ensures |ActiveStores(DeleteStore(stores, id).value)| + 1 == |ActiveStores(stores)|
  {
    var after := DeleteStore(stores, id).value;
    CountUpdate(stores, id, after[id], (s: Store) => s.active);
  }

  /** Replacing one element changes a count only by that element. */
  lemma {:induction false} CountUpdate<T>(s: seq<T>, i: nat, x: T, p: T -> bool)
    requires i < |s|
    ensures Count(s[i := x], p) + (if p(s[i]) then 1 else 0) == Count(s, p) + (if p(x) then 1 else 0)
  {
    if i > 0 {
      assert s[i := x][1..] == s[1..][i - 1 := x];
      CountUpdate(s[1..], i - 1, x, p);
    } else {
      assert s[i := x][1..] == s[1..];
    }
  }

  /** `getStoreById`: any row, active or not. */
  function StoreById(stores: seq<Store>, id: int): (r: Result<Store, StoreError>)
    requires StoreIdsAreIndexes(stores)
    ensures r.Ok? <==> 0 <= id < |stores|
    ensures r.Ok? ==> r.value == stores[id] && r.value.id == id
    ensures r.Err? ==> r.error == StoreNotFound
  {
    match Find(stores, id)
    case None => Err(StoreNotFound)
    case Some(i) => Ok(stores[i])
  }

  /** `getStoresByType`: the path name is upper-cased, then only active
      stores of that type are listed. */
  function StoresByType(stores: seq<Store>, typeName: string): (r: Result<seq<Store>, StoreError>)
    ensures r.Err? <==> ParseStoreType(ToUpper(typeName)).None?
    ensures r.Err? ==> r.error == UnknownStoreType
    ensures r.Ok? ==>
              var t := ParseStoreType(ToUpper(typeName)).value;
              && (forall s | s in r.value :: s in stores && s.active && s.storeType == Some(t))
              && (forall i | 0 <= i < |stores| && stores[i].active && stores[i].storeType == Some(t) :: stores[i] in r.value)
  {
    match ParseStoreType(ToUpper(typeName))
    case None => Err(UnknownStoreType)
    case Some(t) => Ok(Filter(stores, (s: Store) => s.active && s.storeType == Some(t)))
  }

  /** The listing by type is the public list narrowed to the type. */
  lemma ByTypeWithinActive(stores: seq<Store>, typeName: string)
    requires StoresByType(stores, typeName).Ok?
    ensures forall s | s in StoresByType(stores, typeName).value :: s in ActiveStores(stores)
  {
  }

  // ---------------------------------------------------------------------
  // Nearby search
  // ---------------------------------------------------------------------

  const DEFAULT_RADIUS: real := 10.0

  /** The checks of `getNearbyStores`, in order; on success the radius the
      search uses. */
  function CheckNearby(lat: real, lng: real, radius: Option<real>): (r: Result<real, StoreError>)
    ensures r == Err(InvalidLatitude) <==> lat < -90.0 || lat > 90.0
    ensures r == Err(InvalidLongitude) <==> -90.0 <= lat <= 90.0 && (lng < -180.0 || lng > 180.0)
    ensures r.Ok? <==> -90.0 <= lat <= 90.0 && -180.0 <= lng <= 180.0 && 0.0 < radius.GetOr(DEFAULT_RADIUS) <= 100.0
    ensures r.Ok? ==> r.value == radius.GetOr(DEFAULT_RADIUS)
  {
    var rad := radius.GetOr(DEFAULT_RADIUS);
    if lat < -90.0 || lat > 90.0 then Err(InvalidLatitude)
    else if lng < -180.0 || lng > 180.0 then Err(InvalidLongitude)
    else if rad <= 0.0 || rad > 100.0 then Err(InvalidRadius)
    else Ok(rad)
  }

  /** One validation step: whether it passes and the error it reports
      otherwise. */
  datatype Check = Check(passes: bool, error: StoreError)

  /** Running checks in order: the error of the first one that fails, or
      `value` when all pass. */
  function FirstFailure(checks: seq<Check>, value: real): (r: Result<real, StoreError>)
    ensures r.Ok? <==> forall i | 0 <= i < |checks| :: checks[i].passes
    ensures r.Ok? ==> r.value == value
    ensures r.Err? ==> exists i | 0 <= i < |checks| :: !checks[i].passes && r.error == checks[i].error
                         && forall j | 0 <= j < i :: checks[j].passes
  {
    if checks == [] then Ok(value)
    else if !checks[0].passes then Err(checks[0].error)
    else
      var rest := FirstFailure(checks[1..], value);
      assert forall i | 1 <= i < |checks| :: checks[1..][i - 1] == checks[i];
      rest
  }

  /** The nearby search validates latitude, then longitude, then radius,
      and reports the first that fails. */
  lemma NearbyIsFirstFailure(lat: real, lng: real, radius: Option<real>)
    ensures var rad := radius.GetOr(DEFAULT_RADIUS);
            CheckNearby(lat, lng, radius)
            == FirstFailure([Check(-90.0 <= lat <= 90.0, InvalidLatitude),
                             Check(-180.0 <= lng <= 180.0, InvalidLongitude),
                             Check(0.0 < rad <= 100.0, InvalidRadius)], rad)
  {
    var rad := radius.GetOr(DEFAULT_RADIUS);
    var checks := [Check(-90.0 <= lat <= 90.0, InvalidLatitude),
                   Check(-180.0 <= lng <= 180.0, InvalidLongitude),
                   Check(0.0 < rad <= 100.0, InvalidRadius)];
    assert checks[1..] == [checks[1], checks[2]];
    assert checks[1..][1..] == [checks[2]];
    assert checks[1..][1..][1..] == [];
  }

  /** A search that passes with some radius also passes with any smaller
      positive radius at the same point. */
  lemma NearbySmallerRadius(lat: real, lng: real, r1: real, r2: real)
    requires CheckNearby(lat, lng, Some(r1)).Ok? && 0.0 < r2 <= r1
    ensures CheckNearby(lat, lng, Some(r2)) == Ok(r2)
  {
  }

  /** The bounds are inclusive at the poles, the antimeridian and 100 km; a
      missing radius is 10 km. */
  lemma NearbyBounds()
    ensures CheckNearby(90.0, -180.0, Some(100.0)) == Ok(100.0)
    ensures CheckNearby(-90.0, 180.0, None) == Ok(10.0)
    ensures CheckNearby(0.0, 0.0, Some(0.0)) == Err(InvalidRadius)
    ensures CheckNearby(91.0, 500.0, Some(-1.0)) == Err(InvalidLatitude)
  {
  }
}

=== FILE: text.dfy ===
/** The small part of `java.lang.String` that the application relies on, over
    `seq<char>`: white space in the sense of `trim()`, ASCII case mapping,
    prefixes, substrings, literal replacement and decimal numbers. */
module Text {
  import opened Wrappers

  /** `String.trim()` and Bean Validation's `@NotBlank` treat every character
      up to U+0020 as white space. */
  predicate IsSpace(c: char) {
    c <= ' '
  }

  /** A blank string is empty or made only of white space. */
  predicate IsBlank(s: string) {
    forall i | 0 <= i < |s| :: IsSpace(s[i])
  }

  /** Java's `s != null && !s.trim().isEmpty()`, with `None` for null. */
  predicate HasText(s: Option<string>) {
    s.Some? && !IsBlank(s.value)
  }

  /** A character of the Basic Multilingual Plane: one UTF-16 code unit. */
  predicate IsBmp(c: char) {
    (c as int) < 0x1_0000
  }

  /** `String.length()`, which `@Size` measures: the number of UTF-16 code
      units, two for a character outside the Basic Multilingual Plane. */
  function Utf16Length(s: string): (n: nat)
    ensures |s| <= n <= 2 * |s|
    ensures n == |s| <==> forall i | 0 <= i < |s| :: IsBmp(s[i])
  {
    if s == [] then 0 else (if IsBmp(s[0]) then 1 else 2) + Utf16Length(s[1..])
  }

  /** The UTF-16 length of a concatenation is the sum of the parts'. */
  lemma {:induction false} Utf16LengthAppend(a: string, b: string)
    ensures Utf16Length(a + b) == Utf16Length(a) + Utf16Length(b)
    decreases |a|
  {
    if a != [] {
      assert (a + b)[0] == a[0];
      assert (a + b)[1..] == a[1..] + b;
      Utf16LengthAppend(a[1..], b);
    } else {
      assert a + b == b;
    }
  }

  /** A block of a string is no longer, in code units, than the string. */
  lemma Utf16LengthContains(t: string, s: string)
    requires Contains(t, s)
    ensures Utf16Length(s) <= Utf16Length(t)
  {
    var i: nat :| i <= |t| && OccursAt(t, s, i);
    assert t == t[..i] + s + t[i + |s|..];
    Utf16LengthAppend(t[..i], s);
    Utf16LengthAppend(t[..i] + s, t[i + |s|..]);
  }

  /** `s` occurs in `t` as a contiguous block. */
  predicate Contains(t: string, s: string) {
    exists i: nat | i <= |t| :: OccursAt(t, s, i)
  }

  /** `s` occurs in `t` starting at index `i`. */
  predicate OccursAt(t: string, s: string, i: nat) {
    i + |s| <= |t| && t[i..i + |s|] == s
  }

  predicate StartsWith(s: string, prefix: string) {
    |prefix| <= |s| && s[..|prefix|] == prefix
  }

  /** Texts whose first characters differ do not start alike. */
  lemma FirstCharDiffers(s: string, prefix: string)
    requires s != [] && prefix != [] && s[0] != prefix[0]
    ensures !StartsWith(s, prefix)
  {
    if |prefix| <= |s| {
      assert s[..|prefix|][0] == s[0];
    }
  }

  predicate EndsWith(s: string, suffix: string) {
    |suffix| <= |s| && s[|s| - |suffix|..] == suffix
  }

  /** Number of leading white-space characters. */
  function LeadingSpaces(s: string): (n: nat)
    ensures n <= |s|
    ensures forall i | 0 <= i < n :: IsSpace(s[i])
    ensures n < |s| ==> !IsSpace(s[n])
  {
    if |s| == 0 || !IsSpace(s[0]) then 0 else 1 + LeadingSpaces(s[1..])
  }

  /** Number of trailing white-space characters. */
  function TrailingSpaces(s: string): (n: nat)
    ensures n <= |s|
    ensures forall i | |s| - n <= i < |s| :: IsSpace(s[i])
    ensures n < |s| ==> !IsSpace(s[|s| - 1 - n])
  {
    if |s| == 0 || !IsSpace(s[|s| - 1]) then 0 else 1 + TrailingSpaces(s[..|s| - 1])
  }

  /** `String.trim()`: the string without its leading and trailing white space. */
  function Trim(s: string): (r: string)
    ensures r == [] <==> IsBlank(s)
    ensures r != [] ==> !IsSpace(r[0]) && !IsSpace(r[|r| - 1])
    ensures Contains(s, r)
  {
    var a := LeadingSpaces(s);
    if a == |s| then
      assert OccursAt(s, [], 0);
      []
    else
      var b := |s| - TrailingSpaces(s);
      assert OccursAt(s, s[a..b], a);
      s[a..b]
  }

  /** Trimming a string that is already trimmed changes nothing. */
  lemma TrimIdempotent(s: string)
    ensures Trim(Trim(s)) == Trim(s)
  {
    var t := Trim(s);
    if t != [] {
      assert LeadingSpaces(t) == 0;
      assert TrailingSpaces(t) == 0;
    }
  }

  /** Trim removes exactly the white-space padding around a trimmed core. */
  lemma TrimPadded(left: string, core: string, right: string)
    requires IsBlank(left) && IsBlank(right)
    requires core != [] && !IsSpace(core[0]) && !IsSpace(core[|core| - 1])
    ensures Trim(left + core + right) == core
  {
    var s := left + core + right;
    LeadingOfPadded(left, core + right);
    assert s == left + (core + right);
    TrailingOfPadded(left + core, right);
  }

  lemma {:induction false} LeadingOfPadded(left: string, rest: string)
    requires IsBlank(left) && rest != [] && !IsSpace(rest[0])
    ensures LeadingSpaces(left + rest) == |left|
  {
    if left != [] {
      assert (left + rest)[1..] == left[1..] + rest;
      LeadingOfPadded(left[1..], rest);
    }
  }

  lemma {:induction false} TrailingOfPadded(rest: string, right: string)
    requires IsBlank(right) && rest != [] && !IsSpace(rest[|rest| - 1])
    ensures TrailingSpaces(rest + right) == |right|
  {
    if right != [] {
      assert (rest + right)[..|rest + right| - 1] == rest + right[..|right| - 1];
      TrailingOfPadded(rest, right[..|right| - 1]);
    }
  }

  /** `Character.toUpperCase`, restricted to the ASCII letters. */
  function UpperChar(c: char): char {
    if 'a' <= c <= 'z' then (c as int - 32) as char else c
  }

  /** `Character.toLowerCase`, restricted to the ASCII letters. */
  function LowerChar(c: char): char {
    if 'A' <= c <= 'Z' then (c as int + 32) as char else c
  }

  /** `String.toUpperCase()` on the ASCII letters: no lower-case letter
      is left and the result equals the input ignoring case. */
  function ToUpper(s: string): (r: string)
    ensures |r| == |s|
    ensures forall i | 0 <= i < |r| :: !('a' <= r[i] <= 'z')
    ensures EqualsIgnoreCase(r, s)
  {
    seq(|s|, i requires 0 <= i < |s| => UpperChar(s[i]))
  }

  /** `String.toLowerCase()` on the ASCII letters. */
  function ToLower(s: string): (r: string)
    ensures |r| == |s|
  {
    seq(|s|, i requires 0 <= i < |s| => LowerChar(s[i]))
  }

  /** `String.equalsIgnoreCase` on the ASCII letters. */
  predicate EqualsIgnoreCase(a: string, b: string) {
    |a| == |b| && forall i | 0 <= i < |a| :: UpperChar(a[i]) == UpperChar(b[i])
  }

  /** `String.replace(target, replacement)`: every occurrence of `pat`, found
      left to right without overlap, is replaced by `rep`. */
  function ReplaceAll(s: string, pat: string, rep: string): (r: string)
    requires |pat| > 0
    ensures |s| < |pat| ==> r == s
    ensures rep == pat ==> r == s
    decreases |s|
  {
    if |s| < |pat| then s
    else if s[..|pat|] == pat then
      assert s == s[..|pat|] + s[|pat|..];
      rep + ReplaceAll(s[|pat|..], pat, rep)
    else
      assert s == [s[0]] + s[1..];
      [s[0]] + ReplaceAll(s[1..], pat, rep)
  }

  /** The parts written out with `sep` between consecutive ones. */
  function JoinWith(parts: seq<string>, sep: string): string
    decreases |parts|
  {
    if |parts| == 0 then []
    else if |parts| == 1 then parts[0]
    else parts[0] + sep + JoinWith(parts[1..], sep)
  }

  /** Extending the first part extends the joined text in front. */
  lemma JoinExtendFirst(c: char, parts: seq<string>, sep: string)
    requires |parts| >= 1
    ensures JoinWith([[c] + parts[0]] + parts[1..], sep) == [c] + JoinWith(parts, sep)
  {
    var q := [[c] + parts[0]] + parts[1..];
    assert q[1..] == parts[1..];
  }

  /** The first part starts the joined text. */
  lemma JoinStartsWithFirst(parts: seq<string>, sep: string)
    requires |parts| >= 1
    ensures StartsWith(JoinWith(parts, sep), parts[0])
  {
    if |parts| > 1 {
      assert JoinWith(parts, sep)[..|parts[0]|] == parts[0];
    }
  }

  /** `s` is the pattern-free `parts` joined by `pat`, and `r` the same
      parts joined by `rep`. */
  predicate SplitsAs(s: string, pat: string, r: string, rep: string, parts: seq<string>) {
    |parts| >= 1 && JoinWith(parts, pat) == s && JoinWith(parts, rep) == r
    && forall i | 0 <= i < |parts| :: !Contains(parts[i], pat)
  }

  /** `String.replace` splits the text at the occurrences it replaces: the
      text is its pattern-free parts joined by the pattern, and the result
      is the same parts joined by the replacement. */
  lemma {:induction false} ReplaceAllSplits(s: string, pat: string, rep: string) returns (parts: seq<string>)
    requires |pat| > 0
    ensures SplitsAs(s, pat, ReplaceAll(s, pat, rep), rep, parts)
    decreases |s|
  {
    if |s| < |pat| {
      parts := [s];
      assert !Contains(s, pat);
    } else if s[..|pat|] == pat {
      var rest := ReplaceAllSplits(s[|pat|..], pat, rep);
      parts := SplitAtMatch(s, pat, rep, ReplaceAll(s[|pat|..], pat, rep), rest);
    } else {
      var rest := ReplaceAllSplits(s[1..], pat, rep);
      parts := SplitPastChar(s, pat, rep, ReplaceAll(s[1..], pat, rep), rest);
    }
  }

  /** The split of `ReplaceAllSplits`, as an existence. */
  lemma ReplaceAllSplitsExist(s: string, pat: string, rep: string)
    requires |pat| > 0
    ensures exists parts :: SplitsAs(s, pat, ReplaceAll(s, pat, rep), rep, parts)
  {
    var parts := ReplaceAllSplits(s, pat, rep);
  }

  lemma SplitAtMatch(s: string, pat: string, rep: string, r: string, rest: seq<string>) returns (parts: seq<string>)
    requires |pat| > 0 && |pat| <= |s| && s[..|pat|] == pat
    requires SplitsAs(s[|pat|..], pat, r, rep, rest)
    ensures SplitsAs(s, pat, rep + r, rep, parts)
  {
    parts := [[]] + rest;
    assert parts[1..] == rest;
    assert s == pat + s[|pat|..];
    assert !Contains(parts[0], pat);
    assert forall i | 1 <= i < |parts| :: parts[i] == rest[i - 1];
  }

  lemma SplitPastChar(s: string, pat: string, rep: string, r: string, rest: seq<string>) returns (parts: seq<string>)
    requires |pat| > 0 && |pat| <= |s| && s[..|pat|] != pat
    requires SplitsAs(s[1..], pat, r, rep, rest)
    ensures SplitsAs(s, pat, [s[0]] + r, rep, parts)
  {
    parts := [[s[0]] + rest[0]] + rest[1..];
    JoinExtendFirst(s[0], rest, pat);
    JoinExtendFirst(s[0], rest, rep);
    assert [s[0]] + s[1..] == s;
    var first := parts[0];
    assert !Contains(first, pat) by {
      JoinStartsWithFirst(parts, pat);
      forall i: nat | OccursAt(first, pat, i)
        ensures false
      {
        if i > 0 {
          assert first[i..i + |pat|] == rest[0][i - 1..i - 1 + |pat|];
          assert OccursAt(rest[0], pat, i - 1);
        }
      }
    }
    assert forall i | 1 <= i < |parts| :: parts[i] == rest[i];
  }

  /** A string without the pattern is left as it is. */
  lemma {:induction false} ReplaceAllAbsent(s: string, pat: string, rep: string)
    requires |pat| > 0 && !Contains(s, pat)
    ensures ReplaceAll(s, pat, rep) == s
    decreases |s|
  {
    if |s| >= |pat| {
      assert !OccursAt(s, pat, 0);
      assert !Contains(s[1..], pat) by {
        forall i: nat | OccursAt(s[1..], pat, i)
          ensures OccursAt(s, pat, i + 1)
        {
          assert s[1..][i..i + |pat|] == s[i + 1..i + 1 + |pat|];
        }
      }
      ReplaceAllAbsent(s[1..], pat, rep);
      assert [s[0]] + s[1..] == s;
    }
  }

  /** Replacing one character distributes over concatenation. */
  lemma {:induction false} ReplaceCharAppend(a: string, b: string, c: char, rep: string)
    ensures ReplaceAll(a + b, [c], rep) == ReplaceAll(a, [c], rep) + ReplaceAll(b, [c], rep)
  {
    if a != [] {
      assert (a + b)[..1] == a[..1];
      assert (a + b)[1..] == a[1..] + b;
      ReplaceCharAppend(a[1..], b, c, rep);
    } else {
      assert a + b == b;
    }
  }

  /** Replacing a character that does not occur changes nothing. */
  lemma ReplaceCharAbsent(s: string, c: char, rep: string)
    requires c !in s
    ensures ReplaceAll(s, [c], rep) == s
  {
    assert !Contains(s, [c]) by {
      forall i: nat | i < |s|
        ensures !OccursAt(s, [c], i)
      {
        assert s[i] in s;
        assert s[i..i + 1] == [s[i]];
      }
    }
    ReplaceAllAbsent(s, [c], rep);
  }

  /** Replacing a character by a text without it leaves no occurrence. */
  lemma {:induction false} ReplaceCharRemoves(s: string, c: char, rep: string)
    requires c !in rep
    ensures c !in ReplaceAll(s, [c], rep)
    decreases |s|
  {
    if |s| >= 1 {
      ReplaceCharRemoves(s[1..], c, rep);
      if s[..1] != [c] {
        assert s[0] != c;
      }
    }
  }

  predicate IsDigit(c: char) {
    '0' <= c <= '9'
  }

  predicate AllDigits(s: string) {
    forall i | 0 <= i < |s| :: IsDigit(s[i])
  }

  function DigitChar(d: nat): (c: char)
    requires d < 10
    ensures IsDigit(c)
  {
    ('0' as int + d) as char
  }

  function DigitValue(c: char): (d: nat)
    requires IsDigit(c)
    ensures d < 10
  {
    c as int - '0' as int
  }

  /** Decimal rendering of a natural number (`Long.toString` for n >= 0). */
  function NatToString(n: nat): (r: string)
    ensures r != [] && AllDigits(r)
    ensures n < 10 <==> |r| == 1
    ensures r[0] != '0' || n == 0
  {
    if n < 10 then [DigitChar(n)] else NatToString(n / 10) + [DigitChar(n % 10)]
  }

  /** The value of a string of decimal digits, most significant first. */
  function DigitsValue(s: string): nat
    requires AllDigits(s)
  {
    if s == [] then 0 else DigitsValue(s[..|s| - 1]) * 10 + DigitValue(s[|s| - 1])
  }

  /** Reading back the decimal rendering gives the number. */
  lemma {:induction false} NatToStringRoundTrip(n: nat)
    ensures DigitsValue(NatToString(n)) == n
  {
    if n >= 10 {
      var r := NatToString(n);
      assert r[..|r| - 1] == NatToString(n / 10);
      NatToStringRoundTrip(n / 10);
    }
  }

  /** Different numbers have different decimal renderings. */
  lemma NatToStringInjective(m: nat, n: nat)
    requires NatToString(m) == NatToString(n)
    ensures m == n
  {
    NatToStringRoundTrip(m);
    NatToStringRoundTrip(n);
  }

  /** Number of leading decimal digits. */
  function LeadingDigits(s: string): (n: nat)
    ensures n <= |s|
  {
    if s == [] || !IsDigit(s[0]) then 0 else 1 + LeadingDigits(s[1..])
  }

  /** A run of digits followed by a non-digit is exactly the leading digit
      run of the whole. */
  lemma {:induction false} DigitRunLength(d: string, s: string)
    requires AllDigits(d)
    requires s != [] && !IsDigit(s[0])
    ensures LeadingDigits(d + s) == |d|
  {
    if d == [] {
      assert d + s == s;
    } else {
      assert (d + s)[1..] == d[1..] + s;
      DigitRunLength(d[1..], s);
    }
  }

  /** A text that starts with a number followed by a non-digit determines
      both the number and the rest. */
  lemma NumberPrefixUnique(a: nat, s1: string, b: nat, s2: string)
    requires s1 != [] && !IsDigit(s1[0]) && s2 != [] && !IsDigit(s2[0])
    requires NatToString(a) + s1 == NatToString(b) + s2
    ensures a == b && s1 == s2
  {
    var d1, d2 := NatToString(a), NatToString(b);
    DigitRunLength(d1, s1);
    DigitRunLength(d2, s2);
    assert d1 == (d1 + s1)[..|d1|];
    assert d2 == (d2 + s2)[..|d2|];
    NatToStringInjective(a, b);
    assert s1 == (d1 + s1)[|d1|..];
    assert s2 == (d2 + s2)[|d2|..];
  }

  /** A common prefix can be dropped from both sides of an equation. */
  lemma DropPrefix(p: string, x: string, y: string)
    requires p + x == p + y
    ensures x == y
  {
    assert x == (p + x)[|p|..];
    assert y == (p + y)[|p|..];
  }

  const LONG_MAX: int := 0x7FFF_FFFF_FFFF_FFFF

  /** `Long.parseLong` on ASCII text: an optional sign, then at least one
      digit, within the range of a 64-bit signed integer; `None` where Java
      throws `NumberFormatException`. */
  function ParseLong(s: string): (r: Option<int>)
    ensures r.Some? ==> -LONG_MAX - 1 <= r.value <= LONG_MAX
    ensures r.Some? ==> s != []
  {
    if s == [] then None
    else
      var negative := s[0] == '-';
      var digits := if s[0] == '-' || s[0] == '+' then s[1..] else s;
      if digits == [] || !AllDigits(digits) then None
      else
        var magnitude: int := DigitsValue(digits);
        var v := if negative then 0 - magnitude else magnitude;
        if -LONG_MAX - 1 <= v <= LONG_MAX then Some(v) else None
  }

  /** The decimal rendering of any non-negative `long` parses back to it. */
  lemma ParseLongOfNatToString(n: nat)
    requires n <= LONG_MAX
    ensures ParseLong(NatToString(n)) == Some(n)
  {
    NatToStringRoundTrip(n);
  }
}

=== FILE: uploads.dfy ===
/** Upload checks (ImageController.java) and the file-type sniffing applied
    to an expert's verification document (AuthController.java). The bytes
    themselves are never stored by the model; only the checks and the names
    they produce are. */
module Uploads {
  import opened Wrappers
  import opened Text

  newtype byte = x: int | 0 <= x < 256

  // ---------------------------------------------------------------------
  // File signatures
  // ---------------------------------------------------------------------

  /** JPEG start-of-image marker FF D8 followed by the first byte of the next
      marker (Annex B of ITU-T T.81). */
  const JPEG_PREFIX: seq<byte> := [0xFF, 0xD8, 0xFF]
  /** The first four bytes of the PNG signature (section 5.2 of the PNG
      specification). */
  const PNG_PREFIX: seq<byte> := [0x89, 0x50, 0x4E, 0x47]
  /** "GIF" (section 17 of GIF89a). */
  const GIF_PREFIX: seq<byte> := [0x47, 0x49, 0x46]
  /** "%PDF" (section 7.5.2 of ISO 32000-1). */
  const PDF_PREFIX: seq<byte> := [0x25, 0x50, 0x44, 0x46]
  /** "PK\3\4", the ZIP local file header signature (section 4.3.7 of the
      PKWARE APPNOTE); Office documents are ZIP archives. */
  const ZIP_PREFIX: seq<byte> := [0x50, 0x4B, 0x03, 0x04]

  predicate HasPrefix(s: seq<byte>, p: seq<byte>) {
    |p| <= |s| && s[..|p|] == p
  }

  /** The signature table in the order the source tries it. */
  const SIGNATURES: seq<(seq<byte>, string)> := [
    (JPEG_PREFIX, ".jpg"), (PNG_PREFIX, ".png"), (GIF_PREFIX, ".gif"), (PDF_PREFIX, ".pdf"), (ZIP_PREFIX, ".docx")]

  /** `detectFileExtension`: the extension of the first signature the bytes
      start with; shorter than four bytes or unknown gives ".bin". */
  function DetectExtension(bytes: seq<byte>): (r: string)
    ensures |bytes| < 4 ==> r == ".bin"
    ensures |bytes| >= 4 ==>
              forall k | 0 <= k < |SIGNATURES| :: HasPrefix(bytes, SIGNATURES[k].0) ==> r == SIGNATURES[k].1
    ensures r == ".bin" <==> |bytes| < 4 || forall k | 0 <= k < |SIGNATURES| :: !HasPrefix(bytes, SIGNATURES[k].0)
  {
    SignaturesDisjoint(bytes);
    if |bytes| < 4 then ".bin"
    else
      SignatureBytes(bytes);
      if bytes[0] == 0xFF && bytes[1] == 0xD8 && bytes[2] == 0xFF then
        assert HasPrefix(bytes, SIGNATURES[0].0);
        ".jpg"
      else if bytes[0] == 0x89 && bytes[1] == 0x50 && bytes[2] == 0x4E && bytes[3] == 0x47 then
        assert HasPrefix(bytes, SIGNATURES[1].0);
        ".png"
      else if bytes[0] == 0x47 && bytes[1] == 0x49 && bytes[2] == 0x46 then
        assert HasPrefix(bytes, SIGNATURES[2].0);
        ".gif"
      else if bytes[0] == 0x25 && bytes[1] == 0x50 && bytes[2] == 0x44 && bytes[3] == 0x46 then
        assert HasPrefix(bytes, SIGNATURES[3].0);
        ".pdf"
      else if bytes[0] == 0x50 && bytes[1] == 0x4B && bytes[2] == 0x03 && bytes[3] == 0x04 then
        assert HasPrefix(bytes, SIGNATURES[4].0);
        ".docx"
      else ".bin"
  }

  /** No two signatures can both start the same bytes, so the order in which
      they are tried does not matter. */
  lemma SignaturesDisjoint(bytes: seq<byte>)
    ensures forall k, m | 0 <= k < m < |SIGNATURES| :: !(HasPrefix(bytes, SIGNATURES[k].0) && HasPrefix(bytes, SIGNATURES[m].0))
  {
    var firsts: seq<byte> := [0xFF, 0x89, 0x47, 0x25, 0x50];
    assert forall k | 0 <= k < |SIGNATURES| :: |SIGNATURES[k].0| >= 3 && SIGNATURES[k].0[0] == firsts[k];
    forall k | 0 <= k < |SIGNATURES|
      ensures HasPrefix(bytes, SIGNATURES[k].0) ==> bytes[0] == firsts[k]
    {
      FirstOfPrefix(bytes, SIGNATURES[k].0);
    }
  }

  lemma FirstOfPrefix(bytes: seq<byte>, p: seq<byte>)
    requires |p| > 0
    ensures HasPrefix(bytes, p) ==> bytes[0] == p[0]
  {
    if HasPrefix(bytes, p) {
      assert bytes[..|p|][0] == bytes[0];
    }
  }

  /** Each signature test in the source reads the same bytes as a prefix
      comparison. */
  lemma SignatureBytes(bytes: seq<byte>)
    requires |bytes| >= 4
    ensures HasPrefix(bytes, JPEG_PREFIX) <==> bytes[0] == 0xFF && bytes[1] == 0xD8 && bytes[2] == 0xFF
    ensures HasPrefix(bytes, PNG_PREFIX) <==> bytes[0] == 0x89 && bytes[1] == 0x50 && bytes[2] == 0x4E && bytes[3] == 0x47
    ensures HasPrefix(bytes, GIF_PREFIX) <==> bytes[0] == 0x47 && bytes[1] == 0x49 && bytes[2] == 0x46
    ensures HasPrefix(bytes, PDF_PREFIX) <==> bytes[0] == 0x25 && bytes[1] == 0x50 && bytes[2] == 0x44 && bytes[3] == 0x46
    ensures HasPrefix(bytes, ZIP_PREFIX) <==> bytes[0] == 0x50 && bytes[1] == 0x4B && bytes[2] == 0x03 && bytes[3] == 0x04
  {
    assert bytes[..3] == [bytes[0], bytes[1], bytes[2]];
    assert bytes[..4] == [bytes[0], bytes[1], bytes[2], bytes[3]];
  }

  /** A complete PNG signature (section 5.2 of the PNG specification) is
      stored as ".png", whatever follows it. */
  lemma PngFileDetected(rest: seq<byte>)
    ensures DetectExtension([0x89, 0x50, 0x4E, 0x47, 0x0D, 0x0A, 0x1A, 0x0A] + rest) == ".png"
  {
    var b: seq<byte> := [0x89, 0x50, 0x4E, 0x47, 0x0D, 0x0A, 0x1A, 0x0A] + rest;
    assert b[..4] == PNG_PREFIX;
  }

  /** A "GIF89a" or "GIF87a" header is stored as ".gif". */
  lemma GifFileDetected(version: byte, rest: seq<byte>)
    requires version == 0x37 || version == 0x39
    ensures DetectExtension([0x47, 0x49, 0x46, 0x38, version, 0x61] + rest) == ".gif"
  {
    var b: seq<byte> := [0x47, 0x49, 0x46, 0x38, version, 0x61] + rest;
    assert b[..3] == GIF_PREFIX;
  }

  /** A "%PDF-" header is stored as ".pdf". */
  lemma PdfFileDetected(rest: seq<byte>)
    ensures DetectExtension([0x25, 0x50, 0x44, 0x46, 0x2D] + rest) == ".pdf"
  {
    var b: seq<byte> := [0x25, 0x50, 0x44, 0x46, 0x2D] + rest;
    assert b[..4] == PDF_PREFIX;
  }

  /** A three-byte JPEG is still ".bin": the length check comes first. */
  lemma ShortJpegIsBinary()
    ensures DetectExtension([0xFF, 0xD8, 0xFF]) == ".bin"
  {
  }

  /** `saveVerificationDocument`: the path of the decoded document, named
      after the expert and the time, with the sniffed extension. */
  function DocumentPath(userId: nat, millis: nat, bytes: seq<byte>): (r: string)
    ensures StartsWith(r, "uploads/documents/expert_" + NatToString(userId) + "_")
    ensures EndsWith(r, DetectExtension(bytes))
  {
    var prefix := "uploads/documents/expert_" + NatToString(userId) + "_";
    var r := prefix + NatToString(millis) + DetectExtension(bytes);
    assert r[..|prefix|] == prefix;
    assert r[|r| - |DetectExtension(bytes)|..] == DetectExtension(bytes);
    r
  }

  // ---------------------------------------------------------------------
  // Upload checks
  // ---------------------------------------------------------------------

  /** A multipart file as the controller sees it; an empty file has size 0. */
  datatype Upload = Upload(size: nat, contentType: Option<string>, originalFilename: Option<string>)

  datatype UploadError = EmptyFile | WrongType | TooLarge

  const MIB: nat := 1024 * 1024
  const IMAGE_LIMIT: nat := 5 * MIB
  const DOCUMENT_LIMIT: nat := 10 * MIB

  predicate IsImageType(contentType: Option<string>) {
    contentType.Some? && StartsWith(contentType.value, "image/")
  }

  predicate IsDocumentType(contentType: Option<string>) {
    IsImageType(contentType) || contentType == Some("application/pdf")
  }

  /** The name's suffix from its last '.', or "" for a missing name or one
      without a '.'. */
  function Extension(name: Option<string>): (r: string)
    ensures r == "" <==> name.None? || '.' !in name.value
    ensures r != "" ==> r[0] == '.' && '.' !in r[1..] && EndsWith(name.value, r)
  {
    if name.None? then "" else
      var s := name.value;
      match LastIndexOf(s, '.')
      case None => ""
      case Some(i) =>
        assert s[i..][0] == '.';
        assert s[i..][1..] == s[i + 1..];
        s[i..]
  }

  /** The position of the last `c` in `s`. */
  function LastIndexOf(s: string, c: char): (r: Option<nat>)
    ensures r.None? <==> c !in s
    ensures r.Some? ==> r.value < |s| && s[r.value] == c && c !in s[r.value + 1..]
  {
    if s == [] then None
    else if s[|s| - 1] == c then
      Some(|s| - 1)
    else
      var r := LastIndexOf(s[..|s| - 1], c);
      assert s == s[..|s| - 1] + [s[|s| - 1]];
      if r.Some? then
        assert s[r.value + 1..] == s[..|s| - 1][r.value + 1..] + [s[|s| - 1]];
        r
      else r
  }

  /** The stored name: a random id, the upload time in milliseconds and the
      original extension. */
  function StoredName(uuid: string, millis: nat, name: Option<string>): (r: string)
    ensures StartsWith(r, uuid + "_" + NatToString(millis))
    ensures EndsWith(r, Extension(name))
  {
    var prefix := uuid + "_" + NatToString(millis);
    var r := prefix + Extension(name);
    assert r[..|prefix|] == prefix;
    assert r[|r| - |Extension(name)|..] == Extension(name);
    r
  }

  /** `uploadImage`: empty, then type, then size; the stored name on
      success. */
  function UploadImage(f: Upload, uuid: string, millis: nat): (r: Result<string, UploadError>)
    ensures r == Err(EmptyFile) <==> f.size == 0
    ensures r == Err(WrongType) <==> f.size > 0 && !IsImageType(f.contentType)
    ensures r == Err(TooLarge) <==> f.size > IMAGE_LIMIT && IsImageType(f.contentType)
    ensures r.Ok? ==> EndsWith(r.value, Extension(f.originalFilename))
  {
    if f.size == 0 then Err(EmptyFile)
    else if !IsImageType(f.contentType) then Err(WrongType)
    else if f.size > IMAGE_LIMIT then Err(TooLarge)
    else Ok(StoredName(uuid, millis, f.originalFilename))
  }

  /** `uploadDocument`: the same checks, with PDFs also allowed and a 10 MiB
      limit. */
  function UploadDocument(f: Upload, uuid: string, millis: nat): (r: Result<string, UploadError>)
    ensures r == Err(EmptyFile) <==> f.size == 0
    ensures r == Err(WrongType) <==> f.size > 0 && !IsDocumentType(f.contentType)
    ensures r == Err(TooLarge) <==> f.size > DOCUMENT_LIMIT && IsDocumentType(f.contentType)
    ensures r.Ok? ==> EndsWith(r.value, Extension(f.originalFilename))
  {
    if f.size == 0 then Err(EmptyFile)
    else if !IsDocumentType(f.contentType) then Err(WrongType)
    else if f.size > DOCUMENT_LIMIT then Err(TooLarge)
    else Ok(StoredName(uuid, millis, f.originalFilename))
  }

  /** Exactly 5 MiB is still accepted; one byte more is not. */
  lemma ImageLimitInclusive(t: string, name: Option<string>, uuid: string, millis: nat)
    requires StartsWith(t, "image/")
    ensures UploadImage(Upload(IMAGE_LIMIT, Some(t), name), uuid, millis).Ok?
    ensures UploadImage(Upload(IMAGE_LIMIT + 1, Some(t), name), uuid, millis) == Err(TooLarge)
  {
  }

  /** Every image the image endpoint accepts, the document endpoint accepts
      under the same name. */
  lemma DocumentAcceptsImages(f: Upload, uuid: string, millis: nat)
    requires UploadImage(f, uuid, millis).Ok?
    ensures UploadDocument(f, uuid, millis) == UploadImage(f, uuid, millis)
  {
  }

  /** A PDF is a document but not an image. */
  lemma PdfOnlyAsDocument(size: nat, name: Option<string>, uuid: string, millis: nat)
    requires 0 < size <= DOCUMENT_LIMIT
    ensures UploadDocument(Upload(size, Some("application/pdf"), name), uuid, millis).Ok?
    ensures UploadImage(Upload(size, Some("application/pdf"), name), uuid, millis) == Err(WrongType)
  {
    assert "application/pdf"[0] != "image/"[0];
  }

  /** The extension of "photo.final.JPG" is ".JPG": only the last dot counts
      and letter case is kept. */
  lemma ExtensionUsesLastDot()
    ensures Extension(Some("photo.final.JPG")) == ".JPG"
  {
    var s := "photo.final.JPG";
    assert s[11] == '.' && '.' !in s[12..];
    assert LastIndexOf(s, '.') == Some(11);
  }
}

=== FILE: users.dfy ===
/** The `User` entity (User.java): its roles, its verification status, the
    defaults a new entity starts with and the Spring Security view of it. */
module Users {
  import opened Wrappers
  import opened Text

  datatype Role = USER | ADMIN | EXPERT

  datatype VerificationStatus = PENDING | APPROVED | REJECTED | SUSPENDED

  /** Password hashes are opaque: only the encoder produces them and only the
      encoder's `matches` compares a raw password with one. */
  type PasswordHash = string

  datatype User = User(
    id: nat,
    username: string,
    mobile: string,
    password: PasswordHash,
    fullName: Option<string>,
    email: Option<string>,
    createdAt: nat,
    updatedAt: nat,
    enabled: bool,
    role: Role,
    specialization: Option<string>,
    isVerified: bool,
    verificationStatus: VerificationStatus,
    verificationDocument: Option<string>,
    licenseNumber: Option<string>,
    verifiedAt: Option<nat>,
    verifiedBy: Option<nat>)

  /** `Role.name()`. */
  function RoleName(r: Role): string {
    match r
    case USER => "USER"
    case ADMIN => "ADMIN"
    case EXPERT => "EXPERT"
  }

  /** `Role.valueOf(name)`: exact, case-sensitive; `None` where Java throws
      `IllegalArgumentException`. */
  function RoleFromName(name: string): (r: Option<Role>)
    ensures r.Some? ==> RoleName(r.value) == name
    ensures r.None? ==> forall role: Role :: RoleName(role) != name
  {
    if name == "USER" then Some(USER)
    else if name == "ADMIN" then Some(ADMIN)
    else if name == "EXPERT" then Some(EXPERT)
    else None
  }

  /** `VerificationStatus.name()`. */
  function StatusName(s: VerificationStatus): string {
    match s
    case PENDING => "PENDING"
    case APPROVED => "APPROVED"
    case REJECTED => "REJECTED"
    case SUSPENDED => "SUSPENDED"
  }

  /** `VerificationStatus.valueOf(name)`. */
  function StatusFromName(name: string): (r: Option<VerificationStatus>)
    ensures r.Some? ==> StatusName(r.value) == name
    ensures r.None? ==> forall st: VerificationStatus :: StatusName(st) != name
  {
    if name == "PENDING" then Some(PENDING)
    else if name == "APPROVED" then Some(APPROVED)
    else if name == "REJECTED" then Some(REJECTED)
    else if name == "SUSPENDED" then Some(SUSPENDED)
    else None
  }

  /** `valueOf` recognises exactly the names of the enum constants. */
  lemma EnumNamesRoundTrip(r: Role, st: VerificationStatus)
    ensures RoleFromName(RoleName(r)) == Some(r)
    ensures StatusFromName(StatusName(st)) == Some(st)
  {
  }

  /** The state of a freshly constructed entity: role USER, enabled,
      unverified and PENDING. */
  predicate HasEntityDefaults(u: User) {
    u.role == USER && u.enabled && !u.isVerified && u.verificationStatus == PENDING
  }

  /** `new User()` followed by `setId`: field initialisers plus the
      constructor's timestamps; every optional column is null. */
  function NewUser(id: nat, now: nat): (u: User)
    ensures HasEntityDefaults(u)
    ensures u.id == id && u.createdAt == now && u.updatedAt == now
    ensures u.fullName.None? && u.email.None? && u.specialization.None?
    ensures u.verifiedAt.None? && u.verifiedBy.None?
  {
    User(id, "", "", "", None, None, now, now, true, USER, None, false, PENDING, None, None, None, None)
  }

  /** The five-argument constructor: the defaults plus the given fields. */
  function ConstructUser(id: nat, username: string, mobile: string, password: PasswordHash, fullName: Option<string>, specialization: Option<string>, now: nat): (u: User)
    ensures HasEntityDefaults(u)
    ensures u.username == username && u.mobile == mobile && u.password == password
    ensures u.fullName == fullName && u.specialization == specialization
    ensures u.id == id && u.createdAt == now && u.email.None?
  {
    NewUser(id, now).(username := username, mobile := mobile, password := password,
                      fullName := fullName, specialization := specialization)
  }

  /** A managed row as the flush writes it: `@PreUpdate` stamps `updatedAt`
      only when some column of `before` was changed into `after`. */
  function Flushed(before: User, after: User, now: nat): (r: User)
    ensures after != before ==> r.updatedAt == now
    ensures after == before ==> r == before
    ensures r.(updatedAt := after.updatedAt) == after
  {
    if after == before then after else after.(updatedAt := now)
  }

  /** `getAuthorities()`: exactly one authority, "ROLE_" + the role name. */
  function Authorities(u: User): (r: seq<string>)
    ensures |r| == 1
    ensures StartsWith(r[0], "ROLE_")
    ensures RoleFromName(r[0][5..]) == Some(u.role)
  {
    ["ROLE_" + RoleName(u.role)]
  }

  /** Two accounts carry the same authorities exactly when they have the
      same role. */
  lemma AuthoritiesDetermineRole(u: User, v: User)
    ensures Authorities(u) == Authorities(v) <==> u.role == v.role
  {
    if Authorities(u) == Authorities(v) {
      assert Authorities(u)[0][5..] == Authorities(v)[0][5..];
    }
  }

  predicate IsAccountNonExpired(u: User) {
    true
  }

  predicate IsAccountNonLocked(u: User) {
    true
  }

  predicate IsCredentialsNonExpired(u: User) {
    true
  }

  predicate IsEnabled(u: User) {
    u.enabled
  }

  /** Spring Security's pre- and post-authentication account checks all pass. */
  predicate AccountUsable(u: User) {
    IsAccountNonExpired(u) && IsAccountNonLocked(u) && IsCredentialsNonExpired(u) && IsEnabled(u)
  }

  /** Accounts never expire and are never locked, so only `enabled` decides. */
  lemma AccountUsableIffEnabled(u: User)
    ensures AccountUsable(u) <==> u.enabled
  {
  }

  /** The entity's own Bean Validation constraints, checked when a row is
      inserted or updated. */
  function EntityConstraints(u: User): (ok: bool)
    ensures ok ==> 5 <= |u.mobile| <= 15 && |u.username| <= 50 && 0 < |u.password| <= 255
  {
    !IsBlank(u.username) && Utf16Length(u.username) <= 50
    && !IsBlank(u.mobile) && 10 <= Utf16Length(u.mobile) <= 15
    && !IsBlank(u.password) && Utf16Length(u.password) <= 255
    && (u.fullName.None? || Utf16Length(u.fullName.value) <= 100)
    && (u.email.None? || Utf16Length(u.email.value) <= 100)
    && (u.specialization.None? || Utf16Length(u.specialization.value) <= 200)
  }

  /** The name shown for a user in mails and notifications: the full name,
      or the username when the full name is null. */
  function NameOrUsername(u: User): (r: string)
    ensures u.fullName.Some? ==> r == u.fullName.value
    ensures u.fullName.None? ==> r == u.username
  {
    if u.fullName.None? then u.username else u.fullName.value
  }

  /** The guard the expert endpoints apply: verified AND approved. */
  predicate IsVerifiedAndApproved(u: User) {
    u.isVerified && u.verificationStatus == APPROVED
  }

  /** The two verification fields agree. The entity has independent setters,
      so this is not a property of `User` itself; the store operations keep it. */
  predicate VerificationConsistent(u: User) {
    u.isVerified <==> u.verificationStatus == APPROVED
  }

  /** `setVerified` and `setVerificationStatus` are independent: any pair of
      values can be stored, including an inconsistent one. */
  lemma SettersIndependent(u: User, b: bool, st: VerificationStatus)
    ensures u.(isVerified := b).(verificationStatus := st).isVerified == b
    ensures u.(isVerified := b).(verificationStatus := st).verificationStatus == st
    ensures b && st == SUSPENDED ==> !VerificationConsistent(u.(isVerified := b).(verificationStatus := st))
  {
  }
}

=== FILE: workflow.dfy ===
/** The query/response workflow of ExpertQueryController.java over one
    in-memory store: farmers create queries, verified experts answer them,
    and farmers are notified. The caller is given by the role the token
    carries and the username it names; request bodies are validated before
    the role check, as argument binding precedes method security. */
module Workflow {
  import opened Wrappers
  import opened Text
  import opened Lists
  import opened Users
  import opened Requests
  import opened Queries
  import opened Notifications
  import Accounts

  datatype Board = Board(queries: seq<Query>, responses: seq<ExpertResponse>, inbox: Inbox)

  datatype WorkflowError =
    | Invalid | RoleForbidden | UserNotFound | NotVerified | AlreadyResponded
    | QueryNotFound | ResponseNotFound | NotOwner | EmptyText | BadRequest | BadPage

  /** `hasRole('USER') or hasRole('ADMIN')`. */
  predicate FarmerRole(role: Role) {
    role == USER || role == ADMIN
  }

  /** `hasRole('EXPERT') or hasRole('ADMIN')`. */
  predicate ExpertRole(role: Role) {
    role == EXPERT || role == ADMIN
  }

  /** Ids are positions, every reference resolves and notification ids are
      valid. */
  predicate BoardWellFormed(users: seq<User>, b: Board) {
    (forall i | 0 <= i < |b.queries| :: b.queries[i].id == i && b.queries[i].farmer < |users|)
    && (forall i | 0 <= i < |b.responses| ::
          b.responses[i].id == i && b.responses[i].query < |b.queries| && b.responses[i].expert < |users|)
    && Notifications.ValidInbox(b.inbox)
  }

  /** At most one response per expert and query. */
  predicate OneResponsePerExpert(b: Board) {
    forall i, j | 0 <= i < j < |b.responses| ::
      !(b.responses[i].query == b.responses[j].query && b.responses[i].expert == b.responses[j].expert)
  }

  predicate QueryExists(b: Board, id: int) {
    0 <= id < |b.queries|
  }

  // ----------------------------------------------------------------- lists

  /** `getMyQueries`: a page of the caller's own queries, newest first. */
  function MyQueries(users: seq<User>, b: Board, role: Role, callerName: string, page: int, size: int): (r: Result<Page<Query>, WorkflowError>)
    ensures !FarmerRole(role) ==> r == Err(RoleForbidden)
    ensures FarmerRole(role) && !Accounts.UsernameTaken(users, callerName) ==> r == Err(UserNotFound)
    ensures FarmerRole(role) && Accounts.UsernameTaken(users, callerName) ==> (r == Err(BadPage) <==> page < 0 || size < 1)
    ensures FarmerRole(role) && Accounts.UsernameTaken(users, callerName) && page >= 0 && size >= 1 ==> r.Ok?
    ensures r.Ok? ==> Accounts.FindByUsername(users, callerName).Some?
                      && Paginate(FarmerQueries(b.queries, Accounts.FindByUsername(users, callerName).value), page, size) == Some(r.value)
  {
    if !FarmerRole(role) then Err(RoleForbidden)
    else match Accounts.FindByUsername(users, callerName)
      case None => Err(UserNotFound)
      case Some(farmer) =>
        match Paginate(FarmerQueries(b.queries, farmer), page, size)
        case None => Err(BadPage)
        case Some(p) => Ok(p)
  }

  /** A farmer's page holds only that farmer's queries, newest first. */
  lemma MyQueriesAreOwn(users: seq<User>, b: Board, role: Role, callerName: string, page: int, size: int)
    requires MyQueries(users, b, role, callerName, page, size).Ok?
    ensures var p := MyQueries(users, b, role, callerName, page, size).value;
            var farmer := Accounts.FindByUsername(users, callerName).value;
            forall q | q in p.content :: q.farmer == farmer && q in b.queries
  {
    var farmer := Accounts.FindByUsername(users, callerName).value;
    PageContentIn(FarmerQueries(b.queries, farmer), page, size);
  }

  /** A query as listed to an expert, annotated for the caller. */
  datatype QueryView = QueryView(query: Query, hasResponded: bool, responseCount: nat)

  function Annotate(b: Board, q: Query, expert: nat): (v: QueryView)
    ensures v.query == q
    ensures v.hasResponded <==> HasResponded(b.responses, q.id, expert)
    ensures v.responseCount == |ResponsesFor(b.responses, q.id)|
  {
    ResponseQueriesAgree(b.responses, q.id, expert);
    QueryView(q, HasResponded(b.responses, q.id, expert), ResponseCount(b.responses, q.id))
  }

  /** `getExpertQueries`: a page of the urgency queue, each query annotated
      with whether the caller has responded and how many responses it has. */
  function ExpertQueries(users: seq<User>, b: Board, role: Role, callerName: string, page: int, size: int): (r: Result<Page<QueryView>, WorkflowError>)
    ensures !ExpertRole(role) ==> r == Err(RoleForbidden)
    ensures ExpertRole(role) && !Accounts.UsernameTaken(users, callerName) ==> r == Err(UserNotFound)
    ensures ExpertRole(role) && Accounts.UsernameTaken(users, callerName) ==> (r == Err(BadPage) <==> page < 0 || size < 1)
    ensures ExpertRole(role) && Accounts.UsernameTaken(users, callerName) && page >= 0 && size >= 1 ==> r.Ok?
    ensures r.Ok? ==> var queue := ExpertQueue(b.queries);
                      var expert := Accounts.FindByUsername(users, callerName).value;
                      r.value.totalElements == |b.queries| && |r.value.content| <= size
                      && ShowsPage(b, queue, expert, page * size, r.value.content)
                      && Paginate(queue, page, size).Some?
                      && r.value.content == AnnotateAll(b, Paginate(queue, page, size).value.content, expert)
  {
    if !ExpertRole(role) then Err(RoleForbidden)
    else match Accounts.FindByUsername(users, callerName)
      case None => Err(UserNotFound)
      case Some(expert) =>
        match Paginate(ExpertQueue(b.queries), page, size)
        case None => Err(BadPage)
        case Some(p) =>
          ExpertPage(b, expert, page, size, p);
          Ok(Page(AnnotateAll(b, p.content, expert), p.totalElements, p.totalPages, p.number, p.size))
  }

  /** Each query of a page with the caller's annotations, in order. */
  function AnnotateAll(b: Board, qs: seq<Query>, expert: nat): (r: seq<QueryView>)
    ensures |r| == |qs|
    ensures forall i | 0 <= i < |r| ::
              r[i].query == qs[i]
              && (r[i].hasResponded <==> HasResponded(b.responses, qs[i].id, expert))
              && r[i].responseCount == |ResponsesFor(b.responses, qs[i].id)|
  {
    seq(|qs|, i requires 0 <= i < |qs| => Annotate(b, qs[i], expert))
  }

  /** `views` annotates, for `expert`, the queries of `queue` from index
      `lo` on. */
  predicate ShowsPage(b: Board, queue: seq<Query>, expert: nat, lo: int, views: seq<QueryView>) {
    forall i | 0 <= i < |views| ::
      0 <= lo + i < |queue| && views[i].query == queue[lo + i]
      && (views[i].hasResponded <==> HasResponded(b.responses, queue[lo + i].id, expert))
      && views[i].responseCount == |ResponsesFor(b.responses, queue[lo + i].id)|
  }

  /** The facts `getExpertQueries` promises of one page of the queue. */
  lemma ExpertPage(b: Board, expert: nat, page: int, size: int, p: Page<Query>)
    requires Paginate(ExpertQueue(b.queries), page, size) == Some(p)
    ensures p.totalElements == |b.queries| && |AnnotateAll(b, p.content, expert)| <= size
    ensures ShowsPage(b, ExpertQueue(b.queries), expert, page * size, AnnotateAll(b, p.content, expert))
  {
    AnnotatedPageOf(b, ExpertQueue(b.queries), expert, page, size, p);
  }

  lemma AnnotatedPageOf(b: Board, queue: seq<Query>, expert: nat, page: int, size: int, p: Page<Query>)
    requires Paginate(queue, page, size) == Some(p)
    ensures |AnnotateAll(b, p.content, expert)| <= size
    ensures ShowsPage(b, queue, expert, page * size, AnnotateAll(b, p.content, expert))
  {
    AnnotatedPage(b, queue, expert, p.content, page * size);
  }

  lemma AnnotatedPage(b: Board, queue: seq<Query>, expert: nat, content: seq<Query>, lo: int)
    requires forall i | 0 <= i < |content| :: 0 <= lo + i < |queue| && content[i] == queue[lo + i]
    ensures ShowsPage(b, queue, expert, lo, AnnotateAll(b, content, expert))
  {
  }

  // ----------------------------------------------------------------- create

  /** `createQuery`: stores a "pending" query with the caller as farmer and
      returns its id. */
  function CreateQuery(users: seq<User>, b: Board, role: Role, callerName: string, req: CreateQueryRequest, now: nat): (r: Result<(Board, nat), WorkflowError>)
    ensures !ValidCreateQuery(req) ==> r == Err(Invalid)
    ensures ValidCreateQuery(req) && !FarmerRole(role) ==> r == Err(RoleForbidden)
    ensures ValidCreateQuery(req) && FarmerRole(role) ==> (r.Ok? <==> Accounts.UsernameTaken(users, callerName))
    ensures r.Ok? ==> var (after, id) := r.value;
                      id == |b.queries| && |after.queries| == |b.queries| + 1 && after.queries[..id] == b.queries
                      && after.responses == b.responses && after.inbox == b.inbox
                      && after.queries[id].status == STATUS_PENDING && after.queries[id].id == id
                      && after.queries[id].farmer == Accounts.FindByUsername(users, callerName).value
                      && after.queries[id].title == req.title.value && after.queries[id].urgency == req.urgency.value
                      && after.queries[id].hasImage == req.hasImage && after.queries[id].expert.None?
                      && after.queries[id].createdAt == now && after.queries[id].updatedAt == now
                      && after.queries[id].description == req.description.value
                      && after.queries[id].cropType == req.cropType.value
                      && after.queries[id].category == req.category.value
                      && after.queries[id].imagePath == req.imagePath
                      && after.queries[id].response.None? && after.queries[id].responseDate.None?
  {
    if !ValidCreateQuery(req) then Err(Invalid)
    else if !FarmerRole(role) then Err(RoleForbidden)
    else match Accounts.FindByUsername(users, callerName)
      case None => Err(UserNotFound)
      case Some(farmer) =>
        var id := |b.queries|;
        var q := NewQuery(id, req.title.value, req.description.value, req.cropType.value, req.category.value,
                          req.urgency.value, req.hasImage, req.imagePath, farmer, now);
        Ok((b.(queries := b.queries + [q]), id))
  }

  // ---------------------------------------------------------------- respond

  /** The legacy `respondToQuery`: a verified expert overwrites the query's
      response, status (the caller's value, "answered" by default) and
      expert, and the farmer is notified. A null status fails on save. */
  function Respond(users: seq<User>, b: Board, role: Role, callerName: string, req: RespondToQueryRequest, now: nat): (r: Result<Board, WorkflowError>)
    ensures !ValidRespondToQuery(req) ==> r == Err(Invalid)
    ensures ValidRespondToQuery(req) && !ExpertRole(role) ==> r == Err(RoleForbidden)
    ensures (ValidRespondToQuery(req) && ExpertRole(role) && Accounts.FindByUsername(users, callerName).Some?
             && !IsVerifiedAndApproved(users[Accounts.FindByUsername(users, callerName).value])) ==> r == Err(NotVerified)
    ensures (ValidRespondToQuery(req) && ExpertRole(role) && Accounts.FindByUsername(users, callerName).Some?
             && IsVerifiedAndApproved(users[Accounts.FindByUsername(users, callerName).value]))
            ==> (r == Err(QueryNotFound) <==> !QueryExists(b, req.queryId.value))
                && (r.Ok? <==> QueryExists(b, req.queryId.value) && req.status.Some?)
    ensures r.Ok? ==> req.queryId.Some? && req.status.Some? && Accounts.FindByUsername(users, callerName).Some?
    ensures r.Ok? ==> var id := req.queryId.value;
                      var expert := Accounts.FindByUsername(users, callerName).value;
                      QueryExists(b, id) && IsVerifiedAndApproved(users[expert])
                      && |r.value.queries| == |b.queries| && r.value.responses == b.responses
                      && (forall j | 0 <= j < |b.queries| && j != id :: r.value.queries[j] == b.queries[j])
                      && r.value.queries[id].response == req.response && r.value.queries[id].status == req.status.value
                      && r.value.queries[id].expert == Some(expert) && r.value.queries[id].responseDate == Some(now)
                      && r.value.inbox == NotifyResponse(b.inbox, b.queries[id].farmer, id, b.queries[id].title, users[expert], now)
  {
    if !ValidRespondToQuery(req) then Err(Invalid)
    else if !ExpertRole(role) then Err(RoleForbidden)
    else match Accounts.FindByUsername(users, callerName)
      case None => Err(UserNotFound)
      case Some(expert) =>
        if !IsVerifiedAndApproved(users[expert]) then Err(NotVerified)
        else
          var id := req.queryId.value;
          if !QueryExists(b, id) then Err(QueryNotFound)
          else if req.status.None? then Err(BadRequest)
          else
            var q := SetStatus(SetResponse(b.queries[id], req.response.value, now), req.status.value, now).(expert := Some(expert));
            Ok(Board(b.queries[id := q], b.responses, NotifyResponse(b.inbox, q.farmer, id, q.title, users[expert], now)))
  }

  // ----------------------------------------------------------------- status

  /** The untyped body of a status update: each value as its `toString`. */
  datatype StatusBody = StatusBody(queryId: Option<string>, status: Option<string>)

  /** `updateQueryStatus`: stores the new status and notifies the farmer
      only when it differs from the old one. There is no user lookup and no
      verification check. */
  function UpdateStatus(b: Board, role: Role, body: StatusBody, now: nat): (r: Result<Board, WorkflowError>)
    ensures !ExpertRole(role) ==> r == Err(RoleForbidden)
    ensures ExpertRole(role) && (body.queryId.None? || ParseLong(body.queryId.value).None? || body.status.None?) ==> r == Err(BadRequest)
    ensures r.Ok? ==> var id := ParseLong(body.queryId.value).value;
                      QueryExists(b, id) && |r.value.queries| == |b.queries| && r.value.responses == b.responses
                      && (forall j | 0 <= j < |b.queries| && j != id :: r.value.queries[j] == b.queries[j])
                      && r.value.queries[id] == SetStatus(b.queries[id], body.status.value, now)
                      && (b.queries[id].status == body.status.value ==> r.value.inbox == b.inbox)
                      && (b.queries[id].status != body.status.value ==>
                            r.value.inbox == NotifyStatus(b.inbox, b.queries[id].farmer, id, b.queries[id].title, body.status.value, now))
  {
    if !ExpertRole(role) then Err(RoleForbidden)
    else if body.queryId.None? then Err(BadRequest)
    else match ParseLong(body.queryId.value)
      case None => Err(BadRequest)
      case Some(id) =>
        if body.status.None? then Err(BadRequest)
        else if !QueryExists(b, id) then Err(QueryNotFound)
        else
          var prev := b.queries[id];
          var status := body.status.value;
          var q := SetStatus(prev, status, now);
          var inbox := if prev.status != status then NotifyStatus(b.inbox, prev.farmer, id, prev.title, status, now) else b.inbox;
          Ok(Board(b.queries[id := q], b.responses, inbox))
  }

  /** Re-submitting the current status notifies no one but still refreshes
      `updatedAt`; a new status adds exactly one notification. */
  lemma StatusNotificationOnlyOnChange(b: Board, role: Role, body: StatusBody, now: nat)
    requires UpdateStatus(b, role, body, now).Ok?
    ensures var r := UpdateStatus(b, role, body, now).value;
            var id := ParseLong(body.queryId.value).value;
            |r.inbox.items| == |b.inbox.items| + (if b.queries[id].status == body.status.value then 0 else 1)
            && r.queries[id].updatedAt == now
  {
  }

  /** The status endpoint does not look at the caller's verification: it
      succeeds for any expert-role caller on an existing query. */
  lemma StatusUpdateIgnoresVerification(b: Board, id: nat, status: string, now: nat)
    requires QueryExists(b, id) && id <= LONG_MAX
    ensures UpdateStatus(b, EXPERT, StatusBody(Some(NatToString(id)), Some(status)), now).Ok?
  {
    ParseLongOfNatToString(id);
  }

  // ------------------------------------------------------------ add response

  /** `addResponseToQuery`. Guards in order: validation, role, caller lookup,
      verification (403), duplicate response (checked before the query is
      looked up), query lookup. On success one response is stored, a
      "pending" query becomes "answered", and the farmer is notified. */
  function AddResponse(users: seq<User>, b: Board, role: Role, callerName: string, queryId: int, req: AddResponseRequest, now: nat): (r: Result<(Board, nat), WorkflowError>)
    ensures !ValidAddResponse(req) ==> r == Err(Invalid)
    ensures ValidAddResponse(req) && !ExpertRole(role) ==> r == Err(RoleForbidden)
    ensures ValidAddResponse(req) && ExpertRole(role) && !Accounts.UsernameTaken(users, callerName) ==> r == Err(UserNotFound)
    ensures ValidAddResponse(req) && ExpertRole(role) && Accounts.FindByUsername(users, callerName).Some? ==>
              var expert := Accounts.FindByUsername(users, callerName).value;
              && (!IsVerifiedAndApproved(users[expert]) ==> r == Err(NotVerified))
              && (IsVerifiedAndApproved(users[expert]) && HasResponded(b.responses, queryId, expert) ==> r == Err(AlreadyResponded))
              && (IsVerifiedAndApproved(users[expert]) && !HasResponded(b.responses, queryId, expert) ==>
                    (r.Ok? <==> QueryExists(b, queryId)))
    ensures r.Ok? ==> var (after, rid) := r.value;
                      var expert := Accounts.FindByUsername(users, callerName).value;
                      QueryExists(b, queryId) && rid == |b.responses|
                      && after.responses == b.responses + [NewResponse(rid, queryId, expert, req.response.value, now)]
                      && |after.queries| == |b.queries|
                      && (forall j | 0 <= j < |b.queries| && j != queryId :: after.queries[j] == b.queries[j])
                      && (b.queries[queryId].status == STATUS_PENDING ==> after.queries[queryId] == SetStatus(b.queries[queryId], STATUS_ANSWERED, now))
                      && (b.queries[queryId].status != STATUS_PENDING ==> after.queries[queryId] == b.queries[queryId])
                      && after.inbox == NotifyResponse(b.inbox, b.queries[queryId].farmer, queryId, b.queries[queryId].title, users[expert], now)
  {
    if !ValidAddResponse(req) then Err(Invalid)
    else if !ExpertRole(role) then Err(RoleForbidden)
    else match Accounts.FindByUsername(users, callerName)
      case None => Err(UserNotFound)
      case Some(expert) =>
        if !IsVerifiedAndApproved(users[expert]) then Err(NotVerified)
        else if HasResponded(b.responses, queryId, expert) then Err(AlreadyResponded)
        else if !QueryExists(b, queryId) then Err(QueryNotFound)
        else
          var rid := |b.responses|;
          var q := b.queries[queryId];
          var answered := if q.status == STATUS_PENDING then SetStatus(q, STATUS_ANSWERED, now) else q;
          Ok((Board(b.queries[queryId := answered],
                    b.responses + [NewResponse(rid, queryId, expert, req.response.value, now)],
                    NotifyResponse(b.inbox, q.farmer, queryId, q.title, users[expert], now)), rid))
  }

  /** A successful response adds exactly one response and exactly one
      unread QUERY_RESPONSE notification, addressed to the query's farmer. */
  lemma AddResponseNotifiesFarmer(users: seq<User>, b: Board, role: Role, callerName: string, queryId: int, req: AddResponseRequest, now: nat)
    requires AddResponse(users, b, role, callerName, queryId, req, now).Ok?
    ensures var after := AddResponse(users, b, role, callerName, queryId, req, now).value.0;
            |after.responses| == |b.responses| + 1 && |after.inbox.items| == |b.inbox.items| + 1
            && var n := after.inbox.items[|b.inbox.items|];
            n.user == b.queries[queryId].farmer && n.kind == QUERY_RESPONSE && n.relatedId == Some(queryId as nat) && !n.isRead
            && UnreadCount(after.inbox, n.user) == UnreadCount(b.inbox, n.user) + 1
  {
    var after := AddResponse(users, b, role, callerName, queryId, req, now).value.0;
    var n := after.inbox.items[|b.inbox.items|];
    CountAppend(b.inbox.items, n, (m: Notification) => IsUnreadOf(m, n.user));
    assert after.inbox.items == b.inbox.items + [n];
  }

  /** A failed request changes nothing: the board is only ever replaced by
      a successful result. In particular, a second response by the same
      expert to the same query is refused even when the query id does not
      exist, and the one-response-per-expert invariant is kept. */
  lemma AddResponseKeepsOnePerExpert(users: seq<User>, b: Board, role: Role, callerName: string, queryId: int, req: AddResponseRequest, now: nat)
    requires OneResponsePerExpert(b)
    requires AddResponse(users, b, role, callerName, queryId, req, now).Ok?
    ensures OneResponsePerExpert(AddResponse(users, b, role, callerName, queryId, req, now).value.0)
  {
    var expert := Accounts.FindByUsername(users, callerName).value;
    assert !HasResponded(b.responses, queryId, expert);
  }

  /** Answering a query that is not "pending" leaves its status as it is. */
  lemma AnswerKeepsOtherStatus(users: seq<User>, b: Board, role: Role, callerName: string, queryId: int, req: AddResponseRequest, now: nat)
    requires AddResponse(users, b, role, callerName, queryId, req, now).Ok?
    ensures var after := AddResponse(users, b, role, callerName, queryId, req, now).value.0;
            (b.queries[queryId].status == STATUS_PENDING ==> after.queries[queryId].status == STATUS_ANSWERED)
            && (b.queries[queryId].status != STATUS_PENDING ==> after.queries[queryId].status == b.queries[queryId].status)
  {
  }

  // ------------------------------------------------------------------- edit

  /** `updateExpertResponse`. Checks in order: role, caller lookup,
      response lookup, ownership (403), null or blank text; then the trimmed
      text is stored. No verification check and no notification. */
  function EditExpertResponse(users: seq<User>, b: Board, role: Role, callerName: string, responseId: int, text: Option<string>, now: nat): (r: Result<Board, WorkflowError>)
    ensures !ExpertRole(role) ==> r == Err(RoleForbidden)
    ensures ExpertRole(role) && !Accounts.UsernameTaken(users, callerName) ==> r == Err(UserNotFound)
    ensures ExpertRole(role) && Accounts.UsernameTaken(users, callerName) && !(0 <= responseId < |b.responses|) ==> r == Err(ResponseNotFound)
    ensures (ExpertRole(role) && Accounts.FindByUsername(users, callerName).Some? && 0 <= responseId < |b.responses|
             && users[Accounts.FindByUsername(users, callerName).value].id != b.responses[responseId].expert) ==> r == Err(NotOwner)
    ensures r.Ok? ==> 0 <= responseId < |b.responses| && HasText(text)
                      && r.value == b.(responses := b.responses[responseId := EditResponse(b.responses[responseId], Trim(text.value), now)])
    ensures r == Err(EmptyText) ==> !HasText(text)
    ensures (ExpertRole(role) && Accounts.FindByUsername(users, callerName).Some? && 0 <= responseId < |b.responses|
             && users[Accounts.FindByUsername(users, callerName).value].id == b.responses[responseId].expert)
            ==> (r.Ok? <==> HasText(text))
  {
    if !ExpertRole(role) then Err(RoleForbidden)
    else match Accounts.FindByUsername(users, callerName)
      case None => Err(UserNotFound)
      case Some(caller) =>
        if !(0 <= responseId < |b.responses|) then Err(ResponseNotFound)
        else if b.responses[responseId].expert != users[caller].id then Err(NotOwner)
        else if text.None? || IsBlank(text.value) then Err(EmptyText)
        else Ok(b.(responses := b.responses[responseId := EditResponse(b.responses[responseId], Trim(text.value), now)]))
  }

  /** Editing never adds a notification and never changes a query, and the
      stored text has no surrounding white space. */
  lemma EditIsQuiet(users: seq<User>, b: Board, role: Role, callerName: string, responseId: int, text: Option<string>, now: nat)
    requires EditExpertResponse(users, b, role, callerName, responseId, text, now).Ok?
    ensures var after := EditExpertResponse(users, b, role, callerName, responseId, text, now).value;
            after.inbox == b.inbox && after.queries == b.queries
            && var t := after.responses[responseId].text;
            t != [] && !IsSpace(t[0]) && !IsSpace(t[|t| - 1])
  {
  }

  // ------------------------------------------------------------- invariants

  /** Creating a query keeps the board well formed. */
  lemma CreatePreservesWellFormed(users: seq<User>, b: Board, role: Role, callerName: string, req: CreateQueryRequest, now: nat)
    requires BoardWellFormed(users, b) && OneResponsePerExpert(b)
    requires CreateQuery(users, b, role, callerName, req, now).Ok?
    ensures var after := CreateQuery(users, b, role, callerName, req, now).value.0;
            BoardWellFormed(users, after) && OneResponsePerExpert(after)
  {
    var after := CreateQuery(users, b, role, callerName, req, now).value.0;
    assert forall i | 0 <= i < |b.queries| :: after.queries[i] == b.queries[i];
  }

  /** Adding a response keeps the board well formed and at most one
      response per expert and query. */
  lemma AddResponsePreservesWellFormed(users: seq<User>, b: Board, role: Role, callerName: string, queryId: int, req: AddResponseRequest, now: nat)
    requires BoardWellFormed(users, b) && OneResponsePerExpert(b)
    requires AddResponse(users, b, role, callerName, queryId, req, now).Ok?
    ensures var after := AddResponse(users, b, role, callerName, queryId, req, now).value.0;
            BoardWellFormed(users, after) && OneResponsePerExpert(after)
  {
    AddResponseKeepsOnePerExpert(users, b, role, callerName, queryId, req, now);
    var after := AddResponse(users, b, role, callerName, queryId, req, now).value.0;
    assert forall i | 0 <= i < |b.responses| :: after.responses[i] == b.responses[i];
  }

  /** Responding, updating a status and editing a response keep the board
      well formed. */
  lemma RespondPreservesWellFormed(users: seq<User>, b: Board, role: Role, callerName: string, now: nat, respond: RespondToQueryRequest)
    requires BoardWellFormed(users, b) && OneResponsePerExpert(b)
    ensures var r := Respond(users, b, role, callerName, respond, now);
            r.Ok? ==> BoardWellFormed(users, r.value) && OneResponsePerExpert(r.value)
  {
  }

  lemma UpdateStatusPreservesWellFormed(users: seq<User>, b: Board, role: Role, body: StatusBody, now: nat)
    requires BoardWellFormed(users, b) && OneResponsePerExpert(b)
    ensures var r := UpdateStatus(b, role, body, now);
            r.Ok? ==> BoardWellFormed(users, r.value) && OneResponsePerExpert(r.value)
  {
  }

  lemma EditPreservesWellFormed(users: seq<User>, b: Board, role: Role, callerName: string, now: nat, responseId: int, text: Option<string>)
    requires BoardWellFormed(users, b) && OneResponsePerExpert(b)
    ensures var r := EditExpertResponse(users, b, role, callerName, responseId, text, now);
            r.Ok? ==> BoardWellFormed(users, r.value) && OneResponsePerExpert(r.value)
  {
  }

  /** The whole flow: a farmer's new query, answered by a verified expert,
      becomes "answered", counts one response, and the farmer has one more
      unread notification. */
  lemma CreateThenAnswer(users: seq<User>, b: Board, farmerName: string, expertName: string, create: CreateQueryRequest, add: AddResponseRequest, t1: nat, t2: nat)
    requires CreateQuery(users, b, USER, farmerName, create, t1).Ok?
    requires Accounts.FindByUsername(users, expertName).Some?
    requires IsVerifiedAndApproved(users[Accounts.FindByUsername(users, expertName).value])
    requires ValidAddResponse(add)
    requires BoardWellFormed(users, b)
    ensures var (mid, id) := CreateQuery(users, b, USER, farmerName, create, t1).value;
            var r := AddResponse(users, mid, EXPERT, expertName, id, add, t2);
            var farmer := Accounts.FindByUsername(users, farmerName).value;
            r.Ok? && r.value.0.queries[id].status == STATUS_ANSWERED
            && ResponseCount(r.value.0.responses, id) == 1
            && UnreadCount(r.value.0.inbox, farmer) == UnreadCount(b.inbox, farmer) + 1
  {
    var (mid, id) := CreateQuery(users, b, USER, farmerName, create, t1).value;
    var expert := Accounts.FindByUsername(users, expertName).value;
    assert !HasResponded(mid.responses, id, expert) by {
      forall i | 0 <= i < |mid.responses|
        ensures mid.responses[i].query != id
      {
        assert mid.responses[i] == b.responses[i];
      }
    }
    var after := AddResponse(users, mid, EXPERT, expertName, id, add, t2).value.0;
    AddResponseNotifiesFarmer(users, mid, EXPERT, expertName, id, add, t2);
    var x := NewResponse(|mid.responses|, id, expert, add.response.value, t2);
    CountAppend(mid.responses, x, (y: ExpertResponse) => y.query == id);
    NoResponsesFor(mid.responses, id);
  }

  lemma NoResponsesFor(responses: seq<ExpertResponse>, id: int)
    requires forall i | 0 <= i < |responses| :: responses[i].query != id
    ensures Count(responses, (y: ExpertResponse) => y.query == id) == 0
  {
    CountNone(responses, (y: ExpertResponse) => y.query == id);
  }
}

=== FILE: wrappers.dfy ===
/** Optional values and outcomes shared by every module of the model.
    `None` stands for a Java `null` or an empty `Optional`; `Err` stands for the
    error branch of a controller or a thrown exception that the caller catches. */
module Wrappers {

  datatype Option<+T> = None | Some(value: T) {

    /** The wrapped value, or `default` when there is none (Java's `orElse`). */
    function GetOr(default: T): T {
      match this
      case Some(v) => v
      case None => default
    }
  }

  /** The outcome of an operation: a value, or the error it reports. */
  datatype Result<+T, +E> = Ok(value: T) | Err(error: E)
}
